=== FILE: README.md ===
# SnapFlux core in Dafny

SnapFlux automates the daily LPG stock check of many outlets (*pangkalan*)
on a merchant portal. It walks through a list of accounts, reads each
outlet's stock (*stok*) and sales (*penjualan*, counted in *tabung*
cylinders), and writes the readings into a monthly master workbook. It keeps
telemetry, browser sessions and a remote account table, and exports result
sheets. This project models the non-browser core of that program as pure
Dafny functions and proves properties about them.

The modules follow the program's files:

| module | file | models |
|---|---|---|
| `Wrappers` | wrappers.dfy | `Option` / `Result` |
| `Text` | text.dfy | Python string built-ins over ASCII: `str(int)`, `int(str)`, `strip`, `replace`, digit runs, string order |
| `Sorting` | sorting.dfy | a stable insertion sort standing for Python's `sorted` |
| `Calendar` | calendar.dfy | `datetime` dates, `strftime("%Y-%m-%d")` and `strptime` |
| `Constants` | constants.dfy | month names and the master workbook and sheet names (`constants.py`) |
| `Validators` | validators.dfy | `validators.py` |
| `Pivot` | pivot.dfy | the sheet upsert of `modules/data/excel.py` |
| `Master` | master.dfy | the workbook around it: load-or-create, the clock readings, the save |
| `Telemetry` | telemetry.dfy | `modules/core/telemetry.py` |
| `Network` | network.dfy | `modules/core/network.py` |
| `Config` | config.dfy | `modules/core/config.py` |
| `Sessions` | sessions.dfy | `session_manager.py` over a file system given as a map |
| `Accounts` | accounts.dfy | `modules/core/utils.py`: loading accounts, date input |
| `Remote` | remote.dfy | `modules/data/supabase_client.py` over a table given as rows |
| `Runner` | runner.dfy | the account loop of `ProcessManager.run` and of `run_automation_background` |
| `GuiControl` | gui.dfy | the control surface of `main_gui.py` |
| `Export` | export.dfy | `export_handler.py` |

Conventions of the model:

- Text is ASCII. `isdigit`, `isalnum`, `isspace` and `lower` are their ASCII
  versions.
- Times are exact reals in seconds. Every clock reading, browser step,
  network probe, keyboard read and file read is a parameter: an oracle
  function, or a sequence of answers consumed in order.
- A workbook sheet is a map from (row, column) to cell values, plus the set
  of painted cells and openpyxl's `max_row` and `max_column`.
- Control calls from the GUI thread (stop, pause, resume) are batches that
  the loop consumes at each point where the source reads its flags.

## Model

| member | source | states |
|---|---|---|
| Calendar.FormatIso | export_handler.py:215 | `strftime("%Y-%m-%d")` gives ten characters: the year in four digits, `-`, the month in two, `-`, the day in two, each field reading back as its number |
| Calendar.ParseFormatIso | main_gui.py:269 | parsing a date's `%Y-%m-%d` spelling with `strptime` gives back the same date |
| Calendar.FormatIsoInjective | modules/data/excel.py:226 | two valid dates with the same `%Y-%m-%d` spelling are the same date, so a date header names one day |
| Calendar.ParseIso | main_gui.py:269 | whatever `strptime(s, "%Y-%m-%d")` accepts is a real calendar date |
| Calendar.DateLeTotalOrder | export_handler.py:214 | chronological order on dates, by which the dates are sorted, is total, transitive and antisymmetric |
| Constants.MonthName | constants.py:33-47 | month `m` is named by entry `m` of the Indonesian month list, a non-empty word of upper-case letters |
| Constants.MonthNameInjective | constants.py:33-47 | no two months share a name |
| Constants.MasterFilename | constants.py:95-115 | the workbook name is `DATA_SNAPFLUX_MASTER_` and `.xlsx` around the year and the upper-case Indonesian month name, split by the first `_` |
| Constants.SheetName | constants.py:118-135 | the sheet name is the upper-case Indonesian month name and the year, split by the first `_` |
| Constants.MasterFilenameIdentifiesMonth | constants.py:95-115 | two dates get the same master workbook name exactly when they have the same year and month |
| Constants.SheetNameIdentifiesMonth | constants.py:118-135 | two dates get the same sheet name exactly when they have the same year and month |
| Validators.IsValidEmail | validators.py:10-23 | a value is a valid email exactly when it is truthy and its text, one final newline aside, has the shape the pattern describes, decided by one scan |
| Validators.EmailShapeNoNewline | validators.py:20-23 | an email ends in a letter, so a text ending in a newline is never an email by itself; only the one newline that `$` allows is ignored |
| Validators.EmailScanIsEmailShape | validators.py:20-23 | a single left-to-right scan accepts exactly the strings the backtracking email pattern matches |
| Validators.IsValidPhone | validators.py:26-40 | a value is a valid phone number exactly when it is truthy and its text, one final newline aside, starts with 08 or 628 followed by digits to 10..15 or 11..16 characters; it is then 10 to 16 digits |
| Validators.PhoneShapeIsDigits | validators.py:36-40 | every string the phone pattern accepts is all decimal digits, 10 to 16 of them |
| Validators.PhoneAdmitsFinalNewline | validators.py:36-40 | a valid phone number followed by one newline is still accepted, because `$` matches before a final newline; with two newlines it is not |
| Validators.IsValidPin | validators.py:43-57 | an integer PIN is valid exactly when it lies in 1000..99999999, so zero and negative numbers are refused; a missing PIN is never valid |
| Validators.IntPin | validators.py:53-57 | a non-zero integer's text is 4 to 8 digits exactly when the integer lies in 1000..99999999 |
| Validators.NatToStringLength | validators.py:55-57 | `str(n)` has exactly as many characters as `n` has decimal digits |
| Validators.DecimalWidth | validators.py:55-57 | the digit count of `n` is at most `k` exactly when `n < 10^k`, for `k` up to 8 |
| Validators.ValidateDateFormat | validators.py:118-132 | a value passes exactly when it is truthy and its text, one final newline aside, is `DD/MM/YYYY` in digits |
| Validators.ValidateDateRange | validators.py:135-157 | every real date of the years 2020 to 2030, given as integers, passes; whatever passes is three integers with a day from 1 to 31 |
| Validators.DateRangeAdmitsNonDate | validators.py:147-155 | the range check does not look at the month's length: 31 February 2024 passes though it is no date |
| Validators.ParseCount | validators.py:60-115 | the stock and sales parsers give 0 for a falsy value and return an integer unchanged, negative ones included; for a string they return the first number that `extract_number_from_text` finds, or 0 when it finds none, so never a negative number |
| Validators.ExtractNumbers | validators.py:277-291 | no number is found exactly when the value is falsy or its text holds no digit |
| Validators.ExtractNumbersStep | validators.py:277-291 | the numbers of a truthy value are the value of its text's first maximal run of digits, followed by the numbers of the text after that run, so every run is found, in order |
| Validators.ExtractTwoRuns | validators.py:290-291 | "a1b22" gives the numbers 1 and 22, in that order |
| Text.AllDigitRunsAt | validators.py:290 | `re.findall(r"\d+")` yields the first maximal run of digits, then the runs of the text after it |
| Text.AllDigitRunsNone | validators.py:290 | a text without digits has no runs |
| Validators.FormatTabung | validators.py:240-257 | the formatted count always mentions "tabung" in some case, and a string that already does comes back unchanged |
| Validators.TabungSuffixMentionsTabung | validators.py:255-257 | appending " Tabung" to any text makes it mention "tabung" once lower-cased |
| Validators.ParseFormatTabung | validators.py:250-257 | parsing `format_tabung(n)` gives back `n` for every count `n >= 0` |
| Validators.Collapse | validators.py:177 | the collapsed string is empty only when its input is, keeps a non-blank first and last character, and holds no whitespace other than single spaces |
| Validators.CollapseKeepsVisible | validators.py:177 | collapsing whitespace keeps every other character, in order |
| Validators.CollapseFixpoint | validators.py:177 | a string whose only whitespace is single spaces is its own collapse |
| Validators.Sanitize | validators.py:170-179 | a sanitized string has no leading or trailing whitespace and no whitespace other than single spaces |
| Validators.SanitizeKeepsVisible | validators.py:170-179 | sanitizing a truthy value keeps every visible character of `str(x)`, in order |
| Validators.NormalSpacingFixed | validators.py:174-177 | a string already in sanitized form survives stripping and collapsing unchanged |
| Validators.SanitizeIdempotent | validators.py:170-179 | sanitizing twice gives the same string as sanitizing once |
| Validators.KeepDigits | validators.py:236 | the kept characters are all digits; the result is empty exactly when the input has no digit, and an all-digit input comes back whole |
| Validators.KeepDigitsAppend | validators.py:236 | the digits kept from a concatenation are those kept from each part, in order |
| Validators.KeepDigitsOne | validators.py:236 | a single character is kept exactly when it is a digit; with the previous row this fixes the result as the digits of the input, in order |
| Validators.CleanNumberString | validators.py:232-237 | the cleaned string is a non-empty digit string; it is "0" for a falsy input or an input without digits, and otherwise exactly the digits of `str(x)`, in order |
| Validators.CleanDigitString | validators.py:232-237 | cleaning a digit string returns it unchanged |
| Validators.ValidateUsername | validators.py:182-195 | a username is valid exactly when it is truthy and its text is an email or a phone number in the sense above |
| Validators.ValidateAccountData | validators.py:210-219 | the account is accepted exactly when the name is non-blank, the username is an email or a phone number and the PIN is valid; otherwise the message names the first check that fails |
| Validators.FirstIndex | validators.py:22 | the position returned holds the character, and no earlier position does |
| Validators.LastIndex | validators.py:22 | the position returned holds the character, and no later position does |
| Pivot.Put | modules/data/excel.py:153-164 | writing a cell stores the value at that position, keeps the paint, widens the dimensions to cover it and keeps the dimension invariant |
| Pivot.FindDateColumn | modules/data/excel.py:228-234 | the column found is the first one from the start column on whose row-1 header is the date; when none is found, no column up to `max_column` has it |
| Pivot.FindOrCreateDateColumn | modules/data/excel.py:221-256 | the date's block is reused exactly when a column already carries its header, and then the sheet is unchanged; otherwise a block is added at the new-block column, ending at the new `max_column` |
| Pivot.AppendDateBlock | modules/data/excel.py:236-256 | a new block puts the date header after the last column (never before column 3) and grows the sheet by four columns and to at least two rows, with the paint unchanged |
| Pivot.WithCorner | modules/data/excel.py:237-246 | the id and name headers are added only on a sheet without date columns whose top-left cell is blank; otherwise nothing changes |
| Pivot.NewDateBlock | modules/data/excel.py:236-256 | a new block carries its date with empty row-1 cells to its right and the four sub-headers below, keeps every data cell and older date cell, and adds no cell outside the corner, its header and its sub-headers |
| Pivot.NewBlockHeaders | modules/data/excel.py:249-253 | a new block carries its date in row 1 with blank row-1 cells over its other three columns, and the four sub-headers STOK, INPUT, TIME and STATUS below |
| Pivot.NewBlockKeeps | modules/data/excel.py:238-253 | adding a block keeps every data cell and every cell from column 3 on that the sheet already held |
| Pivot.NewBlockOnlyAdds | modules/data/excel.py:242-253 | the only cells a new block adds are the two corner headers, its date header and its four sub-headers |
| Pivot.FirstHeaderMatch | modules/data/excel.py:229-235 | the search returns the first column from the start whose row-1 header is the date |
| Pivot.UpsertFindsColumn | modules/data/excel.py:139-142 | after an upsert the date search finds the block the reading was written to |
| Pivot.FindEntityRow | modules/data/excel.py:265-268 | the row found is the first data row whose column 1 holds the id; when none is found, no data row up to `max_row` has it |
| Pivot.FindOrCreateEntityRow | modules/data/excel.py:259-279 | the outlet's row is reused exactly when a data row already holds its id, and then the sheet is unchanged; otherwise a row is added at the new-row position, which becomes `max_row` |
| Pivot.NewEntityRowAppends | modules/data/excel.py:270-279 | an unseen outlet gets a row below every existing row with its id and name, and no existing cell changes |
| Pivot.FirstIdMatch | modules/data/excel.py:265-268 | the search returns the first data row whose column 1 holds the id |
| Pivot.UpsertFindsRow | modules/data/excel.py:144-147 | after an upsert the outlet search finds the row the reading was written to |
| Pivot.RescanColumn | modules/data/excel.py:549-622 | after the scan of a column the painted set is the original paint plus the alarming cells of that column and of every column before it |
| Pivot.RescanCell | modules/data/excel.py:559-617 | after the scan of a data row of a STOK/INPUT pair the painted set is the original paint plus the alarming cells found so far, this row included |
| Pivot.Rescan | modules/data/excel.py:537-622 | the rescan paints exactly the stock and sales cells of every alarming reading in a STOK/INPUT column pair, on top of the existing paint |
| Pivot.AnomalyCellsInBounds | modules/data/excel.py:546-622 | every cell the rescan paints lies inside the sheet |
| Pivot.UpsertSheet | modules/data/excel.py:118-175 | an upsert keeps the dimension invariant and never removes paint |
| Pivot.UpsertTail | modules/data/excel.py:152-175 | the writes at a known row and column grow the sheet to cover the four cells, change only those cells, and only add paint |
| Pivot.WriteBlock | modules/data/excel.py:152-164 | the four cells hold stock and sales as integers and time and status as text; nothing else changes |
| Pivot.MarkAlarm | modules/data/excel.py:398-414 | the stock and sales cells are painted exactly when stock is above 90 and sales are 0; nothing else changes |
| Pivot.WithRescan | modules/data/excel.py:534 | after the rescan the painted cells are the old ones plus every alarming reading's two cells, and the cells are unchanged |
| Pivot.UpsertExistingPair | modules/data/excel.py:140-164 | re-saving an outlet and date the sheet already holds reuses their row and block, overwrites exactly the four cells, and adds no row or column |
| Pivot.UpsertAlarmFill | modules/data/excel.py:167-169 | after an upsert, an alarming reading has both cells painted; any other reading leaves their paint as it was |
| Pivot.PaintOfWrittenBlock | modules/data/excel.py:152-175 | writing, marking and rescanning a block paints its two cells exactly when the reading is alarming |
| Pivot.QuietReadingNotPainted | modules/data/excel.py:593-617 | the rescan does not paint a reading that is not alarming |
| Pivot.TailIdempotent | modules/data/excel.py:152-175 | writing the same reading twice at the same place gives the same sheet as writing it once |
| Pivot.TailWritten | modules/data/excel.py:152-169 | after the writes the four cells hold the reading, inside the sheet, and are painted when the reading is alarming |
| Pivot.RewriteBlock | modules/data/excel.py:152-164 | writing a reading over cells that already hold it changes nothing |
| Pivot.DateColumnFrame | modules/data/excel.py:221-256 | finding or creating the date column only grows the sheet, puts a new block beyond the old columns, and touches no data row |
| Pivot.EntityRowFrame | modules/data/excel.py:259-279 | finding or creating the outlet row keeps rows 1 and 2 and the id of every other row |
| Pivot.TailFrame | modules/data/excel.py:152-169 | the writes leave both header rows and the id column alone |
| Pivot.UpsertFrame | modules/data/excel.py:140-175 | an upsert keeps other columns' date headers, the existing sub-headers and other rows' ids, and writes the date header, the id and the four cells at its target |
| Pivot.UpsertWrites | modules/data/excel.py:152-164 | after an upsert the four cells at its target hold the reading |
| Pivot.UpsertFindsTarget | modules/data/excel.py:140-147 | after an upsert, a search for the same date and outlet finds the same block and row |
| Pivot.UpsertIdempotent | modules/data/excel.py:118-175 | saving the same reading twice leaves the sheet as saving it once |
| Pivot.UpsertKeepsWellFormed | modules/data/excel.py:221-256 | after an upsert every date header still sits on a complete four-column block |
| Master.Hour12 | modules/data/excel.py:124 | the `%I` hour is between 1 and 12 |
| Master.TimeText | modules/data/excel.py:124 | the time stamp has the shape `hh:mm AM` or `hh:mm PM`, with AM exactly before noon |
| Master.TimeTextInjective | modules/data/excel.py:124 | different minutes of the day give different time stamps |
| Master.LoadWorkbook | modules/data/excel.py:193-218 | the named sheet is always present; a readable file keeps all its sheets, adding an empty sheet if the named one is missing; a missing or unreadable file becomes a workbook holding only the empty named sheet |
| Master.LoadedValid | modules/data/excel.py:193-218 | every sheet of a loaded workbook keeps the dimension invariant |
| Master.LoadSheet | modules/data/excel.py:137 | the sheet handed to the upsert keeps the dimension invariant |
| Master.Store | modules/data/excel.py:178 | saving puts the workbook under its file name and leaves every other file as it was |
| Master.Replace | modules/data/excel.py:137-178 | the upserted sheet replaces its namesake and every other sheet of the workbook stays |
| Master.SavePivot | modules/data/excel.py:108-190 | a save changes no file except the month's master file, and equals loading that file's month sheet, upserting the reading and saving the sheet back |
| Master.SaveSheet | modules/data/excel.py:137-190 | a failed save changes nothing; a successful one stores the new month sheet and keeps the other sheets of the loaded workbook; no other file changes |
| Master.SaveNamesMonth | constants.py:95-135 | with a chosen date, or with all clock readings on one day, the file and the sheet are named after the month of the date the reading is filed under |
| Master.SaveLeavesOtherMonths | modules/data/excel.py:109-110 | under those conditions the master files of every other month stay exactly as they were |
| Master.OtherMonthOtherFile | constants.py:95-115 | another month's master file is never the one being written |
| Master.SheetNameAcrossNewYear | constants.py:131-133 | without a chosen date, a call straddling New Year's midnight names the sheet after December of the new year |
| Master.UnreadableFileReplaced | modules/data/excel.py:204-210 | when the master file cannot be read, the save drops every other sheet it held |
| Master.ReadableFileKeepsSheets | modules/data/excel.py:196-202 | when the master file reads, the save keeps every other sheet as it was |
| Master.SaveStoresReading | modules/data/excel.py:152-178 | after a successful save the month sheet holds the reading in the four cells at the outlet's row and the date's block |
| Master.SavePivotIdempotent | modules/data/excel.py:108-190 | saving the same reading again, with the same clock and a working disk, changes nothing |
| Master.ReStore | modules/data/excel.py:193-218 | saving back a sheet a file already holds leaves the directory unchanged |
| Telemetry.Min | modules/core/telemetry.py:335-337 | the minimum is one of the samples and no sample is smaller |
| Telemetry.Max | modules/core/telemetry.py:338-340 | the maximum is one of the samples and no sample is larger |
| Telemetry.TimesIsProduct | modules/core/telemetry.py:250 | helper of `Telemetry.DivBetween` and `Telemetry.MeanBetween`: adding `x` to itself `n` times gives `n · x` |
| Telemetry.SumBetween | modules/core/telemetry.py:250 | samples that all lie between `lo` and `hi` sum to between `n · lo` and `n · hi` |
| Telemetry.DivBetween | modules/core/telemetry.py:250 | helper of `Telemetry.MeanBetween`: dividing such a sum by the positive sample count lands between `lo` and `hi` |
| Telemetry.MeanBetween | modules/core/telemetry.py:223 | the mean of non-empty samples lies between their minimum and maximum |
| Telemetry.Bump | modules/core/telemetry.py:140 | incrementing an error type raises its count by one and the total by one, leaves every other count, appends a new type at the end and keeps the types distinct |
| Telemetry.OperationKey | modules/core/telemetry.py:71 | without an identifier the key is the operation name; with one it is the name, a colon and the identifier |
| Telemetry.StartOperation | modules/core/telemetry.py:62-71 | starting stamps the key with the current time, replacing any pending start, and records no duration |
| Telemetry.EndOperation | modules/core/telemetry.py:73-90 | with a pending start the elapsed time is returned and appended to that operation's samples only, and the key stops being pending; without one nothing changes and the result is 0.0 |
| Telemetry.RepeatedEndReturnsZero | modules/core/telemetry.py:84-90 | ending the same operation a second time finds nothing pending, returns 0.0 and changes nothing |
| Telemetry.StartThenEnd | modules/core/telemetry.py:62-90 | a start followed by an end measures exactly the time between them and leaves nothing pending |
| Telemetry.RecordStart | modules/core/telemetry.py:92-100 | starting an account counts it once and leaves its timer pending, with the other counters and the trace unchanged |
| Telemetry.RecordSuccess | modules/core/telemetry.py:102-124 | a success raises the success counter by one, appends one success entry for the user to the trace, and adds its duration to the timings; other counters and error counts stay |
| Telemetry.RecordFailure | modules/core/telemetry.py:126-154 | a failure raises the failure counter and that error type's count by one, leaves other counts and the timings, and appends one failed entry named by `nama`, or by the username when `nama` is empty |
| Telemetry.RecordSkip | modules/core/telemetry.py:156-175 | a skip raises only the skip counter and appends one skipped entry, with no timer ended |
| Telemetry.PositivePart | modules/core/telemetry.py:185-188 | only a positive amount is added; anything else adds nothing |
| Telemetry.RecordBusiness | modules/core/telemetry.py:177-188 | the stock and sales totals grow by exactly the amount given when it is positive and stay otherwise; nothing else changes |
| Telemetry.Reset | modules/core/telemetry.py:414-435 | after a reset every counter, total, timing, error count, trace entry and pending timer is gone |
| Telemetry.ConsistentStep | modules/core/telemetry.py:92-188 | each recording call keeps the counters, the error counts and the trace in agreement |
| Telemetry.SuccessConsistent | modules/core/telemetry.py:102-124 | a success keeps the counters, the error counts and the trace in agreement |
| Telemetry.FailureConsistent | modules/core/telemetry.py:126-154 | a failure keeps the counters, the error counts and the trace in agreement |
| Telemetry.SkipConsistent | modules/core/telemetry.py:156-175 | a skip keeps the counters, the error counts and the trace in agreement |
| Telemetry.ConsistentRun | modules/core/telemetry.py:92-188 | whatever sequence of calls is made, the error counts sum to the failure counter and the trace holds exactly one entry per counted success, failure and skip |
| Telemetry.TraceCounts | modules/core/telemetry.py:114-124 | appending one entry to the trace raises only the count of its own status |
| Telemetry.TalliesAppend | modules/core/telemetry.py:92-154 | the number of start, success and failure calls in two call sequences adds up |
| Telemetry.RunTally | modules/core/telemetry.py:99-138 | without a reset, the total, success and failure counters grow by exactly the number of start, success and failure calls |
| Telemetry.RunAppend | modules/core/telemetry.py:92-188 | running two call sequences one after the other is running their concatenation |
| Telemetry.BusinessMonotone | modules/core/telemetry.py:177-188 | without a reset the business totals never shrink |
| Telemetry.SuccessRate | modules/core/telemetry.py:190-200 | the success rate is 0 without accounts, and otherwise the successes as a percentage of the accounts |
| Telemetry.FailureRate | modules/core/telemetry.py:202-212 | the failure rate is 0 without accounts, and otherwise the failures as a percentage of the accounts |
| Telemetry.RatesArePercentages | modules/core/telemetry.py:190-212 | while no more accounts finished than started, both rates are non-negative and add up to at most 100 |
| Telemetry.ShareBounds | modules/core/telemetry.py:200-212 | two shares of a total that together do not exceed it are percentages adding up to at most 100 |
| Telemetry.AverageTime | modules/core/telemetry.py:214-223 | the average is 0 without timings and otherwise lies between the smallest and the largest timing |
| Telemetry.OperationStats | modules/core/telemetry.py:234-254 | without samples every statistic is 0; otherwise the count and total are those of the samples, min and max are samples bounding all others, and the average is total over count, between min and max |
| Telemetry.FailedDetails | modules/core/telemetry.py:264-273 | the failure list has one line per failed trace entry |
| Telemetry.FailedDetailsMatchCounter | modules/core/telemetry.py:264-286 | the dashboard's failure list is exactly as long as the failure counter |
| Telemetry.TotalErrors | modules/core/telemetry.py:344 | without error counts the total is 0 |
| Telemetry.TotalErrorsIsFailed | modules/core/telemetry.py:344 | the dashboard's total error count always equals the failure counter |
| Telemetry.DistinctKindsCount | modules/core/telemetry.py:345 | distinct error types are as many as the entries listing them |
| Telemetry.UniqueErrorTypes | modules/core/telemetry.py:345 | the count of error types is the size of the set of types recorded |
| Telemetry.ByCountDescendingIsPreorder | modules/core/telemetry.py:310 | the order by descending count used to rank errors is a total preorder |
| Telemetry.TopErrors | modules/core/telemetry.py:310 | the top errors are at most five entries, five or all of them, drawn from the error counts |
| Telemetry.TopErrorsDescending | modules/core/telemetry.py:310 | the top errors are listed in non-increasing count order |
| Telemetry.TopErrorsAreTop | modules/core/telemetry.py:310 | no error type left off the top list has a higher count than one on it |
| Network.CheckSimple | modules/core/network.py:22-58 | within five seconds of the last probe the cached answer comes back unchanged; otherwise the answer is whether either DNS server is reachable, and it is stored with the current time |
| Network.CachedWithinWindow | modules/core/network.py:35-37 | two checks less than five seconds after a probe agree, whatever the network does in between |
| Network.ProbeStored | modules/core/network.py:43-57 | after a probe the cache holds the probe's answer and time, and only an unreachable network stores `False` |
| Network.WaitLoop | modules/core/network.py:101-124 | the loop makes at most one check per clock reading, each while time remains; it returns online right after its first passing check, times out at the first reading past the limit, and otherwise has checked once per reading, all failing |
| Network.Wait | modules/core/network.py:79-132 | the wait reports online exactly when its last check passed and every earlier one failed; every check happened before the timeout; a timeout comes at a reading past the limit; the first message is the waiting warning |
| Network.NoAttemptWithoutTime | modules/core/network.py:101 | with no time to wait, no check is made and the wait times out at once |
| Network.OfflineNeverOnline | modules/core/network.py:101-124 | while the network stays down and `False` is cached, every reading in time leads to one failed check and the wait never reports online |
| Network.WarningsAppend | modules/core/network.py:117-122 | the warnings of two logs add up |
| Network.SixthStep | modules/core/network.py:117 | helper of `Network.WaitLoopWarnings`: the `attempts % 6 == 0` test fires exactly once more each time the attempt count reaches a multiple of six |
| Network.WaitLoopWarnings | modules/core/network.py:101-124 | with a callback the loop logs one progress warning per six failed checks; without one, none |
| Network.WaitWarnings | modules/core/network.py:93-132 | a whole wait logs one progress warning per six failed checks when there is a callback, and none without one |
| Network.CheckBeforeStep | modules/core/network.py:135-167 | when the first check passes the step goes ahead without waiting; otherwise the wait for up to `max_wait` seconds, timed from its own clock reading taken after the check, decides, and the step goes ahead exactly when the wait ends online |
| Network.EnsureOnline | modules/core/network.py:199-203 | `ensure_online` is the same check-then-wait as `check_before_step`, its wait timed from its own start reading |
| Network.FirstAttemptAfterFailedCheckCached | modules/core/network.py:35-37 | after a failed first check, a wait attempt within five seconds is answered from the cache and fails even if the network is back |
| Network.RefusedOnlyAfterWait | modules/core/network.py:154-167 | a step is refused exactly when its wait ran and did not end online |
| Config.GetConfig | modules/core/config.py:120-131 | a stored key reads back its value, even a stored `None`; a missing key reads as the default |
| Config.SetConfig | modules/core/config.py:134-142 | setting a key adds it to the keys and removes none |
| Config.SetThenGet | modules/core/config.py:131-142 | what was set is what is read back, whatever the default |
| Config.SetLeavesOthers | modules/core/config.py:131-142 | setting one key leaves every other key's reading as it was |
| Config.IsHeadless | modules/core/config.py:145-160 | the `PLAYWRIGHT_HEADLESS` variable, lower-cased, decides when it is one of the six recognised words; otherwise the current `HEADLESS_MODE` setting does |
| Config.HeadlessOverrideIgnoresCase | modules/core/config.py:153-157 | the variable is read case-insensitively: "TRUE" and "Yes" mean headless, "No" means a visible browser |
| Config.SetHeadlessTakesEffect | modules/core/config.py:142-160 | with the variable unset, a value set for `HEADLESS_MODE` is what the headless query returns |
| Config.ChromeBinary | modules/core/config.py:163-176 | a non-empty `CHROME_BINARY_PATH` variable naming an existing file wins; otherwise the setting of that name is returned |
| Config.NoBinaryByDefault | modules/core/config.py:15-113 | with the default settings and no usable variable there is no custom browser binary |
| Config.Preset | modules/core/config.py:223-229 | exactly the names "fast", "debug" and "production" have a preset |
| Config.ApplyPreset | modules/core/config.py:216-235 | the name is matched lower-cased; a known preset sets each of its keys and leaves every other key; an unknown name changes nothing |
| Config.ApplyPresetIdempotent | modules/core/config.py:216-235 | applying a preset twice leaves the settings as applying it once |
| Config.ApplyPresetIgnoresCase | modules/core/config.py:229 | names that differ only in case apply the same preset |
| Config.DebugPresetShowsBrowser | modules/core/config.py:194-202 | after the debug preset, with no variable set, the browser is shown |
| Config.UnknownPresetNoChange | modules/core/config.py:234-235 | an unknown preset name leaves every setting alone |
| Sessions.SafeName | session_manager.py:54 | the safe name is no longer than the username and holds only ASCII letters, digits and `._-@` |
| Sessions.SafeNameOfKept | session_manager.py:54 | a username made only of allowed characters is its own safe name |
| Sessions.SafeNameIdempotent | session_manager.py:54 | sanitising twice is sanitising once |
| Sessions.SafeNameAppend | session_manager.py:54 | the kept characters of a concatenation are those of each part, in order |
| Sessions.DroppedCharactersCollide | session_manager.py:43-68 | two different usernames can share both session files: "ab" and "a b" do |
| Sessions.PathsMatchGlobs | session_manager.py:43-68 | an account's session file matches only the session glob and its metadata file only the metadata glob, so the two never coincide |
| Sessions.SaveSession | session_manager.py:70-106 | when the browser state cannot be written nothing changes and the answer is False; otherwise both files are written, the metadata holding the username, the save time and the expiry `validity` days after the second clock reading, and no other file changes |
| Sessions.ClearSession | session_manager.py:161-186 | both of the account's files are gone afterwards and every other file stays as it was |
| Sessions.LoadSession | session_manager.py:108-147 | without both files nothing loads and nothing changes; a state loads exactly when the metadata parses, has not expired and the state file parses, and then nothing changes; otherwise at most the account's files are cleared |
| Sessions.SaveThenLoad | session_manager.py:70-147 | a saved session loads back as saved, at any time up to and including its expiry |
| Sessions.ExpiredLoadClears | session_manager.py:131-136 | past its expiry a saved session does not load, and loading removes both its files |
| Sessions.CollidingAccountsShareSession | session_manager.py:54-68 | an account whose username sanitises like another's loads that other account's session |
| Sessions.ExpiryAfterValidity | session_manager.py:91-94 | with the clock moving forward, the expiry is at least the validity period after the save time |
| Sessions.SessionInfo | session_manager.py:241-276 | information exists exactly when the metadata file parses; the session counts as valid exactly before its expiry; the whole remaining days do not exceed the remaining time |
| Sessions.ExpiryInstantDisagrees | session_manager.py:133-143 | at the very instant of expiry, loading still returns the state while the information already reports the session invalid |
| Sessions.InfosOf | session_manager.py:287-299 | the loop reports at most one entry per metadata file it reads |
| Sessions.InfosOfMembers | session_manager.py:287-299 | every entry the loop reports is the information of a metadata file that parses and whose username has information, and every such file's information is reported |
| Sessions.InfosOfCount | session_manager.py:287-299 | over a listing without repeats, the loop reports exactly one entry per such file |
| Sessions.InfosOfValidCount | session_manager.py:287-299 | over a listing without repeats, the valid entries are exactly one per such file whose session is valid |
| Sessions.ListAllSessions | session_manager.py:278-305 | given the glob's metadata files, each once: every entry is the information of a metadata file that parses and whose username has information, every such file's information is present, and there is exactly one entry per such file |
| Sessions.ValidOnes | session_manager.py:357 | every session kept by the valid filter is valid |
| Sessions.ExpiredOnes | session_manager.py:358 | every session kept by the expired filter is invalid |
| Sessions.SplitCounts | session_manager.py:357-363 | every listed session is counted as either valid or expired, never both |
| Sessions.GetStats | session_manager.py:348-368 | the total is the number of metadata files that parse and whose username has information, the valid count the number of those whose session is valid, and the total is the valid plus the expired count |
| Sessions.Glob | session_manager.py:196-201 | the glob finds exactly the files of the directory whose names have the prefix and end in `.json` |
| Sessions.ClearAllSessions | session_manager.py:188-208 | every session and metadata file is deleted and only the session files are counted; every other file stays as it was |
| Sessions.ClearAllCountsSessionFiles | session_manager.py:195-204 | clearing one saved account removes two files but reports a count of 1 |
| Accounts.Convert | modules/core/utils.py:102-112 | the outlet id is the stripped cell, or the username when that is empty or "nan" or the column is missing |
| Accounts.KeptHasId | modules/core/utils.py:110-124 | a row that passes the username and PIN checks yields a valid account with a non-empty id |
| Accounts.FilterMap | modules/core/utils.py:101-124 | the loop returns at most one account per row, and none exactly when no row passes |
| Accounts.FilterMapAppend | modules/core/utils.py:101-124 | the loop treats rows one at a time: two blocks of rows give the accounts of each, in order |
| Accounts.FilterMapMembers | modules/core/utils.py:101-124 | an account is returned exactly when some row passing the checks converts to it |
| Accounts.Survivors | modules/core/utils.py:101-124 | the accounts kept are at most as many as the rows, and none exactly when no row passes the checks |
| Accounts.SurvivorsValid | modules/core/utils.py:114-124 | every account returned has an email or phone username, a valid PIN and an id |
| Accounts.SurvivorsAppend | modules/core/utils.py:101-124 | the accounts kept from two blocks of rows are those of each block, in order |
| Accounts.SurvivorsOne | modules/core/utils.py:114-124 | a single row gives its account when it passes the checks and nothing otherwise |
| Accounts.SurvivorsMembers | modules/core/utils.py:101-124 | an account is returned exactly when some row passing the checks converts to it |
| Accounts.LoadAccounts | modules/core/utils.py:84-133 | an unreadable file is the read error; a readable one with no passing row raises the no-valid-accounts error; otherwise the result is exactly the accounts of the passing rows, in row order (`Survivors`), a non-empty list of valid accounts no longer than the rows |
| Accounts.NanIdFallsBack | modules/core/utils.py:107-111 | an empty or "nan" id cell gives the username as the id |
| Accounts.Usernames | modules/core/utils.py:143 | the username list has one entry per account, in order |
| Accounts.FirstSeen | modules/core/utils.py:151 | the distinct usernames are listed once each, and the same set as the input |
| Accounts.KeepRepeated | modules/core/utils.py:151 | a name is kept exactly when it is listed and occurs more than once |
| Accounts.DistinctCount | modules/core/utils.py:144-145 | the distinct count never exceeds the total, and equals it exactly when nothing occurs twice |
| Accounts.OccurrencesPositive | modules/core/utils.py:151 | a name occurs at least once exactly when it is in the list |
| Accounts.Stats | modules/core/utils.py:136-154 | the total and unique counts are the number of accounts and of distinct usernames; the duplicate list names exactly the usernames occurring more than once, each once, and is non-empty exactly when the two counts differ |
| Accounts.RepeatsFound | modules/core/utils.py:150-152 | when the counts differ some username repeats and the duplicate list is not empty; otherwise no username occurs twice |
| Accounts.KeepRepeatedNoRepeats | modules/core/utils.py:151 | the duplicate list names no username twice |
| Accounts.Decide | modules/core/utils.py:214-243 | an empty line skips the filter; a line is taken exactly when it has the `DD/MM/YYYY` shape, its fields are in range and they make a real date, which is then the date taken, in 2020-2030 |
| Accounts.ReadDate | modules/core/utils.py:212-243 | a blank line skips the filter, and any date taken is a real date in 2020-2030 |
| Accounts.FormatDmy | modules/core/utils.py:205 | a date written as the prompt asks has the `DD/MM/YYYY` shape |
| Accounts.FieldsOfFormat | modules/core/utils.py:223 | reading the fields of a date written as `DD/MM/YYYY` gives its day, month and year |
| Accounts.ReadFormattedDate | modules/core/utils.py:212-240 | every real date in the accepted years, typed as asked, is read back as itself |
| Accounts.PickedIsFormatted | modules/core/utils.py:212-240 | a date taken from a line is that line, stripped, written as `DD/MM/YYYY` |
| Accounts.Rebuild | modules/core/utils.py:219-223 | a `DD/MM/YYYY` line is the zero-padded spelling of its own three fields |
| Accounts.DigitsValueInjective | modules/core/utils.py:223 | helper of `Accounts.TwoDigitsOfValue` and `Accounts.FourDigitsOfValue`: two digit strings of the same length and value are the same string |
| Accounts.TwoDigitsOfValue | modules/core/utils.py:223 | a two-digit field is the zero-padded spelling of its value |
| Accounts.FourDigitsOfValue | modules/core/utils.py:223 | a four-digit field is the zero-padded spelling of its value |
| Accounts.FieldsOfLine | modules/core/utils.py:223 | "31/04/2025" has the expected shape and reads as day 31, month 4, year 2025 |
| Accounts.TwoValue | modules/core/utils.py:223 | helper of `Accounts.FieldsOfLine`: the value of a two-digit field is ten times its first digit plus its second |
| Accounts.FourValue | modules/core/utils.py:223 | helper of `Accounts.FieldsOfLine`: the value of a four-digit field is the positional value of its digits |
| Accounts.InRangeIsValidateDateRange | validators.py:147-157 | the prompt's year, month and day checks accept exactly what `validate_date_range` accepts |
| Accounts.DayRangeIsNotEnough | modules/core/utils.py:231-243 | the 31st of a 30-day month passes the range checks and is still refused, as `datetime` raises |
| Accounts.FirstDecided | modules/core/utils.py:202-247 | a date comes back exactly when some line gives a date and every line before it was refused; the date returned is the one that first such line gives |
| Accounts.AllAgainShift | modules/core/utils.py:202-221 | after a refused first line, the loop decides on the remaining lines as it would have on the whole |
| Accounts.GetDateInput | modules/core/utils.py:195-247 | any date returned is a real date in 2020-2030; one is returned exactly when some line gives one after only refused lines, and it is that line's date |
| Remote.Get | modules/data/supabase_client.py:48-51 | a present key reads its value, even a null one; only a missing key reads as the default |
| Remote.TabungRoundTrip | modules/data/supabase_client.py:156-163 | a count stored as "N Tabung", or as a bare number, parses back to N |
| Remote.FetchedFrom | modules/data/supabase_client.py:46-62 | one entry per row, in order, each built from its own row and number |
| Remote.FetchAccounts | modules/data/supabase_client.py:26-69 | nothing comes back when disconnected or when the query raises; otherwise one entry per row, in order, numbered from 1, waiting at progress 0, with the row's username |
| Remote.FetchDefaultsToUsername | modules/data/supabase_client.py:48-51 | a row without a name or outlet-id column gets the username for both, while a present null name stays null |
| Remote.FetchedIdsDistinct | modules/data/supabase_client.py:54 | the numbers given to the fetched accounts are distinct |
| Remote.Recorded | modules/data/supabase_client.py:146-152 | the status test raises exactly when the status is not a string; otherwise a row counts as a success exactly when its status contains "Ada Penjualan", so the test for "Tidak Ada Penjualan" never decides anything |
| Remote.SaleInNoSale | modules/data/supabase_client.py:149 | every status containing "Tidak Ada Penjualan" also contains "Ada Penjualan" |
| Remote.PlusAssoc | modules/data/supabase_client.py:139-165 | adding up summaries does not depend on grouping |
| Remote.Tally | modules/data/supabase_client.py:139-165 | a completed tally counts every row once, as either a success or a failure |
| Remote.TallyFailsIff | modules/data/supabase_client.py:145-152 | the tally fails exactly when the status test of some row raises |
| Remote.TallyAppend | modules/data/supabase_client.py:145-165 | the tally of two batches of rows is the sum of their tallies |
| Remote.TallyOne | modules/data/supabase_client.py:145-165 | one row adds exactly its own count, its status and its parsed sales and stock |
| Remote.TodaySummary | modules/data/supabase_client.py:104-177 | the summary is all zeros when disconnected, when the company has no outlets, when the query raises or when the status test raises on some row; successes and failures always add up to the total; a completed tally is the summary |
| Remote.NonStringStatusZeroesSummary | modules/data/supabase_client.py:145-177 | one row whose status is not a string (null, a number, a boolean) wipes out the whole summary |
| Remote.NullStatusZeroesSummary | modules/data/supabase_client.py:146-177 | a single row with a null status wipes out the whole summary, not just its own share |
| Remote.ProcessedIds | modules/data/supabase_client.py:200 | the processed ids are exactly the outlet ids of today's result rows, a missing one read as null |
| Remote.Pending | modules/data/supabase_client.py:205-207 | an account is pending exactly when its key is not among the processed ids |
| Remote.PendingAppend | modules/data/supabase_client.py:205-218 | the pending accounts of two blocks of accounts are those of each, in order |
| Remote.ResumeFrom | modules/data/supabase_client.py:203-218 | the entries are numbered consecutively from the counter and none has a processed outlet id |
| Remote.NumberedCons | modules/data/supabase_client.py:204-218 | numbering one more account in front shifts the counter of the rest by one |
| Remote.ResumeIsPending | modules/data/supabase_client.py:203-218 | the entries are exactly the pending accounts, in order, numbered on from the counter |
| Remote.UnprocessedAccounts | modules/data/supabase_client.py:179-225 | nothing comes back when disconnected or when a query raises; otherwise the entries, numbered from 1, are at most the accounts and none has an outlet id processed today |
| Remote.UnprocessedExactly | modules/data/supabase_client.py:200-218 | an account is listed exactly when its key was not processed today, and the list keeps the accounts' order |
| Remote.NullIdCountsAsProcessed | modules/data/supabase_client.py:200-207 | a result row without an outlet id makes every account whose outlet id is null count as processed |
| Remote.Ids | modules/data/supabase_client.py:274-281 | the grouped outlets are the distinct truthy outlet ids of the rows, each once |
| Remote.Group | modules/data/supabase_client.py:274-281 | an outlet's group holds exactly the rows carrying its id |
| Remote.NotLaterPreorder | modules/data/supabase_client.py:299 | ordering checks by their `created_at` text is a total preorder |
| Remote.SortedEnds | modules/data/supabase_client.py:299-313 | in a list sorted by `created_at`, the last row is the latest and the first the earliest |
| Remote.LastCheck | modules/data/supabase_client.py:299-303 | yesterday's chosen check is a row of the group with a key no earlier than any other row's |
| Remote.FirstCheck | modules/data/supabase_client.py:310-313 | today's chosen check is a row of the group with a key no later than any other row's |
| Remote.SortEnds | modules/data/supabase_client.py:299-313 | sorting a non-empty group by `created_at` puts a row with the latest key last and one with the earliest key first, both rows of the group |
| Remote.Move | modules/data/supabase_client.py:298-343 | an outlet with no check on either day contributes nothing; otherwise, with yesterday's stock `y` and reported sales `sold` read from its last check and today's stock `t` from its first, it contributes nothing when a count does not parse or when `y < t`, and otherwise `sold + (y - t)` in total, `sold` reported and `y - t` unreported |
| Remote.MoveOf | modules/data/supabase_client.py:315-343 | a count that does not parse skips the outlet, and so does a stock that rose overnight; otherwise the outlet adds its reported sales plus the overnight stock drop, split into those two parts |
| Remote.AddMoves | modules/data/supabase_client.py:337-339 | adding two outlets' movements adds each of the three sums, and keeps total = reported + unreported |
| Remote.BothMoves | modules/data/supabase_client.py:297-339 | a combined loop completes exactly when both parts complete, and then its sums are the parts' sums added |
| Remote.MoveAll | modules/data/supabase_client.py:293-339 | when no sort raises, the summed totals are the reported plus the unreported sales, and the unreported sum is never negative |
| Remote.MoveAllOne | modules/data/supabase_client.py:297-339 | the loop over one outlet raises exactly when sorting its yesterday or today group raises, and otherwise yields that outlet's `Move` |
| Remote.MoveAllAppend | modules/data/supabase_client.py:293-339 | the loop over two blocks of outlets completes exactly when each block's loop does, and its three sums are the blocks' sums added field by field |
| Remote.MoveAllFailsIff | modules/data/supabase_client.py:297-313 | the loop raises exactly when, for some outlet, yesterday's or today's group has two or more rows and one of them has a `created_at` that is not a string |
| Remote.StockMovement | modules/data/supabase_client.py:227-353 | all zeros when disconnected, when the company has no outlets, when a query raises, when either day has no rows, or when sorting some outlet's checks raises on a `created_at` that is not a string; total sales are always the reported plus the unreported, never negative; when connected, with outlets and with rows on both days, a completed loop's sums are the result |
| Remote.UncheckedTodayContributesNothing | modules/data/supabase_client.py:306-307 | an outlet without a check today contributes nothing |
| Remote.RestockContributesNothing | modules/data/supabase_client.py:328-339 | an outlet whose stock rose overnight contributes nothing, whatever it reported |
| Remote.SingleRow | modules/data/supabase_client.py:274-313 | a single row is its own group and both its first and its last check |
| Remote.OneCheckEachDay | modules/data/supabase_client.py:298-339 | with one check yesterday and one today, an outlet adds its reported sales plus its overnight stock drop |
| Remote.OneOutletMovement | modules/data/supabase_client.py:227-349 | with one stored check yesterday and one today, written as "N Tabung", yesterday's sales are the reported ones plus the overnight stock drop |
| Remote.LoginUser | modules/data/supabase_client.py:368-416 | a disconnected client, a raising query and an unknown user each get their message; login succeeds exactly when the first user's stored hash is the password's hash, the user is active (by default) and has a username; a wrong password is refused as such, and an inactive user with the right password is told the account is disabled |
| Remote.WrongPasswordBeforeInactive | modules/data/supabase_client.py:388-412 | a disabled account with a wrong password is told only that the password is wrong |
| Remote.NoHashNoLogin | modules/data/supabase_client.py:389 | a user record without a stored hash can never log in |
| Runner.ApplyCmd | modules/core/process_manager.py:69-82 | `stop` sets the stop request, `pause`/`resume` set and clear the pause request; the GUI's pause toggles it, its stop sets the event and clears "running", and its start is ignored while a run is marked running, otherwise clears the stop and marks one running |
| Runner.PauseWait | modules/core/process_manager.py:112-116 | the pause wait leaves the flags alone when no pause is requested, and when it ends the pause has been lifted or a stop has been seen; it is still waiting only while the pause stays set |
| Runner.StopEndsPause | modules/core/process_manager.py:112-116 | a stop arriving during a pause ends the wait at once with the pause still set |
| Runner.NormalizeForManager | modules/core/process_manager.py:118-138 | a dictionary account's id defaults to its position and its pangkalan_id to its username; a tuple's id is its position and its fourth field, if present, is the pangkalan_id, otherwise the username; a tuple shorter than three fields raises |
| Runner.NormalizeForGui | main_gui.py:358-370 | the GUI loop reads nama, username, pin and id from a dictionary and keys the result row by the username; a tuple or a dictionary without an id raises |
| Runner.Normalize | modules/core/process_manager.py:118-138 | whichever loop runs it, a dictionary with an id keeps its id, name, username and PIN; the manager loop fails only on a tuple of fewer than three fields, and the GUI loop succeeds only on a dictionary with an id |
| Runner.SafeInt | modules/core/process_manager.py:329-337 | a missing value reads as 0, and so does any text that is not an integer once `.` and `,` are removed |
| Runner.SafeIntRoundTrip | modules/core/process_manager.py:329-337 | the decimal text of any integer reads back as that integer |
| Runner.SafeIntIgnoresSeparator | modules/core/process_manager.py:334 | inserting a `.` or `,` anywhere in the text does not change what it reads as, so "1.250" reads as 1250 |
| Runner.SafeIntSeparatedRoundTrip | modules/core/process_manager.py:329-337 | a number with a thousands separator spliced in at any position still reads as itself |
| Runner.UnseparatedIgnores | modules/core/process_manager.py:334 | removing the separators from text with one separator inserted gives the same text as removing them from the original |
| Runner.LoginRetry | modules/core/process_manager.py:182-195 | the retry loop makes at most the allowed number of attempts, stops at the first success, and succeeds exactly when one of the allowed attempts succeeds |
| Runner.SalesStatus | modules/core/process_manager.py:254 | the status is "Ada Penjualan" exactly when the sold count is positive, else "Tidak Ada Penjualan" |
| Runner.AccountEffect | modules/core/process_manager.py:140-318 | the per-account body opens with one start call, makes only timing calls before its closing calls and never resets; when a check fails the account gets no result row, ends on "error" at 0 and closes with exactly one failure of the first failing check's type; otherwise it ends as a success |
| Runner.SetupPhase | modules/core/process_manager.py:155-169 | from the browser setup on, the same guarantee as the whole body: a failed setup or any later failed check ends in one failure of that check's type with no result row, and an account that passes them all ends as a success |
| Runner.LoginPhase | modules/core/process_manager.py:171-204 | from the login on, the same guarantee: a login that fails every retry, or a later failed check, ends in one failure of that type with no result row |
| Runner.DataPhase | modules/core/process_manager.py:206-244 | from reading the data on, the same guarantee: a failed connectivity check or an exception while reading ends in one failure with no result row |
| Runner.Finish | modules/core/process_manager.py:246-303 | an account that passed every check gets the result row built from its parsed counts, then one success and the business figures, and ends at 100; an exception after the save adds one failure and shows "error" |
| Runner.CallTallies | modules/core/telemetry.py:92-188 | the telemetry tallies of one account's calls equal those of its opening and closing calls, because timing calls change no tally |
| Runner.FailurePath | modules/core/process_manager.py:323-327 | an account that fails a check gets no result row, ends on status "error" at 0, and is recorded as exactly one failure, under the type of the first check that failed, with no success |
| Runner.SuccessPath | modules/core/process_manager.py:246-313 | an account that passes every check gets exactly one result row, built from the parsed counts, and exactly one success; without a later exception it ends at 100 with no failure, and with one it also records a failure and shows "error" |
| Runner.LateExceptionCountsTwice | modules/core/process_manager.py:282-306 | an exception after the save records a failure for an account whose success is already counted, so the account adds one to the total and one to both the successes and the failures |
| Runner.LateExceptionRates | modules/core/telemetry.py:190-212 | hence the success and failure rates can add up to more than 100: from zero counters, a single such account gives 100 and 100 |
| Runner.AccountTally | modules/core/process_manager.py:140-306 | one account adds one to the total and as many successes as the result rows it yields, and keeps the counters consistent |
| Runner.AccountEffectWellBehaved | modules/core/process_manager.py:140-318 | both the manager's and the GUI's account body make one start call, never reset the telemetry, and record one success exactly when they yield a row |
| Runner.SaveRow | modules/core/process_manager.py:267-279 | saving a result row into the monthly master file, under the selected date or today, keeps a well-formed set of master files well formed when the clock and the date are valid |
| Runner.SaveRowKeepsValid | modules/core/process_manager.py:267-279 | the saver of a run with a valid selected date, or none, keeps the master files well formed for every valid clock reading |
| Runner.Iterate | modules/core/process_manager.py:106-318 | the account loop either completes or ends at an account between where it started and the last one |
| Runner.Range | modules/core/process_manager.py:106 | the indices `lo` up to `hi - 1`, in order |
| Runner.IterateStops | modules/core/process_manager.py:107-138 | when the loop cannot get past an account it ends there with its results unchanged, logging at most a halt and, only if the account's fields raised, the calls made before the raise |
| Runner.NextAdds | modules/core/process_manager.py:140-318 | processing one account logs its step, appends its result row if any and its calls, and adds a delay only when another account follows and no stop is set |
| Runner.IterateExtends | modules/core/process_manager.py:106-318 | the loop only appends to its log and its result list |
| Runner.IterateResults | modules/core/process_manager.py:265 | the loop's result list grows by exactly the result rows of the accounts it processed, in order |
| Runner.IterateIndices | modules/core/process_manager.py:106-318 | the loop processes every account from its start up to where it ended, once each and in order, with none skipped or repeated |
| Runner.IterateCalls | modules/core/process_manager.py:140-306 | the loop's telemetry calls contain no reset, one success per result row, and, unless the loop raised, one start per processed account |
| Runner.IterateKeepsFolder | modules/core/process_manager.py:267-279 | with a saver that keeps master files well formed, the loop keeps them well formed |
| Runner.IterateShape | modules/core/process_manager.py:315-318 | no delay follows the last account, and a halt can only be the final step |
| Runner.IterateHaltsOnStop | modules/core/process_manager.py:107-110 | the last step the loop adds is a halt exactly when the loop ended on a stop |
| Runner.StopSticks | modules/core/process_manager.py:69-82 | without a start command, no sequence of commands clears a stop |
| Runner.StopHaltsBeforeNextAccount | modules/core/process_manager.py:107-110 | a stop still set when the next account comes up ends the loop before that account is touched: nothing is processed, saved or recorded, and the only new step is the halt |
| Runner.StopDuringPauseStillProcesses | modules/core/process_manager.py:112-116 | a stop that arrives during a pause only ends the wait: the waiting account is still processed in full, no delay follows it, and the loop halts at the next account |
| Runner.ManagerRun | modules/core/process_manager.py:84-321 | a run keeps the master files well formed, returns exactly the rows of the processed accounts in order, processes each account up to where it stopped exactly once, delays only between accounts, and ends on a stop exactly when its last step is a halt; the telemetry stays consistent with one success per row and, unless the loop raised, counts every account it reached |
| Runner.RunFacts | modules/core/process_manager.py:95-97 | a run that starts from cleared results and telemetry keeps the master files valid, reports exactly the harvested rows, and processes the accounts up to where it ended |
| Runner.RunTallyFacts | modules/core/process_manager.py:95-306 | after a run from reset telemetry, the counters are consistent, successes equal the result rows, and the total equals the accounts reached unless the loop raised |
| GuiControl.LoadAccounts | main_gui.py:75-126 | the upload succeeds exactly when the loader returned a non-empty list whose every entry unpacks into three fields; a failure carries no accounts and a zero count, and a success numbers the accounts from 1 in file order, each "waiting" at 0, with a count equal to their number |
| GuiControl.FormatRows | main_gui.py:99-110 | one frontend row per account, in order, numbered from the given start |
| GuiControl.LoadedIdsDistinct | main_gui.py:100-103 | no two loaded accounts share an id |
| GuiControl.SelectedDate | main_gui.py:265-271 | a selected date is present only when the setting was given and parses to a valid calendar date; an absent or empty setting selects none |
| GuiControl.SelectedDateRoundTrip | main_gui.py:269 | a valid date written as `YYYY-MM-DD` is selected as itself |
| GuiControl.StartAutomation | main_gui.py:240-285 | a start is refused and changes nothing while a run is marked running; otherwise it is accepted, clears the stop event, marks a run as running and hands the parsed date to the new run |
| GuiControl.PauseAutomation | main_gui.py:289-301 | the pause flag flips, the reply reports its new value, and nothing else changes |
| GuiControl.PauseTwiceRestores | main_gui.py:289-301 | two pause calls in a row restore the original state |
| GuiControl.StopAutomation | main_gui.py:305-314 | a stop sets the stop event and marks no run as running, and changes nothing else |
| GuiControl.StartAfterStopAccepted | main_gui.py:255-263 | a start right after a stop is accepted and clears the stop event again while marking a run as running, because the stop does not wait for the background run to end |
| GuiControl.LoopMissesStopFollowedByStart | main_gui.py:309-310 | after a stop followed by a start, the running loop finds no stop request |
| GuiControl.ClearResults | main_gui.py:800-804 | clearing empties the kept results and changes nothing else |
| GuiControl.ExportReady | main_gui.py:695-704 | export is ready exactly when there are kept results, and the count is their number |
| GuiControl.NothingToExportAfterClear | main_gui.py:695-804 | right after clearing, nothing is ready for export |
| GuiControl.RunBackground | main_gui.py:317-565 | a background run ends with neither "running" nor "paused" set, fixes the export date to the selected date or today, appends exactly the rows of the processed accounts to the kept results, processes each account up to where it ended once, in order, keeps the master files well formed and leaves the telemetry consistent with one success per row |
| GuiControl.RunKeepsEarlierResults | main_gui.py:337-343 | a run keeps the earlier results in front of the new ones, so an export stays ready after it |
| Export.KeepsTrans | export_handler.py:96-152 | writes that only add to a sheet and leave everything before a position alone compose, so an earlier row survives every later row |
| Export.FromRecord | modules/core/process_manager.py:256-264 | a result row as the run controller builds it carries its pangkalan_id, name, status, stock and sold text under the keys the exporters read |
| Export.CountOfTabung | export_handler.py:101-116 | a count written as "n Tabung" exports as n |
| Export.ThousandsSeparatorReadsZero | export_handler.py:101-111 | a count written with a thousands separator, such as "1,200 Tabung", exports as 0 because only " Tabung" is removed before `int()` |
| Export.SingleShade | export_handler.py:134-150 | the single-date export fills the status green exactly for "Ada Penjualan" and red for anything else, never amber |
| Export.SingleHeaderCells | export_handler.py:52-62 | the single-date header fills rows 1 and 2 of columns 1 to 5, with the export date over the block and "STATUS" in column 5 |
| Export.WriteEntry | export_handler.py:118-150 | one data row shows the record's id, name, stock, sold count and status with the status fill, touches only columns 1 to 5 of its own row, and keeps everything before it |
| Export.HoldsLineKept | export_handler.py:96-152 | a written row still shows its record after any write that keeps the rows before the next one |
| Export.WriteEntries | export_handler.py:96-152 | the data loop writes only columns 1 to 5 of its own rows and keeps everything before its first row |
| Export.WriteEntriesHold | export_handler.py:96-152 | every record lands on its own row, in input order |
| Export.ExportSingle | export_handler.py:15-167 | the single-date export has the export date in the header, "STATUS" at row 2 column 5, one row per record from row 3 in input order, and nothing outside rows 1 to 2 plus the record count or columns 1 to 5 |
| Export.EmptyRecordDefaults | export_handler.py:99-105 | a record without keys exports with a blank id, a zero stock and a red "Tidak Ada Penjualan" |
| Export.RecordExportsCounts | export_handler.py:99-150 | a result row from the run controller exports its stock and sold counts unchanged, and is green exactly when its status is "Ada Penjualan" |
| Export.RecordLine | export_handler.py:99-116 | reading a result row from the run controller gives back its id, name, counts and status |
| Export.Tag | export_handler.py:262-263 | each record of one date is paired with that date's string, in order |
| Export.IndexOfId | export_handler.py:265 | the position found holds an account with the id, and no position is found only when no account has it |
| Export.FirstNameSnoc | export_handler.py:265-269 | an id already seen keeps the name of its first record however many records follow |
| Export.FirstNameNew | export_handler.py:265-269 | an unseen id takes the name of the record that introduces it |
| Export.RecordIdsSnoc | export_handler.py:261-271 | one more record adds exactly its id to the ids seen |
| Export.LastEntrySnoc | export_handler.py:271 | one more record becomes the last one for its id and date and leaves every other id and date alone |
| Export.AddNewCollected | export_handler.py:265-271 | a record with an unseen id opens a new account and keeps every collection fact |
| Export.AddSeenCollected | export_handler.py:271 | a record with a seen id replaces that account's record for its date and keeps every collection fact |
| Export.StockOf | export_handler.py:289-299 | a record without a stock field has stock 0 |
| Export.SoldOf | export_handler.py:290-305 | a record without a sold field has sold 0 |
| Export.StatusOf | export_handler.py:293 | a record's status is its status field, or "Tidak Ada Penjualan" when it has none |
| Export.Collect | export_handler.py:260-271 | the collection gives one account per distinct id, with the name of its first record and, for each date, exactly its last record under that date |
| Export.DistinctPermutation | export_handler.py:275 | reordering a list without repeats leaves it without repeats |
| Export.ByIdPreorder | export_handler.py:275 | ordering accounts by id is total and transitive, as `sorted` requires |
| Export.PermutationCollected | export_handler.py:275 | sorting the collected accounts keeps every collection fact |
| Export.Rows | export_handler.py:274 | the data rows are the collected accounts, rearranged only, in ascending id order |
| Export.RowsFacts | export_handler.py:260-275 | the data rows are the collected accounts in strictly ascending id order, one row per id, each keeping its first name and its last record per date |
| Export.SortedDates | export_handler.py:214 | sorting the dates only reorders them, and keeps them valid |
| Export.SortedDatesFacts | export_handler.py:214 | the sorted dates are in calendar order, valid, and without repeats when there were none |
| Export.Names | export_handler.py:215 | the header names are the `YYYY-MM-DD` strings of the dates, in order |
| Export.NamesDistinct | export_handler.py:215 | distinct valid dates have distinct header names |
| Export.DateColumns | export_handler.py:211-232 | the column map keeps every earlier entry and has an entry for every date string |
| Export.DateColumnsKeep | export_handler.py:216 | a string not among the dates keeps the column it had |
| Export.DateColumnsAt | export_handler.py:211-232 | without repeated dates, the i-th date's block starts at column 3 + 3i from the first block |
| Export.HeaderCells | export_handler.py:225-230 | one date's header cells lie in rows 1 and 2 of its three columns |
| Export.DateHeaders | export_handler.py:213-232 | the header loop leaves the fills and every cell outside rows 1 and 2 of the date blocks unchanged |
| Export.DateHeadersHold | export_handler.py:213-232 | each date's header block shows the date over "STOK (TABUNG)", "INPUT (TABUNG)" and "STATUS", three columns after the previous block |
| Export.BlockCells | export_handler.py:306-317 | one date block of a data row lies in its own row within the block's three columns |
| Export.WriteBlocks | export_handler.py:281-317 | the block loop of a data row changes no fill and no other row |
| Export.WriteBlocksHold | export_handler.py:281-317 | when each date string names its own block, each block shows its date's values and nothing left of the blocks changes |
| Export.RedUnreachable | export_handler.py:330-344 | as written, the multi-date export never fills a status red |
| Export.NoSaleShownGreen | export_handler.py:330-344 | as written, "Tidak Ada Penjualan" is green in the multi-date export but red in the single-date export |
| Export.MultiShadeAsWritten | export_handler.py:330-351 | the fill as written: green exactly for text containing "Ada Penjualan", amber exactly for text containing neither sales phrase |
| Export.MultiShade | export_handler.py:330-351 | the intended multi-date fill: red exactly for text containing "Tidak Ada Penjualan", green exactly for other text containing "Ada Penjualan", amber exactly for text without it |
| Export.MultiShadeAgrees | export_handler.py:134-150 | the intended multi-date fill agrees with the single-date fill on both sale statuses, and "Tidak Ada Data" and an empty cell are amber |
| Export.ShadeRow | export_handler.py:320-351 | the style loop fills every status column of the row after the text in it by the given rule, changes no cell and touches no other fill; under the rule as written it never adds a red fill |
| Export.WriteAccount | export_handler.py:276-351 | writing an account's row only adds to the sheet, changes nothing above it and writes no other row; under the rule as written it adds no red fill |
| Export.ShadeRowHolds | export_handler.py:320-351 | after the style loop each date's status column carries the fill the rule gives the status written there |
| Export.WriteAccountHolds | export_handler.py:276-351 | a written row shows the account's id and name, one block per date from column 3, and the status fills |
| Export.HoldsAccountKept | export_handler.py:274-353 | a shown row survives every later write below it |
| Export.WriteAccounts | export_handler.py:274-353 | the row loop writes only its own rows, changes nothing above them and, under the rule as written, adds no red fill |
| Export.WriteAccountsHold | export_handler.py:274-353 | every account lands on its own row, in order |
| Export.MultiSheet | export_handler.py:202-353 | the multi-date sheet has the id and name headers and nothing below the last account row, and under the rule as written no red fill |
| Export.MultiHeadCells | export_handler.py:202-232 | the header rows keep the id and name headers and hold nothing below row 2 |
| Export.MultiSheetLayout | export_handler.py:202-353 | without repeated date strings, each date heads its own block and each account fills its own row |
| Export.ExportMultiBy | export_handler.py:174-372 | the multi-date export under either fill rule has the id and name headers, nothing below the last collected account's row, and under the rule as written no red fill |
| Export.ExportMulti | export_handler.py:330-344 | the multi-date export as written: no status fill anywhere in the sheet is red |
| Export.MultiLayout | export_handler.py:211-353 | without repeated dates, the i-th date in calendar order heads columns 3 + 3i to 5 + 3i and row 3 + k shows the k-th account by id under them |
| Export.MultiCellsShowLastRecord | export_handler.py:260-344 | row 3 + k shows the k-th account by id under its first name, and each date's block shows that account's last record for the date with its status filled by the rule, or 0, 0 and an amber "Tidak Ada Data" when there is none |
| Export.NoSaleCellFill | export_handler.py:330-344 | a date whose last record has a no-sale status is filled green in the export as written and red in the intended one |
| Sorting.Sort | export_handler.py:214 | `sorted` returns a rearrangement of its input, no element gained or lost |
| Sorting.SortSorted | export_handler.py:214 | under a total preorder the sorted list is in order |
| Sorting.InsertPeers | modules/data/supabase_client.py:299 | helper of `Sorting.SortStable`: inserting an element puts it before the elements ranked equal to it and moves no other element past one of them |
| Sorting.SortStable | modules/data/supabase_client.py:299 | the sort is stable: the elements ranked equal to any given one, such as checks with the same `created_at`, leave the sort in the order they came in |


## The two rates are not complementary

- Each rate is computed as a percentage of the same total
  (`modules/core/telemetry.py:190-212`), but one account can raise both the
  success and the failure counter. When an exception is raised after an
  account's success has been recorded, for example by the result callback,
  the handler also records a failure for that account
  (`modules/core/process_manager.py:281-307`). `Runner.LateExceptionCountsTwice`
  shows that such an account counts once as a success and once as a
  failure. `Runner.LateExceptionRates` shows a one-account run whose two
  rates are both 100, so the rates can add up to more than 100.

## Left out

- Browser automation: setup, login, navigation and the extractors. The
  model replaces them with a probe per account that says which step fails,
  what it reads and where an exception is raised. This includes the login
  module's lockout and cooldown detection.
- The web UI (`web/app.js`, `web/login.js`), the eel bridge, the Tk file
  dialog and console I/O. The GUI functions are modelled from the point
  where they receive decoded values.
- Threads. Control calls are atomic batches that take effect where the loop
  reads its flags. Real interleavings within one statement are not modelled.
- `time.sleep` and every log or `print` text. Sleeps show only in the clock
  readings that follow them.
- Floating point. Durations and rates are exact reals. The global progress
  bar `int(idx / total * 100)`, `format_duration`, `_format_duration`,
  `format_currency` and all rounding for display are not modelled.
- Workbook I/O and styling. Loading and saving are identity over a
  directory given as a map. Borders, column widths, alignment, fonts,
  freeze panes and the header merging of `_merge_and_color_date_headers`,
  `_format_headers_new` and `_apply_borders` are left out. So is everything
  in the export sheets except cell values and status fills.
- The unused helpers of `modules/data/excel.py`: `get_excel_filename`,
  `get_day_color`, `_setup_headers`, `_fill_data`,
  `_apply_conditional_formatting`, `_format_headers` and
  `save_to_excel_new_format`.
- Export file names, directories and time stamps. The exporters are
  modelled as functions from results to a sheet.
- `main_gui.py` imports root-level modules (`utils`, `excel_handler`,
  `telemetry_manager`, `browser_setup` and the others) that are not part of
  this model. The model stands `modules/data/excel.py` and
  `modules/core/telemetry.py` in for them. `GuiControl.LoadAccounts` takes
  the loader's result as a parameter.
- Validators outside the named set: `is_valid_nik` and
  `validate_excel_columns`.
- Network: `check_internet_http`, the log callback texts and the decorator
  `wrap_with_internet_check`. The decorator performs the same check as
  `check_before_step`.
- Network.EnsureOnline: `is_online()` uses a shorter socket timeout than
  `check_internet_simple`. The model gives both the same probe answers, so
  the two are not distinguished.
- Config: the values of the module-level settings other than the ones
  the presets, `is_headless_mode` and `get_chrome_binary` read. The model
  keeps the settings as a map from names to values.
- Sessions: `has_valid_session`, `clear_expired_sessions`,
  `validate_session`, `set_validity_days` and the `get_session_manager`
  singleton. JSON encoding is replaced by storing the record itself.
- Utils: the pandas reading of the account workbook, which the model
  replaces with rows of cell texts. Also `input_with_timeout` with its
  thread, `print_final_summary`, `get_main_menu_input` and
  `setup_logging`.
- Remote store: the query filters that Supabase applies on the server
  (company, date ranges). The model receives the rows the queries return.
  Also left out are the `last_login` update in `login_user`,
  `update_account_result` and `add_account`. SHA-256 is a parameter.
- Telemetry: the report file of `save_session_report`,
  `get_real_time_metrics` beyond the failure list, throughput,
  `get_total_duration` and the `get_telemetry_manager` singleton.
- Export.MultiLayout: the column layout is proved only for dates without
  repeats. The model computes the sheet for repeated dates as well, but no
  lemma states its layout.
- Sessions.SessionInfo: `get_session_info` reads the clock twice, once
  for the remaining time and once for the validity test
  (`session_manager.py:263`, `:269`). The model takes one reading `now`
  for both, so it does not cover the clock passing the expiry between the
  two reads.
- Sessions: instants are whole seconds, while `datetime.now()` carries
  microseconds (`session_manager.py:93`, `:133`, `:263-271`). The model
  drops the fraction, so it does not cover a sub-second difference that
  decides the expiry test, `remaining.days` or `remaining.seconds // 3600`
  near a boundary.
- Remote.CreatedAt: Python can sort a group whose `created_at` keys are
  all numbers without raising, and it sorts them numerically. The model
  treats any non-string key in a group of two or more rows as raising,
  because the store returns time stamps as text.

## Findings

| source | as written | input that shows it | evidently intended | confidence | as-written member | corrected member |
|---|---|---|---|---|---|---|
| export_handler.py:330-344 | the multi-date export tests for the substring "Ada Penjualan" before "Tidak Ada Penjualan" | the status "Tidak Ada Penjualan" contains "Ada Penjualan", so it is filled green, and the red branch is never taken | a no-sale status is filled red, as in the single-date export (export_handler.py:136-150) | not executed | Export.ExportMulti, with the fill Export.MultiShadeAsWritten (lemmas Export.RedUnreachable, Export.NoSaleShownGreen, Export.NoSaleCellFill) | Export.ExportMultiIntended, with the fill Export.MultiShade (lemmas Export.MultiShadeAgrees, Export.NoSaleCellFill) |

=== FILE: accounts.dfy ===
/**
  The account helpers of modules/core/utils.py: the row filter of
  `load_accounts_from_excel`, the duplicate count of `print_account_stats`,
  and the checks `get_date_input` applies to a typed date. Reading the
  spreadsheet and the console are inputs: the rows as pandas hands them
  over (with `dtype=str`) and the lines typed.
*/
module Accounts {
  import opened Wrappers
  import opened Text
  import opened Calendar
  import V = Validators

  // ---------------------------------------------------------------------------
  // load_accounts_from_excel
  // ---------------------------------------------------------------------------

  /** A cell as pandas reads it with `dtype=str`; an empty cell is NaN, `None` here. */
  type Cell = Option<string>

  /** `str(cell)`: NaN prints as "nan". */
  function CellText(c: Cell): string {
    match c
    case None => "nan"
    case Some(s) => s
  }

  datatype SheetRow = SheetRow(nama: Cell, username: Cell, password: Cell, pangkalanId: Cell)

  /** The rows, and whether the optional `Pangkalan_id` column is there at all. */
  datatype Sheet = Sheet(hasPangkalanColumn: bool, rows: seq<SheetRow>)

  /** The tuple `(nama, username, pin, pangkalan_id)`. */
  datatype Account = Account(nama: string, username: string, pin: string, pangkalanId: string)

  /**
    One row, its fields stripped; a missing column reads as "", and an empty
    or "nan" `pangkalan_id` falls back to the username.
  */
  function Convert(hasColumn: bool, row: SheetRow): (a: Account)
    ensures var pid := Strip(if hasColumn then CellText(row.pangkalanId) else "");
      a.pangkalanId == if pid == "" || pid == "nan" then a.username else pid
  {
    var username := Strip(CellText(row.username));
    var pid := Strip(if hasColumn then CellText(row.pangkalanId) else "");
    Account(Strip(CellText(row.nama)), username, Strip(CellText(row.password)),
            if pid == "" || pid == "nan" then username else pid)
  }

  /** What a kept account satisfies: an email or phone username, a valid PIN, an id. */
  predicate ValidAccount(a: Account) {
    (V.IsValidEmail(V.RStr(a.username)) || V.IsValidPhone(V.RStr(a.username)))
    && V.IsValidPin(V.RStr(a.pin)) && a.pangkalanId != ""
  }

  /** The row survives the username check and then the PIN check. */
  predicate Keep(hasColumn: bool, row: SheetRow) {
    var a := Convert(hasColumn, row);
    (V.IsValidEmail(V.RStr(a.username)) || V.IsValidPhone(V.RStr(a.username))) && V.IsValidPin(V.RStr(a.pin))
  }

  /** A kept row always has an id: the username, when the id is missing, is non-empty. */
  lemma KeptHasId(hasColumn: bool, row: SheetRow)
    requires Keep(hasColumn, row)
    ensures ValidAccount(Convert(hasColumn, row))
  {
  }

  /** `keep` filters and `conv` converts, one element at a time, in order. */
  function FilterMap<A, B>(keep: A -> bool, conv: A -> B, xs: seq<A>): (r: seq<B>)
    ensures |r| <= |xs|
    ensures r == [] <==> forall i :: 0 <= i < |xs| ==> !keep(xs[i])
    decreases |xs|
  {
    if xs == [] then []
    else
      var rest := FilterMap(keep, conv, xs[1..]);
      assert forall i :: 1 <= i < |xs| ==> xs[i] == xs[1..][i - 1];
      (if keep(xs[0]) then [conv(xs[0])] else []) + rest
  }

  lemma {:induction false} FilterMapAppend<A, B>(keep: A -> bool, conv: A -> B, a: seq<A>, b: seq<A>)
    ensures FilterMap(keep, conv, a + b) == FilterMap(keep, conv, a) + FilterMap(keep, conv, b)
    decreases |a|
  {
    if a == [] {
      assert a + b == b;
    } else {
      assert (a + b)[1..] == a[1..] + b;
      FilterMapAppend(keep, conv, a[1..], b);
    }
  }

  lemma {:induction false} FilterMapMembers<A, B>(keep: A -> bool, conv: A -> B, xs: seq<A>, y: B)
    ensures y in FilterMap(keep, conv, xs) <==> exists i :: 0 <= i < |xs| && keep(xs[i]) && conv(xs[i]) == y
    decreases |xs|
  {
    if xs != [] {
      FilterMapMembers(keep, conv, xs[1..], y);
      if y in FilterMap(keep, conv, xs[1..]) {
        var i :| 0 <= i < |xs[1..]| && keep(xs[1..][i]) && conv(xs[1..][i]) == y;
        assert xs[i + 1] == xs[1..][i];
      }
      if exists i :: 0 <= i < |xs| && keep(xs[i]) && conv(xs[i]) == y {
        var i :| 0 <= i < |xs| && keep(xs[i]) && conv(xs[i]) == y;
        if i > 0 {
          assert xs[1..][i - 1] == xs[i];
        }
      }
    }
  }

  /** The accounts of the rows that survive, in row order. */
  function Survivors(hasColumn: bool, rows: seq<SheetRow>): (r: seq<Account>)
    ensures |r| <= |rows|
    ensures r == [] <==> forall i :: 0 <= i < |rows| ==> !Keep(hasColumn, rows[i])
  {
    FilterMap(row => Keep(hasColumn, row), row => Convert(hasColumn, row), rows)
  }

  /** Every account returned is a kept row's, so it is valid. */
  lemma SurvivorsValid(hasColumn: bool, rows: seq<SheetRow>)
    ensures forall a :: a in Survivors(hasColumn, rows) ==> ValidAccount(a)
  {
    forall a | a in Survivors(hasColumn, rows) ensures ValidAccount(a) {
      SurvivorsMembers(hasColumn, rows, a);
      var i :| 0 <= i < |rows| && Keep(hasColumn, rows[i]) && Convert(hasColumn, rows[i]) == a;
      KeptHasId(hasColumn, rows[i]);
    }
  }

  /** Rows are filtered one by one: the survivors of two blocks are the survivors of each, in order. */
  lemma SurvivorsAppend(hasColumn: bool, a: seq<SheetRow>, b: seq<SheetRow>)
    ensures Survivors(hasColumn, a + b) == Survivors(hasColumn, a) + Survivors(hasColumn, b)
  {
    FilterMapAppend(row => Keep(hasColumn, row), row => Convert(hasColumn, row), a, b);
  }

  /** A single row gives its account when it is kept and nothing otherwise. */
  lemma SurvivorsOne(hasColumn: bool, row: SheetRow)
    ensures Survivors(hasColumn, [row]) == if Keep(hasColumn, row) then [Convert(hasColumn, row)] else []
  {
    assert [row][1..] == [];
  }

  /** An account is returned exactly when some kept row converts to it. */
  lemma SurvivorsMembers(hasColumn: bool, rows: seq<SheetRow>, a: Account)
    ensures a in Survivors(hasColumn, rows) <==>
            exists i :: 0 <= i < |rows| && Keep(hasColumn, rows[i]) && Convert(hasColumn, rows[i]) == a
  {
    FilterMapMembers(row => Keep(hasColumn, row), row => Convert(hasColumn, row), rows, a);
  }

  datatype LoadError = Unreadable | NoValidAccounts

  /**
    `load_accounts_from_excel(filename)`: `None` when the file cannot be
    read or lacks a required column (the error propagates); otherwise the
    surviving accounts, and a `ValueError` when none survives.
  */
  function LoadAccounts(sheet: Option<Sheet>): (r: Result<seq<Account>, LoadError>)
    ensures sheet.None? <==> r == Err(Unreadable)
    ensures r == Err(NoValidAccounts) <==>
      sheet.Some? && forall i :: 0 <= i < |sheet.value.rows| ==> !Keep(sheet.value.hasPangkalanColumn, sheet.value.rows[i])
    ensures r.Ok? ==> r.value != [] && forall a :: a in r.value ==> ValidAccount(a)
    ensures r.Ok? ==> |r.value| <= |sheet.value.rows|
    ensures r.Ok? ==> r.value == Survivors(sheet.value.hasPangkalanColumn, sheet.value.rows)
  {
    match sheet
    case None => Err(Unreadable)
    case Some(sh) =>
      var accs := Survivors(sh.hasPangkalanColumn, sh.rows);
      SurvivorsValid(sh.hasPangkalanColumn, sh.rows);
      if accs == [] then Err(NoValidAccounts) else Ok(accs)
  }

  /** A cell reading "nan", typed or empty, gives the username as the id. */
  lemma NanIdFallsBack(row: SheetRow)
    requires row.pangkalanId == None || row.pangkalanId == Some("nan")
    ensures Convert(true, row).pangkalanId == Convert(true, row).username
  {
    StripOfUnpadded("nan");
  }

  // ---------------------------------------------------------------------------
  // print_account_stats
  // ---------------------------------------------------------------------------

  function Usernames(accs: seq<Account>): (r: seq<string>)
    ensures |r| == |accs| && forall i :: 0 <= i < |r| ==> r[i] == accs[i].username
  {
    seq(|accs|, i requires 0 <= i < |accs| => accs[i].username)
  }

  function Occurrences(s: seq<string>, u: string): nat
    decreases |s|
  {
    if s == [] then 0 else (if s[0] == u then 1 else 0) + Occurrences(s[1..], u)
  }

  function Elements(s: seq<string>): set<string> {
    set u | u in s
  }

  predicate NoRepeats(s: seq<string>) {
    forall i, j :: 0 <= i < j < |s| ==> s[i] != s[j]
  }

  /** The distinct values in order of first appearance, as `Counter` keeps its keys. */
  function FirstSeen(s: seq<string>): (r: seq<string>)
    ensures NoRepeats(r) && Elements(r) == Elements(s)
    decreases |s|
  {
    if s == [] then []
    else
      var d := FirstSeen(s[..|s| - 1]);
      assert Elements(s) == Elements(s[..|s| - 1]) + {s[|s| - 1]} by {
        assert s == s[..|s| - 1] + [s[|s| - 1]];
      }
      if s[|s| - 1] in d then d else d + [s[|s| - 1]]
  }

  function KeepRepeated(d: seq<string>, s: seq<string>): (r: seq<string>)
    ensures forall u :: u in r <==> u in d && Occurrences(s, u) > 1
    decreases |d|
  {
    if d == [] then []
    else (if Occurrences(s, d[0]) > 1 then [d[0]] else []) + KeepRepeated(d[1..], s)
  }

  /** Counting: a sequence has as many distinct elements as entries exactly when nothing repeats. */
  lemma {:induction false} DistinctCount(s: seq<string>)
    ensures |Elements(s)| <= |s|
    ensures |Elements(s)| == |s| <==> forall u :: u in s ==> Occurrences(s, u) == 1
    decreases |s|
  {
    if s != [] {
      var t := s[1..];
      DistinctCount(t);
      assert Elements(s) == {s[0]} + Elements(t) by {
        assert forall u :: u in s <==> u == s[0] || u in t;
      }
      OccurrencesPositive(t);
      if s[0] in t {
        assert Elements(s) == Elements(t);
        assert Occurrences(s, s[0]) > 1;
      } else {
        assert |Elements(s)| == |Elements(t)| + 1;
        assert Occurrences(s, s[0]) == 1 by { assert Occurrences(t, s[0]) == 0; }
        forall u | u in t ensures Occurrences(s, u) == Occurrences(t, u) {
          assert u != s[0];
        }
        assert (forall u :: u in s ==> Occurrences(s, u) == 1) <==> (forall u :: u in t ==> Occurrences(t, u) == 1) by {
          assert forall u :: u in s <==> u == s[0] || u in t;
        }
      }
    }
  }

  lemma {:induction false} OccurrencesPositive(s: seq<string>)
    ensures forall u :: u in s <==> Occurrences(s, u) > 0
    decreases |s|
  {
    if s != [] {
      OccurrencesPositive(s[1..]);
      assert forall u :: u in s <==> u == s[0] || u in s[1..];
    }
  }

  datatype AccountStats = AccountStats(total: nat, unique: nat, duplicates: seq<string>)

  /**
    `print_account_stats(accounts)`: the total, the number of distinct
    usernames, and, only when those differ, the usernames that occur more
    than once in first-appearance order.
  */
  function Stats(accs: seq<Account>): (r: AccountStats)
    ensures r.total == |accs| && r.unique == |Elements(Usernames(accs))|
    ensures r.unique <= r.total
    ensures forall u :: u in r.duplicates <==> Occurrences(Usernames(accs), u) > 1
    ensures r.duplicates != [] <==> r.total != r.unique
    ensures NoRepeats(r.duplicates)
  {
    var us := Usernames(accs);
    DistinctCount(us);
    OccurrencesPositive(us);
    var total := |us|;
    var unique := |Elements(us)|;
    var dupes := if total != unique then KeepRepeated(FirstSeen(us), us) else [];
    RepeatsFound(us);
    SameElements(FirstSeen(us), us);
    KeepRepeatedNoRepeats(FirstSeen(us), us);
    AccountStats(total, unique, dupes)
  }

  lemma SameElements(a: seq<string>, b: seq<string>)
    requires Elements(a) == Elements(b)
    ensures forall u :: u in a <==> u in b
  {
    forall u ensures u in a <==> u in b {
      assert u in a <==> u in Elements(a);
      assert u in b <==> u in Elements(b);
    }
  }

  /** When some username repeats, the duplicate list is not empty. */
  lemma RepeatsFound(us: seq<string>)
    ensures |Elements(us)| != |us| ==> KeepRepeated(FirstSeen(us), us) != []
    ensures |Elements(us)| == |us| ==> forall u :: Occurrences(us, u) <= 1
  {
    DistinctCount(us);
    OccurrencesPositive(us);
    if |Elements(us)| != |us| {
      var u :| u in us && Occurrences(us, u) != 1;
      assert u in Elements(FirstSeen(us));
      assert u in KeepRepeated(FirstSeen(us), us);
    }
  }

  lemma {:induction false} KeepRepeatedNoRepeats(d: seq<string>, s: seq<string>)
    requires NoRepeats(d)
    ensures NoRepeats(KeepRepeated(d, s))
    decreases |d|
  {
    if d != [] {
      assert NoRepeats(d[1..]) by {
        forall i, j | 0 <= i < j < |d[1..]| ensures d[1..][i] != d[1..][j] {
          assert d[1..][i] == d[i + 1] && d[1..][j] == d[j + 1];
        }
      }
      KeepRepeatedNoRepeats(d[1..], s);
      assert d[0] !in d[1..] by {
        forall i | 0 <= i < |d[1..]| ensures d[1..][i] != d[0] {
          assert d[1..][i] == d[i + 1];
        }
      }
    }
  }

  // ---------------------------------------------------------------------------
  // get_date_input
  // ---------------------------------------------------------------------------

  datatype Reason = BadFormat | BadYear | BadMonth | BadDay | NotADate

  /** One typed line: skip the filter, take a date, or complain and ask again. */
  datatype Answer = Skip | Picked(date: Date) | Again(reason: Reason)

  /** The three fields of a `DD/MM/YYYY` line as `int` reads them. */
  function Fields(s: string): (r: (int, int, int))
    requires V.DmyShape(s)
  {
    (DigitsValue(s[0..2]), DigitsValue(s[3..5]), DigitsValue(s[6..10]))
  }

  /** The year, month and day checks, in the order the loop makes them. */
  predicate InRange(f: (int, int, int)) {
    2020 <= f.2 <= 2030 && 1 <= f.1 <= 12 && 1 <= f.0 <= 31
  }

  /**
    One pass of `get_date_input`'s loop on the stripped line: the pattern
    `^\d{2}/\d{2}/\d{4}$` (stripping leaves no final newline for `$`
    to skip), the range checks, then `datetime(year, month, day)`.
  */
  function Decide(s: string): (r: Answer)
    ensures r.Skip? <==> s == ""
    ensures r.Picked? <==> s != "" && V.DmyShape(s) && InRange(Fields(s))
                           && ValidDate(Date(Fields(s).2, Fields(s).1, Fields(s).0))
    ensures r.Picked? ==> r.date == Date(Fields(s).2, Fields(s).1, Fields(s).0)
    ensures r.Picked? ==> ValidDate(r.date) && 2020 <= r.date.year <= 2030
  {
    if s == "" then Skip
    else if !V.DmyShape(s) then Again(BadFormat)
    else
      var (day, month, year) := Fields(s);
      if year < 2020 || year > 2030 then Again(BadYear)
      else if month < 1 || month > 12 then Again(BadMonth)
      else if day < 1 || day > 31 then Again(BadDay)
      else if ValidDate(Date(year, month, day)) then Picked(Date(year, month, day))
      else Again(NotADate)
  }

  /** The typed line, as `input_with_timeout` returns it ("" on a timeout), is stripped first. */
  function ReadDate(line: string): (r: Answer)
    ensures r.Skip? <==> Strip(line) == ""
    ensures r.Picked? ==> ValidDate(r.date) && 2020 <= r.date.year <= 2030
  {
    Decide(Strip(line))
  }

  /** `DD/MM/YYYY`, the format the prompt asks for. */
  function FormatDmy(d: Date): (r: string)
    requires ValidDate(d)
    ensures V.DmyShape(r)
  {
    TwoDigits(d.day) + "/" + TwoDigits(d.month) + "/" + FourDigits(d.year)
  }

  lemma FieldsOfFormat(d: Date)
    requires ValidDate(d)
    ensures Fields(FormatDmy(d)) == (d.day, d.month, d.year)
  {
    var s := FormatDmy(d);
    assert s[0..2] == TwoDigits(d.day);
    assert s[3..5] == TwoDigits(d.month);
    assert s[6..10] == FourDigits(d.year);
  }

  /** Every date in the accepted years, typed as asked, is read back as itself. */
  lemma ReadFormattedDate(d: Date)
    requires ValidDate(d) && 2020 <= d.year <= 2030
    ensures ReadDate(FormatDmy(d)) == Picked(d)
  {
    var s := FormatDmy(d);
    StripOfUnpadded(s);
    FieldsOfFormat(d);
  }

  /** Conversely, a date taken from a line is that line, stripped, in the same format. */
  lemma PickedIsFormatted(line: string)
    requires ReadDate(line).Picked?
    ensures FormatDmy(ReadDate(line).date) == Strip(line)
  {
    var s := Strip(line);
    var d := ReadDate(line).date;
    assert d == Date(Fields(s).2, Fields(s).1, Fields(s).0);
    Rebuild(s);
  }

  /** A `DD/MM/YYYY` line is the zero-padded spelling of its own fields. */
  lemma Rebuild(s: string)
    requires V.DmyShape(s)
    ensures AllDigits(s[0..2]) && AllDigits(s[3..5]) && AllDigits(s[6..10])
    ensures DigitsValue(s[0..2]) < 100 && DigitsValue(s[3..5]) < 100 && DigitsValue(s[6..10]) < 10000
    ensures TwoDigits(DigitsValue(s[0..2])) + "/" + TwoDigits(DigitsValue(s[3..5])) + "/" + FourDigits(DigitsValue(s[6..10])) == s
  {
    TwoDigitsOfValue(s[0..2]);
    TwoDigitsOfValue(s[3..5]);
    FourDigitsOfValue(s[6..10]);
    assert s == s[0..2] + "/" + s[3..5] + "/" + s[6..10];
  }

  /** Two digit strings of one length with one value are the same string. */
  lemma {:induction false} DigitsValueInjective(s: string, t: string)
    requires |s| == |t| && AllDigits(s) && AllDigits(t) && DigitsValue(s) == DigitsValue(t)
    ensures s == t
    decreases |s|
  {
    if s != [] {
      var n := |s| - 1;
      assert DigitVal(s[n]) == DigitVal(t[n]);
      DigitsValueInjective(s[..n], t[..n]);
      assert s == s[..n] + [s[n]] && t == t[..n] + [t[n]];
    }
  }

  lemma TwoDigitsOfValue(t: string)
    requires |t| == 2 && AllDigits(t)
    ensures DigitsValue(t) < 100 && TwoDigits(DigitsValue(t)) == t
  {
    assert t[..|t| - 1] == t[..1] && t[..1][..0] == [];
    assert DigitsValue(t[..1]) < 10;
    DigitsValueInjective(TwoDigits(DigitsValue(t)), t);
  }

  lemma FourDigitsOfValue(t: string)
    requires |t| == 4 && AllDigits(t)
    ensures DigitsValue(t) < 10000 && FourDigits(DigitsValue(t)) == t
  {
    var c := t[..3];
    var b := c[..2];
    var a := b[..1];
    assert t[..|t| - 1] == c && c[..|c| - 1] == b && b[..|b| - 1] == a && a[..0] == [];
    assert DigitsValue(a) < 10 && DigitsValue(b) < 100 && DigitsValue(c) < 1000;
    DigitsValueInjective(FourDigits(DigitsValue(t)), t);
  }

  lemma FieldsOfLine()
    ensures V.DmyShape("31/04/2025") && Fields("31/04/2025") == (31, 4, 2025)
  {
    var s := "31/04/2025";
    assert s[0..2] == "31" && s[3..5] == "04" && s[6..10] == "2025";
    TwoValue("31");
    TwoValue("04");
    FourValue("2025");
    assert DigitsValue(s[0..2]) == 31 && DigitsValue(s[3..5]) == 4 && DigitsValue(s[6..10]) == 2025;
  }

  lemma TwoValue(t: string)
    requires |t| == 2 && AllDigits(t)
    ensures DigitsValue(t) == DigitVal(t[0]) * 10 + DigitVal(t[1])
  {
    var a := t[..1];
    assert t[..|t| - 1] == a && a[..|a| - 1] == [] && a[|a| - 1] == t[0];
    assert DigitsValue(a) == DigitVal(t[0]);
  }

  lemma FourValue(t: string)
    requires |t| == 4 && AllDigits(t)
    ensures DigitsValue(t) == DigitVal(t[0]) * 1000 + DigitVal(t[1]) * 100 + DigitVal(t[2]) * 10 + DigitVal(t[3])
  {
    var c := t[..3];
    var b := c[..2];
    assert t[..|t| - 1] == c && c[..|c| - 1] == b;
    TwoValue(b);
  }

  /** The prompt's range checks are `validate_date_range` on the three fields. */
  lemma InRangeIsValidateDateRange(f: (int, int, int))
    ensures InRange(f) <==> V.ValidateDateRange(V.RInt(f.0), V.RInt(f.1), V.RInt(f.2))
  {
  }

  /** A 31st of a 30-day month passes the range checks but is still refused. */
  lemma DayRangeIsNotEnough()
    ensures ReadDate("31/04/2025") == Again(NotADate)
  {
    StripOfUnpadded("31/04/2025");
    FieldsOfLine();
    assert !ValidDate(Date(2025, 4, 31));
  }

  /**
    The loop over the typed lines, with `read` the pass on one line: the
    first answer that is not a complaint decides; none at all means no filter.
  */
  function FirstDecided(read: string -> Answer, lines: seq<string>): (r: Option<Date>)
    ensures r.Some? <==> exists i :: 0 <= i < |lines| && read(lines[i]).Picked? && AllAgain(read, lines, i)
    ensures r.Some? ==> exists i :: 0 <= i < |lines| && AllAgain(read, lines, i) && read(lines[i]) == Picked(r.value)
    ensures forall i :: 0 <= i < |lines| && AllAgain(read, lines, i) && read(lines[i]).Picked? ==>
      r == Some(read(lines[i]).date)
    decreases |lines|
  {
    if lines == [] then None
    else
      var rest := FirstDecided(read, lines[1..]);
      match read(lines[0])
      case Skip =>
        assert forall i :: 0 < i < |lines| ==> !AllAgain(read, lines, i);
        None
      case Picked(d) =>
        assert AllAgain(read, lines, 0);
        assert forall i :: 0 < i < |lines| ==> !AllAgain(read, lines, i);
        Some(d)
      case Again(_) =>
        AllAgainShift(read, lines);
        assert !(read(lines[0]).Picked?);
        assert forall i :: 1 <= i < |lines| ==> lines[i] == lines[1..][i - 1];
        if rest.Some? then
          var i :| 0 <= i < |lines[1..]| && AllAgain(read, lines[1..], i) && read(lines[1..][i]) == Picked(rest.value);
          assert read(lines[i + 1]) == Picked(rest.value) && AllAgain(read, lines, i + 1);
          rest
        else rest
  }

  predicate AllAgain(read: string -> Answer, lines: seq<string>, i: int)
    requires 0 <= i <= |lines|
  {
    forall j :: 0 <= j < i ==> read(lines[j]).Again?
  }

  lemma AllAgainShift(read: string -> Answer, lines: seq<string>)
    requires lines != [] && read(lines[0]).Again?
    ensures forall i :: 0 <= i < |lines[1..]| ==>
      (read(lines[1..][i]).Picked? && AllAgain(read, lines[1..], i) <==> read(lines[i + 1]).Picked? && AllAgain(read, lines, i + 1))
  {
    forall i | 0 <= i < |lines[1..]|
      ensures read(lines[1..][i]).Picked? && AllAgain(read, lines[1..], i) <==> read(lines[i + 1]).Picked? && AllAgain(read, lines, i + 1)
    {
      assert forall j :: 0 <= j < i ==> lines[1..][j] == lines[j + 1];
    }
  }

  /**
    `get_date_input()` over the lines typed in turn. Once the lines run out,
    input times out and reads as "", which skips the filter.
  */
  function GetDateInput(lines: seq<string>): (r: Option<Date>)
    ensures r.Some? ==> ValidDate(r.value) && 2020 <= r.value.year <= 2030
    ensures r.Some? <==> exists i :: 0 <= i < |lines| && ReadDate(lines[i]).Picked? && AllAgain(ReadDate, lines, i)
    ensures forall i :: 0 <= i < |lines| && AllAgain(ReadDate, lines, i) && ReadDate(lines[i]).Picked? ==>
      r == Some(ReadDate(lines[i]).date)
  {
    FirstDecided(ReadDate, lines)
  }
}

=== FILE: calendar.dfy ===
/**
  Calendar dates as Python's `datetime` sees them: the proleptic Gregorian
  calendar for years 1..9999, `strftime("%Y-%m-%d")` and
  `strptime(s, "%Y-%m-%d")`.
*/
module Calendar {
  import opened Wrappers
  import opened Text

  datatype Date = Date(year: int, month: int, day: int)

  predicate IsLeap(y: int) { y % 4 == 0 && (y % 100 != 0 || y % 400 == 0) }

  function DaysInMonth(y: int, m: int): (n: int)
    requires 1 <= m <= 12
    ensures 28 <= n <= 31
  {
    if m == 2 then (if IsLeap(y) then 29 else 28)
    else if m == 4 || m == 6 || m == 9 || m == 11 then 30
    else 31
  }

  /** What `datetime(year, month, day)` accepts without raising `ValueError`. */
  predicate ValidDate(d: Date) {
    1 <= d.year <= 9999 && 1 <= d.month <= 12 && 1 <= d.day <= DaysInMonth(d.year, d.month)
  }

  /** Chronological order. */
  predicate DateLe(a: Date, b: Date) {
    a.year < b.year || (a.year == b.year && (a.month < b.month || (a.month == b.month && a.day <= b.day)))
  }

  lemma DateLeTotalOrder()
    ensures forall a, b :: DateLe(a, b) || DateLe(b, a)
    ensures forall a, b, c :: DateLe(a, b) && DateLe(b, c) ==> DateLe(a, c)
    ensures forall a, b :: DateLe(a, b) && DateLe(b, a) ==> a == b
  {
  }

  // ---------------------------------------------------------------------------
  // strftime("%Y-%m-%d")
  // ---------------------------------------------------------------------------

  function TwoDigits(n: nat): (r: string)
    requires n < 100
    ensures |r| == 2 && AllDigits(r) && DigitsValue(r) == n
  {
    var r1 := [DigitChar(n / 10)];
    var r := r1 + [DigitChar(n % 10)];
    assert DigitsValue(r1) == n / 10 by { assert r1[..0] == []; }
    assert r[..1] == r1;
    r
  }

  function FourDigits(n: nat): (r: string)
    requires n < 10000
    ensures |r| == 4 && AllDigits(r) && DigitsValue(r) == n
  {
    var r1 := [DigitChar(n / 1000)];
    var r2 := r1 + [DigitChar(n / 100 % 10)];
    var r3 := r2 + [DigitChar(n / 10 % 10)];
    var r := r3 + [DigitChar(n % 10)];
    assert DigitsValue(r1) == n / 1000 by { assert r1[..0] == []; }
    assert DigitsValue(r2) == n / 100 by { assert r2[..1] == r1; }
    assert DigitsValue(r3) == n / 10 by { assert r3[..2] == r2; }
    assert r[..3] == r3;
    r
  }

  /** `date.strftime("%Y-%m-%d")`: the year in four digits, month and day in two. */
  function FormatIso(d: Date): (r: string)
    requires ValidDate(d)
    ensures |r| == 10 && r[4] == '-' && r[7] == '-'
    ensures AllDigits(r[..4]) && AllDigits(r[5..7]) && AllDigits(r[8..])
    ensures DigitsValue(r[..4]) == d.year && DigitsValue(r[5..7]) == d.month && DigitsValue(r[8..]) == d.day
  {
    var y, m, dd := FourDigits(d.year), TwoDigits(d.month), TwoDigits(d.day);
    var r := y + "-" + m + "-" + dd;
    assert r[..4] == y && r[5..7] == m && r[8..] == dd;
    r
  }

  // ---------------------------------------------------------------------------
  // strptime(s, "%Y-%m-%d")
  // ---------------------------------------------------------------------------

  /**
    The `%m` field: the alternatives `1[0-2]|0[1-9]|[1-9]` of Python's
    `_strptime`, tried in order, the one chosen being the one after which the
    literal `-` can match. Yields the month and the width of the field.
  */
  function MonthField(t: string): (r: Option<(int, int)>)
    ensures r.Some? ==> 1 <= r.value.0 <= 12 && 1 <= r.value.1 < |t| && r.value.1 <= 2 && t[r.value.1] == '-'
  {
    if |t| >= 3 && t[2] == '-' && ((t[0] == '1' && '0' <= t[1] <= '2') || (t[0] == '0' && '1' <= t[1] <= '9')) then
      Some((DigitVal(t[0]) * 10 + DigitVal(t[1]), 2))
    else if |t| >= 2 && t[1] == '-' && '1' <= t[0] <= '9' then
      Some((DigitVal(t[0]), 1))
    else
      None
  }

  /**
    The `%d` field: the first of the alternatives `3[01]|[12]\d|0[1-9]|[1-9]| [1-9]`
    that matches at the start of `t`. Yields the day and the width of the field.
  */
  function DayField(t: string): (r: Option<(int, int)>)
    ensures r.Some? ==> 1 <= r.value.0 <= 31 && 1 <= r.value.1 <= |t| && r.value.1 <= 2
  {
    if |t| >= 2 && t[0] == '3' && (t[1] == '0' || t[1] == '1') then Some((30 + DigitVal(t[1]), 2))
    else if |t| >= 2 && (t[0] == '1' || t[0] == '2') && IsDigit(t[1]) then Some((DigitVal(t[0]) * 10 + DigitVal(t[1]), 2))
    else if |t| >= 2 && t[0] == '0' && '1' <= t[1] <= '9' then Some((DigitVal(t[1]), 2))
    else if |t| >= 1 && '1' <= t[0] <= '9' then Some((DigitVal(t[0]), 1))
    else if |t| >= 2 && t[0] == ' ' && '1' <= t[1] <= '9' then Some((DigitVal(t[1]), 2))
    else None
  }

  /**
    `datetime.strptime(s, "%Y-%m-%d")`, `None` standing for `ValueError`: four
    digits of year, `-`, the month field, `-`, the day field, nothing left over
    ("unconverted data remains"), and the fields must name a real date.
  */
  function ParseIso(s: string): (r: Option<Date>)
    ensures r.Some? ==> ValidDate(r.value)
  {
    if |s| < 5 || !AllDigits(s[..4]) || s[4] != '-' then None
    else
      var y := DigitsValue(s[..4]);
      match MonthField(s[5..])
      case None => None
      case Some(mf) =>
        var rest := s[5 + mf.1 + 1..];
        match DayField(rest)
        case None => None
        case Some(df) =>
          var d := Date(y, mf.0, df.0);
          if df.1 == |rest| && ValidDate(d) then Some(d) else None
  }

  lemma DayFieldOfTwoDigits(day: int)
    requires 1 <= day <= 31
    ensures DayField(TwoDigits(day)) == Some((day, 2))
  {
  }

  lemma MonthFieldOfTwoDigits(month: int, tail: string)
    requires 1 <= month <= 12
    ensures MonthField(TwoDigits(month) + "-" + tail) == Some((month, 2))
  {
  }

  /** `strptime(d.strftime("%Y-%m-%d"), "%Y-%m-%d") == d`. */
  lemma ParseFormatIso(d: Date)
    requires ValidDate(d)
    ensures ParseIso(FormatIso(d)) == Some(d)
  {
    var s := FormatIso(d);
    assert s[..4] == FourDigits(d.year);
    assert s[5..] == TwoDigits(d.month) + "-" + TwoDigits(d.day);
    MonthFieldOfTwoDigits(d.month, TwoDigits(d.day));
    assert s[8..] == TwoDigits(d.day);
    DayFieldOfTwoDigits(d.day);
  }

  /** Distinct dates have distinct `%Y-%m-%d` spellings. */
  lemma FormatIsoInjective(a: Date, b: Date)
    requires ValidDate(a) && ValidDate(b) && FormatIso(a) == FormatIso(b)
    ensures a == b
  {
    ParseFormatIso(a);
    ParseFormatIso(b);
  }
}

=== FILE: config.dfy ===
/**
  The configuration module modules/core/config.py. Its settings are module
  globals; `get_config`/`set_config` read and write them by name, and the
  presets overwrite a fixed subset. The globals are a map from name to
  value; the environment variables and the file-existence test are inputs.
*/
module Config {
  import opened Wrappers
  import opened Text

  /** The values the settings take; Python floats here are short decimals, held exactly. */
  datatype Value = VBool(b: bool) | VInt(i: int) | VNum(x: real) | VStr(s: string) | VNone

  type Globals = map<string, Value>

  /** The settings as the module defines them at import time (lines 15-113). */
  const Defaults: Globals := map[
    "HEADLESS_MODE" := VBool(true),
    "DEFAULT_TIMEOUT" := VInt(20000),
    "NAVIGATION_TIMEOUT" := VInt(20000),
    "ACTION_TIMEOUT" := VInt(10000),
    "INTER_ACCOUNT_DELAY" := VNum(2.0),
    "POST_LOGIN_DELAY" := VNum(1.5),
    "POST_NAVIGATION_DELAY" := VNum(1.0),
    "MAX_RETRIES" := VInt(3),
    "RETRY_DELAY" := VNum(2.0),
    "GAGAL_MASUK_AKUN_TIMEOUT" := VInt(120),
    "LOG_LEVEL" := VStr("INFO"),
    "LOG_FILE" := VStr("logs/playwright_automation.log"),
    "LOG_MAX_BYTES" := VInt(2 * 1024 * 1024),
    "LOG_BACKUP_COUNT" := VInt(3),
    "CHROME_BINARY_PATH" := VNone,
    "AUTO_DETECT_DOCKER" := VBool(true),
    "FORCE_DOCKER_MODE" := VBool(false),
    "SCREENSHOT_ON_ERROR" := VBool(true),
    "SCREENSHOT_PATH" := VStr("logs/screenshots"),
    "SCREENSHOT_FORMAT" := VStr("png"),
    "MIN_TABUNG_FILTER" := VInt(2),
    "DATA_LOAD_TIMEOUT" := VInt(10000),
    "EXCEL_OUTPUT_PATH" := VStr("results"),
    "EXCEL_FILENAME_FORMAT" := VStr("DATA_SNAPFLUX_MASTER_{year}_{month}.xlsx")
  ]

  /** The two settings the helpers read directly are always defined: nothing removes a global. */
  predicate Defined(g: Globals) { "HEADLESS_MODE" in g && "CHROME_BINARY_PATH" in g }

  /** `get_config(key, default)`: the stored value, even a stored `None`, else the default. */
  function GetConfig(g: Globals, key: string, default: Value): (r: Value)
    ensures key in g ==> r == g[key]
    ensures key !in g ==> r == default
  {
    if key in g then g[key] else default
  }

  /** `set_config(key, value)`. */
  function SetConfig(g: Globals, key: string, value: Value): (r: Globals)
    ensures r.Keys == g.Keys + {key}
    ensures Defined(g) ==> Defined(r)
  {
    g[key := value]
  }

  /** What was set is what is read back, for any default. */
  lemma SetThenGet(g: Globals, key: string, value: Value, default: Value)
    ensures GetConfig(SetConfig(g, key, value), key, default) == value
  {
  }

  /** Setting one key leaves every other reading as it was. */
  lemma SetLeavesOthers(g: Globals, key: string, value: Value, other: string, default: Value)
    requires other != key
    ensures GetConfig(SetConfig(g, key, value), other, default) == GetConfig(g, other, default)
  {
  }

  // ---------------------------------------------------------------------------
  // Environment overrides
  // ---------------------------------------------------------------------------

  const TrueWords: seq<string> := ["true", "1", "yes"]
  const FalseWords: seq<string> := ["false", "0", "no"]

  /**
    `is_headless_mode`: `PLAYWRIGHT_HEADLESS` (absent reads as empty)
    lowercased decides when it is one of the six words, otherwise the
    current `HEADLESS_MODE` global does.
  */
  function IsHeadless(g: Globals, env: Option<string>): (r: Value)
    requires Defined(g)
    ensures Lower(env.GetOr("")) in TrueWords ==> r == VBool(true)
    ensures Lower(env.GetOr("")) in FalseWords ==> r == VBool(false)
    ensures Lower(env.GetOr("")) !in TrueWords + FalseWords ==> r == g["HEADLESS_MODE"]
  {
    var e := Lower(env.GetOr(""));
    if e in TrueWords then VBool(true)
    else if e in FalseWords then VBool(false)
    else g["HEADLESS_MODE"]
  }

  /** The override is case-insensitive: "TRUE", "Yes" and "No" count. */
  lemma HeadlessOverrideIgnoresCase()
    ensures forall g: Globals :: Defined(g) ==> IsHeadless(g, Some("TRUE")) == VBool(true)
    ensures forall g: Globals :: Defined(g) ==> IsHeadless(g, Some("Yes")) == VBool(true)
    ensures forall g: Globals :: Defined(g) ==> IsHeadless(g, Some("No")) == VBool(false)
  {
    assert Lower("TRUE") == "true";
    assert Lower("Yes") == "yes";
    assert Lower("No") == "no";
  }

  /** With the variable unset, `set_config("HEADLESS_MODE", v)` is what `is_headless_mode` returns. */
  lemma SetHeadlessTakesEffect(g: Globals, v: Value)
    requires Defined(g)
    ensures IsHeadless(SetConfig(g, "HEADLESS_MODE", v), None) == v
  {
    assert Lower("") == "";
  }

  /**
    `get_chrome_binary`: the `CHROME_BINARY_PATH` variable when it is
    non-empty and names an existing file, otherwise the global of that name.
  */
  function ChromeBinary(g: Globals, env: Option<string>, onDisk: string -> bool): (r: Value)
    requires Defined(g)
    ensures env.Some? && env.value != "" && onDisk(env.value) ==> r == VStr(env.value)
    ensures !(env.Some? && env.value != "" && onDisk(env.value)) ==> r == g["CHROME_BINARY_PATH"]
  {
    var e := env.GetOr("");
    if e != "" && onDisk(e) then VStr(e) else g["CHROME_BINARY_PATH"]
  }

  /** Out of the box, with no usable override, there is no custom browser binary. */
  lemma NoBinaryByDefault(env: Option<string>, onDisk: string -> bool)
    requires env.None? || !onDisk(env.value)
    ensures ChromeBinary(Defaults, env, onDisk) == VNone
  {
  }

  // ---------------------------------------------------------------------------
  // Presets
  // ---------------------------------------------------------------------------

  const FastMode: Globals := map[
    "HEADLESS_MODE" := VBool(true),
    "DEFAULT_TIMEOUT" := VInt(15000),
    "NAVIGATION_TIMEOUT" := VInt(15000),
    "INTER_ACCOUNT_DELAY" := VNum(1.0),
    "POST_LOGIN_DELAY" := VNum(1.0),
    "POST_NAVIGATION_DELAY" := VNum(0.5)
  ]

  const DebugMode: Globals := map[
    "HEADLESS_MODE" := VBool(false),
    "DEFAULT_TIMEOUT" := VInt(30000),
    "NAVIGATION_TIMEOUT" := VInt(30000),
    "INTER_ACCOUNT_DELAY" := VNum(3.0),
    "POST_LOGIN_DELAY" := VNum(2.0),
    "POST_NAVIGATION_DELAY" := VNum(1.5),
    "SCREENSHOT_ON_ERROR" := VBool(true)
  ]

  const ProductionMode: Globals := map[
    "HEADLESS_MODE" := VBool(true),
    "DEFAULT_TIMEOUT" := VInt(20000),
    "NAVIGATION_TIMEOUT" := VInt(20000),
    "INTER_ACCOUNT_DELAY" := VNum(2.0),
    "POST_LOGIN_DELAY" := VNum(1.5),
    "POST_NAVIGATION_DELAY" := VNum(1.0),
    "SCREENSHOT_ON_ERROR" := VBool(true)
  ]

  /** The preset table keyed by lowercase name. */
  function Preset(name: string): (r: Option<Globals>)
    ensures r.Some? <==> name in ["fast", "debug", "production"]
  {
    if name == "fast" then Some(FastMode)
    else if name == "debug" then Some(DebugMode)
    else if name == "production" then Some(ProductionMode)
    else None
  }

  /**
    `apply_preset(name)`: the name is matched lowercased; a known preset
    sets each of its keys, an unknown one changes nothing.
  */
  function ApplyPreset(g: Globals, name: string): (r: Globals)
    ensures Preset(Lower(name)).None? ==> r == g
    ensures Preset(Lower(name)).Some? ==> r.Keys == g.Keys + Preset(Lower(name)).value.Keys
    ensures Preset(Lower(name)).Some? ==> forall k :: k in Preset(Lower(name)).value ==> r[k] == Preset(Lower(name)).value[k]
    ensures forall k :: k in g && (Preset(Lower(name)).None? || k !in Preset(Lower(name)).value) ==> r[k] == g[k]
    ensures Defined(g) ==> Defined(r)
  {
    match Preset(Lower(name))
    case None => g
    case Some(p) => g + p  // the `set_config` loop over the preset's items
  }

  /** A preset applied twice leaves the settings as applying it once did. */
  lemma ApplyPresetIdempotent(g: Globals, name: string)
    ensures ApplyPreset(ApplyPreset(g, name), name) == ApplyPreset(g, name)
  {
    var a := ApplyPreset(g, name);
    var b := ApplyPreset(a, name);
    assert b.Keys == a.Keys;
    assert forall k :: k in b ==> b[k] == a[k];
  }

  /** The preset name is matched case-insensitively. */
  lemma ApplyPresetIgnoresCase(g: Globals, a: string, b: string)
    requires Lower(a) == Lower(b)
    ensures ApplyPreset(g, a) == ApplyPreset(g, b)
  {
  }

  /** The debug preset shows the browser unless the environment overrides it. */
  lemma DebugPresetShowsBrowser(g: Globals)
    requires Defined(g)
    ensures IsHeadless(ApplyPreset(g, "DEBUG"), None) == VBool(false)
  {
    assert Lower("DEBUG") == "debug";
    assert Lower("") == "";
  }

  /** An unknown preset name leaves every setting alone. */
  lemma UnknownPresetNoChange(g: Globals)
    ensures ApplyPreset(g, "turbo") == g
  {
    assert Lower("turbo") == "turbo";
  }
}

=== FILE: constants.dfy ===
/**
  Month names and the naming scheme of the monthly master workbook
  (`constants.py`).
*/
module Constants {
  import opened Wrappers
  import opened Text
  import opened Calendar

  /** Indonesian month names, indexed 1..12; index 0 is the empty string. */
  const MonthNames: seq<string> := [
    "", "JANUARI", "FEBRUARI", "MARET", "APRIL", "MEI", "JUNI", "JULI",
    "AGUSTUS", "SEPTEMBER", "OKTOBER", "NOVEMBER", "DESEMBER"
  ]

  function ToUpper(c: char): char {
    if IsLowerCase(c) then (c as int - 32) as char else c
  }

  /** Python's `str.upper()` restricted to ASCII letters. */
  function Upper(s: string): string {
    seq(|s|, i requires 0 <= i < |s| => ToUpper(s[i]))
  }

  predicate AllUpperLetters(s: string) {
    forall i :: 0 <= i < |s| ==> IsUpper(s[i])
  }

  lemma UpperOfUpperLetters(s: string)
    requires AllUpperLetters(s)
    ensures Upper(s) == s
  {
  }

  /** `BULAN_ID[month].upper()`. */
  function MonthName(m: int): (r: string)
    requires 1 <= m <= 12
    ensures r == MonthNames[m]
    ensures |r| > 0 && AllUpperLetters(r)
  {
    var r := MonthNames[m];
    assert AllUpperLetters(r);
    UpperOfUpperLetters(r);
    Upper(r)
  }

  /** Different months have different names. */
  lemma MonthNameInjective(m1: int, m2: int)
    requires 1 <= m1 <= 12 && 1 <= m2 <= 12
    requires MonthName(m1) == MonthName(m2)
    ensures m1 == m2
  {
    if m1 != m2 {
      assert false;
    }
  }

  const MasterPrefix := "DATA_SNAPFLUX_MASTER_"

  /**
    `get_master_filename(date)`: `DATA_SNAPFLUX_MASTER_{year}_{MONTH}.xlsx`.
    Between the prefix and the extension, the year is everything before the
    first `_` and the month name everything after it.
  */
  function MasterFilename(d: Date): (r: string)
    requires ValidDate(d)
    ensures StartsWith(r, MasterPrefix) && EndsWith(r, ".xlsx") && |r| > |MasterPrefix| + 5
    ensures var m := r[|MasterPrefix|..|r| - 5]; var u := UnderscoreAt(m);
      u < |m| && m[..u] == IntToString(d.year) && m[u + 1..] == MonthName(d.month)
  {
    var y := IntToString(d.year);
    var m := y + "_" + MonthName(d.month);
    DigitStringHasNoUnderscore(y);
    UnderscoreAtJoin(y, MonthName(d.month));
    var r := MasterPrefix + m + ".xlsx";
    assert r[|MasterPrefix|..|r| - 5] == m;
    r
  }

  /**
    `get_sheet_name_dynamic(date)`: `{MONTH}_{year}`. The month name is
    everything before the first `_` and the year everything after it.
  */
  function SheetName(d: Date): (r: string)
    requires ValidDate(d)
    ensures var u := UnderscoreAt(r); u < |r| && r[..u] == MonthName(d.month) && r[u + 1..] == IntToString(d.year)
  {
    UpperLettersHaveNoUnderscore(MonthName(d.month));
    UnderscoreAtJoin(MonthName(d.month), IntToString(d.year));
    MonthName(d.month) + "_" + IntToString(d.year)
  }

  /** `get_master_filename(selected_date)`: without a date the clock reading `now` decides. */
  function MasterFilenameFor(selected: Option<Date>, now: Date): string
    requires selected.Some? ==> ValidDate(selected.value)
    requires ValidDate(now)
  {
    MasterFilename(selected.GetOr(now))
  }

  /**
    `get_sheet_name_dynamic(selected_date)`: without a date the month and the
    year come from two separate clock readings.
  */
  function SheetNameFor(selected: Option<Date>, nowForMonth: Date, nowForYear: Date): string
    requires selected.Some? ==> ValidDate(selected.value)
    requires ValidDate(nowForMonth) && ValidDate(nowForYear)
  {
    match selected
    case Some(d) => SheetName(d)
    case None => MonthName(nowForMonth.month) + "_" + IntToString(nowForYear.year)
  }

  predicate NoUnderscore(s: string) { '_' !in s }

  /** The position of the first `_` in `s`, or `|s|` when there is none. */
  function UnderscoreAt(s: string): (r: nat)
    ensures r <= |s|
    decreases |s|
  {
    if s == [] || s[0] == '_' then 0 else 1 + UnderscoreAt(s[1..])
  }

  lemma {:induction false} UnderscoreAtJoin(a: string, b: string)
    requires NoUnderscore(a)
    ensures UnderscoreAt(a + "_" + b) == |a|
    decreases |a|
  {
    if a != [] {
      assert a[0] in a;
      assert (a + "_" + b)[1..] == a[1..] + "_" + b;
      UnderscoreAtJoin(a[1..], b);
    }
  }

  /** Splitting at the first `_`: two joins agree only if their parts do. */
  lemma SplitAtUnderscore(a: string, b: string, c: string, d: string)
    requires NoUnderscore(a) && NoUnderscore(c)
    requires a + "_" + b == c + "_" + d
    ensures a == c && b == d
  {
    var s := a + "_" + b;
    UnderscoreAtJoin(a, b);
    UnderscoreAtJoin(c, d);
    assert a == s[..|a|] && c == s[..|c|];
    assert b == s[|a| + 1..] && d == s[|c| + 1..];
  }

  lemma JoinCancel(p: string, x: string, y: string, q: string)
    requires p + x + q == p + y + q
    ensures x == y
  {
    var s := p + x + q;
    assert x == s[|p|..|s| - |q|];
    assert y == (p + y + q)[|p|..|s| - |q|];
  }

  lemma DigitStringHasNoUnderscore(s: string)
    requires AllDigits(s)
    ensures NoUnderscore(s)
  {
    forall i | 0 <= i < |s| ensures s[i] != '_' {
      assert IsDigit(s[i]);
    }
  }

  lemma UpperLettersHaveNoUnderscore(s: string)
    requires AllUpperLetters(s)
    ensures NoUnderscore(s)
  {
    forall i | 0 <= i < |s| ensures s[i] != '_' {
      assert IsUpper(s[i]);
    }
  }

  /**
    Each month's data lives in its own workbook: two dates share a master
    file exactly when they share year and month.
  */
  lemma MasterFilenameIdentifiesMonth(a: Date, b: Date)
    requires ValidDate(a) && ValidDate(b)
    ensures MasterFilename(a) == MasterFilename(b) <==> (a.year == b.year && a.month == b.month)
  {
    if MasterFilename(a) == MasterFilename(b) {
      var ya, yb := IntToString(a.year), IntToString(b.year);
      var ma, mb := MonthName(a.month), MonthName(b.month);
      JoinCancel(MasterPrefix, ya + "_" + ma, yb + "_" + mb, ".xlsx");
      DigitStringHasNoUnderscore(ya);
      DigitStringHasNoUnderscore(yb);
      SplitAtUnderscore(ya, ma, yb, mb);
      NatToStringInjective(a.year, b.year);
      MonthNameInjective(a.month, b.month);
    }
  }

  /** Each month has its own sheet name, so two months never share a sheet. */
  lemma SheetNameIdentifiesMonth(a: Date, b: Date)
    requires ValidDate(a) && ValidDate(b)
    ensures SheetName(a) == SheetName(b) <==> (a.year == b.year && a.month == b.month)
  {
    if SheetName(a) == SheetName(b) {
      UpperLettersHaveNoUnderscore(MonthName(a.month));
      UpperLettersHaveNoUnderscore(MonthName(b.month));
      SplitAtUnderscore(MonthName(a.month), IntToString(a.year), MonthName(b.month), IntToString(b.year));
      NatToStringInjective(a.year, b.year);
      MonthNameInjective(a.month, b.month);
    }
  }
}

=== FILE: export.dfy ===
/**
  The two exporters of export_handler.py as layout functions from result
  records to a grid of cell values and status colours. Workbook creation,
  fonts, borders, merges, widths and the file path are not part of the
  layout and are left out.
*/
module Export {
  import opened Wrappers
  import opened Text
  import opened Calendar
  import S = Sorting
  import P = Pivot
  import R = Runner

  /** The fills the exporters give status cells: green, red and amber. */
  datatype Shade = Green | Red | Amber

  /** The part of a worksheet the exporters decide: cell values and status fills. */
  datatype Sheet = Sheet(cells: map<P.Pos, P.Value>, shades: map<P.Pos, Shade>)

  const Blank := Sheet(map[], map[])

  const Sale := "Ada Penjualan"
  const NoSale := "Tidak Ada Penjualan"
  const NoData := "Tidak Ada Data"

  function Put(sh: Sheet, r: int, c: int, v: P.Value): Sheet {
    sh.(cells := sh.cells[(r, c) := v])
  }

  function Paint(sh: Sheet, r: int, c: int, s: Shade): Sheet {
    sh.(shades := sh.shades[(r, c) := s])
  }

  /** Whether `p` comes before `(row, col)` in row-major order. */
  predicate Before(p: P.Pos, row: int, col: int) {
    p.0 < row || (p.0 == row && p.1 < col)
  }

  /** `b` only adds to `a` and agrees with it at every position before `(row, col)`. */
  predicate Keeps(a: Sheet, b: Sheet, row: int, col: int) {
    a.cells.Keys <= b.cells.Keys && a.shades.Keys <= b.shades.Keys &&
    (forall p | p in b.cells && Before(p, row, col) :: p in a.cells && b.cells[p] == a.cells[p]) &&
    (forall p | p in b.shades && Before(p, row, col) :: p in a.shades && b.shades[p] == a.shades[p])
  }

  lemma KeepsTrans(a: Sheet, b: Sheet, c: Sheet, row: int, col: int, row2: int, col2: int)
    requires Keeps(a, b, row, col) && Keeps(b, c, row2, col2)
    requires row < row2 || (row == row2 && col <= col2)
    ensures Keeps(a, c, row, col)
  {
  }

  // ---------------------------------------------------------------------------
  // Result records
  // ---------------------------------------------------------------------------

  /** A result record as a dictionary of strings; a missing key falls back to a default. */
  type Entry = map<string, string>

  function Field(e: Entry, key: string, default: string): string {
    if key in e then e[key] else default
  }

  /** A record as the run controller produces it, with every key present. */
  function FromRecord(rec: R.ResultRecord): (e: Entry)
    ensures IdOf(e) == rec.pangkalanId && NameOf(e) == rec.nama && StatusOf(e) == rec.status
    ensures Field(e, "stok", "0 Tabung") == rec.stok && Field(e, "tabung_terjual", "0 Tabung") == rec.terjual
  {
    map["pangkalan_id" := rec.pangkalanId, "nama" := rec.nama, "username" := rec.username,
        "stok" := rec.stok, "tabung_terjual" := rec.terjual, "status" := rec.status]
  }

  /** A count cell: " Tabung" removed, then `int(...)`, with 0 when that raises. */
  function Count(s: string): int {
    match PyInt(RemoveAll(s, " Tabung"))
    case Some(n) => n
    case None => 0
  }

  /** "N Tabung" reads back as N. */
  lemma CountOfTabung(n: int)
    ensures Count(R.Tabung(n)) == n
  {
    var d := IntToString(n);
    var m: nat := if n < 0 then -n else n;
    assert forall k :: 0 <= k < |NatToString(m)| ==> IsDigit(NatToString(m)[k]);
    assert " Tabung"[0] !in d;
    RemoveAllSuffix(d, " Tabung");
    PyIntRoundTrip(n);
  }

  /** A thousands separator is not removed here, so such a count exports as 0. */
  lemma ThousandsSeparatorReadsZero()
    ensures Count("1,200 Tabung") == 0
  {
    var d := "1,200";
    assert "1,200 Tabung" == d + " Tabung";
    assert " Tabung"[0] !in d;
    RemoveAllSuffix(d, " Tabung");
    CommaIsNotANumber();
  }

  lemma CommaIsNotANumber()
    ensures PyInt("1,200") == None
  {
    StripOfUnpadded("1,200");
    assert !DigitOrJoin("1,200", 1);
  }

  function IdOf(e: Entry): string { Field(e, "pangkalan_id", "") }
  function NameOf(e: Entry): string { Field(e, "nama", "") }
  /** The stock of a record, read as 0 when the record has none. */
  function StockOf(e: Entry): (r: int)
    ensures "stok" !in e ==> r == 0
  {
    ZeroTabung();
    Count(Field(e, "stok", "0 Tabung"))
  }

  /** The sold count of a record, read as 0 when the record has none. */
  function SoldOf(e: Entry): (r: int)
    ensures "tabung_terjual" !in e ==> r == 0
  {
    ZeroTabung();
    Count(Field(e, "tabung_terjual", "0 Tabung"))
  }

  /** The status of a record, read as "Tidak Ada Penjualan" when the record has none. */
  function StatusOf(e: Entry): (r: string)
    ensures "status" !in e ==> r == NoSale
    ensures "status" in e ==> r == e["status"]
  {
    Field(e, "status", NoSale)
  }

  // ---------------------------------------------------------------------------
  // Single-date export
  // ---------------------------------------------------------------------------

  /** The single-date colouring: green exactly for "Ada Penjualan", red for anything else. */
  function SingleShade(status: string): (r: Shade)
    ensures r == Green <==> status == Sale
    ensures r != Amber
  {
    if status == Sale then Green else Red
  }

  /** The two header rows of the single-date export. */
  function SingleHeader(date: Date): Sheet
    requires ValidDate(date)
  {
    Sheet(map[(1, 1) := P.Label(P.IdHeader), (1, 2) := P.Label(P.NameHeader), (1, 3) := P.Label(FormatIso(date)),
              (2, 1) := P.Label(""), (2, 2) := P.Label(""), (2, 3) := P.Label(P.StokHeader),
              (2, 4) := P.Label(P.InputHeader), (2, 5) := P.Label(P.StatusHeader)],
          map[])
  }

  /** The five values a record contributes to its row. */
  datatype Line = Line(id: string, name: string, stock: int, sold: int, status: string)

  /** How both exporters read a record: missing keys take their defaults, counts go through `Count`. */
  function Read(e: Entry): Line {
    Line(IdOf(e), NameOf(e), StockOf(e), SoldOf(e), StatusOf(e))
  }

  /** The header occupies rows 1 and 2, columns 1 to 5. */
  lemma SingleHeaderCells(date: Date)
    requires ValidDate(date)
    ensures forall p | p in SingleHeader(date).cells :: 1 <= p.0 <= 2 && 1 <= p.1 <= 5
    ensures (1, 3) in SingleHeader(date).cells && SingleHeader(date).cells[(1, 3)] == P.Label(FormatIso(date))
    ensures (2, 5) in SingleHeader(date).cells && SingleHeader(date).cells[(2, 5)] == P.Label(P.StatusHeader)
  {
  }

  /** The five cells of one data row. */
  function RowCells(row: int, l: Line): (r: map<P.Pos, P.Value>)
    ensures forall p | p in r :: p.0 == row && 1 <= p.1 <= 5
  {
    map[(row, 1) := P.Label(l.id), (row, 2) := P.Label(l.name), (row, 3) := P.Number(l.stock),
        (row, 4) := P.Number(l.sold), (row, 5) := P.Label(l.status)]
  }

  /** One data row: id, name, stock and sold as numbers, the status, and its fill. */
  function WriteEntry(sh: Sheet, row: int, l: Line): (r: Sheet)
    ensures Keeps(sh, r, row, 1)
    ensures HoldsLine(r, row, l)
    ensures forall p | p in r.cells :: p in sh.cells || (p.0 == row && 1 <= p.1 <= 5)
  {
    Sheet(sh.cells + RowCells(row, l), sh.shades[(row, 5) := SingleShade(l.status)])
  }

  /** Row `row` holds the line's five values and the status fill. */
  predicate HoldsLine(sh: Sheet, row: int, l: Line) {
    (row, 1) in sh.cells && sh.cells[(row, 1)] == P.Label(l.id) &&
    (row, 2) in sh.cells && sh.cells[(row, 2)] == P.Label(l.name) &&
    (row, 3) in sh.cells && sh.cells[(row, 3)] == P.Number(l.stock) &&
    (row, 4) in sh.cells && sh.cells[(row, 4)] == P.Number(l.sold) &&
    (row, 5) in sh.cells && sh.cells[(row, 5)] == P.Label(l.status) &&
    (row, 5) in sh.shades && sh.shades[(row, 5)] == SingleShade(l.status)
  }

  /** A written row survives every later write, which lies on later rows. */
  lemma HoldsLineKept(a: Sheet, b: Sheet, row: int, l: Line)
    requires HoldsLine(a, row, l) && Keeps(a, b, row + 1, 1)
    ensures HoldsLine(b, row, l)
  {
    assert Before((row, 1), row + 1, 1) && Before((row, 5), row + 1, 1);
  }

  /** The data loop: one row per record from `row` on, each record read by `read`. */
  function WriteEntries(sh: Sheet, entries: seq<Entry>, row: int, read: Entry -> Line): (r: Sheet)
    ensures Keeps(sh, r, row, 1)
    ensures forall p | p in r.cells :: p in sh.cells || (row <= p.0 < row + |entries| && 1 <= p.1 <= 5)
    decreases |entries|
  {
    if entries == [] then sh
    else
      var a := WriteEntry(sh, row, read(entries[0]));
      var b := WriteEntries(a, entries[1..], row + 1, read);
      KeepsTrans(sh, a, b, row, 1, row + 1, 1);
      b
  }

  /** Rows `row`, `row + 1`, ... hold the records in order. */
  predicate RowsHold(sh: Sheet, entries: seq<Entry>, row: int, read: Entry -> Line) {
    forall k :: 0 <= k < |entries| ==> HoldsLine(sh, row + k, read(entries[k]))
  }

  lemma RowsHoldCons(sh: Sheet, entries: seq<Entry>, row: int, read: Entry -> Line)
    requires entries != [] && HoldsLine(sh, row, read(entries[0])) && RowsHold(sh, entries[1..], row + 1, read)
    ensures RowsHold(sh, entries, row, read)
  {
    forall k | 1 <= k < |entries| ensures HoldsLine(sh, row + k, read(entries[k])) {
      assert entries[k] == entries[1..][k - 1];
    }
  }

  /** Every record lands on its own row, in input order. */
  lemma {:induction false} WriteEntriesHold(sh: Sheet, entries: seq<Entry>, row: int, read: Entry -> Line)
    ensures RowsHold(WriteEntries(sh, entries, row, read), entries, row, read)
    decreases |entries|
  {
    if entries != [] {
      var a := WriteEntry(sh, row, read(entries[0]));
      var b := WriteEntries(a, entries[1..], row + 1, read);
      WriteEntriesHold(a, entries[1..], row + 1, read);
      HoldsLineKept(a, b, row, read(entries[0]));
      RowsHoldCons(b, entries, row, read);
    }
  }

  /**
    `export_results_to_excel`: the header rows for the export date, then
    one row per record from row 3 in input order, and nothing else.
  */
  function ExportSingle(entries: seq<Entry>, date: Date): (r: Sheet)
    requires ValidDate(date)
    ensures (1, 3) in r.cells && r.cells[(1, 3)] == P.Label(FormatIso(date))
    ensures (2, 5) in r.cells && r.cells[(2, 5)] == P.Label(P.StatusHeader)
    ensures RowsHold(r, entries, 3, Read)
    ensures forall p | p in r.cells :: 1 <= p.0 <= 2 + |entries| && 1 <= p.1 <= 5
  {
    var h := SingleHeader(date);
    var r := WriteEntries(h, entries, 3, Read);
    WriteEntriesHold(h, entries, 3, Read);
    SingleHeaderCells(date);
    assert Before((1, 3), 3, 1) && Before((2, 5), 3, 1);
    r
  }

  /** The default count "0 Tabung" reads as 0. */
  lemma ZeroTabung()
    ensures Count("0 Tabung") == 0
  {
    assert "0 Tabung" == "0" + " Tabung";
    RemoveAllSuffix("0", " Tabung");
    StripOfUnpadded("0");
    assert UnderscoredDigits("0") by { assert DigitOrJoin("0", 0); }
  }

  lemma EmptyRecordLine()
    ensures Read(map[]) == Line("", "", 0, 0, NoSale)
  {
    ZeroTabung();
  }

  /** A record without keys exports as blank id and name, zero counts, and a red "Tidak Ada Penjualan". */
  lemma EmptyRecordDefaults(date: Date)
    requires ValidDate(date)
    ensures var r := ExportSingle([map[]], date);
      r.cells[(3, 1)] == P.Label("") && r.cells[(3, 3)] == P.Number(0) &&
      r.cells[(3, 5)] == P.Label(NoSale) && r.shades[(3, 5)] == Red
  {
    EmptyRecordLine();
    var r := ExportSingle([map[]], date);
    assert HoldsLine(r, 3 + 0, Read([map[]][0]));
  }

  /** A record from the run controller exports its counts unchanged. */
  lemma RecordExportsCounts(rec: R.ResultRecord, stock: int, sold: int, date: Date)
    requires ValidDate(date) && rec.stok == R.Tabung(stock) && rec.terjual == R.Tabung(sold)
    ensures var r := ExportSingle([FromRecord(rec)], date);
      r.cells[(3, 3)] == P.Number(stock) && r.cells[(3, 4)] == P.Number(sold) &&
      (r.shades[(3, 5)] == Green <==> rec.status == Sale)
  {
    RecordLine(rec, stock, sold);
    var r := ExportSingle([FromRecord(rec)], date);
    assert HoldsLine(r, 3 + 0, Read([FromRecord(rec)][0]));
  }

  lemma RecordLine(rec: R.ResultRecord, stock: int, sold: int)
    requires rec.stok == R.Tabung(stock) && rec.terjual == R.Tabung(sold)
    ensures Read(FromRecord(rec)) == Line(rec.pangkalanId, rec.nama, stock, sold, rec.status)
  {
    CountOfTabung(stock);
    CountOfTabung(sold);
  }

  // ---------------------------------------------------------------------------
  // Multi-date export: collecting the accounts
  // ---------------------------------------------------------------------------

  /** One account row of the multi-date export: its id, its name, and its record per date string. */
  datatype Account = Account(id: string, name: string, data: map<string, Entry>)

  /** The records of the results dictionary with their date keys, in iteration order. */
  function Walk(groups: seq<(string, seq<Entry>)>): (r: seq<(string, Entry)>)
    decreases |groups|
  {
    if groups == [] then []
    else Tag(groups[0].0, groups[0].1) + Walk(groups[1..])
  }

  function Tag(ds: string, entries: seq<Entry>): (r: seq<(string, Entry)>)
    ensures |r| == |entries| && forall i :: 0 <= i < |r| ==> r[i] == (ds, entries[i])
    decreases |entries|
  {
    if entries == [] then [] else [(ds, entries[0])] + Tag(ds, entries[1..])
  }

  /** The position of the account with this id, if there is one. */
  function IndexOfId(accts: seq<Account>, id: string): (r: Option<nat>)
    ensures r.Some? ==> r.value < |accts| && accts[r.value].id == id
    ensures r.None? ==> forall i :: 0 <= i < |accts| ==> accts[i].id != id
    decreases |accts|
  {
    if accts == [] then None
    else if accts[|accts| - 1].id == id then Some(|accts| - 1)
    else IndexOfId(accts[..|accts| - 1], id)
  }

  /**
    One step of the collection loop: an unseen id opens an account with the
    record's name; the record is then stored under its date, replacing any
    earlier one for that date.
  */
  function AddResult(accts: seq<Account>, ds: string, e: Entry): (r: seq<Account>)
  {
    match IndexOfId(accts, IdOf(e))
    case None => accts + [Account(IdOf(e), NameOf(e), map[ds := e])]
    case Some(i) => accts[i := accts[i].(data := accts[i].data[ds := e])]
  }

  /**
    The collection loop over the walked records: one account per distinct
    id, each with the name of its first record and, per date, its last
    record.
  */
  function Collect(items: seq<(string, Entry)>): (r: seq<Account>)
    ensures Collected(items, r)
    decreases |items|
  {
    if items == [] then []
    else
      var init := items[..|items| - 1];
      var x := items[|items| - 1];
      var c := Collect(init);
      assert init + [x] == items;
      if IndexOfId(c, IdOf(x.1)).None? then
        AddNewCollected(init, c, x);
        AddResult(c, x.0, x.1)
      else
        AddSeenCollected(init, c, x);
        AddResult(c, x.0, x.1)
  }

  predicate DistinctIds(accts: seq<Account>) {
    forall i, j :: 0 <= i < j < |accts| ==> accts[i].id != accts[j].id
  }

  function IdsOf(accts: seq<Account>): set<string> {
    set i | 0 <= i < |accts| :: accts[i].id
  }

  /** The ids the walked records carry. */
  function RecordIds(items: seq<(string, Entry)>): set<string> {
    set i | 0 <= i < |items| :: IdOf(items[i].1)
  }

  /** The name of the first record with this id. */
  function FirstName(items: seq<(string, Entry)>, id: string): string
    decreases |items|
  {
    if items == [] then ""
    else if IdOf(items[0].1) == id then NameOf(items[0].1)
    else FirstName(items[1..], id)
  }

  /** The last record with this id under this date, if any. */
  function LastEntry(items: seq<(string, Entry)>, id: string, ds: string): Option<Entry>
    decreases |items|
  {
    if items == [] then None
    else
      var last := items[|items| - 1];
      if IdOf(last.1) == id && last.0 == ds then Some(last.1)
      else LastEntry(items[..|items| - 1], id, ds)
  }

  /** An id already seen keeps its first name when more records follow. */
  lemma {:induction false} FirstNameSnoc(items: seq<(string, Entry)>, x: (string, Entry), id: string)
    requires id in RecordIds(items)
    ensures FirstName(items + [x], id) == FirstName(items, id)
    decreases |items|
  {
    var k :| 0 <= k < |items| && IdOf(items[k].1) == id;
    assert (items + [x])[0] == items[0];
    if IdOf(items[0].1) != id {
      assert (items + [x])[1..] == items[1..] + [x];
      assert IdOf(items[1..][k - 1].1) == id;
      FirstNameSnoc(items[1..], x, id);
    }
  }

  /** A new id's first name is the new record's. */
  lemma {:induction false} FirstNameNew(items: seq<(string, Entry)>, x: (string, Entry))
    requires IdOf(x.1) !in RecordIds(items)
    ensures FirstName(items + [x], IdOf(x.1)) == NameOf(x.1)
    decreases |items|
  {
    if items == [] {
      assert items + [x] == [x];
    } else {
      assert (items + [x])[0] == items[0];
      assert IdOf(items[0].1) != IdOf(x.1);
      assert (items + [x])[1..] == items[1..] + [x];
      assert RecordIds(items[1..]) <= RecordIds(items) by {
        forall i | 0 <= i < |items[1..]| ensures IdOf(items[1..][i].1) in RecordIds(items) {
          assert items[1..][i] == items[i + 1];
        }
      }
      FirstNameNew(items[1..], x);
    }
  }

  /** The facts the collection keeps about every account. */
  ghost predicate Collected(items: seq<(string, Entry)>, accts: seq<Account>) {
    DistinctIds(accts) && IdsOf(accts) == RecordIds(items) &&
    (forall i :: 0 <= i < |accts| ==> accts[i].name == FirstName(items, accts[i].id)) &&
    (forall i, ds :: 0 <= i < |accts| ==>
      (ds in accts[i].data <==> LastEntry(items, accts[i].id, ds).Some?) &&
      (ds in accts[i].data ==> accts[i].data[ds] == LastEntry(items, accts[i].id, ds).value))
  }

  lemma RecordIdsSnoc(items: seq<(string, Entry)>, x: (string, Entry))
    ensures RecordIds(items + [x]) == RecordIds(items) + {IdOf(x.1)}
  {
    var a := items + [x];
    forall v | v in RecordIds(a) ensures v in RecordIds(items) + {IdOf(x.1)} {
      var i :| 0 <= i < |a| && IdOf(a[i].1) == v;
      if i < |items| { assert a[i] == items[i]; }
    }
    forall v | v in RecordIds(items) ensures v in RecordIds(a) {
      var i :| 0 <= i < |items| && IdOf(items[i].1) == v;
      assert a[i] == items[i];
    }
    assert IdOf(a[|items|].1) in RecordIds(a);
  }

  lemma LastEntrySnoc(items: seq<(string, Entry)>, x: (string, Entry), id: string, ds: string)
    ensures LastEntry(items + [x], id, ds) ==
      if IdOf(x.1) == id && x.0 == ds then Some(x.1) else LastEntry(items, id, ds)
  {
    assert (items + [x])[..|items|] == items;
  }

  lemma {:induction false} LastEntryAbsent(items: seq<(string, Entry)>, id: string, ds: string)
    requires id !in RecordIds(items)
    ensures LastEntry(items, id, ds) == None
    decreases |items|
  {
    if items != [] {
      var init := items[..|items| - 1];
      assert IdOf(items[|items| - 1].1) in RecordIds(items);
      assert RecordIds(init) <= RecordIds(items) by {
        forall i | 0 <= i < |init| ensures IdOf(init[i].1) in RecordIds(items) {
          assert init[i] == items[i];
        }
      }
      LastEntryAbsent(init, id, ds);
    }
  }

  /** A record with an unseen id opens a new account at the end. */
  lemma AddNewCollected(items: seq<(string, Entry)>, accts: seq<Account>, x: (string, Entry))
    requires Collected(items, accts) && IndexOfId(accts, IdOf(x.1)).None?
    ensures Collected(items + [x], AddResult(accts, x.0, x.1))
  {
    var a := items + [x];
    var id := IdOf(x.1);
    var r := AddResult(accts, x.0, x.1);
    assert r == accts + [Account(id, NameOf(x.1), map[x.0 := x.1])];
    RecordIdsSnoc(items, x);
    assert id !in IdsOf(accts);
    FirstNameNew(items, x);
    forall i, ds | 0 <= i < |r|
      ensures (ds in r[i].data <==> LastEntry(a, r[i].id, ds).Some?) &&
              (ds in r[i].data ==> r[i].data[ds] == LastEntry(a, r[i].id, ds).value)
    {
      LastEntrySnoc(items, x, r[i].id, ds);
      if i == |accts| {
        LastEntryAbsent(items, id, ds);
      } else {
        assert r[i] == accts[i];
      }
    }
    forall i | 0 <= i < |accts| ensures r[i].name == FirstName(a, r[i].id) {
      assert accts[i].id in IdsOf(accts);
      FirstNameSnoc(items, x, accts[i].id);
    }
    assert IdsOf(r) == IdsOf(accts) + {id} by {
      forall v | v in IdsOf(r) ensures v in IdsOf(accts) + {id} {
        var i :| 0 <= i < |r| && r[i].id == v;
        if i < |accts| { assert r[i] == accts[i]; }
      }
      forall v | v in IdsOf(accts) ensures v in IdsOf(r) {
        var i :| 0 <= i < |accts| && accts[i].id == v;
        assert r[i] == accts[i];
      }
      assert r[|accts|].id == id;
    }
  }

  /** A record with a seen id updates that account's record for the date. */
  lemma AddSeenCollected(items: seq<(string, Entry)>, accts: seq<Account>, x: (string, Entry))
    requires Collected(items, accts) && IndexOfId(accts, IdOf(x.1)).Some?
    ensures Collected(items + [x], AddResult(accts, x.0, x.1))
  {
    var a := items + [x];
    var id := IdOf(x.1);
    var k := IndexOfId(accts, id).value;
    var r := AddResult(accts, x.0, x.1);
    assert r == accts[k := accts[k].(data := accts[k].data[x.0 := x.1])];
    RecordIdsSnoc(items, x);
    assert id in IdsOf(accts);
    forall i, ds | 0 <= i < |r|
      ensures (ds in r[i].data <==> LastEntry(a, r[i].id, ds).Some?) &&
              (ds in r[i].data ==> r[i].data[ds] == LastEntry(a, r[i].id, ds).value)
    {
      LastEntrySnoc(items, x, r[i].id, ds);
    }
    forall i | 0 <= i < |r| ensures r[i].name == FirstName(a, r[i].id) {
      assert accts[i].id in IdsOf(accts);
      FirstNameSnoc(items, x, accts[i].id);
    }
    assert IdsOf(r) == IdsOf(accts) by {
      forall v | v in IdsOf(r) ensures v in IdsOf(accts) {
        var i :| 0 <= i < |r| && r[i].id == v;
        assert r[i].id == accts[i].id;
      }
      forall v | v in IdsOf(accts) ensures v in IdsOf(r) {
        var i :| 0 <= i < |accts| && accts[i].id == v;
        assert r[i].id == accts[i].id;
      }
    }
  }

  // ---------------------------------------------------------------------------
  // Distinct sequences
  // ---------------------------------------------------------------------------

  predicate Distinct<T(==)>(s: seq<T>) {
    forall i, j :: 0 <= i < j < |s| ==> s[i] != s[j]
  }

  lemma DistinctTail<T>(s: seq<T>)
    requires Distinct(s) && s != []
    ensures Distinct(s[1..])
    ensures forall k :: 0 <= k < |s[1..]| ==> s[1..][k] != s[0]
  {
    forall i, j | 0 <= i < j < |s[1..]| ensures s[1..][i] != s[1..][j] {
      assert s[1..][i] == s[i + 1] && s[1..][j] == s[j + 1];
    }
    forall k | 0 <= k < |s[1..]| ensures s[1..][k] != s[0] {
      assert s[1..][k] == s[k + 1];
    }
  }

  lemma {:induction false} DistinctCounts<T>(s: seq<T>)
    requires Distinct(s)
    ensures forall x :: multiset(s)[x] <= 1
    decreases |s|
  {
    if s != [] {
      assert s == [s[0]] + s[1..];
      DistinctTail(s);
      DistinctCounts(s[1..]);
      assert s[0] !in s[1..];
    }
  }

  lemma CountTwo<T>(s: seq<T>, i: int, j: int)
    requires 0 <= i < j < |s| && s[i] == s[j]
    ensures multiset(s)[s[i]] >= 2
  {
    assert s == s[..j] + [s[j]] + s[j + 1..];
    assert s[..j][i] == s[i];
    assert s[i] in multiset(s[..j]);
  }

  /** A permutation of a sequence without repeats has no repeats either. */
  lemma DistinctPermutation<T>(s: seq<T>, t: seq<T>)
    requires Distinct(s) && multiset(s) == multiset(t)
    ensures Distinct(t)
  {
    DistinctCounts(s);
    forall i, j | 0 <= i < j < |t| ensures t[i] != t[j] {
      if t[i] == t[j] {
        CountTwo(t, i, j);
      }
    }
  }

  // ---------------------------------------------------------------------------
  // Multi-date export: rows sorted by id
  // ---------------------------------------------------------------------------

  function ById(a: Account, b: Account): bool { StrLe(a.id, b.id) }

  lemma ByIdPreorder()
    ensures S.TotalPreorder(ById)
  {
    forall a: Account, b: Account ensures ById(a, b) || ById(b, a) {
      StrLeTotal(a.id, b.id);
    }
    forall a: Account, b: Account, c: Account | ById(a, b) && ById(b, c) ensures ById(a, c) {
      StrLeTrans(a.id, b.id, c.id);
    }
  }

  /** The accounts in row order: `sorted(all_accounts.items())`, that is, the collected accounts by id. */
  function Rows(groups: seq<(string, seq<Entry>)>): (r: seq<Account>)
    ensures S.Sorted(ById, r) && multiset(r) == multiset(Collect(Walk(groups)))
  {
    ByIdPreorder();
    S.SortSorted(ById, Collect(Walk(groups)));
    S.Sort(ById, Collect(Walk(groups)))
  }

  lemma DistinctIdsDistinct(accts: seq<Account>)
    requires DistinctIds(accts)
    ensures Distinct(accts)
  {
  }

  /** Every element of a permutation comes from the original. */
  lemma PermutationMembers<T>(c: seq<T>, r: seq<T>)
    requires multiset(c) == multiset(r)
    ensures forall i :: 0 <= i < |r| ==> r[i] in c
  {
    forall i | 0 <= i < |r| ensures r[i] in c {
      assert r[i] in multiset(r);
    }
  }

  /** Reordering the collected accounts keeps every collection fact. */
  lemma PermutationCollected(items: seq<(string, Entry)>, c: seq<Account>, r: seq<Account>)
    requires Collected(items, c) && multiset(c) == multiset(r)
    ensures Collected(items, r)
  {
    DistinctIdsDistinct(c);
    DistinctPermutation(c, r);
    PermutationMembers(c, r);
    forall i, j | 0 <= i < j < |r| ensures r[i].id != r[j].id {
      var p :| 0 <= p < |c| && c[p] == r[i];
      var q :| 0 <= q < |c| && c[q] == r[j];
    }
    assert IdsOf(r) == IdsOf(c) by {
      forall v | v in IdsOf(r) ensures v in IdsOf(c) {
        var i :| 0 <= i < |r| && r[i].id == v;
        var p :| 0 <= p < |c| && c[p] == r[i];
      }
      forall v | v in IdsOf(c) ensures v in IdsOf(r) {
        var p :| 0 <= p < |c| && c[p].id == v;
        assert c[p] in multiset(r);
      }
    }
  }

  /**
    The rows are the collected accounts in strictly ascending id order, so
    each id has exactly one row, and each row keeps its collection facts.
  */
  lemma RowsFacts(groups: seq<(string, seq<Entry>)>)
    ensures Collected(Walk(groups), Rows(groups))
    ensures forall i, j :: 0 <= i < j < |Rows(groups)| ==>
      StrLe(Rows(groups)[i].id, Rows(groups)[j].id) && Rows(groups)[i].id != Rows(groups)[j].id
  {
    var items := Walk(groups);
    var c := Collect(items);
    PermutationCollected(items, c, Rows(groups));
  }

  // ---------------------------------------------------------------------------
  // Multi-date export: the date columns and the header rows
  // ---------------------------------------------------------------------------

  predicate AllValid(ds: seq<Date>) {
    forall i :: 0 <= i < |ds| ==> ValidDate(ds[i])
  }

  /** `sorted(dates)`. */
  function SortedDates(dates: seq<Date>): (r: seq<Date>)
    ensures |r| == |dates| && multiset(r) == multiset(dates)
    ensures AllValid(dates) ==> AllValid(r)
  {
    var r := S.Sort(DateLe, dates);
    PermutationValid(dates, r);
    r
  }

  lemma PermutationValid(ds: seq<Date>, r: seq<Date>)
    requires multiset(r) == multiset(ds)
    ensures AllValid(ds) ==> AllValid(r)
  {
    if AllValid(ds) {
      forall i | 0 <= i < |r| ensures ValidDate(r[i]) {
        assert r[i] in multiset(ds);
      }
    }
  }

  /** The dates come out in calendar order, still valid, and without repeats when there were none. */
  lemma SortedDatesFacts(dates: seq<Date>)
    requires AllValid(dates)
    ensures AllValid(SortedDates(dates)) && S.Sorted(DateLe, SortedDates(dates))
    ensures Distinct(dates) ==> Distinct(SortedDates(dates))
  {
    var r := SortedDates(dates);
    DateLeTotalOrder();
    S.SortSorted(DateLe, dates);
    if Distinct(dates) {
      DistinctPermutation(dates, r);
    }
  }

  /** The `strftime("%Y-%m-%d")` strings of the dates, in order. */
  function Names(ds: seq<Date>): (r: seq<string>)
    requires AllValid(ds)
    ensures |r| == |ds| && forall i :: 0 <= i < |ds| ==> r[i] == FormatIso(ds[i])
  {
    seq(|ds|, i requires 0 <= i < |ds| => FormatIso(ds[i]))
  }

  /** Distinct valid dates have distinct date strings. */
  lemma NamesDistinct(ds: seq<Date>)
    requires AllValid(ds) && Distinct(ds)
    ensures Distinct(Names(ds))
  {
    var n := Names(ds);
    forall i, j | 0 <= i < j < |n| ensures n[i] != n[j] {
      if n[i] == n[j] {
        FormatIsoInjective(ds[i], ds[j]);
      }
    }
  }

  /**
    The `date_columns` map of the header loop: each date string to the first
    column of its block, blocks three columns apart from `col` on. A repeated
    date keeps the column of its last block.
  */
  function DateColumns(names: seq<string>, col: int, acc: map<string, int>): (r: map<string, int>)
    ensures forall k | k in acc :: k in r
    ensures forall i :: 0 <= i < |names| ==> names[i] in r
    decreases |names|
  {
    if names == [] then acc
    else
      var r := DateColumns(names[1..], col + 3, acc[names[0] := col]);
      assert forall i :: 1 <= i < |names| ==> names[i] == names[1..][i - 1];
      r
  }

  lemma {:induction false} DateColumnsKeep(names: seq<string>, col: int, acc: map<string, int>, key: string)
    requires key in acc && key !in names
    ensures DateColumns(names, col, acc)[key] == acc[key]
    decreases |names|
  {
    if names != [] {
      assert key !in names[1..];
      DateColumnsKeep(names[1..], col + 3, acc[names[0] := col], key);
    }
  }

  /** Every date string names the block of its own date. */
  predicate ColumnsAt(cols: map<string, int>, names: seq<string>, col: int) {
    forall i :: 0 <= i < |names| ==> names[i] in cols && cols[names[i]] == col + 3 * i
  }

  /** Without repeated dates, the i-th date's block starts at column `col + 3i`. */
  lemma {:induction false} DateColumnsAt(names: seq<string>, col: int, acc: map<string, int>)
    requires Distinct(names)
    ensures ColumnsAt(DateColumns(names, col, acc), names, col)
    decreases |names|
  {
    if names != [] {
      var acc' := acc[names[0] := col];
      var r := DateColumns(names, col, acc);
      DistinctTail(names);
      DateColumnsAt(names[1..], col + 3, acc');
      DateColumnsKeep(names[1..], col + 3, acc', names[0]);
      forall i | 1 <= i < |names| ensures names[i] in r && r[names[i]] == col + 3 * i {
        assert names[i] == names[1..][i - 1];
      }
    }
  }

  /** Rows 1 and 2 of one date block: the date over "STOK (TABUNG)", "INPUT (TABUNG)" and "STATUS". */
  function HeaderCells(col: int, date: string): (r: map<P.Pos, P.Value>)
    ensures forall p | p in r :: 1 <= p.0 <= 2 && col <= p.1 < col + 3
  {
    map[(1, col) := P.Label(date), (2, col) := P.Label(P.StokHeader),
        (2, col + 1) := P.Label(P.InputHeader), (2, col + 2) := P.Label(P.StatusHeader)]
  }

  predicate HoldsHeader(sh: Sheet, col: int, date: string) {
    (1, col) in sh.cells && sh.cells[(1, col)] == P.Label(date) &&
    (2, col) in sh.cells && sh.cells[(2, col)] == P.Label(P.StokHeader) &&
    (2, col + 1) in sh.cells && sh.cells[(2, col + 1)] == P.Label(P.InputHeader) &&
    (2, col + 2) in sh.cells && sh.cells[(2, col + 2)] == P.Label(P.StatusHeader)
  }

  /** The header loop over the sorted date strings, one block per date from column `col`. */
  function DateHeaders(sh: Sheet, names: seq<string>, col: int): (r: Sheet)
    ensures r.shades == sh.shades && sh.cells.Keys <= r.cells.Keys
    ensures forall p | p in r.cells && !(1 <= p.0 <= 2 && col <= p.1 < col + 3 * |names|) ::
      p in sh.cells && r.cells[p] == sh.cells[p]
    decreases |names|
  {
    if names == [] then sh
    else DateHeaders(Sheet(sh.cells + HeaderCells(col, names[0]), sh.shades), names[1..], col + 3)
  }

  predicate HeadersHold(sh: Sheet, names: seq<string>, col: int) {
    forall i :: 0 <= i < |names| ==> HoldsHeader(sh, col + 3 * i, names[i])
  }

  /** Each date's block header sits three columns after the previous one's. */
  lemma {:induction false} DateHeadersHold(sh: Sheet, names: seq<string>, col: int)
    ensures HeadersHold(DateHeaders(sh, names, col), names, col)
    decreases |names|
  {
    if names != [] {
      var a := Sheet(sh.cells + HeaderCells(col, names[0]), sh.shades);
      var b := DateHeaders(a, names[1..], col + 3);
      DateHeadersHold(a, names[1..], col + 3);
      assert HoldsHeader(a, col, names[0]);
      HeadersHoldCons(b, names, col);
    }
  }

  lemma HeadersHoldCons(sh: Sheet, names: seq<string>, col: int)
    requires names != [] && HoldsHeader(sh, col, names[0]) && HeadersHold(sh, names[1..], col + 3)
    ensures HeadersHold(sh, names, col)
  {
    forall i | 1 <= i < |names| ensures HoldsHeader(sh, col + 3 * i, names[i]) {
      assert names[i] == names[1..][i - 1];
      assert col + 3 * i == col + 3 + 3 * (i - 1);
    }
  }

  // ---------------------------------------------------------------------------
  // Multi-date export: the account rows
  // ---------------------------------------------------------------------------

  /** The three values of one date block in an account row. */
  datatype Block = Block(stock: int, sold: int, status: string)

  /** A recorded date shows the record's counts and status; a date without one shows 0, 0, "Tidak Ada Data". */
  function BlockOf(acct: Account, date: string, read: Entry -> Line): Block {
    if date in acct.data then
      var l := read(acct.data[date]);
      Block(l.stock, l.sold, l.status)
    else Block(0, 0, NoData)
  }

  function BlockCells(row: int, col: int, b: Block): (r: map<P.Pos, P.Value>)
    ensures forall p | p in r :: p.0 == row && col <= p.1 < col + 3
  {
    map[(row, col) := P.Number(b.stock), (row, col + 1) := P.Number(b.sold), (row, col + 2) := P.Label(b.status)]
  }

  predicate HoldsBlock(sh: Sheet, row: int, col: int, b: Block) {
    (row, col) in sh.cells && sh.cells[(row, col)] == P.Number(b.stock) &&
    (row, col + 1) in sh.cells && sh.cells[(row, col + 1)] == P.Number(b.sold) &&
    (row, col + 2) in sh.cells && sh.cells[(row, col + 2)] == P.Label(b.status)
  }

  predicate Covers(cols: map<string, int>, names: seq<string>) {
    forall i :: 0 <= i < |names| ==> names[i] in cols
  }

  /** The inner loop of a data row: each date's block at the column `date_columns` gives it. */
  function WriteBlocks(sh: Sheet, row: int, acct: Account, names: seq<string>, cols: map<string, int>, read: Entry -> Line): (r: Sheet)
    requires Covers(cols, names)
    ensures r.shades == sh.shades && sh.cells.Keys <= r.cells.Keys
    ensures forall p | p in r.cells && p.0 != row :: p in sh.cells && r.cells[p] == sh.cells[p]
    decreases |names|
  {
    if names == [] then sh
    else
      assert forall i :: 0 <= i < |names[1..]| ==> names[1..][i] == names[i + 1];
      var c := cols[names[0]];
      WriteBlocks(Sheet(sh.cells + BlockCells(row, c, BlockOf(acct, names[0], read)), sh.shades), row, acct, names[1..], cols, read)
  }

  predicate BlocksHold(sh: Sheet, row: int, acct: Account, names: seq<string>, col: int, read: Entry -> Line) {
    forall i :: 0 <= i < |names| ==> HoldsBlock(sh, row, col + 3 * i, BlockOf(acct, names[i], read))
  }

  lemma BlocksHoldCons(sh: Sheet, row: int, acct: Account, names: seq<string>, col: int, read: Entry -> Line)
    requires names != [] && HoldsBlock(sh, row, col, BlockOf(acct, names[0], read))
    requires BlocksHold(sh, row, acct, names[1..], col + 3, read)
    ensures BlocksHold(sh, row, acct, names, col, read)
  {
    forall i | 1 <= i < |names| ensures HoldsBlock(sh, row, col + 3 * i, BlockOf(acct, names[i], read)) {
      assert names[i] == names[1..][i - 1];
      assert col + 3 * i == col + 3 + 3 * (i - 1);
    }
  }

  /**
    When each date string names its own block, every block holds its date's
    values, and the loop writes nothing left of column `col`.
  */
  lemma {:induction false} WriteBlocksHold(sh: Sheet, row: int, acct: Account, names: seq<string>, cols: map<string, int>, read: Entry -> Line, col: int)
    requires ColumnsAt(cols, names, col)
    ensures Covers(cols, names)
    ensures BlocksHold(WriteBlocks(sh, row, acct, names, cols, read), row, acct, names, col, read)
    ensures forall p | p in WriteBlocks(sh, row, acct, names, cols, read).cells && !(p.0 == row && col <= p.1) ::
      p in sh.cells && WriteBlocks(sh, row, acct, names, cols, read).cells[p] == sh.cells[p]
    decreases |names|
  {
    if names != [] {
      var blk := BlockOf(acct, names[0], read);
      var a := Sheet(sh.cells + BlockCells(row, col, blk), sh.shades);
      ColumnsAtTail(cols, names, col);
      WriteBlocksHold(a, row, acct, names[1..], cols, read, col + 3);
      var b := WriteBlocks(a, row, acct, names[1..], cols, read);
      assert b == WriteBlocks(sh, row, acct, names, cols, read);
      HoldsBlockKept(sh.cells, a, b, row, col, blk);
      BlocksHoldCons(b, row, acct, names, col, read);
    }
  }

  lemma ColumnsAtTail(cols: map<string, int>, names: seq<string>, col: int)
    requires names != [] && ColumnsAt(cols, names, col)
    ensures ColumnsAt(cols, names[1..], col + 3)
  {
    forall i | 0 <= i < |names[1..]| ensures names[1..][i] in cols && cols[names[1..][i]] == col + 3 + 3 * i {
      assert names[1..][i] == names[i + 1];
    }
  }

  /** A freshly written block holds, and keeps holding while later writes stay right of it. */
  lemma HoldsBlockKept(base: map<P.Pos, P.Value>, a: Sheet, b: Sheet, row: int, col: int, blk: Block)
    requires a.cells == base + BlockCells(row, col, blk)
    requires forall p | p in b.cells && !(p.0 == row && col + 3 <= p.1) :: p in a.cells && b.cells[p] == a.cells[p]
    requires a.cells.Keys <= b.cells.Keys
    ensures HoldsBlock(b, row, col, blk)
  {
  }

  // ---------------------------------------------------------------------------
  // Multi-date export: status colours
  // ---------------------------------------------------------------------------

  /**
    The status fill of the multi-date export as written: a substring test for
    "Ada Penjualan" first, then for "Tidak Ada Penjualan", amber otherwise.
  */
  function MultiShadeAsWritten(v: string): (r: Shade)
    ensures r == Green <==> Contains(v, Sale)
    ensures r == Amber <==> !Contains(v, Sale) && !Contains(v, NoSale)
  {
    if Contains(v, Sale) then Green
    else if Contains(v, NoSale) then Red
    else Amber
  }

  lemma ContainsTrans(a: string, b: string, c: string)
    requires Contains(a, b) && Contains(b, c)
    ensures Contains(a, c)
  {
    var i :| 0 <= i <= |a| && OccursAt(a, b, i);
    var j :| 0 <= j <= |b| && OccursAt(b, c, j);
    assert b == a[i..i + |b|];
    forall k | 0 <= k < |c| ensures a[i + j + k] == c[k] {
      assert a[i + j + k] == b[j + k];
      assert b[j + k] == b[j..j + |c|][k];
    }
    assert OccursAt(a, c, i + j);
  }

  /** "Tidak Ada Penjualan" contains "Ada Penjualan". */
  lemma NoSaleContainsSale()
    ensures Contains(NoSale, Sale)
  {
    assert OccursAt(NoSale, Sale, 6);
  }

  /** As written, no status cell is ever red: whatever contains the red text contains the green one. */
  lemma RedUnreachable(v: string)
    ensures MultiShadeAsWritten(v) != Red
  {
    if Contains(v, NoSale) {
      NoSaleContainsSale();
      ContainsTrans(v, NoSale, Sale);
    }
  }

  /** As written, a no-sale status is green in the multi-date export although it is red in the single-date one. */
  lemma NoSaleShownGreen()
    ensures MultiShadeAsWritten(NoSale) == Green
    ensures SingleShade(NoSale) == Red
  {
    NoSaleContainsSale();
  }

  /**
    The status fill evidently intended: red for text containing
    "Tidak Ada Penjualan", green for other text containing "Ada Penjualan",
    amber for anything else.
  */
  function MultiShade(v: string): (r: Shade)
    ensures r == Red <==> Contains(v, NoSale)
    ensures r == Green <==> Contains(v, Sale) && !Contains(v, NoSale)
    ensures r == Amber <==> !Contains(v, Sale)
  {
    if Contains(v, NoSale) then
      NoSaleContainsSale();
      ContainsTrans(v, NoSale, Sale);
      Red
    else if Contains(v, Sale) then Green
    else Amber
  }

  lemma NotContainsLonger(s: string, sub: string)
    requires |s| < |sub|
    ensures !Contains(s, sub)
  {
  }

  /**
    The corrected fill agrees with the single-date export on both sale
    statuses, and a date without a record is amber.
  */
  lemma MultiShadeAgrees()
    ensures MultiShade(Sale) == SingleShade(Sale) == Green
    ensures MultiShade(NoSale) == SingleShade(NoSale) == Red
    ensures MultiShade(NoData) == Amber
    ensures MultiShade("") == Amber
  {
    NotContainsLonger(Sale, NoSale);
    assert OccursAt(Sale, Sale, 0);
    assert OccursAt(NoSale, NoSale, 0);
    NotContainsLonger("", Sale);
    assert !Contains(NoData, Sale) by {
      forall i | 0 <= i <= |NoData| ensures !OccursAt(NoData, Sale, i) {
        if 0 <= i && i + |Sale| <= |NoData| {
          assert NoData[i] != Sale[0];
        }
      }
    }
  }

  /** Status columns are every third column from 5 on: 5, 8, 11, ... */
  predicate IsStatusCol(c: int) { c >= 3 && (c - 3) % 3 == 2 }

  /** What the style loop tests: the cell's text, with an empty cell read as "". */
  function StatusText(sh: Sheet, row: int, col: int): string {
    if (row, col) in sh.cells && sh.cells[(row, col)].Label? then sh.cells[(row, col)].s else ""
  }

  /** Which fill rule the multi-date export applies: the rule as written, or the intended one. */
  datatype Rule = AsWritten | Intended

  function ShadeBy(rule: Rule, v: string): Shade {
    match rule
    case AsWritten => MultiShadeAsWritten(v)
    case Intended => MultiShade(v)
  }

  /** No status fill of the sheet is red. */
  predicate NoRed(sh: Sheet) {
    forall p | p in sh.shades :: sh.shades[p] != Red
  }

  /** The style loop of a data row over columns `col` to `end - 1`: only status columns get a fill. */
  function ShadeRow(rule: Rule, sh: Sheet, row: int, col: int, end: int): (r: Sheet)
    ensures r.cells == sh.cells && sh.shades.Keys <= r.shades.Keys
    ensures forall c | col <= c < end && IsStatusCol(c) ::
      (row, c) in r.shades && r.shades[(row, c)] == ShadeBy(rule, StatusText(sh, row, c))
    ensures forall p | p in r.shades && !(p.0 == row && col <= p.1 < end && IsStatusCol(p.1)) ::
      p in sh.shades && r.shades[p] == sh.shades[p]
    ensures rule == AsWritten && NoRed(sh) ==> NoRed(r)
    decreases end - col
  {
    if col >= end then sh
    else if IsStatusCol(col) then
      RedUnreachable(StatusText(sh, row, col));
      ShadeRow(rule, Paint(sh, row, col, ShadeBy(rule, StatusText(sh, row, col))), row, col + 1, end)
    else ShadeRow(rule, sh, row, col + 1, end)
  }

  // ---------------------------------------------------------------------------
  // Multi-date export: rows and the whole sheet
  // ---------------------------------------------------------------------------

  /** `b` only adds to `a` and agrees with it on every row above `row`. */
  predicate KeepsAbove(a: Sheet, b: Sheet, row: int) {
    a.cells.Keys <= b.cells.Keys && a.shades.Keys <= b.shades.Keys &&
    (forall p | p in b.cells && p.0 < row :: p in a.cells && b.cells[p] == a.cells[p]) &&
    (forall p | p in b.shades && p.0 < row :: p in a.shades && b.shades[p] == a.shades[p])
  }

  /** One data row: the id and name, every date block, then the fills over columns 1 to `end - 1`. */
  function WriteAccount(rule: Rule, sh: Sheet, row: int, acct: Account, names: seq<string>, cols: map<string, int>, read: Entry -> Line, end: int): (r: Sheet)
    requires Covers(cols, names)
    ensures KeepsAbove(sh, r, row)
    ensures forall p | p in r.cells :: p in sh.cells || p.0 == row
    ensures rule == AsWritten && NoRed(sh) ==> NoRed(r)
  {
    var a := Put(Put(sh, row, 1, P.Label(acct.id)), row, 2, P.Label(acct.name));
    var w := WriteBlocks(a, row, acct, names, cols, read);
    ShadeRow(rule, w, row, 1, end)
  }

  /** Each date's status column carries the fill of its block's status. */
  predicate ShadesHold(rule: Rule, sh: Sheet, row: int, acct: Account, names: seq<string>, read: Entry -> Line) {
    forall i :: 0 <= i < |names| ==>
      (row, 5 + 3 * i) in sh.shades && sh.shades[(row, 5 + 3 * i)] == ShadeBy(rule, BlockOf(acct, names[i], read).status)
  }

  /** Row `row` shows the account: id, name, one block per date from column 3, and the status fills. */
  predicate HoldsAccount(rule: Rule, sh: Sheet, row: int, acct: Account, names: seq<string>, read: Entry -> Line) {
    (row, 1) in sh.cells && sh.cells[(row, 1)] == P.Label(acct.id) &&
    (row, 2) in sh.cells && sh.cells[(row, 2)] == P.Label(acct.name) &&
    BlocksHold(sh, row, acct, names, 3, read) && ShadesHold(rule, sh, row, acct, names, read)
  }

  /** The style loop fills each status column after the colour of the status written there. */
  lemma ShadeRowHolds(rule: Rule, w: Sheet, row: int, acct: Account, names: seq<string>, read: Entry -> Line)
    requires BlocksHold(w, row, acct, names, 3, read)
    ensures ShadesHold(rule, ShadeRow(rule, w, row, 1, 3 + 3 * |names|), row, acct, names, read)
  {
    var r := ShadeRow(rule, w, row, 1, 3 + 3 * |names|);
    forall i | 0 <= i < |names|
      ensures (row, 5 + 3 * i) in r.shades && r.shades[(row, 5 + 3 * i)] == ShadeBy(rule, BlockOf(acct, names[i], read).status)
    {
      assert IsStatusCol(5 + 3 * i);
      assert HoldsBlock(w, row, 3 + 3 * i, BlockOf(acct, names[i], read));
      assert StatusText(w, row, 5 + 3 * i) == BlockOf(acct, names[i], read).status;
    }
  }

  /** With each date string naming its own block, a written row shows its account. */
  lemma WriteAccountHolds(rule: Rule, sh: Sheet, row: int, acct: Account, names: seq<string>, cols: map<string, int>, read: Entry -> Line)
    requires ColumnsAt(cols, names, 3)
    ensures Covers(cols, names)
    ensures HoldsAccount(rule, WriteAccount(rule, sh, row, acct, names, cols, read, 3 + 3 * |names|), row, acct, names, read)
  {
    var a := Put(Put(sh, row, 1, P.Label(acct.id)), row, 2, P.Label(acct.name));
    WriteBlocksHold(a, row, acct, names, cols, read, 3);
    var w := WriteBlocks(a, row, acct, names, cols, read);
    ShadeRowHolds(rule, w, row, acct, names, read);
    var r := ShadeRow(rule, w, row, 1, 3 + 3 * |names|);
    assert r == WriteAccount(rule, sh, row, acct, names, cols, read, 3 + 3 * |names|);
    assert r.cells == w.cells;
  }

  /** A shown row survives every later write, which lies on later rows. */
  lemma HoldsAccountKept(rule: Rule, a: Sheet, b: Sheet, row: int, acct: Account, names: seq<string>, read: Entry -> Line)
    requires HoldsAccount(rule, a, row, acct, names, read) && KeepsAbove(a, b, row + 1)
    ensures HoldsAccount(rule, b, row, acct, names, read)
  {
    forall i | 0 <= i < |names| ensures HoldsBlock(b, row, 3 + 3 * i, BlockOf(acct, names[i], read)) {
      assert HoldsBlock(a, row, 3 + 3 * i, BlockOf(acct, names[i], read));
    }
  }

  /** The row loop: one row per account from `row` on. */
  function WriteAccounts(rule: Rule, sh: Sheet, accts: seq<Account>, row: int, names: seq<string>, cols: map<string, int>, read: Entry -> Line, end: int): (r: Sheet)
    requires Covers(cols, names)
    ensures KeepsAbove(sh, r, row)
    ensures forall p | p in r.cells :: p in sh.cells || row <= p.0 < row + |accts|
    ensures rule == AsWritten && NoRed(sh) ==> NoRed(r)
    decreases |accts|
  {
    if accts == [] then sh
    else
      var a := WriteAccount(rule, sh, row, accts[0], names, cols, read, end);
      var b := WriteAccounts(rule, a, accts[1..], row + 1, names, cols, read, end);
      b
  }

  predicate AccountsHold(rule: Rule, sh: Sheet, accts: seq<Account>, row: int, names: seq<string>, read: Entry -> Line) {
    forall k :: 0 <= k < |accts| ==> HoldsAccount(rule, sh, row + k, accts[k], names, read)
  }

  lemma AccountsHoldCons(rule: Rule, sh: Sheet, accts: seq<Account>, row: int, names: seq<string>, read: Entry -> Line)
    requires accts != [] && HoldsAccount(rule, sh, row, accts[0], names, read) && AccountsHold(rule, sh, accts[1..], row + 1, names, read)
    ensures AccountsHold(rule, sh, accts, row, names, read)
  {
    forall k | 1 <= k < |accts| ensures HoldsAccount(rule, sh, row + k, accts[k], names, read) {
      assert accts[k] == accts[1..][k - 1];
    }
  }

  /** Every account lands on its own row, in order. */
  lemma {:induction false} WriteAccountsHold(rule: Rule, sh: Sheet, accts: seq<Account>, row: int, names: seq<string>, cols: map<string, int>, read: Entry -> Line)
    requires ColumnsAt(cols, names, 3)
    ensures Covers(cols, names)
    ensures AccountsHold(rule, WriteAccounts(rule, sh, accts, row, names, cols, read, 3 + 3 * |names|), accts, row, names, read)
    decreases |accts|
  {
    WriteAccountHolds(rule, sh, row, if accts == [] then Account("", "", map[]) else accts[0], names, cols, read);
    if accts != [] {
      var end := 3 + 3 * |names|;
      var a := WriteAccount(rule, sh, row, accts[0], names, cols, read, end);
      var b := WriteAccounts(rule, a, accts[1..], row + 1, names, cols, read, end);
      WriteAccountsHold(rule, a, accts[1..], row + 1, names, cols, read);
      HoldsAccountKept(rule, a, b, row, accts[0], names, read);
      AccountsHoldCons(rule, b, accts, row, names, read);
    }
  }

  const MultiHead := Sheet(map[(1, 1) := P.Label(P.IdHeader), (1, 2) := P.Label(P.NameHeader)], map[])

  /** The sheet for date strings in column order and accounts in row order. */
  function MultiSheet(rule: Rule, names: seq<string>, accts: seq<Account>, read: Entry -> Line): (r: Sheet)
    ensures (1, 1) in r.cells && r.cells[(1, 1)] == P.Label(P.IdHeader)
    ensures (1, 2) in r.cells && r.cells[(1, 2)] == P.Label(P.NameHeader)
    ensures forall p | p in r.cells :: 1 <= p.0 <= 2 + |accts|
    ensures rule == AsWritten ==> NoRed(r)
  {
    var h := DateHeaders(MultiHead, names, 3);
    MultiHeadCells(names);
    var cols := DateColumns(names, 3, map[]);
    assert Covers(cols, names);
    var r := WriteAccounts(rule, h, accts, 3, names, cols, read, 3 + 3 * |names|);
    r
  }

  /** The header rows keep the id and name headers and hold nothing below row 2. */
  lemma MultiHeadCells(names: seq<string>)
    ensures var h := DateHeaders(MultiHead, names, 3);
      (1, 1) in h.cells && h.cells[(1, 1)] == P.Label(P.IdHeader) &&
      (1, 2) in h.cells && h.cells[(1, 2)] == P.Label(P.NameHeader) &&
      (forall p | p in h.cells :: 1 <= p.0 <= 2)
  {
    var h := DateHeaders(MultiHead, names, 3);
    assert (1, 1) in MultiHead.cells && (1, 2) in MultiHead.cells;
    forall p | p in h.cells ensures 1 <= p.0 <= 2 {
      if !(1 <= p.0 <= 2 && 3 <= p.1 < 3 + 3 * |names|) {
        assert p in MultiHead.cells;
      }
    }
  }

  lemma HeadersHoldKept(a: Sheet, b: Sheet, names: seq<string>)
    requires HeadersHold(a, names, 3) && KeepsAbove(a, b, 3)
    ensures HeadersHold(b, names, 3)
  {
    forall i | 0 <= i < |names| ensures HoldsHeader(b, 3 + 3 * i, names[i]) {
      assert HoldsHeader(a, 3 + 3 * i, names[i]);
    }
  }

  /** Without repeated date strings, each heads its own block and each account fills its own row. */
  lemma MultiSheetLayout(rule: Rule, names: seq<string>, accts: seq<Account>, read: Entry -> Line)
    requires Distinct(names)
    ensures HeadersHold(MultiSheet(rule, names, accts, read), names, 3)
    ensures AccountsHold(rule, MultiSheet(rule, names, accts, read), accts, 3, names, read)
  {
    var h := DateHeaders(MultiHead, names, 3);
    var cols := DateColumns(names, 3, map[]);
    var r := WriteAccounts(rule, h, accts, 3, names, cols, read, 3 + 3 * |names|);
    assert r == MultiSheet(rule, names, accts, read);
    DateHeadersHold(MultiHead, names, 3);
    HeadersHoldKept(h, r, names);
    DateColumnsAt(names, 3, map[]);
    WriteAccountsHold(rule, h, accts, 3, names, cols, read);
  }

  /**
    `export_multi_date_results` under a fill rule: the id and name headers,
    one header block per sorted date, then one row per collected account in
    id order from row 3, and nothing below.
  */
  function ExportMultiBy(rule: Rule, groups: seq<(string, seq<Entry>)>, dates: seq<Date>): (r: Sheet)
    requires AllValid(dates)
    ensures (1, 1) in r.cells && r.cells[(1, 1)] == P.Label(P.IdHeader)
    ensures (1, 2) in r.cells && r.cells[(1, 2)] == P.Label(P.NameHeader)
    ensures forall p | p in r.cells :: 1 <= p.0 <= 2 + |Rows(groups)|
    ensures rule == AsWritten ==> NoRed(r)
  {
    SortedDatesFacts(dates);
    MultiSheet(rule, Names(SortedDates(dates)), Rows(groups), Read)
  }

  /** `export_multi_date_results` as written: no status fill anywhere in the sheet is red. */
  function ExportMulti(groups: seq<(string, seq<Entry>)>, dates: seq<Date>): (r: Sheet)
    requires AllValid(dates)
    ensures NoRed(r)
  {
    ExportMultiBy(AsWritten, groups, dates)
  }

  /** The multi-date export with the intended fill rule. */
  function ExportMultiIntended(groups: seq<(string, seq<Entry>)>, dates: seq<Date>): Sheet
    requires AllValid(dates)
  {
    ExportMultiBy(Intended, groups, dates)
  }

  /**
    Without repeated dates, the i-th date in calendar order heads columns
    3 + 3i to 5 + 3i, and row 3 + k shows the k-th account under them.
  */
  lemma MultiLayout(rule: Rule, groups: seq<(string, seq<Entry>)>, dates: seq<Date>)
    requires AllValid(dates) && Distinct(dates)
    ensures AllValid(SortedDates(dates)) && S.Sorted(DateLe, SortedDates(dates))
    ensures HeadersHold(ExportMultiBy(rule, groups, dates), Names(SortedDates(dates)), 3)
    ensures AccountsHold(rule, ExportMultiBy(rule, groups, dates), Rows(groups), 3, Names(SortedDates(dates)), Read)
  {
    SortedDatesFacts(dates);
    NamesDistinct(SortedDates(dates));
    MultiSheetLayout(rule, Names(SortedDates(dates)), Rows(groups), Read);
  }

  /**
    Row 3 + k shows the k-th account by id under its first-seen name, and
    the block of the i-th sorted date shows the last record for that
    account and date, its status filled by the rule; without one it shows
    0, 0 and an amber "Tidak Ada Data".
  */
  lemma MultiCellsShowLastRecord(rule: Rule, groups: seq<(string, seq<Entry>)>, dates: seq<Date>, k: int, i: int)
    requires AllValid(dates) && Distinct(dates)
    requires 0 <= k < |Rows(groups)| && 0 <= i < |dates|
    ensures var r := ExportMultiBy(rule, groups, dates);
      var a := Rows(groups)[k];
      var e := LastEntry(Walk(groups), a.id, Names(SortedDates(dates))[i]);
      (3 + k, 1) in r.cells && r.cells[(3 + k, 1)] == P.Label(a.id) &&
      (3 + k, 2) in r.cells && r.cells[(3 + k, 2)] == P.Label(FirstName(Walk(groups), a.id)) &&
      (3 + k, 3 + 3 * i) in r.cells && (3 + k, 4 + 3 * i) in r.cells &&
      (3 + k, 5 + 3 * i) in r.cells && (3 + k, 5 + 3 * i) in r.shades &&
      (e.Some? ==>
        r.cells[(3 + k, 3 + 3 * i)] == P.Number(StockOf(e.value)) &&
        r.cells[(3 + k, 4 + 3 * i)] == P.Number(SoldOf(e.value)) &&
        r.cells[(3 + k, 5 + 3 * i)] == P.Label(StatusOf(e.value)) &&
        r.shades[(3 + k, 5 + 3 * i)] == ShadeBy(rule, StatusOf(e.value))) &&
      (e.None? ==>
        r.cells[(3 + k, 3 + 3 * i)] == P.Number(0) &&
        r.cells[(3 + k, 4 + 3 * i)] == P.Number(0) &&
        r.cells[(3 + k, 5 + 3 * i)] == P.Label(NoData) &&
        r.shades[(3 + k, 5 + 3 * i)] == Amber)
  {
    var r := ExportMultiBy(rule, groups, dates);
    var names := Names(SortedDates(dates));
    var a := Rows(groups)[k];
    MultiLayout(rule, groups, dates);
    RowsFacts(groups);
    assert HoldsAccount(rule, r, 3 + k, a, names, Read);
    assert HoldsBlock(r, 3 + k, 3 + 3 * i, BlockOf(a, names[i], Read));
    assert (3 + k, 5 + 3 * i) in r.shades && r.shades[(3 + k, 5 + 3 * i)] == ShadeBy(rule, BlockOf(a, names[i], Read).status);
    assert 3 + 3 * i + 2 == 5 + 3 * i;
    MultiShadeAgrees();
  }

  /**
    As written, a date whose last record has a no-sale status is filled
    green; with the intended rule it is filled red.
  */
  lemma NoSaleCellFill(groups: seq<(string, seq<Entry>)>, dates: seq<Date>, k: int, i: int)
    requires AllValid(dates) && Distinct(dates)
    requires 0 <= k < |Rows(groups)| && 0 <= i < |dates|
    ensures var e := LastEntry(Walk(groups), Rows(groups)[k].id, Names(SortedDates(dates))[i]);
      var w := ExportMulti(groups, dates);
      var c := ExportMultiIntended(groups, dates);
      e.Some? && Contains(StatusOf(e.value), NoSale) ==>
        (3 + k, 5 + 3 * i) in w.shades && w.shades[(3 + k, 5 + 3 * i)] == Green &&
        (3 + k, 5 + 3 * i) in c.shades && c.shades[(3 + k, 5 + 3 * i)] == Red
  {
    MultiCellsShowLastRecord(AsWritten, groups, dates, k, i);
    MultiCellsShowLastRecord(Intended, groups, dates, k, i);
    NoSaleContainsSale();
    var e := LastEntry(Walk(groups), Rows(groups)[k].id, Names(SortedDates(dates))[i]);
    if e.Some? && Contains(StatusOf(e.value), NoSale) {
      ContainsTrans(StatusOf(e.value), NoSale, Sale);
    }
  }
}

=== FILE: gui.dfy ===
/**
  The GUI's control surface (main_gui.py): the module-level flags
  `automation_running`, `automation_paused` and `stop_event`, the results
  kept for export across runs, and the exposed calls that start, pause, stop
  and run the automation, load accounts, and clear or query the results.
  Each exposed call is an atomic step on `Gui`; the background loop itself
  is `Runner.Iterate` in GUI mode.
*/
module GuiControl {
  import opened Wrappers
  import opened Calendar
  import T = Telemetry
  import M = Master
  import R = Runner

  /** The module-level state of main_gui.py the calls below touch. */
  datatype Gui = Gui(running: bool, paused: bool, stopEvent: bool, allResults: seq<R.ResultRecord>,
                     exportDate: Option<Date>, tele: T.Telemetry)

  // ---------------------------------------------------------------------------
  // Loading accounts
  // ---------------------------------------------------------------------------

  /** An account row as handed to the frontend. */
  datatype Row = Row(id: int, nama: string, username: string, pin: string, status: string, progress: int)

  datatype LoadReply = LoadReply(success: bool, accounts: seq<Row>, count: nat)

  /** Every loaded account unpacks into exactly `(nama, username, pin)`. */
  predicate Unpackable(loaded: seq<seq<string>>) {
    forall i :: 0 <= i < |loaded| ==> |loaded[i]| == 3
  }

  /**
    `load_accounts_from_data` after decoding: `loaded` is what the account
    loader returned, `None` when it raised. An empty list, a raise, or an
    account that does not unpack into three fields gives a failed reply with
    no accounts; otherwise the accounts are numbered from 1 in order, each
    "waiting" at 0.
  */
  function LoadAccounts(loaded: Option<seq<seq<string>>>): (r: LoadReply)
    ensures r.success <==> loaded.Some? && loaded.value != [] && Unpackable(loaded.value)
    ensures !r.success ==> r.accounts == [] && r.count == 0
    ensures r.success ==> r.count == |r.accounts| == |loaded.value|
    ensures r.success ==> forall i :: 0 <= i < |r.accounts| ==>
      r.accounts[i] == Row(i + 1, loaded.value[i][0], loaded.value[i][1], loaded.value[i][2], "waiting", 0)
  {
    match loaded
    case None => LoadReply(false, [], 0)
    case Some(accs) =>
      if accs == [] || !Unpackable(accs) then LoadReply(false, [], 0)
      else LoadReply(true, FormatRows(accs, 1), |accs|)
  }

  function FormatRows(accs: seq<seq<string>>, first: int): (r: seq<Row>)
    requires Unpackable(accs)
    ensures |r| == |accs|
    ensures forall i :: 0 <= i < |r| ==> r[i] == Row(first + i, accs[i][0], accs[i][1], accs[i][2], "waiting", 0)
    decreases |accs|
  {
    if accs == [] then []
    else [Row(first, accs[0][0], accs[0][1], accs[0][2], "waiting", 0)] + FormatRows(accs[1..], first + 1)
  }

  /** The ids handed out are exactly 1..n, so they are distinct. */
  lemma LoadedIdsDistinct(loaded: Option<seq<seq<string>>>, i: int, j: int)
    requires LoadAccounts(loaded).success
    requires 0 <= i < j < |LoadAccounts(loaded).accounts|
    ensures LoadAccounts(loaded).accounts[i].id != LoadAccounts(loaded).accounts[j].id
  {
  }

  // ---------------------------------------------------------------------------
  // Control calls
  // ---------------------------------------------------------------------------

  /**
    The date setting: a non-empty string parsed as `%Y-%m-%d`, `None` when
    absent, empty or unparsable.
  */
  function SelectedDate(setting: Option<string>): (r: Option<Date>)
    ensures r.Some? ==> setting.Some? && ValidDate(r.value)
    ensures setting.None? || setting == Some("") ==> r.None?
  {
    if setting.Some? && setting.value != "" then ParseIso(setting.value) else None
  }

  /** A date the frontend formats as `YYYY-MM-DD` comes back as itself. */
  lemma SelectedDateRoundTrip(d: Date)
    requires ValidDate(d) && 1 <= d.year <= 9999
    ensures SelectedDate(Some(FormatIso(d))) == Some(d)
  {
    ParseFormatIso(d);
  }

  /**
    `start_automation`: refused while a run is marked running; otherwise it
    clears the stop event, marks a run as running, and hands the parsed date
    to the new background run.
  */
  function StartAutomation(g: Gui, setting: Option<string>): (r: (Gui, bool, Option<Date>))
    ensures g.running ==> r.0 == g && !r.1
    ensures !g.running ==> r.1 && r.0 == g.(running := true, stopEvent := false) && r.2 == SelectedDate(setting)
  {
    if g.running then (g, false, None)
    else (g.(running := true, stopEvent := false), true, SelectedDate(setting))
  }

  /** `pause_automation`: flips the pause flag and reports the new value. */
  function PauseAutomation(g: Gui): (r: (Gui, bool))
    ensures r.1 == r.0.paused && r.1 != g.paused
    ensures r.0.(paused := g.paused) == g
  {
    (g.(paused := !g.paused), !g.paused)
  }

  /** Two pause calls restore the original state. */
  lemma PauseTwiceRestores(g: Gui)
    ensures PauseAutomation(PauseAutomation(g).0).0 == g
  {
  }

  /** `stop_automation`: sets the stop event and at once marks no run as running. */
  function StopAutomation(g: Gui): (r: Gui)
    ensures r.stopEvent && !r.running
    ensures r.(running := g.running, stopEvent := g.stopEvent) == g
  {
    g.(stopEvent := true, running := false)
  }

  /**
    A stop does not wait for the background run to finish: a start right
    after it is accepted, and it clears the stop event again, so a run still
    in progress no longer sees the stop.
  */
  lemma StartAfterStopAccepted(g: Gui, setting: Option<string>)
    ensures var r := StartAutomation(StopAutomation(g), setting);
      r.1 && !r.0.stopEvent && r.0.running
  {
  }

  /** The same race as the loop sees it: a stop followed by a start leaves no stop for the loop to find. */
  lemma LoopMissesStopFollowedByStart(f: R.Flags)
    ensures !R.ApplyAll(f, [R.GuiStop, R.GuiStart]).stop
  {
    assert [R.GuiStop, R.GuiStart][1..] == [R.GuiStart];
    assert [R.GuiStart][1..] == [];
  }

  /** `clear_results`. */
  function ClearResults(g: Gui): (r: Gui)
    ensures r.allResults == [] && r.(allResults := g.allResults) == g
  {
    g.(allResults := [])
  }

  /** `get_export_ready_status`. */
  function ExportReady(g: Gui): (r: (bool, nat))
    ensures r.0 <==> g.allResults != []
    ensures r.1 == |g.allResults|
  {
    (|g.allResults| > 0, |g.allResults|)
  }

  lemma NothingToExportAfterClear(g: Gui)
    ensures ExportReady(ClearResults(g)) == (false, 0)
  {
  }

  // ---------------------------------------------------------------------------
  // The background run
  // ---------------------------------------------------------------------------

  /**
    `run_automation_background`: resets the telemetry, fixes the export date
    (the selected date or today), runs the loop in GUI mode against the
    current flags, appends every result row to the kept results, and in its
    `finally` marks no run as running or paused, however the loop ended.
  */
  function RunBackground(g: Gui, folder: M.Folder, accounts: seq<R.AccountInput>, turns: seq<R.Turn>,
                         selected: Option<Date>, today: Date): (r: (Gui, R.Loop, R.Ending))
    requires |turns| == |accounts| && R.TurnsValid(turns) && M.FolderValid(folder)
    requires selected.Some? ==> ValidDate(selected.value)
    ensures !r.0.running && !r.0.paused
    ensures r.0.exportDate == Some(selected.GetOr(today))
    ensures r.0.allResults == g.allResults + r.1.results
    ensures r.1.results == R.Harvest(r.1.log)
    ensures R.BegunIndices(r.1.log) == R.Range(0, R.Reached(r.2, |accounts|))
    ensures T.Consistent(r.0.tele) && r.0.tele.successful == |r.1.results|
    ensures M.FolderValid(r.1.folder)
  {
    var s0 := R.Loop(R.Flags(g.stopEvent, g.paused, g.running), [], [], folder, [], []);
    var save := R.SaverFor(selected);
    var q := R.Iterate(R.Gui, R.BodyFor(R.Gui), save, s0, accounts, turns, 0);
    var tele := T.Run(T.Reset(g.tele), q.0.calls);
    R.RunFacts(R.Gui, g.tele, save, s0, accounts, turns, selected);
    (Gui(false, false, q.0.flags.stop, g.allResults + q.0.results, Some(selected.GetOr(today)), tele), q.0, q.1)
  }

  /** Runs only add to the kept results: what was there before a run is still there, in front. */
  lemma RunKeepsEarlierResults(g: Gui, folder: M.Folder, accounts: seq<R.AccountInput>, turns: seq<R.Turn>,
                               selected: Option<Date>, today: Date)
    requires |turns| == |accounts| && R.TurnsValid(turns) && M.FolderValid(folder)
    requires selected.Some? ==> ValidDate(selected.value)
    requires g.allResults != []
    ensures var r := RunBackground(g, folder, accounts, turns, selected, today);
      g.allResults <= r.0.allResults && ExportReady(r.0).0
  {
  }
}

=== FILE: master.dfy ===
/**
  `save_to_excel_pivot_format` at the level of the results directory: the
  reading goes to the month's master workbook and, inside it, to the month's
  sheet. A workbook is a map from sheet names to sheets and the directory a
  map from file names to workbooks. Loading and saving are identities except
  for the two ways they can fail: an unreadable file is replaced by a fresh
  workbook, and a failed save (caught and logged) leaves the directory as it
  was.
*/
module Master {
  import opened Wrappers
  import opened Text
  import opened Calendar
  import opened Constants
  import opened Validators
  import opened Pivot

  type Workbook = map<string, Sheet>
  type Folder = map<string, Workbook>

  /**
    The clock readings one call makes, in the order the code makes them: the
    file name, the target date, the time stamp, then the month and the year
    of the sheet name. The time stamp is the hour (0..23) and minute.
  */
  datatype Clock = Clock(forFile: Date, forTarget: Date, hour: int, minute: int, forSheetMonth: Date, forSheetYear: Date)

  predicate ClockValid(c: Clock) {
    ValidDate(c.forFile) && ValidDate(c.forTarget) && ValidDate(c.forSheetMonth) && ValidDate(c.forSheetYear) &&
    0 <= c.hour < 24 && 0 <= c.minute < 60
  }

  /** The readings all fall on one day, as they do unless the call straddles midnight. */
  predicate SameDay(c: Clock) {
    c.forFile == c.forTarget && c.forTarget == c.forSheetMonth && c.forSheetMonth == c.forSheetYear
  }

  /** `%I`: the hour on a 12-hour dial, 12 standing for 0. */
  function Hour12(h: int): (r: int)
    requires 0 <= h < 24
    ensures 1 <= r <= 12
  {
    if h % 12 == 0 then 12 else h % 12
  }

  /** `now.strftime("%I:%M %p")`, e.g. "01:05 PM". */
  function TimeText(h: int, m: int): (r: string)
    requires 0 <= h < 24 && 0 <= m < 60
    ensures |r| == 8 && r[2] == ':' && r[5] == ' ' && r[7] == 'M'
    ensures r[6] == (if h < 12 then 'A' else 'P')
  {
    TwoDigits(Hour12(h)) + ":" + TwoDigits(m) + " " + (if h < 12 then "AM" else "PM")
  }

  /** The stamp names the minute exactly: different times give different stamps. */
  lemma TimeTextInjective(h1: int, m1: int, h2: int, m2: int)
    requires 0 <= h1 < 24 && 0 <= m1 < 60 && 0 <= h2 < 24 && 0 <= m2 < 60
    requires TimeText(h1, m1) == TimeText(h2, m2)
    ensures h1 == h2 && m1 == m2
  {
    var t1, t2 := TimeText(h1, m1), TimeText(h2, m2);
    assert t1[0] == t2[0] && t1[1] == t2[1] && t1[3] == t2[3] && t1[4] == t2[4] && t1[6] == t2[6];
    assert DigitVal(t1[0]) * 10 + DigitVal(t1[1]) == Hour12(h1);
    assert DigitVal(t2[0]) * 10 + DigitVal(t2[1]) == Hour12(h2);
    assert DigitVal(t1[3]) * 10 + DigitVal(t1[4]) == m1;
    assert DigitVal(t2[3]) * 10 + DigitVal(t2[4]) == m2;
  }

  /** What the save needs from the file system: whether the load and the save succeed. */
  datatype Disk = Disk(loadOk: bool, saveOk: bool)

  /**
    `_load_or_create_workbook(filepath, sheet_name)`: the stored workbook
    when the file exists and reads, otherwise a fresh workbook; in either
    case the named sheet, created empty when missing.
  */
  function LoadWorkbook(folder: Folder, file: string, sheet: string, loadOk: bool): (wb: Workbook)
    ensures sheet in wb
    ensures file in folder && loadOk ==> wb.Keys == folder[file].Keys + {sheet}
    ensures file in folder && loadOk ==> forall n | n in folder[file] :: wb[n] == folder[file][n]
    ensures !(file in folder && loadOk) ==> wb == map[sheet := EmptySheet]
    ensures file in folder && loadOk && sheet !in folder[file] ==> wb[sheet] == EmptySheet
  {
    if file in folder && loadOk then
      var stored := folder[file];
      if sheet in stored then stored else stored[sheet := EmptySheet]
    else
      map[sheet := EmptySheet]
  }

  /** Every sheet of the workbook keeps openpyxl's dimension invariant. */
  predicate WorkbookValid(wb: Workbook) {
    forall n | n in wb :: Valid(wb[n])
  }

  /** File `f` is present afterwards exactly when it was before, with the same workbook. */
  predicate Untouched(before: Folder, after: Folder, f: string) {
    (f in after <==> f in before) && (f in before ==> after[f] == before[f])
  }

  predicate FolderValid(folder: Folder) {
    forall f | f in folder :: WorkbookValid(folder[f])
  }

  /** The reading as the code builds it from its string arguments and the clock. */
  function MakeReading(id: string, name: string, stokRaw: Raw, inputRaw: Raw, status: string, c: Clock): Reading
    requires ClockValid(c)
  {
    Reading(id, name, ParseCount(stokRaw), ParseCount(inputRaw), TimeText(c.hour, c.minute), status)
  }

  /** The day the reading is filed under: the chosen date, or the clock's. */
  function TargetDate(selected: Option<Date>, c: Clock): Date {
    selected.GetOr(c.forTarget)
  }

  /** The directory after the workbook `wb` has been saved as `file`. */
  function Store(folder: Folder, file: string, wb: Workbook): (r: Folder)
    requires FolderValid(folder) && WorkbookValid(wb)
    ensures FolderValid(r)
    ensures file in r && r[file] == wb
    ensures forall f | f != file :: Untouched(folder, r, f)
  {
    folder[file := wb]
  }

  /** The upserted sheet put back into its workbook. */
  function Replace(wb: Workbook, sheet: string, ws: Sheet): (r: Workbook)
    requires WorkbookValid(wb)
    requires Valid(ws)
    ensures WorkbookValid(r)
    ensures r.Keys == wb.Keys + {sheet} && r[sheet] == ws
    ensures forall n | n in wb && n != sheet :: r[n] == wb[n]
  {
    wb[sheet := ws]
  }

  /** A loaded workbook's sheets all satisfy the dimension invariant. */
  lemma LoadedValid(folder: Folder, file: string, sheet: string, loadOk: bool)
    requires FolderValid(folder)
    ensures WorkbookValid(LoadWorkbook(folder, file, sheet, loadOk))
  {
  }

  /** The named sheet of the loaded workbook. */
  function LoadSheet(folder: Folder, file: string, sheet: string, loadOk: bool): (ws: Sheet)
    requires FolderValid(folder)
    ensures Valid(ws)
  {
    LoadedValid(folder, file, sheet, loadOk);
    LoadWorkbook(folder, file, sheet, loadOk)[sheet]
  }

  /**
    `save_to_excel_pivot_format(id, name, _, stok, inputan, status, selected_date)`:
    the directory after the call.
  */
  function SavePivot(folder: Folder, id: string, name: string, stokRaw: Raw, inputRaw: Raw, status: string,
                     selected: Option<Date>, c: Clock, disk: Disk): (r: Folder)
    requires FolderValid(folder) && ClockValid(c)
    requires selected.Some? ==> ValidDate(selected.value)
    ensures FolderValid(r)
    ensures forall f | f != MasterFilenameFor(selected, c.forFile) :: Untouched(folder, r, f)
    ensures var file, sheet := MasterFilenameFor(selected, c.forFile), SheetNameFor(selected, c.forSheetMonth, c.forSheetYear);
      r == SaveSheet(folder, file, sheet, disk,
                     UpsertSheet(LoadSheet(folder, file, sheet, disk.loadOk), TargetDate(selected, c),
                                 MakeReading(id, name, stokRaw, inputRaw, status, c)))
  {
    var file := MasterFilenameFor(selected, c.forFile);
    var sheet := SheetNameFor(selected, c.forSheetMonth, c.forSheetYear);
    var ws := UpsertSheet(LoadSheet(folder, file, sheet, disk.loadOk), TargetDate(selected, c),
                          MakeReading(id, name, stokRaw, inputRaw, status, c));
    SaveSheet(folder, file, sheet, disk, ws)
  }

  /**
    The load-modify-save of one sheet: `ws` replaces the named sheet of the
    loaded workbook, which is stored unless the save fails. No other file
    changes, and no other sheet of the loaded workbook.
  */
  function SaveSheet(folder: Folder, file: string, sheet: string, disk: Disk, ws: Sheet): (r: Folder)
    requires FolderValid(folder) && Valid(ws)
    ensures FolderValid(r)
    ensures !disk.saveOk ==> r == folder
    ensures forall f | f != file :: Untouched(folder, r, f)
    ensures disk.saveOk ==> file in r && r[file].Keys == LoadWorkbook(folder, file, sheet, disk.loadOk).Keys
    ensures disk.saveOk ==> sheet in r[file] && r[file][sheet] == ws
    ensures disk.saveOk ==> forall n | n in r[file] && n != sheet :: r[file][n] == LoadWorkbook(folder, file, sheet, disk.loadOk)[n]
  {
    var loaded := LoadWorkbook(folder, file, sheet, disk.loadOk);
    LoadedValid(folder, file, sheet, disk.loadOk);
    if disk.saveOk then Store(folder, file, Replace(loaded, sheet, ws)) else folder
  }

  /**
    With a chosen date, or with every clock reading on one day, the reading
    goes to the master file and the sheet named for its own month.
  */
  lemma SaveNamesMonth(selected: Option<Date>, c: Clock)
    requires ClockValid(c)
    requires selected.Some? ==> ValidDate(selected.value)
    requires selected.None? ==> SameDay(c)
    ensures MasterFilenameFor(selected, c.forFile) == MasterFilename(TargetDate(selected, c))
    ensures SheetNameFor(selected, c.forSheetMonth, c.forSheetYear) == SheetName(TargetDate(selected, c))
  {
  }

  /** Under the same conditions the master files of every other month stay exactly as they were. */
  lemma SaveLeavesOtherMonths(folder: Folder, id: string, name: string, stokRaw: Raw, inputRaw: Raw, status: string,
                              selected: Option<Date>, c: Clock, disk: Disk, other: Date)
    requires FolderValid(folder) && ClockValid(c)
    requires selected.Some? ==> ValidDate(selected.value)
    requires selected.None? ==> SameDay(c)
    requires ValidDate(other)
    requires other.year != TargetDate(selected, c).year || other.month != TargetDate(selected, c).month
    ensures Untouched(folder, SavePivot(folder, id, name, stokRaw, inputRaw, status, selected, c, disk), MasterFilename(other))
  {
    OtherMonthOtherFile(selected, c, other);
  }

  lemma OtherMonthOtherFile(selected: Option<Date>, c: Clock, other: Date)
    requires ClockValid(c)
    requires selected.Some? ==> ValidDate(selected.value)
    requires selected.None? ==> SameDay(c)
    requires ValidDate(other)
    requires other.year != TargetDate(selected, c).year || other.month != TargetDate(selected, c).month
    ensures MasterFilename(other) != MasterFilenameFor(selected, c.forFile)
  {
    SaveNamesMonth(selected, c);
    MasterFilenameIdentifiesMonth(other, TargetDate(selected, c));
  }

  /**
    Without a chosen date the month and the year of the sheet name come from
    two readings: a call that straddles New Year's midnight names the sheet
    after December of the new year.
  */
  lemma SheetNameAcrossNewYear()
    ensures SheetNameFor(None, Date(2024, 12, 31), Date(2025, 1, 1)) == "DESEMBER_2025"
  {
    assert IntToString(2025) == "2025" by {
      assert NatToString(2025) == NatToString(202) + [DigitChar(5)];
      assert NatToString(202) == NatToString(20) + [DigitChar(2)];
      assert NatToString(20) == NatToString(2) + [DigitChar(0)];
    }
  }

  /**
    A workbook that cannot be read is replaced on save by one holding only
    the month's sheet: every other sheet of that file is gone.
  */
  lemma UnreadableFileReplaced(folder: Folder, id: string, name: string, stokRaw: Raw, inputRaw: Raw, status: string,
                               selected: Option<Date>, c: Clock, other: string)
    requires FolderValid(folder) && ClockValid(c)
    requires selected.Some? ==> ValidDate(selected.value)
    requires var file := MasterFilenameFor(selected, c.forFile);
      file in folder && other in folder[file] && other != SheetNameFor(selected, c.forSheetMonth, c.forSheetYear)
    ensures var r := SavePivot(folder, id, name, stokRaw, inputRaw, status, selected, c, Disk(false, true));
      other !in r[MasterFilenameFor(selected, c.forFile)]
  {
    var file := MasterFilenameFor(selected, c.forFile);
    var sheet := SheetNameFor(selected, c.forSheetMonth, c.forSheetYear);
    assert LoadWorkbook(folder, file, sheet, false).Keys == {sheet};
  }

  /**
    A readable workbook keeps its other sheets: the save changes only the
    month's sheet, adding it when missing.
  */
  lemma ReadableFileKeepsSheets(folder: Folder, id: string, name: string, stokRaw: Raw, inputRaw: Raw, status: string,
                                selected: Option<Date>, c: Clock, other: string)
    requires FolderValid(folder) && ClockValid(c)
    requires selected.Some? ==> ValidDate(selected.value)
    requires var file := MasterFilenameFor(selected, c.forFile);
      file in folder && other in folder[file] && other != SheetNameFor(selected, c.forSheetMonth, c.forSheetYear)
    ensures var file := MasterFilenameFor(selected, c.forFile);
      var r := SavePivot(folder, id, name, stokRaw, inputRaw, status, selected, c, Disk(true, true));
      other in r[file] && r[file][other] == folder[file][other]
  {
  }

  /**
    After a successful save the month's sheet of the file holds the reading
    in the four cells of the outlet's row and the date's block.
  */
  lemma SaveStoresReading(folder: Folder, id: string, name: string, stokRaw: Raw, inputRaw: Raw, status: string,
                          selected: Option<Date>, c: Clock, disk: Disk)
    requires FolderValid(folder) && ClockValid(c)
    requires selected.Some? ==> ValidDate(selected.value)
    requires disk.saveOk
    ensures var file, sheet := MasterFilenameFor(selected, c.forFile), SheetNameFor(selected, c.forSheetMonth, c.forSheetYear);
      var r := SavePivot(folder, id, name, stokRaw, inputRaw, status, selected, c, disk);
      var loaded := LoadSheet(folder, file, sheet, disk.loadOk);
      var t := Target(loaded, TargetDate(selected, c), MakeReading(id, name, stokRaw, inputRaw, status, c));
      file in r && sheet in r[file] && HoldsReading(r[file][sheet], t.row, t.col, MakeReading(id, name, stokRaw, inputRaw, status, c))
  {
    var file, sheet := MasterFilenameFor(selected, c.forFile), SheetNameFor(selected, c.forSheetMonth, c.forSheetYear);
    UpsertWrites(LoadSheet(folder, file, sheet, disk.loadOk), TargetDate(selected, c), MakeReading(id, name, stokRaw, inputRaw, status, c));
  }

  /** Saving the same reading again, with the same clock readings and a working disk, changes nothing. */
  lemma SavePivotIdempotent(folder: Folder, id: string, name: string, stokRaw: Raw, inputRaw: Raw, status: string,
                            selected: Option<Date>, c: Clock)
    requires FolderValid(folder) && ClockValid(c)
    requires selected.Some? ==> ValidDate(selected.value)
    ensures var once := SavePivot(folder, id, name, stokRaw, inputRaw, status, selected, c, Disk(true, true));
      SavePivot(once, id, name, stokRaw, inputRaw, status, selected, c, Disk(true, true)) == once
  {
    var file, sheet := MasterFilenameFor(selected, c.forFile), SheetNameFor(selected, c.forSheetMonth, c.forSheetYear);
    var d, rd := TargetDate(selected, c), MakeReading(id, name, stokRaw, inputRaw, status, c);
    var once := SavePivot(folder, id, name, stokRaw, inputRaw, status, selected, c, Disk(true, true));
    LoadedValid(folder, file, sheet, true);
    var ws := LoadWorkbook(folder, file, sheet, true)[sheet];
    UpsertIdempotent(ws, d, rd);
    assert LoadWorkbook(once, file, sheet, true) == once[file];
    ReStore(once, file, sheet);
  }

  /** Storing back the sheet a file already holds is the identity. */
  lemma ReStore(folder: Folder, file: string, sheet: string)
    requires FolderValid(folder) && file in folder && sheet in folder[file]
    ensures SaveSheet(folder, file, sheet, Disk(true, true), folder[file][sheet]) == folder
  {
    var r := SaveSheet(folder, file, sheet, Disk(true, true), folder[file][sheet]);
    assert r[file] == folder[file];
  }
}

=== FILE: network.dfy ===
/**
  The connectivity helpers of modules/core/network.py. The module-level
  cache (`_last_check_result`, `_last_check_time`) is a `NetState` threaded
  through the calls. Each clock reading (`time.time()`) and the outcome of
  each socket probe are inputs: a probe is `true` when its connect succeeds.
  `time.sleep` is not modelled; it only shows in the clock readings that
  follow it.
*/
module Network {
  import opened Wrappers

  /** `_check_cache_seconds`. */
  const CacheSeconds: real := 5.0

  /** The cache: the last result and when it was taken (seconds). */
  datatype NetState = NetState(lastResult: bool, lastTime: real)

  /** The state at import time: online, checked at time 0. */
  const Initial := NetState(true, 0.0)

  predicate Fresh(st: NetState, now: real) { now - st.lastTime < CacheSeconds }

  /**
    `check_internet_simple`: within the cache window the cached result comes
    back and no probe is made; otherwise the Google DNS probe is tried, then
    the Cloudflare one, and the outcome is stored with the current time.
  */
  function CheckSimple(st: NetState, now: real, google: bool, cloudflare: bool): (r: (NetState, bool))
    ensures Fresh(st, now) ==> r == (st, st.lastResult)
    ensures !Fresh(st, now) ==> r.1 == (google || cloudflare) && r.0 == NetState(r.1, now)
  {
    if Fresh(st, now) then (st, st.lastResult)
    else if google then (NetState(true, now), true)
    else if cloudflare then (NetState(true, now), true)
    else (NetState(false, now), false)
  }

  /**
    Two checks less than five seconds after a probe agree, whatever the
    second call's probes would have said.
  */
  lemma CachedWithinWindow(st: NetState, t1: real, g1: bool, c1: bool, t2: real, g2: bool, c2: bool)
    requires !Fresh(st, t1) && t1 <= t2 < t1 + CacheSeconds
    ensures var (st1, ok1) := CheckSimple(st, t1, g1, c1);
            CheckSimple(st1, t2, g2, c2) == (st1, ok1)
  {
  }

  /** After a probe, the stored result is the probe's and only offline stores `false`. */
  lemma ProbeStored(st: NetState, now: real, google: bool, cloudflare: bool)
    requires !Fresh(st, now)
    ensures var r := CheckSimple(st, now, google, cloudflare);
      r.0.lastTime == now && (r.0.lastResult <==> google || cloudflare) && r.0.lastResult == r.1
  {
  }

  // ---------------------------------------------------------------------------
  // wait_for_internet
  // ---------------------------------------------------------------------------

  /**
    What one pass of the wait loop reads: the clock in the loop condition,
    the clock inside the check with the two probes, and the clock after the
    check (for the elapsed time in the messages).
  */
  datatype Tick = Tick(loopAt: real, checkAt: real, google: bool, cloudflare: bool, afterAt: real)

  /** The messages of the wait loop; the elapsed seconds are exact, not rounded. */
  datatype Note =
    | Waiting
    | Restored(elapsed: real, attempts: nat)
    | StillWaiting(elapsed: real, timeout: int)
    | TimedOutNote(timeout: int)

  /** `Pending`: the clock readings ran out with the loop still going. */
  datatype Outcome = Online | TimedOut | Pending

  datatype Waited = Waited(state: NetState, outcome: Outcome, checks: seq<bool>, log: seq<Note>)

  predicate AllFalse(s: seq<bool>, from: int, to: int)
    requires 0 <= from <= to <= |s|
  {
    forall i :: from <= i < to ==> !s[i]
  }

  /** `attempts % 6 == 0` after a failed check, and only with a callback. */
  function ProgressNote(callback: bool, attempts: nat, elapsed: real, timeout: int): seq<Note> {
    if callback && attempts % 6 == 0 then [StillWaiting(elapsed, timeout)] else []
  }

  /**
    The `while` loop of `wait_for_internet`, with the attempts so far in
    `checks` and the messages so far in `log`.
  */
  function WaitLoop(st: NetState, start: real, timeout: int, callback: bool, ticks: seq<Tick>,
                    checks: seq<bool>, log: seq<Note>): (r: Waited)
    ensures checks <= r.checks && log <= r.log
    ensures |r.checks| - |checks| <= |ticks|
    ensures forall i :: 0 <= i < |r.checks| - |checks| ==> ticks[i].loopAt - start < timeout as real
    ensures r.outcome.Online? ==>
      |r.checks| > |checks| && r.checks[|r.checks| - 1] && AllFalse(r.checks, |checks|, |r.checks| - 1)
    ensures !r.outcome.Online? ==> AllFalse(r.checks, |checks|, |r.checks|)
    ensures r.outcome.TimedOut? ==>
      |r.checks| - |checks| < |ticks| && ticks[|r.checks| - |checks|].loopAt - start >= timeout as real
    ensures r.outcome.Pending? ==> |r.checks| - |checks| == |ticks|
    decreases |ticks|
  {
    if ticks == [] then Waited(st, Pending, checks, log)
    else
      var t := ticks[0];
      if !(t.loopAt - start < timeout as real) then
        Waited(st, TimedOut, checks, log + [TimedOutNote(timeout)])
      else
        var attempts := |checks| + 1;
        var (st', ok) := CheckSimple(st, t.checkAt, t.google, t.cloudflare);
        if ok then Waited(st', Online, checks + [true], log + [Restored(t.afterAt - start, attempts)])
        else
          var r := WaitLoop(st', start, timeout, callback, ticks[1..], checks + [false],
                            log + ProgressNote(callback, attempts, t.afterAt - start, timeout));
          assert forall i :: 1 <= i < |r.checks| - |checks| ==> ticks[i] == ticks[1..][i - 1];
          r
  }

  /**
    `wait_for_internet(timeout, check_interval, log_callback)` started at
    clock reading `start`; `callback` says whether a log callback was given.
    True comes back as `Online`, False as `TimedOut`.
  */
  function Wait(st: NetState, start: real, timeout: int, callback: bool, ticks: seq<Tick>): (r: Waited)
    ensures |r.checks| <= |ticks|
    ensures r.outcome.Online? <==> r.checks != [] && r.checks[|r.checks| - 1]
    ensures AllFalse(r.checks, 0, if r.outcome.Online? then |r.checks| - 1 else |r.checks|)
    ensures forall i :: 0 <= i < |r.checks| ==> ticks[i].loopAt - start < timeout as real
    ensures r.outcome.TimedOut? ==> |r.checks| < |ticks| && ticks[|r.checks|].loopAt - start >= timeout as real
    ensures r.log != [] && r.log[0] == Waiting
  {
    WaitLoop(st, start, timeout, callback, ticks, [], [Waiting])
  }

  /** The clock does not run backwards from `start`. */
  predicate ClockFrom(start: real, ticks: seq<Tick>) {
    forall i :: 0 <= i < |ticks| ==> start <= ticks[i].loopAt
  }

  /** With no time to wait, no check is made and the wait times out on its first clock reading. */
  lemma NoAttemptWithoutTime(st: NetState, start: real, timeout: int, callback: bool, ticks: seq<Tick>)
    requires timeout <= 0 && ticks != [] && ClockFrom(start, ticks)
    ensures var r := Wait(st, start, timeout, callback, ticks);
      r.outcome.TimedOut? && r.checks == [] && r.state == st
  {
  }

  /**
    Offline all along, with `False` cached: every clock reading in time
    leads to one failed attempt, so the wait never comes back online.
  */
  lemma {:induction false} OfflineNeverOnline(st: NetState, start: real, timeout: int, callback: bool,
                                            ticks: seq<Tick>, checks: seq<bool>, log: seq<Note>)
    requires forall i :: 0 <= i < |ticks| ==> ticks[i].loopAt - start < timeout as real
    requires forall i :: 0 <= i < |ticks| ==> !ticks[i].google && !ticks[i].cloudflare
    requires !st.lastResult
    ensures var r := WaitLoop(st, start, timeout, callback, ticks, checks, log);
      r.outcome.Pending? && |r.checks| == |checks| + |ticks| && !r.state.lastResult
    decreases |ticks|
  {
    if ticks != [] {
      var t := ticks[0];
      var (st', ok) := CheckSimple(st, t.checkAt, t.google, t.cloudflare);
      assert !ok && !st'.lastResult;
      OfflineNeverOnline(st', start, timeout, callback, ticks[1..], checks + [false],
                       log + ProgressNote(callback, |checks| + 1, t.afterAt - start, timeout));
    }
  }

  // ---------------------------------------------------------------------------
  // The progress warning
  // ---------------------------------------------------------------------------

  function Warnings(log: seq<Note>): nat {
    if log == [] then 0 else Warnings(log[..|log| - 1]) + (if log[|log| - 1].StillWaiting? then 1 else 0)
  }

  lemma {:induction false} WarningsAppend(a: seq<Note>, b: seq<Note>)
    ensures Warnings(a + b) == Warnings(a) + Warnings(b)
    decreases |b|
  {
    if b == [] {
      assert a + b == a;
    } else {
      assert (a + b)[..|a + b| - 1] == a + b[..|b| - 1];
      WarningsAppend(a, b[..|b| - 1]);
    }
  }

  /** Failed attempts: all of them, except the last one when the wait ended online. */
  function Failed(r: Waited): nat {
    if r.outcome.Online? && r.checks != [] then |r.checks| - 1 else |r.checks|
  }

  /**
    With a callback, the wait logs one progress warning per six failed
    attempts (after the 6th, 12th, ...); without one, none.
  */
  lemma SixthStep(k: nat)
    requires k >= 1
    ensures k / 6 - (k - 1) / 6 == if k % 6 == 0 then 1 else 0
  {
  }

  lemma {:induction false} WaitLoopWarnings(st: NetState, start: real, timeout: int, callback: bool,
                                            ticks: seq<Tick>, checks: seq<bool>, log: seq<Note>)
    ensures var r := WaitLoop(st, start, timeout, callback, ticks, checks, log);
      Warnings(r.log) == Warnings(log) + (if callback then Failed(r) / 6 - |checks| / 6 else 0)
    decreases |ticks|
  {
    if ticks != [] {
      var t := ticks[0];
      if !(t.loopAt - start < timeout as real) {
        WarningsAppend(log, [TimedOutNote(timeout)]);
        assert [TimedOutNote(timeout)][..0] == [];
      } else {
        var attempts := |checks| + 1;
        var (st', ok) := CheckSimple(st, t.checkAt, t.google, t.cloudflare);
        if ok {
          WarningsAppend(log, [Restored(t.afterAt - start, attempts)]);
          assert [Restored(t.afterAt - start, attempts)][..0] == [];
        } else {
          var note := ProgressNote(callback, attempts, t.afterAt - start, timeout);
          var r := WaitLoop(st', start, timeout, callback, ticks[1..], checks + [false], log + note);
          assert r == WaitLoop(st, start, timeout, callback, ticks, checks, log);
          WarningsAppend(log, note);
          assert Warnings(note) == if callback && attempts % 6 == 0 then 1 else 0 by {
            if note != [] { assert note[..0] == []; }
          }
          WaitLoopWarnings(st', start, timeout, callback, ticks[1..], checks + [false], log + note);
          SixthStep(attempts);
        }
      }
    }
  }

  lemma WaitWarnings(st: NetState, start: real, timeout: int, callback: bool, ticks: seq<Tick>)
    ensures var r := Wait(st, start, timeout, callback, ticks);
      Warnings(r.log) == if callback then Failed(r) / 6 else 0
  {
    WaitLoopWarnings(st, start, timeout, callback, ticks, [], [Waiting]);
    assert [Waiting][..0] == [];
  }

  // ---------------------------------------------------------------------------
  // check_before_step and ensure_online
  // ---------------------------------------------------------------------------

  /** The first check and what happened after it: `None` when no wait was needed. */
  datatype Guarded = Guarded(state: NetState, ok: bool, wait: Option<Waited>)

  /**
    `check_before_step(step_name, username, max_wait, log_callback)`: one
    check at `now`; when it passes, True without waiting, otherwise the wait
    for up to `maxWait` seconds decides, timed from its own clock reading
    `start`, taken once the check's probes are over. The warning about the
    lost connection only names the step and the user, so it is not modelled.
  */
  function CheckBeforeStep(st: NetState, now: real, google: bool, cloudflare: bool, start: real, maxWait: int,
                           callback: bool, ticks: seq<Tick>): (r: Guarded)
    requires now <= start
    ensures var (st1, ok) := CheckSimple(st, now, google, cloudflare);
      (ok ==> r == Guarded(st1, true, None))
      && (!ok ==> r.wait == Some(Wait(st1, start, maxWait, callback, ticks))
                  && r.state == r.wait.value.state && (r.ok <==> r.wait.value.outcome.Online?))
  {
    var (st1, ok) := CheckSimple(st, now, google, cloudflare);
    if ok then Guarded(st1, true, None)
    else
      var w := Wait(st1, start, maxWait, callback, ticks);
      Guarded(w.state, w.outcome.Online?, Some(w))
  }

  /**
    `ensure_online(timeout, log_callback)`: `is_online()` is the same check
    with a shorter socket timeout, which the model does not distinguish.
  */
  function EnsureOnline(st: NetState, now: real, google: bool, cloudflare: bool, start: real, timeout: int,
                        callback: bool, ticks: seq<Tick>): (r: Guarded)
    requires now <= start
    ensures r == CheckBeforeStep(st, now, google, cloudflare, start, timeout, callback, ticks)
  {
    var (st1, ok) := CheckSimple(st, now, google, cloudflare);
    if ok then Guarded(st1, true, None)
    else
      var w := Wait(st1, start, timeout, callback, ticks);
      Guarded(w.state, w.outcome.Online?, Some(w))
  }

  /**
    A failed first check leaves `False` in the cache, so the wait's first
    attempt, if it comes within five seconds, is answered from the cache and
    fails without probing, whatever the network does by then.
  */
  lemma FirstAttemptAfterFailedCheckCached(st: NetState, now: real, google: bool, cloudflare: bool, start: real,
                                           maxWait: int, callback: bool, ticks: seq<Tick>)
    requires !Fresh(st, now) && !google && !cloudflare && now <= start
    requires ticks != [] && ticks[0].loopAt - start < maxWait as real
    requires now <= ticks[0].checkAt < now + CacheSeconds
    ensures var r := CheckBeforeStep(st, now, google, cloudflare, start, maxWait, callback, ticks);
      r.wait.Some? && |r.wait.value.checks| >= 1 && !r.wait.value.checks[0]
  {
    var st1 := NetState(false, now);
    assert CheckSimple(st1, ticks[0].checkAt, ticks[0].google, ticks[0].cloudflare) == (st1, false);
  }

  /** The step is refused only when its wait timed out or never finished. */
  lemma RefusedOnlyAfterWait(st: NetState, now: real, google: bool, cloudflare: bool, start: real, maxWait: int,
                             callback: bool, ticks: seq<Tick>)
    requires now <= start
    ensures var r := CheckBeforeStep(st, now, google, cloudflare, start, maxWait, callback, ticks);
      !r.ok <==> r.wait.Some? && !r.wait.value.outcome.Online?
  {
  }
}

=== FILE: pivot.dfy ===
/**
  The monthly master workbook (`modules/data/excel.py`): one sheet per month,
  one row per outlet (`pangkalan`) keyed by its id in column 1 from row 3 on,
  and one four-column block per date whose date header sits in row 1 and whose
  sub-headers STOK / INPUT / TIME / STATUS sit in row 2. Saving a reading
  finds or creates the block and the row, overwrites the four cells, and
  marks suspicious readings (stock above 90 with nothing sold) with a yellow
  fill.

  A worksheet is a sparse map of cells with openpyxl's `max_row` and
  `max_column`; loading and saving a workbook are identities on it.
*/
module Pivot {
  import opened Wrappers
  import opened Text
  import opened Calendar
  import Constants
  import opened Validators

  /** A cell value written by this code: a string or an integer. */
  datatype Value = Label(s: string) | Number(n: int)

  /** A (row, column) position, both counted from 1. */
  type Pos = (int, int)

  datatype Sheet = Sheet(cells: map<Pos, Value>, fills: set<Pos>, maxRow: int, maxCol: int)

  const IdHeader := "PANGKALAN_ID"
  const NameHeader := "NAMA_PANGKALAN"
  const StokHeader := "STOK (TABUNG)"
  const InputHeader := "INPUT (TABUNG)"
  const TimeHeader := "TIME"
  const StatusHeader := "STATUS"

  /** The first data row and the first date column. */
  const FirstDataRow := 3
  const FirstDateCol := 3

  /** The threshold of the anomaly rule: more than this many cylinders in stock and none sold. */
  const StockAlarm := 90

  predicate InBounds(ws: Sheet, p: Pos) {
    1 <= p.0 <= ws.maxRow && 1 <= p.1 <= ws.maxCol
  }

  /** openpyxl's dimensions never fall below 1 and cover every cell that was touched. */
  predicate Valid(ws: Sheet) {
    ws.maxRow >= 1 && ws.maxCol >= 1 &&
    (forall p | p in ws.cells :: InBounds(ws, p)) &&
    (forall p | p in ws.fills :: InBounds(ws, p))
  }

  /** A freshly created worksheet. */
  const EmptySheet := Sheet(map[], {}, 1, 1)

  function Get(ws: Sheet, r: int, c: int): Option<Value> {
    if (r, c) in ws.cells then Some(ws.cells[(r, c)]) else None
  }

  function Max(a: int, b: int): int { if a < b then b else a }

  /** `ws.cell(row=r, column=c, value=v)`. */
  function Put(ws: Sheet, r: int, c: int, v: Value): (w: Sheet)
    requires r >= 1 && c >= 1
    ensures Valid(ws) ==> Valid(w)
    ensures w.cells == ws.cells[(r, c) := v] && w.fills == ws.fills
    ensures w.maxRow == Max(ws.maxRow, r) && w.maxCol == Max(ws.maxCol, c)
  {
    Sheet(ws.cells[(r, c) := v], ws.fills, Max(ws.maxRow, r), Max(ws.maxCol, c))
  }

  /** Python's `str(value)` for a cell value. */
  function ValueStr(v: Value): string {
    match v
    case Label(s) => s
    case Number(n) => IntToString(n)
  }

  predicate ValueTruthy(v: Value) {
    match v
    case Label(s) => s != ""
    case Number(n) => n != 0
  }

  // ---------------------------------------------------------------------------
  // _find_or_create_date_column
  // ---------------------------------------------------------------------------

  /** Row 1 of column `c` holds the date header `display`. */
  predicate HeaderIs(ws: Sheet, c: int, display: string) {
    (1, c) in ws.cells && ValueTruthy(ws.cells[(1, c)]) && ValueStr(ws.cells[(1, c)]) == display
  }

  /** The first column in `from..max_column` whose header is `display`. */
  function FindDateColumn(ws: Sheet, display: string, from: int): (r: Option<int>)
    ensures r.Some? ==> from <= r.value <= ws.maxCol && HeaderIs(ws, r.value, display)
    ensures r.Some? ==> forall c :: from <= c < r.value ==> !HeaderIs(ws, c, display)
    ensures r.None? ==> forall c :: from <= c <= ws.maxCol ==> !HeaderIs(ws, c, display)
    decreases ws.maxCol + 1 - from
  {
    if from > ws.maxCol then None
    else if HeaderIs(ws, from, display) then Some(from)
    else FindDateColumn(ws, display, from + 1)
  }

  /** The outcome of a find-or-create: the sheet afterwards, the position found, and whether it is new. */
  datatype Placement = Placement(sheet: Sheet, index: int, isNew: bool)

  /** Row 1, column 1 is empty (`None` or `""`). */
  predicate CornerBlank(ws: Sheet) {
    Get(ws, 1, 1) == None || Get(ws, 1, 1) == Some(Label(""))
  }

  /** The column a new date block starts at: after the last column, but never before column 3. */
  function NewBlockColumn(ws: Sheet): int {
    if ws.maxCol < FirstDateCol then FirstDateCol else ws.maxCol + 1
  }

  /**
    `_find_or_create_date_column(ws, date)`: reuses the first block whose header
    is the date, or appends a new block with its date and four sub-headers
    (adding the two id/name headers to a sheet that has no block yet).
  */
  function FindOrCreateDateColumn(ws: Sheet, d: Date): (p: Placement)
    requires Valid(ws) && ValidDate(d)
    ensures Valid(p.sheet) && p.sheet.fills == ws.fills
    ensures p.index >= FirstDateCol
    ensures HeaderIs(p.sheet, p.index, FormatIso(d))
    ensures !p.isNew ==> p.sheet == ws && FindDateColumn(ws, FormatIso(d), FirstDateCol) == Some(p.index)
    ensures p.isNew <==> FindDateColumn(ws, FormatIso(d), FirstDateCol).None?
    ensures p.isNew ==> p.index == NewBlockColumn(ws) && p.sheet.maxCol == p.index + 3
  {
    var display := FormatIso(d);
    match FindDateColumn(ws, display, FirstDateCol)
    case Some(c) => Placement(ws, c, false)
    case None => Placement(AppendDateBlock(ws, display), NewBlockColumn(ws), true)
  }

  /**
    The creating half of `_find_or_create_date_column`: a new block after the
    last column with the date in row 1 of its first column and the four
    sub-headers in row 2; on a sheet without blocks whose top-left cell is
    empty, the id and name headers as well. Nothing else is written.
  */
  function AppendDateBlock(ws: Sheet, display: string): (w: Sheet)
    requires Valid(ws)
    ensures Valid(w) && w.fills == ws.fills
    ensures w.maxCol == NewBlockColumn(ws) + 3 && w.maxRow == Max(ws.maxRow, 2)
    ensures w.cells == WithCorner(ws).cells[(1, NewBlockColumn(ws)) := Label(display)]
                         [(2, NewBlockColumn(ws)) := Label(StokHeader)]
                         [(2, NewBlockColumn(ws) + 1) := Label(InputHeader)]
                         [(2, NewBlockColumn(ws) + 2) := Label(TimeHeader)]
                         [(2, NewBlockColumn(ws) + 3) := Label(StatusHeader)]
  {
    var col := NewBlockColumn(ws);
    var w0 := WithCorner(ws);
    var w1 := Put(w0, 1, col, Label(display));
    var w2 := Put(w1, 2, col, Label(StokHeader));
    var w3 := Put(w2, 2, col + 1, Label(InputHeader));
    var w4 := Put(w3, 2, col + 2, Label(TimeHeader));
    Put(w4, 2, col + 3, Label(StatusHeader))
  }

  /** The id and name headers, written only on a sheet with no block yet whose top-left cell is empty. */
  function WithCorner(ws: Sheet): (w: Sheet)
    requires Valid(ws)
    ensures Valid(w) && w.fills == ws.fills && w.maxRow == ws.maxRow
    ensures ws.maxCol < FirstDateCol ==> w.maxCol < FirstDateCol
    ensures ws.maxCol >= FirstDateCol ==> w.maxCol == ws.maxCol
    ensures ws.maxCol < FirstDateCol && CornerBlank(ws) ==>
              w.cells == ws.cells[(1, 1) := Label(IdHeader)][(1, 2) := Label(NameHeader)]
    ensures !(ws.maxCol < FirstDateCol && CornerBlank(ws)) ==> w == ws
  {
    if ws.maxCol < FirstDateCol && CornerBlank(ws) then
      Put(Put(ws, 1, 1, Label(IdHeader)), 1, 2, Label(NameHeader))
    else ws
  }

  /**
    What a new block looks like: its header in row 1 with the three cells to
    its right empty, its four sub-headers, and every cell of the data rows or
    of the earlier date columns as it was.
  */
  lemma NewDateBlock(ws: Sheet, display: string)
    requires Valid(ws) && display != ""
    ensures var col := NewBlockColumn(ws); col > ws.maxCol && col >= FirstDateCol
    ensures HeaderIs(AppendDateBlock(ws, display), NewBlockColumn(ws), display)
    ensures forall k :: NewBlockColumn(ws) < k <= NewBlockColumn(ws) + 3 ==> Get(AppendDateBlock(ws, display), 1, k) == None
    ensures BlockAt(AppendDateBlock(ws, display), NewBlockColumn(ws))
    ensures forall q | q in ws.cells && (q.0 > 2 || q.1 >= FirstDateCol) ::
              q in AppendDateBlock(ws, display).cells && AppendDateBlock(ws, display).cells[q] == ws.cells[q]
    ensures forall q | q in AppendDateBlock(ws, display).cells && q !in ws.cells ::
              q == (1, 1) || q == (1, 2) || q == (1, NewBlockColumn(ws)) ||
              (q.0 == 2 && NewBlockColumn(ws) <= q.1 <= NewBlockColumn(ws) + 3)
  {
    NewBlockHeaders(ws, display);
    NewBlockKeeps(ws, display);
    NewBlockOnlyAdds(ws, display);
  }

  lemma NewBlockHeaders(ws: Sheet, display: string)
    requires Valid(ws) && display != ""
    ensures HeaderIs(AppendDateBlock(ws, display), NewBlockColumn(ws), display)
    ensures forall k :: NewBlockColumn(ws) < k <= NewBlockColumn(ws) + 3 ==> Get(AppendDateBlock(ws, display), 1, k) == None
    ensures BlockAt(AppendDateBlock(ws, display), NewBlockColumn(ws))
  {
    NewBlockRowOne(ws, display);
    NewBlockSubHeaders(ws, display);
  }

  lemma NewBlockSubHeaders(ws: Sheet, display: string)
    requires Valid(ws)
    ensures BlockAt(AppendDateBlock(ws, display), NewBlockColumn(ws))
  {
    var w := AppendDateBlock(ws, display);
    var col := NewBlockColumn(ws);
    assert w.cells[(2, col)] == Label(StokHeader);
    assert w.cells[(2, col + 1)] == Label(InputHeader);
    assert w.cells[(2, col + 2)] == Label(TimeHeader);
  }

  lemma NewBlockRowOne(ws: Sheet, display: string)
    requires Valid(ws)
    ensures forall k :: NewBlockColumn(ws) < k <= NewBlockColumn(ws) + 3 ==> Get(AppendDateBlock(ws, display), 1, k) == None
  {
    var col := NewBlockColumn(ws);
    var w0 := WithCorner(ws);
    var w := AppendDateBlock(ws, display);
    assert col > w0.maxCol;
    forall k | col < k <= col + 3 ensures Get(w, 1, k) == None {
      assert !InBounds(w0, (1, k));
    }
  }

  lemma NewBlockKeeps(ws: Sheet, display: string)
    requires Valid(ws)
    ensures forall q | q in ws.cells && (q.0 > 2 || q.1 >= FirstDateCol) ::
              q in AppendDateBlock(ws, display).cells && AppendDateBlock(ws, display).cells[q] == ws.cells[q]
  {
    var col := NewBlockColumn(ws);
    var w0 := WithCorner(ws);
    var w := AppendDateBlock(ws, display);
    forall q | q in ws.cells && (q.0 > 2 || q.1 >= FirstDateCol) ensures q in w.cells && w.cells[q] == ws.cells[q] {
      assert q in w0.cells && w0.cells[q] == ws.cells[q];
      assert q.1 < col;
    }
  }

  lemma NewBlockOnlyAdds(ws: Sheet, display: string)
    requires Valid(ws)
    ensures forall q | q in AppendDateBlock(ws, display).cells && q !in ws.cells ::
              q == (1, 1) || q == (1, 2) || q == (1, NewBlockColumn(ws)) ||
              (q.0 == 2 && NewBlockColumn(ws) <= q.1 <= NewBlockColumn(ws) + 3)
  {
    var col := NewBlockColumn(ws);
    var w0 := WithCorner(ws);
    var w := AppendDateBlock(ws, display);
    forall q | q in w.cells && q !in ws.cells
      ensures q == (1, 1) || q == (1, 2) || q == (1, col) || (q.0 == 2 && col <= q.1 <= col + 3)
    {
      assert q in w0.cells || q == (1, col) || (q.0 == 2 && col <= q.1 <= col + 3);
    }
  }

  // ---------------------------------------------------------------------------
  // _find_or_create_pangkalan_row
  // ---------------------------------------------------------------------------

  /** Column 1 of row `r` holds the outlet id `id`. */
  predicate IdIs(ws: Sheet, r: int, id: string) {
    (r, 1) in ws.cells && ws.cells[(r, 1)] == Label(id)
  }

  /** The first row in `from..max_row` whose id is `id`. */
  function FindEntityRow(ws: Sheet, id: string, from: int): (r: Option<int>)
    ensures r.Some? ==> from <= r.value <= ws.maxRow && IdIs(ws, r.value, id)
    ensures r.Some? ==> forall k :: from <= k < r.value ==> !IdIs(ws, k, id)
    ensures r.None? ==> forall k :: from <= k <= ws.maxRow ==> !IdIs(ws, k, id)
    decreases ws.maxRow + 1 - from
  {
    if from > ws.maxRow then None
    else if IdIs(ws, from, id) then Some(from)
    else FindEntityRow(ws, id, from + 1)
  }

  /** The row a new outlet goes to: after the last row, but never before row 3. */
  function NewEntityRow(ws: Sheet): int {
    if ws.maxRow < 2 then FirstDataRow else ws.maxRow + 1
  }

  /**
    `_find_or_create_pangkalan_row(ws, id, name)`: reuses the first data row
    holding the id, or appends a row with the id and the name.
  */
  function FindOrCreateEntityRow(ws: Sheet, id: string, name: string): (p: Placement)
    requires Valid(ws)
    ensures Valid(p.sheet) && p.sheet.fills == ws.fills
    ensures p.index >= FirstDataRow && IdIs(p.sheet, p.index, id)
    ensures !p.isNew ==> p.sheet == ws && FindEntityRow(ws, id, FirstDataRow) == Some(p.index)
    ensures p.isNew <==> FindEntityRow(ws, id, FirstDataRow).None?
    ensures p.isNew ==> p.index == NewEntityRow(ws) && p.sheet.maxRow == p.index
  {
    match FindEntityRow(ws, id, FirstDataRow)
    case Some(r) => Placement(ws, r, false)
    case None =>
      var row := NewEntityRow(ws);
      var w := Put(Put(ws, row, 1, Label(id)), row, 2, Label(name));
      Placement(w, row, true)
  }

  // ---------------------------------------------------------------------------
  // The anomaly rule and the rescan (_apply_all_conditional_formatting)
  // ---------------------------------------------------------------------------

  /** Whether a reading is suspicious: stock above 90 and nothing sold. */
  predicate Alarming(stok: int, sold: int) { stok > StockAlarm && sold == 0 }

  /** `int(v)` when `v` is an int or a string and `str(v).isdigit()`. */
  function AsCount(v: Option<Value>): Option<int> {
    match v
    case Some(Number(n)) => if n >= 0 then Some(n) else None
    case Some(Label(s)) => if IsDigitString(s) then Some(DigitsValue(s)) else None
    case None => None
  }

  /** Column `c` is a STOK column followed by its INPUT column, both within the sheet. */
  predicate StokInputPair(ws: Sheet, c: int) {
    1 <= c && c + 1 <= ws.maxCol &&
    Get(ws, 2, c) == Some(Label(StokHeader)) && Get(ws, 2, c + 1) == Some(Label(InputHeader))
  }

  /** Data row `r` of STOK column `c` holds an alarming reading. */
  predicate AnomalyAt(ws: Sheet, r: int, c: int) {
    StokInputPair(ws, c) && FirstDataRow <= r <= ws.maxRow &&
    var s := AsCount(Get(ws, r, c));
    var i := AsCount(Get(ws, r, c + 1));
    s.Some? && i.Some? && Alarming(s.value, i.value)
  }

  /** The cells the rescan paints: both the stock and the sold cell of every alarming reading. */
  function AnomalyCells(ws: Sheet): set<Pos> {
    set r, c | 1 <= r <= ws.maxRow && 1 <= c <= ws.maxCol && (AnomalyAt(ws, r, c) || AnomalyAt(ws, r, c - 1)) :: (r, c)
  }

  /** Anomalies visited by the rescan before it reaches row `row` of column `col`. */
  predicate SeenBefore(ws: Sheet, col: int, row: int, r: int, c: int) {
    (AnomalyAt(ws, r, c) && (c < col || (c == col && r < row))) ||
    (AnomalyAt(ws, r, c - 1) && (c - 1 < col || (c - 1 == col && r < row)))
  }

  function Seen(ws: Sheet, col: int, row: int): set<Pos> {
    set r, c | 1 <= r <= ws.maxRow && 1 <= c <= ws.maxCol && SeenBefore(ws, col, row, r, c) :: (r, c)
  }

  /**
    `_apply_all_conditional_formatting(ws)`: visits every STOK column whose
    right neighbour is INPUT and every data row, and paints both cells of each
    alarming reading held as an int or a digit string.
  */
  method Rescan(ws: Sheet) returns (fills: set<Pos>)
    requires Valid(ws)
    ensures fills == ws.fills + AnomalyCells(ws)
  {
    var maxCol := ws.maxCol;
    fills := ws.fills;
    var col := 1;
    while col <= maxCol
      invariant 1 <= col <= maxCol + 1
      invariant fills == ws.fills + Seen(ws, col, FirstDataRow)
    {
      fills := RescanColumn(ws, col, fills);
      col := col + 1;
    }
    SeenAll(ws, col);
  }

  /** One column of the rescan: the data rows of a STOK column, or nothing. */
  method RescanColumn(ws: Sheet, col: int, fills0: set<Pos>) returns (fills: set<Pos>)
    requires Valid(ws) && 1 <= col <= ws.maxCol
    requires fills0 == ws.fills + Seen(ws, col, FirstDataRow)
    ensures fills == ws.fills + Seen(ws, col + 1, FirstDataRow)
  {
    var maxRow, maxCol := ws.maxRow, ws.maxCol;
    fills := fills0;
    if Get(ws, 2, col) == Some(Label(StokHeader)) && col + 1 <= maxCol && Get(ws, 2, col + 1) == Some(Label(InputHeader)) {
      var row := FirstDataRow;
      while row <= maxRow
        invariant FirstDataRow <= row <= Max(maxRow + 1, FirstDataRow)
        invariant fills == ws.fills + Seen(ws, col, row)
      {
        fills := RescanCell(ws, col, row, fills);
        row := row + 1;
      }
      SeenNextColumn(ws, col, row);
    } else {
      assert !StokInputPair(ws, col);
      SeenNextColumn(ws, col, FirstDataRow);
    }
  }

  /** One data row of a STOK column: both cells are filled when the reading is alarming. */
  method RescanCell(ws: Sheet, col: int, row: int, fills0: set<Pos>) returns (fills: set<Pos>)
    requires Valid(ws) && StokInputPair(ws, col) && FirstDataRow <= row <= ws.maxRow
    requires fills0 == ws.fills + Seen(ws, col, row)
    ensures fills == ws.fills + Seen(ws, col, row + 1)
  {
    var s := AsCount(Get(ws, row, col));
    var i := AsCount(Get(ws, row, col + 1));
    if s.Some? && i.Some? && Alarming(s.value, i.value) {
      assert AnomalyAt(ws, row, col);
      SeenStep(ws, col, row);
      fills := fills0 + {(row, col), (row, col + 1)};
    } else {
      SeenSkip(ws, col, row);
      fills := fills0;
    }
  }

  lemma SeenStep(ws: Sheet, col: int, row: int)
    requires Valid(ws) && AnomalyAt(ws, row, col)
    ensures Seen(ws, col, row + 1) == Seen(ws, col, row) + {(row, col), (row, col + 1)}
  {
    forall p | p in Seen(ws, col, row) ensures p in Seen(ws, col, row + 1) {
      assert SeenBefore(ws, col, row + 1, p.0, p.1);
    }
    assert SeenBefore(ws, col, row + 1, row, col);
    assert SeenBefore(ws, col, row + 1, row, col + 1);
    forall p | p in Seen(ws, col, row + 1) ensures p in Seen(ws, col, row) || p == (row, col) || p == (row, col + 1) {
      if p != (row, col) && p != (row, col + 1) {
        assert SeenBefore(ws, col, row, p.0, p.1);
      }
    }
  }

  lemma SeenSkip(ws: Sheet, col: int, row: int)
    requires !AnomalyAt(ws, row, col)
    ensures Seen(ws, col, row + 1) == Seen(ws, col, row)
  {
    forall p | p in Seen(ws, col, row + 1) ensures p in Seen(ws, col, row) {
      assert SeenBefore(ws, col, row, p.0, p.1);
    }
  }

  lemma SeenNextColumn(ws: Sheet, col: int, row: int)
    requires row > ws.maxRow || !StokInputPair(ws, col)
    ensures Seen(ws, col + 1, FirstDataRow) == Seen(ws, col, row)
  {
    forall p | p in Seen(ws, col + 1, FirstDataRow) ensures p in Seen(ws, col, row) {
      assert SeenBefore(ws, col, row, p.0, p.1);
    }
    forall p | p in Seen(ws, col, row) ensures p in Seen(ws, col + 1, FirstDataRow) {
      assert SeenBefore(ws, col + 1, FirstDataRow, p.0, p.1);
    }
  }

  lemma SeenAll(ws: Sheet, col: int)
    requires col > ws.maxCol
    ensures Seen(ws, col, FirstDataRow) == AnomalyCells(ws)
  {
    forall p | p in AnomalyCells(ws) ensures p in Seen(ws, col, FirstDataRow) {
      assert SeenBefore(ws, col, FirstDataRow, p.0, p.1);
    }
  }

  /** Every painted cell lies inside the sheet. */
  lemma AnomalyCellsInBounds(ws: Sheet)
    ensures forall p | p in AnomalyCells(ws) :: InBounds(ws, p)
  {
  }

  // ---------------------------------------------------------------------------
  // save_to_excel_pivot_format on one sheet
  // ---------------------------------------------------------------------------

  /** One reading to save: what `save_to_excel_pivot_format` receives after parsing. */
  datatype Reading = Reading(id: string, name: string, stok: int, sold: int, time: string, status: string)

  /**
    The body of `save_to_excel_pivot_format` on the month's sheet: find or
    create the date block and the outlet row, overwrite the four cells, paint
    an alarming reading, and rescan the whole sheet.
  */
  function UpsertSheet(ws: Sheet, d: Date, rd: Reading): (w: Sheet)
    requires Valid(ws) && ValidDate(d)
    ensures Valid(w)
    ensures ws.fills <= w.fills
  {
    var pc := FindOrCreateDateColumn(ws, d);
    var pr := FindOrCreateEntityRow(pc.sheet, rd.id, rd.name);
    UpsertTail(pr.sheet, pr.index, pc.index, rd)
  }

  /** The writes of an upsert once its row and column are known. */
  function UpsertTail(ws: Sheet, row: int, col: int, rd: Reading): (w: Sheet)
    requires Valid(ws) && row >= 1 && col >= 1
    ensures Valid(w) && ws.fills <= w.fills
    ensures w.maxRow == Max(ws.maxRow, row) && w.maxCol == Max(ws.maxCol, col + 3)
    ensures w.cells == WriteBlock(ws, row, col, rd).cells
  {
    var w1 := WriteBlock(ws, row, col, rd);
    var w2 := MarkAlarm(w1, row, col, rd);
    WithRescan(w2)
  }

  /** The four cells of a reading: stock and sold as integers, time and status as text. */
  function WriteBlock(ws: Sheet, row: int, col: int, rd: Reading): (w: Sheet)
    requires Valid(ws) && row >= 1 && col >= 1
    ensures Valid(w) && w.fills == ws.fills
    ensures w.maxRow == Max(ws.maxRow, row) && w.maxCol == Max(ws.maxCol, col + 3)
    ensures w.cells == ws.cells[(row, col) := Number(rd.stok)][(row, col + 1) := Number(rd.sold)]
                               [(row, col + 2) := Label(rd.time)][(row, col + 3) := Label(rd.status)]
    ensures Get(w, row, col) == Some(Number(rd.stok)) && Get(w, row, col + 1) == Some(Number(rd.sold))
    ensures Get(w, row, col + 2) == Some(Label(rd.time)) && Get(w, row, col + 3) == Some(Label(rd.status))
  {
    var w1 := Put(ws, row, col, Number(rd.stok));
    var w2 := Put(w1, row, col + 1, Number(rd.sold));
    var w3 := Put(w2, row, col + 2, Label(rd.time));
    Put(w3, row, col + 3, Label(rd.status))
  }

  /** `_apply_conditional_formatting_new`: paints the stock and sold cells of an alarming reading. */
  function MarkAlarm(ws: Sheet, row: int, col: int, rd: Reading): (w: Sheet)
    requires Valid(ws) && InBounds(ws, (row, col)) && InBounds(ws, (row, col + 1))
    ensures Valid(w)
    ensures w.cells == ws.cells && w.maxRow == ws.maxRow && w.maxCol == ws.maxCol
    ensures Alarming(rd.stok, rd.sold) ==> w.fills == ws.fills + {(row, col), (row, col + 1)}
    ensures !Alarming(rd.stok, rd.sold) ==> w.fills == ws.fills
  {
    if Alarming(rd.stok, rd.sold) then ws.(fills := ws.fills + {(row, col), (row, col + 1)}) else ws
  }

  /** The sheet after the rescan has painted every alarming reading. */
  function WithRescan(ws: Sheet): (w: Sheet)
    requires Valid(ws)
    ensures Valid(w)
    ensures w.cells == ws.cells && w.maxRow == ws.maxRow && w.maxCol == ws.maxCol
    ensures w.fills == ws.fills + AnomalyCells(ws)
  {
    AnomalyCellsInBounds(ws);
    ws.(fills := ws.fills + AnomalyCells(ws))
  }

  // ---------------------------------------------------------------------------
  // Properties of one upsert
  // ---------------------------------------------------------------------------

  /** The block whose date header is in column `c` has its four sub-headers in row 2. */
  predicate BlockAt(ws: Sheet, c: int) {
    c + 3 <= ws.maxCol &&
    Get(ws, 2, c) == Some(Label(StokHeader)) && Get(ws, 2, c + 1) == Some(Label(InputHeader)) &&
    Get(ws, 2, c + 2) == Some(Label(TimeHeader)) && Get(ws, 2, c + 3) == Some(Label(StatusHeader))
  }

  /** Every non-empty header from column 3 on starts a complete four-column block. */
  predicate WellFormed(ws: Sheet) {
    Valid(ws) &&
    forall c | FirstDateCol <= c <= ws.maxCol && (1, c) in ws.cells && ValueTruthy(ws.cells[(1, c)]) :: BlockAt(ws, c)
  }

  /** A cell address as a record: the row and the column an upsert writes to. */
  datatype Spot = Spot(row: int, col: int)

  /** Where an upsert writes its stock cell: the outlet's row and the date's column. */
  function Target(ws: Sheet, d: Date, rd: Reading): Spot
    requires Valid(ws) && ValidDate(d)
  {
    var pc := FindOrCreateDateColumn(ws, d);
    var pr := FindOrCreateEntityRow(pc.sheet, rd.id, rd.name);
    Spot(pr.index, pc.index)
  }

  lemma FirstHeaderMatch(ws: Sheet, display: string, from: int, c: int)
    requires from <= c <= ws.maxCol && HeaderIs(ws, c, display)
    requires forall k :: from <= k < c ==> !HeaderIs(ws, k, display)
    ensures FindDateColumn(ws, display, from) == Some(c)
  {
  }

  lemma FirstIdMatch(ws: Sheet, id: string, from: int, r: int)
    requires from <= r <= ws.maxRow && IdIs(ws, r, id)
    requires forall k :: from <= k < r ==> !IdIs(ws, k, id)
    ensures FindEntityRow(ws, id, from) == Some(r)
  {
  }

  /**
    An unseen outlet is appended below the last row (row 3 on a sheet with
    fewer than two rows) with its id and name; no existing cell changes.
  */
  lemma NewEntityRowAppends(ws: Sheet, id: string, name: string)
    requires Valid(ws)
    requires FindEntityRow(ws, id, FirstDataRow).None?
    ensures var p := FindOrCreateEntityRow(ws, id, name);
      && p.isNew && p.index == NewEntityRow(ws) && p.index > ws.maxRow
      && Get(p.sheet, p.index, 1) == Some(Label(id)) && Get(p.sheet, p.index, 2) == Some(Label(name))
      && (forall q | q in ws.cells :: q in p.sheet.cells && p.sheet.cells[q] == ws.cells[q])
      && (forall q | q in p.sheet.cells && q.0 != p.index :: q in ws.cells)
  {
  }

  /**
    Upserting an (outlet, date) pair the sheet already holds reuses its row and
    block, overwrites exactly the four cells, and adds no row or column.
  */
  lemma UpsertExistingPair(ws: Sheet, d: Date, rd: Reading, row: int, col: int)
    requires WellFormed(ws) && ValidDate(d)
    requires FindDateColumn(ws, FormatIso(d), FirstDateCol) == Some(col)
    requires FindEntityRow(ws, rd.id, FirstDataRow) == Some(row)
    ensures var w := UpsertSheet(ws, d, rd);
      && Target(ws, d, rd) == Spot(row, col)
      && w.maxRow == ws.maxRow && w.maxCol == ws.maxCol
      && w.cells == ws.cells[(row, col) := Number(rd.stok)][(row, col + 1) := Number(rd.sold)]
                            [(row, col + 2) := Label(rd.time)][(row, col + 3) := Label(rd.status)]
  {
    assert BlockAt(ws, col);
  }

  /**
    The anomaly rule on the written cells: an alarming reading paints both its
    stock and sold cells; any other reading leaves their paint as it was.
  */
  lemma UpsertAlarmFill(ws: Sheet, d: Date, rd: Reading)
    requires WellFormed(ws) && ValidDate(d)
    ensures var t := Target(ws, d, rd);
      PaintRule(ws.fills, UpsertSheet(ws, d, rd).fills, t.row, t.col, Alarming(rd.stok, rd.sold))
  {
    var pc := FindOrCreateDateColumn(ws, d);
    var pr := FindOrCreateEntityRow(pc.sheet, rd.id, rd.name);
    TargetHasBlock(ws, d, rd);
    PaintOfWrittenBlock(pr.sheet, pr.index, pc.index, rd);
  }

  /**
    The paint of the stock cell (`row`, `col`) and the sold cell beside it:
    both painted when the reading is alarming, otherwise as they were.
  */
  predicate PaintRule(before: set<Pos>, after: set<Pos>, row: int, col: int, alarming: bool) {
    (alarming ==> (row, col) in after && (row, col + 1) in after) &&
    (!alarming ==> ((row, col) in after <==> (row, col) in before) && ((row, col + 1) in after <==> (row, col + 1) in before))
  }

  /** The target of an upsert on a well-formed sheet lies in a complete block. */
  lemma TargetHasBlock(ws: Sheet, d: Date, rd: Reading)
    requires WellFormed(ws) && ValidDate(d)
    ensures var pc := FindOrCreateDateColumn(ws, d);
      var pr := FindOrCreateEntityRow(pc.sheet, rd.id, rd.name);
      pr.index >= FirstDataRow && pc.index >= FirstDateCol && BlockAt(pr.sheet, pc.index)
  {
    var pc := FindOrCreateDateColumn(ws, d);
    if !pc.isNew {
      assert BlockAt(ws, pc.index);
    } else {
      NewBlockSubHeaders(ws, FormatIso(d));
    }
    EntityRowKeepsBlock(pc.sheet, rd.id, rd.name, pc.index);
  }

  /** Finding or adding an outlet row leaves every block's sub-headers in place. */
  lemma EntityRowKeepsBlock(ws: Sheet, id: string, name: string, c: int)
    requires Valid(ws) && BlockAt(ws, c)
    ensures BlockAt(FindOrCreateEntityRow(ws, id, name).sheet, c)
  {
    var pr := FindOrCreateEntityRow(ws, id, name);
    if pr.isNew {
      assert pr.sheet.cells == ws.cells[(pr.index, 1) := Label(id)][(pr.index, 2) := Label(name)];
    }
  }

  /** Writing a reading into a block, marking it and rescanning paints its two cells exactly when it is alarming. */
  lemma PaintOfWrittenBlock(ws: Sheet, row: int, col: int, rd: Reading)
    requires Valid(ws) && row >= FirstDataRow && col >= FirstDateCol && BlockAt(ws, col)
    ensures PaintRule(ws.fills, UpsertTail(ws, row, col, rd).fills, row, col, Alarming(rd.stok, rd.sold))
  {
    var w1 := WriteBlock(ws, row, col, rd);
    var w2 := MarkAlarm(w1, row, col, rd);
    if !Alarming(rd.stok, rd.sold) {
      assert Get(w2, 2, col) == Some(Label(StokHeader));
      assert Get(w2, 2, col + 1) == Some(Label(InputHeader));
      assert Get(w2, row, col) == Some(Number(rd.stok));
      assert Get(w2, row, col + 1) == Some(Number(rd.sold));
      QuietReadingNotPainted(w2, row, col);
    }
  }

  /** A block whose cells hold a non-alarming reading gets no paint from the rescan. */
  lemma QuietReadingNotPainted(ws: Sheet, row: int, col: int)
    requires Get(ws, 2, col) == Some(Label(StokHeader)) && Get(ws, 2, col + 1) == Some(Label(InputHeader))
    requires var s := AsCount(Get(ws, row, col));
             var i := AsCount(Get(ws, row, col + 1));
             !(s.Some? && i.Some? && Alarming(s.value, i.value))
    ensures (row, col) !in AnomalyCells(ws) && (row, col + 1) !in AnomalyCells(ws)
  {
    assert !AnomalyAt(ws, row, col);
    assert !AnomalyAt(ws, row, col - 1);
    assert !AnomalyAt(ws, row, col + 1);
  }

  // ---------------------------------------------------------------------------
  // What an upsert leaves alone, and upserting twice
  // ---------------------------------------------------------------------------

  /** The painted set depends only on the cells and the dimensions. */
  lemma AnomalyCellsIgnoreFills(a: Sheet, b: Sheet)
    requires a.cells == b.cells && a.maxRow == b.maxRow && a.maxCol == b.maxCol
    ensures AnomalyCells(a) == AnomalyCells(b)
  {
    assert a == b.(fills := a.fills);
  }

  /** Writing the same reading into the same cells a second time changes nothing. */
  lemma TailIdempotent(ws: Sheet, row: int, col: int, rd: Reading)
    requires Valid(ws) && row >= 1 && col >= 1
    ensures UpsertTail(UpsertTail(ws, row, col, rd), row, col, rd) == UpsertTail(ws, row, col, rd)
  {
    var w1 := WriteBlock(ws, row, col, rd);
    var w2 := MarkAlarm(w1, row, col, rd);
    var w := WithRescan(w2);
    TailWritten(ws, row, col, rd);
    RewriteBlock(w, row, col, rd);
    var v2 := MarkAlarm(w, row, col, rd);
    assert v2 == w;
    AnomalyCellsIgnoreFills(w, w2);
  }

  /** The stock, sold, time and status cells of row `row` from column `col` on hold the reading. */
  predicate HoldsReading(w: Sheet, row: int, col: int, rd: Reading) {
    Get(w, row, col) == Some(Number(rd.stok)) && Get(w, row, col + 1) == Some(Number(rd.sold)) &&
    Get(w, row, col + 2) == Some(Label(rd.time)) && Get(w, row, col + 3) == Some(Label(rd.status))
  }

  /** The four cells at the target hold the reading, inside the sheet's bounds. */
  lemma TailWritten(ws: Sheet, row: int, col: int, rd: Reading)
    requires Valid(ws) && row >= 1 && col >= 1
    ensures var w := UpsertTail(ws, row, col, rd); row <= w.maxRow && col + 3 <= w.maxCol
    ensures HoldsReading(UpsertTail(ws, row, col, rd), row, col, rd)
    ensures Alarming(rd.stok, rd.sold) ==>
      var w := UpsertTail(ws, row, col, rd); (row, col) in w.fills && (row, col + 1) in w.fills
  {
    var w1 := WriteBlock(ws, row, col, rd);
    var w := UpsertTail(ws, row, col, rd);
    assert w.cells == w1.cells;
    assert Get(w, row, col) == Get(w1, row, col) && Get(w, row, col + 1) == Get(w1, row, col + 1);
    assert Get(w, row, col + 2) == Get(w1, row, col + 2) && Get(w, row, col + 3) == Get(w1, row, col + 3);
  }

  /** Writing a block over cells that already hold it is the identity. */
  lemma RewriteBlock(w: Sheet, row: int, col: int, rd: Reading)
    requires Valid(w) && row >= 1 && col >= 1 && row <= w.maxRow && col + 3 <= w.maxCol
    requires HoldsReading(w, row, col, rd)
    ensures WriteBlock(w, row, col, rd) == w
  {
    var v := WriteBlock(w, row, col, rd);
    assert v.cells == w.cells;
  }

  /** The first stage of an upsert touches row 1 only in the new block's column and in columns 1-2, and no data row. */
  lemma DateColumnFrame(ws: Sheet, d: Date)
    requires Valid(ws) && ValidDate(d)
    ensures var p := FindOrCreateDateColumn(ws, d); p.sheet.maxCol >= ws.maxCol && p.sheet.maxRow >= ws.maxRow
    ensures var p := FindOrCreateDateColumn(ws, d); p.isNew ==> p.index > ws.maxCol
    ensures var p := FindOrCreateDateColumn(ws, d);
      forall c | c >= FirstDateCol && c != p.index :: Get(p.sheet, 1, c) == Get(ws, 1, c)
    ensures var p := FindOrCreateDateColumn(ws, d); forall c | c <= ws.maxCol :: Get(p.sheet, 2, c) == Get(ws, 2, c)
    ensures var p := FindOrCreateDateColumn(ws, d); forall r | r >= FirstDataRow :: Get(p.sheet, r, 1) == Get(ws, r, 1)
  {
    var p := FindOrCreateDateColumn(ws, d);
    if p.isNew {
      NewBlockFrame(ws, FormatIso(d));
    }
  }

  lemma NewBlockFrame(ws: Sheet, display: string)
    requires Valid(ws)
    ensures var w := AppendDateBlock(ws, display);
      forall c | c >= FirstDateCol && c != NewBlockColumn(ws) :: Get(w, 1, c) == Get(ws, 1, c)
    ensures var w := AppendDateBlock(ws, display); forall c | c <= ws.maxCol :: Get(w, 2, c) == Get(ws, 2, c)
    ensures var w := AppendDateBlock(ws, display); forall r | r >= FirstDataRow :: Get(w, r, 1) == Get(ws, r, 1)
  {
    var w0 := WithCorner(ws);
    assert forall c | c >= FirstDateCol :: Get(w0, 1, c) == Get(ws, 1, c);
    assert forall c :: Get(w0, 2, c) == Get(ws, 2, c);
    assert forall r | r >= FirstDataRow :: Get(w0, r, 1) == Get(ws, r, 1);
  }

  /** The second stage touches only columns 1 and 2 of the new row. */
  lemma EntityRowFrame(ws: Sheet, id: string, name: string)
    requires Valid(ws)
    ensures var p := FindOrCreateEntityRow(ws, id, name); p.sheet.maxCol >= ws.maxCol && p.sheet.maxRow >= ws.maxRow
    ensures var p := FindOrCreateEntityRow(ws, id, name); p.isNew ==> p.index > ws.maxRow
    ensures var p := FindOrCreateEntityRow(ws, id, name); forall c :: Get(p.sheet, 1, c) == Get(ws, 1, c)
    ensures var p := FindOrCreateEntityRow(ws, id, name); forall c :: Get(p.sheet, 2, c) == Get(ws, 2, c)
    ensures var p := FindOrCreateEntityRow(ws, id, name); forall r | r != p.index :: Get(p.sheet, r, 1) == Get(ws, r, 1)
  {
  }

  /** The writes touch only data rows and date columns. */
  lemma TailFrame(ws: Sheet, row: int, col: int, rd: Reading)
    requires Valid(ws) && row >= FirstDataRow && col >= FirstDateCol
    ensures forall c :: Get(UpsertTail(ws, row, col, rd), 1, c) == Get(ws, 1, c)
    ensures forall c :: Get(UpsertTail(ws, row, col, rd), 2, c) == Get(ws, 2, c)
    ensures forall r :: Get(UpsertTail(ws, row, col, rd), r, 1) == Get(ws, r, 1)
  {
    var cells := UpsertTail(ws, row, col, rd).cells;
    BlockCellsFrame(ws.cells, cells, row, col, rd);
  }

  /** Writing a block changes no cell outside row `row` and columns `col..col + 3`. */
  lemma BlockCellsFrame(before: map<Pos, Value>, after: map<Pos, Value>, row: int, col: int, rd: Reading)
    requires row >= FirstDataRow && col >= FirstDateCol
    requires after == before[(row, col) := Number(rd.stok)][(row, col + 1) := Number(rd.sold)]
                            [(row, col + 2) := Label(rd.time)][(row, col + 3) := Label(rd.status)]
    ensures forall p: Pos | p.0 != row || p.1 < col :: (p in after <==> p in before) && (p in before ==> after[p] == before[p])
  {
  }

  /**
    Everything an upsert leaves alone: the date headers of other columns, the
    sub-headers of the columns that existed, and the ids of other rows; and
    what it writes: the date header, the id and the four cells at its target.
  */
  lemma UpsertFrame(ws: Sheet, d: Date, rd: Reading)
    requires Valid(ws) && ValidDate(d)
    ensures var w, t := UpsertSheet(ws, d, rd), Target(ws, d, rd);
      t.row >= FirstDataRow && t.col >= FirstDateCol && t.row <= w.maxRow && t.col + 3 <= w.maxCol
    ensures var w := UpsertSheet(ws, d, rd); w.maxCol >= ws.maxCol && w.maxRow >= ws.maxRow
    ensures var w, t := UpsertSheet(ws, d, rd), Target(ws, d, rd); HeaderIs(w, t.col, FormatIso(d)) && IdIs(w, t.row, rd.id)
    ensures var w, t := UpsertSheet(ws, d, rd), Target(ws, d, rd);
      forall c | c >= FirstDateCol && c != t.col :: Get(w, 1, c) == Get(ws, 1, c)
    ensures var w := UpsertSheet(ws, d, rd); forall c | c <= ws.maxCol :: Get(w, 2, c) == Get(ws, 2, c)
    ensures var w, t := UpsertSheet(ws, d, rd), Target(ws, d, rd);
      forall r | r >= FirstDataRow && r != t.row :: Get(w, r, 1) == Get(ws, r, 1)
  {
    var pc := FindOrCreateDateColumn(ws, d);
    var pr := FindOrCreateEntityRow(pc.sheet, rd.id, rd.name);
    DateColumnFrame(ws, d);
    EntityRowFrame(pc.sheet, rd.id, rd.name);
    TailFrame(pr.sheet, pr.index, pc.index, rd);
    TailWritten(pr.sheet, pr.index, pc.index, rd);
    var w := UpsertTail(pr.sheet, pr.index, pc.index, rd);
    assert w == UpsertSheet(ws, d, rd);
    assert Target(ws, d, rd) == Spot(pr.index, pc.index);
    assert Get(w, 1, pc.index) == Get(pc.sheet, 1, pc.index);
    assert Get(w, pr.index, 1) == Get(pr.sheet, pr.index, 1);
  }

  /** An upsert leaves the reading in the four cells at its target. */
  lemma UpsertWrites(ws: Sheet, d: Date, rd: Reading)
    requires Valid(ws) && ValidDate(d)
    ensures HoldsReading(UpsertSheet(ws, d, rd), Target(ws, d, rd).row, Target(ws, d, rd).col, rd)
  {
    var pc := FindOrCreateDateColumn(ws, d);
    var pr := FindOrCreateEntityRow(pc.sheet, rd.id, rd.name);
    TailWritten(pr.sheet, pr.index, pc.index, rd);
  }

  /** After an upsert its target is the first match of both the date and the id. */
  lemma UpsertFindsTarget(ws: Sheet, d: Date, rd: Reading)
    requires Valid(ws) && ValidDate(d)
    ensures FindDateColumn(UpsertSheet(ws, d, rd), FormatIso(d), FirstDateCol) == Some(Target(ws, d, rd).col)
    ensures FindEntityRow(UpsertSheet(ws, d, rd), rd.id, FirstDataRow) == Some(Target(ws, d, rd).row)
  {
    UpsertFindsColumn(ws, d, rd);
    UpsertFindsRow(ws, d, rd);
  }

  lemma UpsertFindsColumn(ws: Sheet, d: Date, rd: Reading)
    requires Valid(ws) && ValidDate(d)
    ensures FindDateColumn(UpsertSheet(ws, d, rd), FormatIso(d), FirstDateCol) == Some(Target(ws, d, rd).col)
  {
    var w := UpsertSheet(ws, d, rd);
    var t := Target(ws, d, rd);
    var display := FormatIso(d);
    UpsertFrame(ws, d, rd);
    DateColumnFrame(ws, d);
    forall k | FirstDateCol <= k < t.col ensures !HeaderIs(w, k, display) {
      assert Get(w, 1, k) == Get(ws, 1, k);
      assert !HeaderIs(ws, k, display);
    }
    FirstHeaderMatch(w, display, FirstDateCol, t.col);
  }

  lemma UpsertFindsRow(ws: Sheet, d: Date, rd: Reading)
    requires Valid(ws) && ValidDate(d)
    ensures FindEntityRow(UpsertSheet(ws, d, rd), rd.id, FirstDataRow) == Some(Target(ws, d, rd).row)
  {
    var w := UpsertSheet(ws, d, rd);
    var t := Target(ws, d, rd);
    var pc := FindOrCreateDateColumn(ws, d);
    UpsertFrame(ws, d, rd);
    DateColumnFrame(ws, d);
    EntityRowFrame(pc.sheet, rd.id, rd.name);
    forall k | FirstDataRow <= k < t.row ensures !IdIs(w, k, rd.id) {
      assert Get(w, k, 1) == Get(ws, k, 1);
      assert Get(pc.sheet, k, 1) == Get(ws, k, 1);
      assert !IdIs(pc.sheet, k, rd.id);
    }
    FirstIdMatch(w, rd.id, FirstDataRow, t.row);
  }

  /** Saving the same reading twice leaves the sheet as saving it once. */
  lemma UpsertIdempotent(ws: Sheet, d: Date, rd: Reading)
    requires Valid(ws) && ValidDate(d)
    ensures UpsertSheet(UpsertSheet(ws, d, rd), d, rd) == UpsertSheet(ws, d, rd)
  {
    var pc := FindOrCreateDateColumn(ws, d);
    var pr := FindOrCreateEntityRow(pc.sheet, rd.id, rd.name);
    var w := UpsertSheet(ws, d, rd);
    UpsertFindsTarget(ws, d, rd);
    assert FindOrCreateDateColumn(w, d) == Placement(w, pc.index, false);
    assert FindOrCreateEntityRow(w, rd.id, rd.name) == Placement(w, pr.index, false);
    TailIdempotent(pr.sheet, pr.index, pc.index, rd);
  }

  /** An upsert keeps every date header on top of a complete block. */
  lemma UpsertKeepsWellFormed(ws: Sheet, d: Date, rd: Reading)
    requires WellFormed(ws) && ValidDate(d)
    ensures WellFormed(UpsertSheet(ws, d, rd))
  {
    var w := UpsertSheet(ws, d, rd);
    var t := Target(ws, d, rd);
    var pc := FindOrCreateDateColumn(ws, d);
    var pr := FindOrCreateEntityRow(pc.sheet, rd.id, rd.name);
    UpsertFrame(ws, d, rd);
    TargetHasBlock(ws, d, rd);
    EntityRowFrame(pc.sheet, rd.id, rd.name);
    TailFrame(pr.sheet, pr.index, pc.index, rd);
    assert BlockAt(w, t.col);
    forall c | FirstDateCol <= c <= w.maxCol && (1, c) in w.cells && ValueTruthy(w.cells[(1, c)]) ensures BlockAt(w, c) {
      if c != t.col {
        assert Get(w, 1, c) == Get(ws, 1, c);
        assert InBounds(ws, (1, c));
        assert BlockAt(ws, c);
        assert Get(w, 2, c) == Get(ws, 2, c) && Get(w, 2, c + 1) == Get(ws, 2, c + 1);
        assert Get(w, 2, c + 2) == Get(ws, 2, c + 2) && Get(w, 2, c + 3) == Get(ws, 2, c + 3);
      }
    }
  }
}

=== FILE: remote.dfy ===
/**
  The pure aggregations of the remote store client
  (modules/data/supabase_client.py): the queries' replies are handed in as
  lists of rows, a row being the JSON object the service returns, and each
  method's summary, filter or decision is computed over them. A query that
  raised is a `None` reply; the client's `is_connected` flag is a parameter.
*/
module Remote {
  import opened Wrappers
  import opened Text
  import S = Sorting

  /** A JSON value as the client sees it; `Null` is Python's `None`. */
  datatype Val = Null | Bool(b: bool) | Num(i: int) | Str(s: string)

  /** One row of a reply: column name to value. */
  type Row = map<string, Val>

  /**
    `row.get(key, default)` on a reply row. It reads like `Config.GetConfig`,
    but a row holds JSON values (`Val`) while the configuration holds setting
    values, so each module keeps the lookup over its own value type.
  */
  function Get(row: Row, key: string, default: Val): (r: Val)
    ensures key in row ==> r == row[key]
    ensures key !in row ==> r == default
  {
    if key in row then row[key] else default
  }

  /** Python truthiness. */
  predicate Truthy(v: Val) {
    match v
    case Null => false
    case Bool(b) => b
    case Num(i) => i != 0
    case Str(s) => s != ""
  }

  /** `str(v)`. */
  function StrOf(v: Val): string {
    match v
    case Null => "None"
    case Bool(b) => if b then "True" else "False"
    case Num(i) => IntToString(i)
    case Str(s) => s
  }

  const TabungSuffix: string := " Tabung"

  /**
    The count parse used throughout the client: `str(v)` with " Tabung" and
    "," removed, then `int(...)`; `None` is the `ValueError`.
  */
  function Tabung(v: Val): Option<int> {
    PyInt(RemoveChar(RemoveAll(StrOf(v), TabungSuffix), ','))
  }

  /** A count written the way the automation stores it, "N Tabung", reads back as N; so does a bare number. */
  lemma TabungRoundTrip(n: int)
    ensures Tabung(Str(IntToString(n) + TabungSuffix)) == Some(n)
    ensures Tabung(Num(n)) == Some(n)
  {
    var d := IntToString(n);
    var m: nat := if n < 0 then -n else n;
    assert forall k :: 0 <= k < |NatToString(m)| ==> IsDigit(NatToString(m)[k]);
    assert TabungSuffix[0] !in d;
    assert ',' !in d;
    RemoveAllSuffix(d, TabungSuffix);
    RemoveAllAbsent(d, TabungSuffix);
    PyIntRoundTrip(n);
  }

  // ---------------------------------------------------------------------------
  // Accounts as the application lists them
  // ---------------------------------------------------------------------------

  /** An account entry as handed to the application. */
  datatype AppAccount = AppAccount(id: int, nama: Val, username: Val, pin: Val, pangkalanId: Val,
                                   status: string, progress: int, dbId: Val)

  /** One row of `fetch_accounts`: the username (default "") stands in for a missing name or outlet id. */
  function FetchedRow(item: Row, idx: int): AppAccount {
    var username := Get(item, "username", Str(""));
    AppAccount(idx, Get(item, "nama", username), username, Get(item, "pin", Str("")),
               Get(item, "pangkalan_id", username), "waiting", 0, Get(item, "id", Null))
  }

  function FetchedFrom(rows: seq<Row>, first: int): (r: seq<AppAccount>)
    ensures |r| == |rows|
    ensures forall i :: 0 <= i < |r| ==> r[i] == FetchedRow(rows[i], first + i)
    decreases |rows|
  {
    if rows == [] then [] else [FetchedRow(rows[0], first)] + FetchedFrom(rows[1..], first + 1)
  }

  /**
    `fetch_accounts`: nothing when disconnected or when the query raised;
    otherwise one entry per row, in order, numbered from 1, each waiting at 0.
  */
  function FetchAccounts(connected: bool, reply: Option<seq<Row>>): (r: seq<AppAccount>)
    ensures !connected || reply.None? ==> r == []
    ensures connected && reply.Some? ==> |r| == |reply.value|
    ensures connected && reply.Some? ==> forall i :: 0 <= i < |r| ==>
      r[i].id == i + 1 && r[i].status == "waiting" && r[i].progress == 0 &&
      r[i].username == Get(reply.value[i], "username", Str(""))
  {
    if !connected || reply.None? then [] else FetchedFrom(reply.value, 1)
  }

  /**
    A row without a name or outlet-id column gets the username for both; a
    column present with a null value stays null, since `get` falls back only
    on a missing key.
  */
  lemma FetchDefaultsToUsername(reply: seq<Row>, i: int)
    requires 0 <= i < |reply|
    ensures var a := FetchAccounts(true, Some(reply))[i];
      ("nama" !in reply[i] ==> a.nama == a.username) &&
      ("pangkalan_id" !in reply[i] ==> a.pangkalanId == a.username) &&
      (Get(reply[i], "nama", Null) == Null && "nama" in reply[i] ==> a.nama == Null)
  {
  }

  /** The numbers handed out are distinct. */
  lemma FetchedIdsDistinct(reply: seq<Row>, i: int, j: int)
    requires 0 <= i < j < |reply|
    ensures FetchAccounts(true, Some(reply))[i].id != FetchAccounts(true, Some(reply))[j].id
  {
  }

  // ---------------------------------------------------------------------------
  // Today's summary
  // ---------------------------------------------------------------------------

  datatype Summary = Summary(total: int, success: int, failed: int, totalSales: int, totalStock: int)

  const NoSummary := Summary(0, 0, 0, 0, 0)

  /**
    Whether a result row counts as a success: its status (default "")
    contains either sales phrase, which comes down to containing
    "Ada Penjualan". A status that is not a string makes the `in` test
    raise, which is `None`.
  */
  function Recorded(row: Row): (r: Option<bool>)
    ensures r.None? <==> !Get(row, "status", Str("")).Str?
    ensures r.Some? ==> (r.value <==> Contains(Get(row, "status", Str("")).s, "Ada Penjualan"))
  {
    match Get(row, "status", Str(""))
    case Str(s) =>
      SaleInNoSale(s);
      Some(Contains(s, "Ada Penjualan") || Contains(s, "Tidak Ada Penjualan"))
    case _ => None
  }

  /** "Tidak Ada Penjualan" contains "Ada Penjualan", so the second test never decides anything. */
  lemma SaleInNoSale(s: string)
    ensures Contains(s, "Tidak Ada Penjualan") ==> Contains(s, "Ada Penjualan")
  {
    if Contains(s, "Tidak Ada Penjualan") {
      var i :| 0 <= i <= |s| && OccursAt(s, "Tidak Ada Penjualan", i);
      assert s[i + 6..i + 19] == s[i..i + 19][6..19];
      assert OccursAt(s, "Ada Penjualan", i + 6);
    }
  }

  /** What one row adds to the summary: one row, success or failure, and its parsed counts or nothing. */
  function RowSummary(row: Row, ok: bool, count: Val -> Option<int>): Summary {
    Summary(1, if ok then 1 else 0, if ok then 0 else 1,
            count(Get(row, "tabung_terjual", Str("0"))).GetOr(0), count(Get(row, "stok", Str("0"))).GetOr(0))
  }

  function Plus(a: Summary, b: Summary): Summary {
    Summary(a.total + b.total, a.success + b.success, a.failed + b.failed,
            a.totalSales + b.totalSales, a.totalStock + b.totalStock)
  }

  lemma PlusAssoc(a: Summary, b: Summary, c: Summary)
    ensures Plus(Plus(a, b), c) == Plus(a, Plus(b, c))
  {
  }

  /** The loop of `get_today_summary` over the rows; `None` when some status raised. */
  function Tally(rows: seq<Row>, recorded: Row -> Option<bool>, count: Val -> Option<int>): (r: Option<Summary>)
    ensures r.Some? ==> r.value.total == |rows| && r.value.success + r.value.failed == r.value.total
    ensures r.Some? ==> 0 <= r.value.success && 0 <= r.value.failed
    decreases |rows|
  {
    if rows == [] then Some(NoSummary)
    else
      var t := Tally(rows[1..], recorded, count);
      if recorded(rows[0]).Some? && t.Some? then Some(Plus(RowSummary(rows[0], recorded(rows[0]).value, count), t.value))
      else None
  }

  /** The summary is missing exactly when some row's status test raised. */
  lemma {:induction false} TallyFailsIff(rows: seq<Row>, recorded: Row -> Option<bool>, count: Val -> Option<int>)
    ensures Tally(rows, recorded, count).None? <==> exists i :: 0 <= i < |rows| && recorded(rows[i]).None?
    decreases |rows|
  {
    if rows != [] {
      TallyFailsIff(rows[1..], recorded, count);
      if exists i :: 0 <= i < |rows[1..]| && recorded(rows[1..][i]).None? {
        var i :| 0 <= i < |rows[1..]| && recorded(rows[1..][i]).None?;
        assert recorded(rows[i + 1]).None?;
      }
      if exists i :: 0 <= i < |rows| && recorded(rows[i]).None? {
        var i :| 0 <= i < |rows| && recorded(rows[i]).None?;
        if i > 0 { assert recorded(rows[1..][i - 1]).None?; }
      }
    }
  }

  /** A summary exists for a non-empty batch only when it exists for its first row and for the rest. */
  lemma TallyUncons(rows: seq<Row>, recorded: Row -> Option<bool>, count: Val -> Option<int>)
    requires rows != [] && Tally(rows, recorded, count).Some?
    ensures recorded(rows[0]).Some? && Tally(rows[1..], recorded, count).Some?
    ensures Tally(rows, recorded, count)
         == Some(Plus(RowSummary(rows[0], recorded(rows[0]).value, count), Tally(rows[1..], recorded, count).value))
  {
  }

  /** Putting a row in front of a batch adds the row's share to the batch's summary. */
  lemma TallyCons(row: Row, rows: seq<Row>, recorded: Row -> Option<bool>, count: Val -> Option<int>)
    requires recorded(row).Some? && Tally(rows, recorded, count).Some?
    ensures Tally([row] + rows, recorded, count)
         == Some(Plus(RowSummary(row, recorded(row).value, count), Tally(rows, recorded, count).value))
  {
    assert ([row] + rows)[1..] == rows;
  }

  lemma PlusZero(q: Summary)
    ensures Plus(NoSummary, q) == q
  {
  }

  /** Splitting the first element off a concatenation. */
  lemma ConsAppend<T>(a: seq<T>, b: seq<T>)
    requires a != []
    ensures a + b == [a[0]] + (a[1..] + b)
  {
  }

  /** The summary of two batches of rows is the sum of their summaries. */
  lemma {:induction false} TallyAppend(a: seq<Row>, b: seq<Row>, recorded: Row -> Option<bool>, count: Val -> Option<int>)
    requires Tally(a, recorded, count).Some? && Tally(b, recorded, count).Some?
    ensures Tally(a + b, recorded, count) == Some(Plus(Tally(a, recorded, count).value, Tally(b, recorded, count).value))
    decreases |a|
  {
    if a == [] {
      assert a + b == b;
      PlusZero(Tally(b, recorded, count).value);
    } else {
      TallyUncons(a, recorded, count);
      TallyAppend(a[1..], b, recorded, count);
      TallyCons(a[0], a[1..] + b, recorded, count);
      ConsAppend(a, b);
      PlusAssoc(RowSummary(a[0], recorded(a[0]).value, count),
                Tally(a[1..], recorded, count).value, Tally(b, recorded, count).value);
    }
  }

  /** A single row adds exactly its own share. */
  lemma TallyOne(row: Row, recorded: Row -> Option<bool>, count: Val -> Option<int>)
    requires recorded(row).Some?
    ensures Tally([row], recorded, count) == Some(RowSummary(row, recorded(row).value, count))
  {
    assert [row][1..] == [];
  }

  /**
    `get_today_summary`: zeros when disconnected, when the company has no
    outlets, or when any query or status test raised; otherwise every row
    counts once, as success or as failure.
  */
  function TodaySummary(connected: bool, companyIds: Option<seq<Val>>, reply: Option<seq<Row>>): (r: Summary)
    ensures !connected || companyIds == Some([]) || reply.None? ==> r == NoSummary
    ensures r.success + r.failed == r.total
    ensures connected && companyIds != Some([]) && reply.Some? ==>
      (r.total == |reply.value| <==> Tally(reply.value, Recorded, Tabung).Some?) || reply.value == []
    ensures connected && companyIds != Some([]) && reply.Some? && Tally(reply.value, Recorded, Tabung).Some? ==>
      r == Tally(reply.value, Recorded, Tabung).value
    ensures connected && companyIds != Some([]) && reply.Some? && Tally(reply.value, Recorded, Tabung).None? ==>
      r == NoSummary
  {
    if !connected || companyIds == Some([]) || reply.None? then NoSummary
    else match Tally(reply.value, Recorded, Tabung)
      case None => NoSummary
      case Some(t) => t
  }

  /**
    A single row whose status is not a string (null, a number, a boolean)
    makes the status test raise, which wipes out the whole summary.
  */
  lemma NonStringStatusZeroesSummary(companyIds: Option<seq<Val>>, reply: seq<Row>, i: int)
    requires 0 <= i < |reply| && !Get(reply[i], "status", Str("")).Str?
    ensures TodaySummary(true, companyIds, Some(reply)) == NoSummary
  {
    assert Recorded(reply[i]).None?;
    TallyFailsIff(reply, Recorded, Tabung);
  }

  /** A single row whose status is null wipes out the whole summary, not just its own share. */
  lemma NullStatusZeroesSummary(reply: seq<Row>, i: int)
    requires 0 <= i < |reply| && "status" in reply[i] && reply[i]["status"] == Null
    ensures TodaySummary(true, None, Some(reply)) == NoSummary
  {
    assert Recorded(reply[i]).None?;
    TallyFailsIff(reply, Recorded, Tabung);
  }

  // ---------------------------------------------------------------------------
  // Accounts not yet processed today
  // ---------------------------------------------------------------------------

  /** The outlet id an account is matched by: its own, or its username when the column is missing. */
  function AccountKey(account: Row): Val {
    Get(account, "pangkalan_id", Get(account, "username", Null))
  }

  /** The outlet ids of today's result rows, a missing one read as `None`. */
  function ProcessedIds(processed: seq<Row>): (r: set<Val>)
    ensures forall p :: p in processed ==> Get(p, "pangkalan_id", Null) in r
    ensures forall v :: v in r ==> exists p :: p in processed && Get(p, "pangkalan_id", Null) == v
  {
    set p | p in processed :: Get(p, "pangkalan_id", Null)
  }

  /** The accounts whose key is not among `done`, in order. */
  function Pending(accounts: seq<Row>, done: set<Val>): (r: seq<Row>)
    ensures |r| <= |accounts|
    ensures forall x :: x in r <==> x in accounts && AccountKey(x) !in done
    decreases |accounts|
  {
    if accounts == [] then []
    else if AccountKey(accounts[0]) !in done then [accounts[0]] + Pending(accounts[1..], done)
    else Pending(accounts[1..], done)
  }

  lemma {:induction false} PendingAppend(a: seq<Row>, b: seq<Row>, done: set<Val>)
    ensures Pending(a + b, done) == Pending(a, done) + Pending(b, done)
    decreases |a|
  {
    if a == [] {
      assert a + b == b;
    } else {
      assert (a + b)[0] == a[0];
      assert (a + b)[1..] == a[1..] + b;
      PendingAppend(a[1..], b, done);
    }
  }

  /** One entry of `get_unprocessed_accounts_today`; here the name falls back to the raw username. */
  function ResumeRow(account: Row, idx: int): AppAccount {
    AppAccount(idx, Get(account, "nama", Get(account, "username", Null)), Get(account, "username", Str("")),
               Get(account, "pin", Str("")), AccountKey(account), "waiting", 0, Get(account, "id", Null))
  }

  /** The loop of `get_unprocessed_accounts_today`, with its running counter `idx`. */
  function ResumeFrom(accounts: seq<Row>, done: set<Val>, idx: int): (r: seq<AppAccount>)
    ensures |r| <= |accounts|
    ensures forall i :: 0 <= i < |r| ==> r[i].id == idx + i && r[i].pangkalanId !in done
    decreases |accounts|
  {
    if accounts == [] then []
    else if AccountKey(accounts[0]) !in done then [ResumeRow(accounts[0], idx)] + ResumeFrom(accounts[1..], done, idx + 1)
    else ResumeFrom(accounts[1..], done, idx)
  }

  lemma NumberedCons(x: Row, t: seq<Row>, u: seq<AppAccount>, idx: int)
    requires |u| == |t| && forall i :: 0 <= i < |t| ==> u[i] == ResumeRow(t[i], idx + 1 + i)
    ensures |[ResumeRow(x, idx)] + u| == |[x] + t|
    ensures forall i :: 0 <= i < |[x] + t| ==> ([ResumeRow(x, idx)] + u)[i] == ResumeRow(([x] + t)[i], idx + i)
  {
    var p, q := [x] + t, [ResumeRow(x, idx)] + u;
    forall i | 1 <= i < |p| ensures q[i] == ResumeRow(p[i], idx + i) {
      assert p[i] == t[i - 1] && q[i] == u[i - 1];
    }
  }

  /** The entries are exactly the pending accounts, in order, numbered on from `idx`. */
  lemma {:induction false} ResumeIsPending(accounts: seq<Row>, done: set<Val>, idx: int)
    ensures |ResumeFrom(accounts, done, idx)| == |Pending(accounts, done)|
    ensures forall i :: 0 <= i < |Pending(accounts, done)| ==>
      ResumeFrom(accounts, done, idx)[i] == ResumeRow(Pending(accounts, done)[i], idx + i)
    decreases |accounts|
  {
    if accounts != [] {
      if AccountKey(accounts[0]) !in done {
        ResumeIsPending(accounts[1..], done, idx + 1);
        NumberedCons(accounts[0], Pending(accounts[1..], done), ResumeFrom(accounts[1..], done, idx + 1), idx);
      } else {
        ResumeIsPending(accounts[1..], done, idx);
      }
    }
  }

  /**
    `get_unprocessed_accounts_today`: nothing when disconnected or when a
    query raised; otherwise the accounts whose outlet id was not processed
    today, numbered from 1.
  */
  function UnprocessedAccounts(connected: bool, accounts: Option<seq<Row>>, processed: Option<seq<Row>>)
    : (r: seq<AppAccount>)
    ensures !connected || accounts.None? || processed.None? ==> r == []
    ensures forall i :: 0 <= i < |r| ==> r[i].id == i + 1
    ensures connected && accounts.Some? && processed.Some? ==>
      |r| <= |accounts.value| && forall i :: 0 <= i < |r| ==> r[i].pangkalanId !in ProcessedIds(processed.value)
  {
    if !connected || accounts.None? || processed.None? then []
    else ResumeFrom(accounts.value, ProcessedIds(processed.value), 1)
  }

  /**
    An account is listed exactly when its key is not among today's processed
    ids, and the list keeps the accounts' order.
  */
  lemma UnprocessedExactly(accounts: seq<Row>, processed: seq<Row>)
    ensures var r := UnprocessedAccounts(true, Some(accounts), Some(processed));
      var p := Pending(accounts, ProcessedIds(processed));
      |r| == |p| && (forall i :: 0 <= i < |p| ==> r[i] == ResumeRow(p[i], i + 1)) &&
      (forall x :: x in p <==> x in accounts && AccountKey(x) !in ProcessedIds(processed))
  {
    ResumeIsPending(accounts, ProcessedIds(processed), 1);
  }

  /**
    A result row with no outlet id puts `None` among the processed ids, and
    then every account whose outlet id is null counts as processed.
  */
  lemma NullIdCountsAsProcessed(accounts: seq<Row>, processed: seq<Row>, x: Row)
    requires x in accounts && AccountKey(x) == Null
    requires exists p :: p in processed && "pangkalan_id" !in p
    ensures x !in Pending(accounts, ProcessedIds(processed))
  {
    var p :| p in processed && "pangkalan_id" !in p;
    assert Get(p, "pangkalan_id", Null) == Null;
  }

  // ---------------------------------------------------------------------------
  // Yesterday's stock movement
  // ---------------------------------------------------------------------------

  datatype Movement = Movement(total: int, reported: int, unreported: int)

  const NoMovement := Movement(0, 0, 0)

  function PidOf(row: Row): Val { Get(row, "pangkalan_id", Null) }

  /** The distinct truthy outlet ids of the rows, in order of first appearance (the grouping dict's keys). */
  function Ids(rows: seq<Row>): (r: seq<Val>)
    ensures forall i, j :: 0 <= i < j < |r| ==> r[i] != r[j]
    ensures forall v :: v in r <==> Truthy(v) && exists x :: x in rows && PidOf(x) == v
    decreases |rows|
  {
    if rows == [] then []
    else
      var p := Ids(rows[..|rows| - 1]);
      var last := rows[|rows| - 1];
      assert forall x :: x in rows <==> x in rows[..|rows| - 1] || x == last by {
        assert rows == rows[..|rows| - 1] + [last];
      }
      if Truthy(PidOf(last)) && PidOf(last) !in p then p + [PidOf(last)] else p
  }

  /** The rows of one outlet, in order. */
  function Group(rows: seq<Row>, id: Val): (r: seq<Row>)
    ensures forall x :: x in r <==> x in rows && PidOf(x) == id
    decreases |rows|
  {
    if rows == [] then []
    else if PidOf(rows[0]) == id then [rows[0]] + Group(rows[1..], id)
    else Group(rows[1..], id)
  }

  /**
    The sort key `created_at` (default ""). Only a group whose keys are all
    strings is sorted without raising (see `SortRaises`), so any other value
    is read as "" here.
  */
  function CreatedAt(row: Row): string {
    match Get(row, "created_at", Str(""))
    case Str(s) => s
    case _ => ""
  }

  /**
    Sorting a group by `created_at` compares every row with some other one,
    so with two rows or more a key that is not a string (a null, or a number
    against a string) raises a `TypeError`.
  */
  predicate SortRaises(g: seq<Row>) {
    |g| >= 2 && exists x | x in g :: !Get(x, "created_at", Str("")).Str?
  }

  function NotLater(a: Row, b: Row): bool { StrLe(CreatedAt(a), CreatedAt(b)) }

  lemma NotLaterPreorder()
    ensures S.TotalPreorder(NotLater)
  {
    forall a: Row, b: Row ensures NotLater(a, b) || NotLater(b, a) {
      StrLeTotal(CreatedAt(a), CreatedAt(b));
    }
    forall a: Row, b: Row, c: Row | NotLater(a, b) && NotLater(b, c) ensures NotLater(a, c) {
      StrLeTrans(CreatedAt(a), CreatedAt(b), CreatedAt(c));
    }
  }

  /** The last check of a day: the last row once sorted by `created_at`, a row of the group with the latest key. */
  function LastCheck(g: seq<Row>): (r: Row)
    requires g != []
    ensures r in g
    ensures forall x :: x in g ==> StrLe(CreatedAt(x), CreatedAt(r))
  {
    var s := S.Sort(NotLater, g);
    SortEnds(g);
    s[|s| - 1]
  }

  /** The first check of a day: the first row once sorted by `created_at`, a row of the group with the earliest key. */
  function FirstCheck(g: seq<Row>): (r: Row)
    requires g != []
    ensures r in g
    ensures forall x :: x in g ==> StrLe(CreatedAt(r), CreatedAt(x))
  {
    SortEnds(g);
    S.Sort(NotLater, g)[0]
  }

  /** In a sorted list, the last row is the latest and the first the earliest. */
  lemma SortedEnds(s: seq<Row>)
    requires s != [] && S.Sorted(NotLater, s)
    ensures forall x :: x in s ==> StrLe(CreatedAt(x), CreatedAt(s[|s| - 1]))
    ensures forall x :: x in s ==> StrLe(CreatedAt(s[0]), CreatedAt(x))
  {
    forall x | x in s
      ensures StrLe(CreatedAt(x), CreatedAt(s[|s| - 1])) && StrLe(CreatedAt(s[0]), CreatedAt(x))
    {
      var k :| 0 <= k < |s| && s[k] == x;
      StrLeTotal(CreatedAt(x), CreatedAt(x));
      if k < |s| - 1 { assert NotLater(s[k], s[|s| - 1]); }
      if 0 < k { assert NotLater(s[0], s[k]); }
    }
  }

  /** Sorting a group puts a latest row last and an earliest row first. */
  lemma SortEnds(g: seq<Row>)
    requires g != []
    ensures var s := S.Sort(NotLater, g);
      s[|s| - 1] in g && s[0] in g &&
      (forall x :: x in g ==> StrLe(CreatedAt(x), CreatedAt(s[|s| - 1]))) &&
      (forall x :: x in g ==> StrLe(CreatedAt(s[0]), CreatedAt(x)))
  {
    var s := S.Sort(NotLater, g);
    SortedKeys(g);
    SortKeepsRows(g);
    assert s[|s| - 1] in s && s[0] in s;
  }

  /** After sorting by `created_at`, the last key is the latest and the first the earliest. */
  lemma SortedKeys(g: seq<Row>)
    requires g != []
    ensures var s := S.Sort(NotLater, g);
      (forall x :: x in s ==> StrLe(CreatedAt(x), CreatedAt(s[|s| - 1]))) &&
      (forall x :: x in s ==> StrLe(CreatedAt(s[0]), CreatedAt(x)))
  {
    NotLaterPreorder();
    S.SortSorted(NotLater, g);
    SortedEnds(S.Sort(NotLater, g));
  }

  /** Sorting neither adds nor drops a row. */
  lemma SortKeepsRows(g: seq<Row>)
    ensures forall x :: x in g <==> x in S.Sort(NotLater, g)
  {
    var s := S.Sort(NotLater, g);
    forall x ensures x in g <==> x in s {
      assert x in g <==> x in multiset(g);
      assert x in s <==> x in multiset(s);
    }
  }

  /**
    One outlet's contribution: yesterday's last stock and reported sales
    against today's first stock. An unparsable value skips the outlet, and so
    does a stock that went up overnight.
  */
  function Move(ys: seq<Row>, ts: seq<Row>, count: Val -> Option<int>): (r: Movement)
    ensures r.total == r.reported + r.unreported && r.unreported >= 0
    ensures ys == [] || ts == [] ==> r == NoMovement
    ensures ys != [] && ts != [] ==>
      var y := count(Get(LastCheck(ys), "stok", Str("0")));
      var t := count(Get(FirstCheck(ts), "stok", Str("0")));
      var sold := count(Get(LastCheck(ys), "tabung_terjual", Str("0")));
      (y.None? || t.None? || sold.None? ==> r == NoMovement) &&
      (y.Some? && t.Some? && sold.Some? && y.value < t.value ==> r == NoMovement) &&
      (y.Some? && t.Some? && sold.Some? && y.value >= t.value ==>
        r == Movement(sold.value + (y.value - t.value), sold.value, y.value - t.value))
  {
    if ys == [] || ts == [] then NoMovement
    else
      MoveOf(count(Get(LastCheck(ys), "stok", Str("0"))), count(Get(FirstCheck(ts), "stok", Str("0"))),
             count(Get(LastCheck(ys), "tabung_terjual", Str("0"))))
  }

  /**
    The body of the outlet's `try`: yesterday's stock `y`, today's stock `t`
    and the reported sales, each as parsed; a value that did not parse skips
    the outlet, and so does a negative stock difference.
  */
  function MoveOf(y: Option<int>, t: Option<int>, sold: Option<int>): (r: Movement)
    ensures y.None? || t.None? || sold.None? ==> r == NoMovement
    ensures y.Some? && t.Some? && sold.Some? && y.value < t.value ==> r == NoMovement
    ensures y.Some? && t.Some? && sold.Some? && y.value >= t.value ==>
      r == Movement(sold.value + (y.value - t.value), sold.value, y.value - t.value)
  {
    match (y, t, sold)
    case (Some(y), Some(t), Some(sold)) =>
      if y - t >= 0 then Movement(sold + (y - t), sold, y - t) else NoMovement
    case _ => NoMovement
  }

  /**
    The per-outlet loop, summing over the given ids; `None` when sorting an
    outlet's checks of either day raised, which ends the whole loop.
  */
  function MoveAll(ids: seq<Val>, yesterday: seq<Row>, today: seq<Row>, count: Val -> Option<int>): (r: Option<Movement>)
    ensures r.Some? ==> r.value.total == r.value.reported + r.value.unreported && r.value.unreported >= 0
    decreases |ids|
  {
    if ids == [] then Some(NoMovement)
    else
      var ys := Group(yesterday, ids[0]);
      var ts := Group(today, ids[0]);
      if SortRaises(ys) || SortRaises(ts) then None
      else
        match MoveAll(ids[1..], yesterday, today, count)
        case None => None
        case Some(rest) =>
          Some(AddMoves(Move(ys, ts, count), rest))
  }

  /** Field-wise sum of two movements, as the loop's three running totals add up. */
  function AddMoves(a: Movement, b: Movement): (r: Movement)
    ensures r.total == a.total + b.total && r.reported == a.reported + b.reported
    ensures r.unreported == a.unreported + b.unreported
  {
    Movement(a.total + b.total, a.reported + b.reported, a.unreported + b.unreported)
  }

  /** Both loops succeed and their totals add up, or the combined loop fails. */
  function BothMoves(a: Option<Movement>, b: Option<Movement>): (r: Option<Movement>)
    ensures r.Some? <==> a.Some? && b.Some?
    ensures r.Some? ==> r.value == AddMoves(a.value, b.value)
  {
    if a.Some? && b.Some? then Some(AddMoves(a.value, b.value)) else None
  }

  /** The loop over one outlet is that outlet's contribution, unless sorting its checks raises. */
  lemma MoveAllOne(id: Val, yesterday: seq<Row>, today: seq<Row>, count: Val -> Option<int>)
    ensures var ys := Group(yesterday, id); var ts := Group(today, id);
      MoveAll([id], yesterday, today, count) ==
        if SortRaises(ys) || SortRaises(ts) then None else Some(Move(ys, ts, count))
  {
    var ys := Group(yesterday, id);
    var ts := Group(today, id);
    assert [id][1..] == [];
    assert MoveAll([], yesterday, today, count) == Some(NoMovement);
    if !(SortRaises(ys) || SortRaises(ts)) {
      AddNothing(Move(ys, ts, count));
    }
  }

  lemma NothingAdd(m: Movement)
    ensures AddMoves(NoMovement, m) == m
  {
  }

  lemma AddNothing(m: Movement)
    ensures AddMoves(m, NoMovement) == m
  {
  }

  /** The loop over two runs of outlets sums the two loops' totals, and fails if either does. */
  lemma {:induction false} MoveAllAppend(a: seq<Val>, b: seq<Val>, yesterday: seq<Row>, today: seq<Row>, count: Val -> Option<int>)
    ensures MoveAll(a + b, yesterday, today, count) ==
      BothMoves(MoveAll(a, yesterday, today, count), MoveAll(b, yesterday, today, count))
    decreases |a|
  {
    if a == [] {
      assert a + b == b;
      assert MoveAll(a, yesterday, today, count) == Some(NoMovement);
      var y := MoveAll(b, yesterday, today, count);
      if y.Some? {
        NothingAdd(y.value);
      }
    } else {
      assert (a + b)[0] == a[0] && (a + b)[1..] == a[1..] + b;
      MoveAllAppend(a[1..], b, yesterday, today, count);
      var ys := Group(yesterday, a[0]);
      var ts := Group(today, a[0]);
      var x := MoveAll(a[1..], yesterday, today, count);
      var y := MoveAll(b, yesterday, today, count);
      var xy := MoveAll(a[1..] + b, yesterday, today, count);
      if SortRaises(ys) || SortRaises(ts) {
        assert MoveAll(a, yesterday, today, count) == None;
        assert MoveAll(a + b, yesterday, today, count) == None;
      } else {
        var m := Move(ys, ts, count);
        assert MoveAll(a, yesterday, today, count) == if x.Some? then Some(AddMoves(m, x.value)) else None;
        assert MoveAll(a + b, yesterday, today, count) == if xy.Some? then Some(AddMoves(m, xy.value)) else None;
        if x.Some? && y.Some? {
          AddMovesAssoc(m, x.value, y.value);
        }
      }
    }
  }

  lemma AddMovesAssoc(m: Movement, x: Movement, y: Movement)
    ensures AddMoves(m, AddMoves(x, y)) == AddMoves(AddMoves(m, x), y)
  {
  }

  /** The loop fails exactly when some outlet's checks of yesterday or of today cannot be sorted. */
  lemma {:induction false} MoveAllFailsIff(ids: seq<Val>, yesterday: seq<Row>, today: seq<Row>, count: Val -> Option<int>)
    ensures MoveAll(ids, yesterday, today, count).None? <==>
      exists i :: 0 <= i < |ids| && (SortRaises(Group(yesterday, ids[i])) || SortRaises(Group(today, ids[i])))
    decreases |ids|
  {
    if ids != [] {
      MoveAllFailsIff(ids[1..], yesterday, today, count);
      if exists i :: 0 <= i < |ids[1..]| && (SortRaises(Group(yesterday, ids[1..][i])) || SortRaises(Group(today, ids[1..][i]))) {
        var i :| 0 <= i < |ids[1..]| && (SortRaises(Group(yesterday, ids[1..][i])) || SortRaises(Group(today, ids[1..][i])));
        assert ids[1..][i] == ids[i + 1];
      }
      if exists i :: 0 <= i < |ids| && (SortRaises(Group(yesterday, ids[i])) || SortRaises(Group(today, ids[i]))) {
        var i :| 0 <= i < |ids| && (SortRaises(Group(yesterday, ids[i])) || SortRaises(Group(today, ids[i])));
        if i > 0 {
          assert ids[1..][i - 1] == ids[i];
        }
      }
    }
  }

  /**
    `get_stock_movement_today`: zeros when disconnected, when the company has
    no outlets, when a query raised, or when either day has no rows;
    otherwise the sum over yesterday's outlets. Only overnight stock drops are
    counted, so the unreported part is never negative and the total is the
    reported part plus it.
  */
  function StockMovement(connected: bool, companyIds: Option<seq<Val>>,
                         yesterday: Option<seq<Row>>, today: Option<seq<Row>>): (r: Movement)
    ensures !connected || companyIds == Some([]) || yesterday.None? || today.None? ==> r == NoMovement
    ensures yesterday == Some([]) || today == Some([]) ==> r == NoMovement
    ensures r.total == r.reported + r.unreported && r.unreported >= 0
    ensures yesterday.Some? && today.Some? &&
      (exists id | id in Ids(yesterday.value) :: SortRaises(Group(yesterday.value, id)) || SortRaises(Group(today.value, id)))
      ==> r == NoMovement
    ensures (connected && companyIds != Some([]) && yesterday.Some? && today.Some? &&
             yesterday.value != [] && today.value != []) ==>
      (var m := MoveAll(Ids(yesterday.value), yesterday.value, today.value, Tabung); m.Some? ==> r == m.value)
  {
    if !connected || companyIds == Some([]) || yesterday.None? || today.None? then NoMovement
    else if yesterday.value == [] || today.value == [] then NoMovement
    else
      var ids := Ids(yesterday.value);
      MoveAllFailsIff(ids, yesterday.value, today.value, Tabung);
      match MoveAll(ids, yesterday.value, today.value, Tabung)
      case None => NoMovement
      case Some(m) => m
  }

  /** An outlet with no check today contributes nothing. */
  lemma UncheckedTodayContributesNothing(ys: seq<Row>, count: Val -> Option<int>)
    ensures Move(ys, [], count) == NoMovement
  {
  }

  /** A stock that rose overnight contributes nothing, whatever was reported. */
  lemma RestockContributesNothing(ys: seq<Row>, ts: seq<Row>, y: int, t: int, count: Val -> Option<int>)
    requires ys != [] && ts != []
    requires count(Get(LastCheck(ys), "stok", Str("0"))) == Some(y)
    requires count(Get(FirstCheck(ts), "stok", Str("0"))) == Some(t)
    requires y < t
    ensures Move(ys, ts, count) == NoMovement
  {
  }

  /** A single row is its own group and its own first and last check. */
  lemma SingleRow(r: Row)
    requires Truthy(PidOf(r))
    ensures Ids([r]) == [PidOf(r)] && Group([r], PidOf(r)) == [r]
    ensures LastCheck([r]) == r && FirstCheck([r]) == r
  {
    assert [r][..0] == [] && [r][1..] == [];
    assert S.Sort(NotLater, [r]) == [r];
  }

  /** One check yesterday and one today for the same outlet: reported sales plus the overnight drop. */
  lemma OneCheckEachDay(yr: Row, tr: Row, y: int, t: int, sold: int, count: Val -> Option<int>)
    requires Truthy(PidOf(yr)) && PidOf(tr) == PidOf(yr)
    requires count(Get(yr, "stok", Str("0"))) == Some(y) && count(Get(tr, "stok", Str("0"))) == Some(t)
    requires count(Get(yr, "tabung_terjual", Str("0"))) == Some(sold)
    requires y >= t
    ensures MoveAll(Ids([yr]), [yr], [tr], count) == Some(Movement(sold + (y - t), sold, y - t))
  {
    SingleRow(yr);
    SingleRow(tr);
    MoveAllOne(PidOf(yr), [yr], [tr], count);
    assert !SortRaises([yr]) && !SortRaises([tr]);
  }

  /** A check row as the automation stores it: the outlet id, and the counts written "N Tabung". */
  function StoredCheck(p: string, stok: int, sold: Option<int>, createdAt: string): (r: Row)
    ensures PidOf(r) == Str(p)
    ensures Get(r, "stok", Str("0")) == Str(IntToString(stok) + TabungSuffix)
    ensures sold.Some? ==> Get(r, "tabung_terjual", Str("0")) == Str(IntToString(sold.value) + TabungSuffix)
  {
    var base := map["pangkalan_id" := Str(p), "stok" := Str(IntToString(stok) + TabungSuffix), "created_at" := Str(createdAt)];
    if sold.Some? then base["tabung_terjual" := Str(IntToString(sold.value) + TabungSuffix)] else base
  }

  /** The same with the counts written "N Tabung", as the automation stores them. */
  lemma OneOutletMovement(p: string, y: int, t: int, sold: int, c1: string, c2: string)
    requires p != "" && y >= t
    ensures StockMovement(true, None, Some([StoredCheck(p, y, Some(sold), c1)]), Some([StoredCheck(p, t, None, c2)]))
            == Movement(sold + (y - t), sold, y - t)
  {
    var yr := StoredCheck(p, y, Some(sold), c1);
    var tr := StoredCheck(p, t, None, c2);
    TabungRoundTrip(y);
    TabungRoundTrip(t);
    TabungRoundTrip(sold);
    OneCheckEachDay(yr, tr, y, t, sold, Tabung);
  }

  // ---------------------------------------------------------------------------
  // Login
  // ---------------------------------------------------------------------------

  datatype UserInfo = UserInfo(username: Val, fullName: Val, companyAccess: Val, role: Val)

  datatype Login = LoggedIn(user: UserInfo) | Refused(message: string)

  /**
    `login_user`: `reply` is the users query for the name, `Err(e)` when
    it raised with message `e`; `hash` is SHA-256 in hex. Only the first user
    returned is considered; the password is checked before the active flag,
    which defaults to active when the column is missing.
  */
  function LoginUser(connected: bool, hash: string -> string, password: string,
                     reply: Result<seq<Row>, string>): (r: Login)
    ensures !connected ==> r == Refused("Database not connected")
    ensures connected && reply.Err? ==> r == Refused("Error: " + reply.error)
    ensures connected && reply == Ok([]) ==> r == Refused("Username tidak ditemukan")
    ensures r.LoggedIn? <==>
      connected && reply.Ok? && reply.value != [] &&
      Get(reply.value[0], "password_hash", Null) == Str(hash(password)) &&
      Truthy(Get(reply.value[0], "is_active", Bool(true))) && "username" in reply.value[0]
    ensures (connected && reply.Ok? && reply.value != [] &&
             Get(reply.value[0], "password_hash", Null) != Str(hash(password))) ==>
      r == Refused("Password salah")
    ensures (connected && reply.Ok? && reply.value != [] &&
             Get(reply.value[0], "password_hash", Null) == Str(hash(password)) &&
             !Truthy(Get(reply.value[0], "is_active", Bool(true)))) ==>
      r == Refused("Akun dinonaktifkan")
    ensures r.LoggedIn? ==> r.user.username == reply.value[0]["username"]
  {
    if !connected then Refused("Database not connected")
    else match reply
      case Err(e) => Refused("Error: " + e)
      case Ok(users) =>
        if users == [] then Refused("Username tidak ditemukan")
        else
          var user := users[0];
          if Get(user, "password_hash", Null) == Str(hash(password)) then
            if !Truthy(Get(user, "is_active", Bool(true))) then Refused("Akun dinonaktifkan")
            else if "username" !in user then Refused("Error: 'username'")
            else LoggedIn(UserInfo(user["username"], Get(user, "full_name", Null),
                                   Get(user, "company_access", Null), Get(user, "role", Null)))
          else Refused("Password salah")
  }

  /** A deactivated account is told only that the password is wrong until the right one is given. */
  lemma WrongPasswordBeforeInactive(hash: string -> string, password: string, user: Row, rest: seq<Row>)
    requires Get(user, "is_active", Bool(true)) == Bool(false)
    requires Get(user, "password_hash", Null) != Str(hash(password))
    ensures LoginUser(true, hash, password, Ok([user] + rest)) == Refused("Password salah")
  {
  }

  /** A user record without a stored hash can never log in. */
  lemma NoHashNoLogin(hash: string -> string, password: string, users: seq<Row>)
    requires users != [] && "password_hash" !in users[0]
    ensures !LoginUser(true, hash, password, Ok(users)).LoggedIn?
  {
  }
}

=== FILE: runner.dfy ===
/**
  The account loop. `ProcessManager.run` (modules/core/process_manager.py)
  and the GUI's `run_automation_background` (main_gui.py) share one
  skeleton: check stop, wait out a pause, process one account inside a
  try/except, then delay unless this was the last account or a stop has
  arrived. They differ in what one account does (connectivity checks, login
  retry, names and status texts), which `Mode` selects.

  The browser is not modelled: what the connectivity checks, the browser
  setup, the login attempts and the extractors return for an account is a
  `Probe`, and where an exception escapes is its `crash` stage. The stop and
  pause controls are commands that arrive between loop steps.
*/
module Runner {
  import opened Wrappers
  import opened Text
  import opened Calendar
  import opened Validators
  import T = Telemetry
  import M = Master

  // ---------------------------------------------------------------------------
  // Control flags
  // ---------------------------------------------------------------------------

  /**
    The control calls: `stop`/`pause`/`resume` of `ProcessManager`, and the
    GUI's `pause_automation` (a toggle), `stop_automation` and
    `start_automation`. `Tick` is half a second of sleep with no call.
  */
  datatype Cmd = Stop | Pause | Resume | TogglePause | GuiStop | GuiStart | Tick

  /** The stop request, the pause request and the GUI's `automation_running`. */
  datatype Flags = Flags(stop: bool, pause: bool, running: bool)

  function ApplyCmd(f: Flags, c: Cmd): (r: Flags)
    ensures c.Stop? ==> r == f.(stop := true)
    ensures c.Pause? ==> r == f.(pause := true)
    ensures c.Resume? ==> r == f.(pause := false)
    ensures c.TogglePause? ==> r == f.(pause := !f.pause)
    ensures c.GuiStop? ==> r == f.(stop := true, running := false)
    ensures c.GuiStart? ==> r == if f.running then f else f.(stop := false, running := true)
    ensures c.Tick? ==> r == f
  {
    match c
    case Stop => f.(stop := true)
    case Pause => f.(pause := true)
    case Resume => f.(pause := false)
    case TogglePause => f.(pause := !f.pause)
    case GuiStop => f.(stop := true, running := false)
    case GuiStart => if f.running then f else f.(stop := false, running := true)
    case Tick => f
  }

  function ApplyAll(f: Flags, cmds: seq<Cmd>): Flags
    decreases |cmds|
  {
    if cmds == [] then f else ApplyAll(ApplyCmd(f, cmds[0]), cmds[1..])
  }

  /**
    `while pause: sleep; if stop: break`: each sleep lets one command in.
    The wait ends when the pause is lifted or, after a sleep, a stop is seen;
    `None` means the commands ran out with the loop still waiting.
  */
  function PauseWait(f: Flags, cmds: seq<Cmd>): (r: Option<Flags>)
    ensures !f.pause ==> r == Some(f)
    ensures r.Some? ==> !r.value.pause || r.value.stop
    ensures r.None? ==> f.pause
    decreases |cmds|
  {
    if !f.pause then Some(f)
    else if cmds == [] then None
    else
      var g := ApplyCmd(f, cmds[0]);
      if g.stop then Some(g) else PauseWait(g, cmds[1..])
  }

  /** A stop arriving during a pause ends the wait at once, the pause itself still set. */
  lemma StopEndsPause(f: Flags, rest: seq<Cmd>)
    requires f.pause
    ensures PauseWait(f, [Stop] + rest) == Some(f.(stop := true))
  {
  }

  // ---------------------------------------------------------------------------
  // Accounts
  // ---------------------------------------------------------------------------

  /**
    An account as handed to the loop: a dictionary (from the GUI) whose `id`
    and `pangkalan_id` keys may be absent, or a tuple of strings (from the
    command line).
  */
  datatype AccountInput =
    | FromDict(id: Option<int>, nama: string, username: string, pin: string, pangkalanId: Option<string>)
    | FromTuple(fields: seq<string>)

  datatype Account = Account(id: int, nama: string, username: string, pin: string, pangkalanId: string)

  /**
    The account fields `ProcessManager.run` extracts: for a dictionary, `id`
    defaults to the position and `pangkalan_id` to the username; for a tuple,
    the id is the position and the fourth field, if any, is `pangkalan_id`.
    A tuple of fewer than three fields raises `IndexError` (`None`).
  */
  function NormalizeForManager(a: AccountInput, idx: nat): (r: Option<Account>)
    ensures a.FromDict? ==> r == Some(Account(a.id.GetOr(idx), a.nama, a.username, a.pin, a.pangkalanId.GetOr(a.username)))
    ensures a.FromTuple? ==> (r.Some? <==> |a.fields| >= 3)
    ensures a.FromTuple? && r.Some? ==>
      r.value.id == idx && r.value.nama == a.fields[0] && r.value.username == a.fields[1] && r.value.pin == a.fields[2]
    ensures a.FromTuple? && r.Some? ==> r.value.pangkalanId == if |a.fields| >= 4 then a.fields[3] else a.fields[1]
  {
    match a
    case FromDict(id, nama, username, pin, pid) => Some(Account(id.GetOr(idx), nama, username, pin, pid.GetOr(username)))
    case FromTuple(fs) =>
      if |fs| >= 4 then Some(Account(idx, fs[0], fs[1], fs[2], fs[3]))
      else if |fs| == 3 then Some(Account(idx, fs[0], fs[1], fs[2], fs[1]))
      else None
  }

  /**
    The fields the GUI loop reads: `account["nama"]`, `["username"]`,
    `["pin"]` and `["id"]`; the result row is keyed by the username. A tuple
    (`TypeError`) or a dictionary without an id (`KeyError`) raises.
  */
  function NormalizeForGui(a: AccountInput): (r: Option<Account>)
    ensures r.Some? <==> a.FromDict? && a.id.Some?
    ensures r.Some? ==> r.value == Account(a.id.value, a.nama, a.username, a.pin, a.username)
  {
    match a
    case FromDict(id, nama, username, pin, _) =>
      if id.Some? then Some(Account(id.value, nama, username, pin, username)) else None
    case FromTuple(_) => None
  }

  datatype Mode = Manager | Gui

  /**
    The account a loop works on. Both loops read a dictionary with an id
    alike, `pangkalan_id` aside; only the manager's loop takes a tuple or a
    dictionary without an id.
  */
  function Normalize(mode: Mode, a: AccountInput, idx: nat): (r: Option<Account>)
    ensures a.FromDict? && a.id.Some? ==>
      r.Some? && r.value.(pangkalanId := "") == Account(a.id.value, a.nama, a.username, a.pin, "")
    ensures r.None? && mode == Manager ==> a.FromTuple? && |a.fields| < 3
    ensures r.Some? && mode == Gui ==> a.FromDict? && a.id.Some?
  {
    if mode == Manager then NormalizeForManager(a, idx) else NormalizeForGui(a)
  }

  // ---------------------------------------------------------------------------
  // One account
  // ---------------------------------------------------------------------------

  /** Where inside the per-account `try` an exception escapes. */
  datatype Stage = InSetup | InLogin | InStock | InSales | AfterSave

  /**
    What the outside world answers for one account: the three connectivity
    checks, whether the browser gave a page, the first two login attempts,
    the stock text, whether the sales report opened and the sales text, the
    clock, the disk, and where (if anywhere) an exception is raised.
  */
  datatype Probe = Probe(
    netSetup: bool, page: bool, netLogin: bool, login1: bool, login2: bool, netData: bool,
    stok: Option<string>, reportOpened: bool, terjual: Option<string>,
    crash: Option<Stage>, now: real, today: Date, clock: M.Clock, disk: M.Disk)

  predicate ProbeValid(p: Probe) {
    ValidDate(p.today) && M.ClockValid(p.clock)
  }

  /** A call of the UI's `update_account_status(id, status, progress)`. */
  datatype UiUpdate = UiUpdate(id: int, status: string, progress: int)

  /** A result row as appended to the results list. */
  datatype ResultRecord = ResultRecord(pangkalanId: string, nama: string, username: string,
                                       stok: string, terjual: string, status: string)

  /**
    `_safe_int(val)`: `None` is 0; otherwise `str(val)` without `.` and `,`
    read by `int()`, 0 when that raises.
  */
  function SafeInt(v: Option<string>): (r: int)
    ensures v.None? ==> r == 0
    ensures v.Some? && PyInt(Unseparated(v.value)).None? ==> r == 0
  {
    match v
    case None => 0
    case Some(s) => PyInt(Unseparated(s)).GetOr(0)
  }

  lemma NoSeparatorsInIntToString(n: int)
    ensures '.' !in IntToString(n) && ',' !in IntToString(n)
  {
    var s := IntToString(n);
    var d := NatToString(if n < 0 then -n else n);
    assert forall i :: 0 <= i < |d| ==> IsDigit(d[i]);
    if n < 0 {
      assert forall i :: 1 <= i < |s| ==> s[i] == d[i - 1];
    }
  }

  /** A number that `str()` wrote comes back unchanged. */
  lemma SafeIntRoundTrip(n: int)
    ensures SafeInt(Some(IntToString(n))) == n
  {
    NoSeparatorsInIntToString(n);
    PyIntRoundTrip(n);
  }

  /** The text `_safe_int` hands to `int()`: `str(val)` without `.` and `,`. */
  function Unseparated(s: string): string {
    RemoveChar(RemoveChar(s, '.'), ',')
  }

  lemma RemoveOneSeparator(x: string, y: string, sep: char, c: char)
    requires sep == c
    ensures RemoveChar(x + [sep] + y, c) == RemoveChar(x, c) + RemoveChar(y, c)
  {
    RemoveCharAppend(x + [sep], y, c);
    RemoveCharAppend(x, [sep], c);
    assert RemoveChar([sep], c) == [];
    assert RemoveChar(x, c) + [] == RemoveChar(x, c);
  }

  lemma KeepOneChar(x: string, y: string, ch: char, c: char)
    requires ch != c
    ensures RemoveChar(x + [ch] + y, c) == RemoveChar(x, c) + [ch] + RemoveChar(y, c)
  {
    RemoveCharAppend(x + [ch], y, c);
    RemoveCharAppend(x, [ch], c);
    assert RemoveChar([ch], c) == [ch];
  }

  lemma UnseparatedIgnores(x: string, y: string, sep: char)
    requires sep == '.' || sep == ','
    ensures Unseparated(x + [sep] + y) == Unseparated(x + y)
  {
    RemoveCharAppend(x, y, '.');
    var rx, ry := RemoveChar(x, '.'), RemoveChar(y, '.');
    if sep == '.' {
      RemoveOneSeparator(x, y, sep, '.');
    } else {
      KeepOneChar(x, y, sep, '.');
      RemoveOneSeparator(rx, ry, sep, ',');
      RemoveCharAppend(rx, ry, ',');
    }
  }

  /**
    A `.` or `,` anywhere in the text is dropped rather than read as a
    decimal point: "1.250" reads as 1250.
  */
  lemma SafeIntIgnoresSeparator(x: string, y: string, sep: char)
    requires sep == '.' || sep == ','
    ensures SafeInt(Some(x + [sep] + y)) == SafeInt(Some(x + y))
  {
    UnseparatedIgnores(x, y, sep);
  }

  /** A number written with a thousands separator spliced in still reads as itself. */
  lemma SafeIntSeparatedRoundTrip(n: int, k: nat, sep: char)
    requires sep == '.' || sep == ','
    requires k <= |IntToString(n)|
    ensures SafeInt(Some(IntToString(n)[..k] + [sep] + IntToString(n)[k..])) == n
  {
    SafeIntRoundTrip(n);
    SplicedSeparator(IntToString(n), k, sep);
  }

  lemma SplicedSeparator(s: string, k: nat, sep: char)
    requires sep == '.' || sep == ','
    requires k <= |s|
    ensures SafeInt(Some(s[..k] + [sep] + s[k..])) == SafeInt(Some(s))
  {
    SafeIntIgnoresSeparator(s[..k], s[k..], sep);
    assert s[..k] + s[k..] == s;
  }

  /** The number of login retries after the first attempt (`max_retries`). */
  const MaxRetries: nat := 1

  /**
    The login retry loop: at most `tries` attempts, stopping at the first
    success. Yields the number of attempts made and whether one succeeded.
  */
  function LoginRetry(outcomes: seq<bool>, tries: nat): (r: (nat, bool))
    requires tries <= |outcomes|
    ensures r.0 <= tries
    ensures r.1 <==> exists i :: 0 <= i < tries && outcomes[i]
    ensures r.1 ==> 1 <= r.0 && outcomes[r.0 - 1]
    ensures forall i :: 0 <= i < r.0 - 1 ==> !outcomes[i]
    ensures !r.1 ==> r.0 == tries
    decreases tries
  {
    if tries == 0 then (0, false)
    else if outcomes[0] then (1, true)
    else
      var k := LoginRetry(outcomes[1..], tries - 1);
      assert forall i :: 0 <= i < tries - 1 ==> outcomes[1..][i] == outcomes[i + 1];
      assert k.1 ==> exists i :: 0 <= i < tries && outcomes[i] by {
        if k.1 {
          var j :| 0 <= j < tries - 1 && outcomes[1..][j];
          assert outcomes[j + 1];
        }
      }
      (k.0 + 1, k.1)
  }

  /** `f"{n} Tabung"`. */
  function Tabung(n: int): string {
    IntToString(n) + " Tabung"
  }

  function SalesStatus(sold: int): (r: string)
    ensures r == "Ada Penjualan" <==> sold > 0
    ensures r == "Tidak Ada Penjualan" <==> sold <= 0
  {
    if sold > 0 then "Ada Penjualan" else "Tidak Ada Penjualan"
  }

  /**
    What one account produced: the telemetry calls (the account start, the
    operation timings, then the closing success, business and failure calls),
    the status updates, the result row and the number of login attempts.
  */
  datatype Effect = Effect(opening: T.Event, timing: seq<T.Event>, closing: seq<T.Event>,
                           ui: seq<UiUpdate>, result: Option<ResultRecord>, logins: nat)

  /** The telemetry calls of one account, in the order they are made. */
  function Calls(e: Effect): seq<T.Event> {
    [e.opening] + e.timing + e.closing
  }

  function LastCall(e: Effect): T.Event {
    Calls(e)[|Calls(e)| - 1]
  }

  function LastUpdate(e: Effect): UiUpdate
    requires e.ui != []
  {
    e.ui[|e.ui| - 1]
  }

  /** `_handle_failure` (or the GUI's inline equivalent): status "error" at 0 and one recorded failure. */
  function Fail(mode: Mode, a: Account, p: Probe, timing: seq<T.Event>, ui: seq<UiUpdate>, kind: string, logins: nat): Effect {
    Effect(T.AccountStart(a.username, p.now), timing, [T.AccountFailure(a.username, kind, Shown(mode, a), p.now)],
           ui + [UiUpdate(a.id, "error", 0)], None, logins)
  }

  /** A connectivity check as the mode sees it: the GUI loop makes none. */
  predicate Online(mode: Mode, check: bool) {
    mode == Gui || check
  }

  /** Login attempts: two for the manager, one for the GUI. */
  function LoginAttempts(mode: Mode, p: Probe): (nat, bool) {
    LoginRetry([p.login1, p.login2], if mode == Manager then MaxRetries + 1 else 1)
  }

  /** The sold count the result uses: the sales text only if the report page opened. */
  function SoldText(p: Probe): Option<string> {
    if p.reportOpened then p.terjual else None
  }

  function RecordFor(a: Account, p: Probe): ResultRecord {
    var stok, sold := SafeInt(p.stok), SafeInt(SoldText(p));
    ResultRecord(a.pangkalanId, a.nama, a.username, Tabung(stok), Tabung(sold), SalesStatus(sold))
  }

  /** The name a recorded failure carries: the manager passes `nama`, the GUI nothing. */
  function Shown(mode: Mode, a: Account): string {
    if mode == Manager then a.nama else ""
  }

  /** The per-account body of the loop, up to the first connectivity check. */
  function AccountEffect(mode: Mode, a: Account, p: Probe): (r: Effect)
    ensures r.opening == T.AccountStart(a.username, p.now) && TimingOnly(r.timing) && T.NoReset(r.closing) && r.ui != []
    ensures FailureKind(mode, p).Some? ==> r.result.None? && LastUpdate(r) == UiUpdate(a.id, "error", 0)
    ensures FailureKind(mode, p).Some? ==>
      r.closing == [T.AccountFailure(a.username, FailureKind(mode, p).value, Shown(mode, a), p.now)]
    ensures FailureKind(mode, p).None? ==> Succeeded(mode, a, p, r)
  {
    var ui0 := [UiUpdate(a.id, "processing", 0)];
    if !Online(mode, p.netSetup) then Fail(mode, a, p, [], ui0, "connection_timeout", 0)
    else SetupPhase(mode, a, p, ui0)
  }

  /** The browser setup. */
  function SetupPhase(mode: Mode, a: Account, p: Probe, ui0: seq<UiUpdate>): (r: Effect)
    requires Online(mode, p.netSetup)
    ensures r.opening == T.AccountStart(a.username, p.now) && TimingOnly(r.timing) && T.NoReset(r.closing) && r.ui != []
    ensures FailureKind(mode, p).Some? ==> r.result.None? && LastUpdate(r) == UiUpdate(a.id, "error", 0)
    ensures FailureKind(mode, p).Some? ==>
      r.closing == [T.AccountFailure(a.username, FailureKind(mode, p).value, Shown(mode, a), p.now)]
    ensures FailureKind(mode, p).None? ==> Succeeded(mode, a, p, r)
  {
    var u, now := a.username, p.now;
    var ui1 := ui0 + [UiUpdate(a.id, "processing", 10)];
    var c1 := [T.BeginOp("browser_setup", u, now)];
    if p.crash == Some(InSetup) then Fail(mode, a, p, c1, ui1, "exception", 0)
    else
      var c2 := c1 + [T.EndOp("browser_setup", u, now)];
      if !p.page then Fail(mode, a, p, c2, ui1, "browser_setup_failed", 0)
      else if !Online(mode, p.netLogin) then Fail(mode, a, p, c2, ui1, "connection_timeout_login", 0)
      else LoginPhase(mode, a, p, c2, ui1)
  }

  /** The login with its retry. */
  function LoginPhase(mode: Mode, a: Account, p: Probe, timing: seq<T.Event>, ui1: seq<UiUpdate>): (r: Effect)
    requires Online(mode, p.netSetup) && p.crash != Some(InSetup) && p.page && Online(mode, p.netLogin)
    requires TimingOnly(timing)
    ensures r.opening == T.AccountStart(a.username, p.now) && TimingOnly(r.timing) && T.NoReset(r.closing) && r.ui != []
    ensures FailureKind(mode, p).Some? ==> r.result.None? && LastUpdate(r) == UiUpdate(a.id, "error", 0)
    ensures FailureKind(mode, p).Some? ==>
      r.closing == [T.AccountFailure(a.username, FailureKind(mode, p).value, Shown(mode, a), p.now)]
    ensures FailureKind(mode, p).None? ==> Succeeded(mode, a, p, r)
  {
    var u, now := a.username, p.now;
    var ui2 := ui1 + [UiUpdate(a.id, "processing", 30)];
    var c3 := timing + [T.BeginOp("login", u, now)];
    if p.crash == Some(InLogin) then Fail(mode, a, p, c3, ui2, "exception", 1)
    else
      var (tries, ok) := LoginAttempts(mode, p);
      var c4 := c3 + [T.EndOp("login", u, now)];
      if !ok then Fail(mode, a, p, c4, ui2, "login_failed", tries)
      else if !Online(mode, p.netData) then Fail(mode, a, p, c4, ui2, "connection_timeout_data", tries)
      else DataPhase(mode, a, p, c4, ui2, tries)
  }

  /** Reading the stock and the sales figure. */
  function DataPhase(mode: Mode, a: Account, p: Probe, timing: seq<T.Event>, ui2: seq<UiUpdate>, tries: nat): (r: Effect)
    requires Online(mode, p.netSetup) && p.crash != Some(InSetup) && p.page && Online(mode, p.netLogin)
    requires p.crash != Some(InLogin) && LoginAttempts(mode, p).1 && Online(mode, p.netData)
    requires TimingOnly(timing)
    ensures r.opening == T.AccountStart(a.username, p.now) && TimingOnly(r.timing) && T.NoReset(r.closing) && r.ui != []
    ensures FailureKind(mode, p).Some? ==> r.result.None? && LastUpdate(r) == UiUpdate(a.id, "error", 0)
    ensures FailureKind(mode, p).Some? ==>
      r.closing == [T.AccountFailure(a.username, FailureKind(mode, p).value, Shown(mode, a), p.now)]
    ensures FailureKind(mode, p).None? ==> Succeeded(mode, a, p, r)
  {
    var u, now := a.username, p.now;
    var ui3 := ui2 + [UiUpdate(a.id, "processing", 50)];
    var c5 := timing + [T.BeginOp("get_stock", u, now)];
    if p.crash == Some(InStock) then Fail(mode, a, p, c5, ui3, "exception", tries)
    else
      var c6 := c5 + [T.EndOp("get_stock", u, now)];
      var ui4 := ui3 + [UiUpdate(a.id, "processing", 70)];
      if p.crash == Some(InSales) then Fail(mode, a, p, c6, ui4, "exception", tries)
      else Finish(mode, a, p, c6, ui4, tries)
  }

  /** The result row, the save, and the success bookkeeping. */
  function Finish(mode: Mode, a: Account, p: Probe, timing: seq<T.Event>, ui4: seq<UiUpdate>, tries: nat): (r: Effect)
    requires FailureKind(mode, p).None?
    requires TimingOnly(timing)
    ensures r.opening == T.AccountStart(a.username, p.now) && TimingOnly(r.timing) && T.NoReset(r.closing) && r.ui != []
    ensures Succeeded(mode, a, p, r)
  {
    var u, now := a.username, p.now;
    var rec := RecordFor(a, p);
    var ui5 := ui4 + [UiUpdate(a.id, "processing", 90)];
    var closing := SuccessCalls(a, p);
    if p.crash == Some(AfterSave) then
      var late := closing + [T.AccountFailure(u, "exception", Shown(mode, a), now)];
      assert T.NoReset(late);
      Effect(T.AccountStart(u, now), timing, late, ui5 + [UiUpdate(a.id, "error", 0)], Some(rec), tries)
    else
      Effect(T.AccountStart(u, now), timing, closing, ui5 + [UiUpdate(a.id, DoneStatus(mode, rec), 100)], Some(rec), tries)
  }

  /** The success and the business figures reported for an account that reached its result row. */
  function SuccessCalls(a: Account, p: Probe): (r: seq<T.Event>)
    ensures T.NoReset(r)
  {
    [T.AccountSuccess(a.username, p.now), T.Business(SafeInt(p.stok), SafeInt(SoldText(p)))]
  }

  /** The final status text: a manager run also shows the stock and the sales figure. */
  function DoneStatus(mode: Mode, rec: ResultRecord): string {
    if mode == Manager then "done|Stok: " + rec.stok + ", Input: " + rec.terjual else "done"
  }

  /**
    How an account that passed every check ends: its result row, then a
    success and the business figures; without a late exception a final
    status at 100, with one a failure and status "error" as well.
  */
  predicate Succeeded(mode: Mode, a: Account, p: Probe, r: Effect)
    requires r.ui != []
  {
    var closing := SuccessCalls(a, p);
    && r.result == Some(RecordFor(a, p))
    && (p.crash != Some(AfterSave) ==> r.closing == closing && LastUpdate(r).progress == 100)
    && (p.crash == Some(AfterSave) ==>
          r.closing == closing + [T.AccountFailure(a.username, "exception", Shown(mode, a), p.now)] &&
          LastUpdate(r) == UiUpdate(a.id, "error", 0))
  }

  /**
    The first check that fails for an account, as the error type the failure
    is recorded under; `None` when the account reaches its result row.
  */
  function FailureKind(mode: Mode, p: Probe): Option<string> {
    var login := LoginAttempts(mode, p).1;
    if !Online(mode, p.netSetup) then Some("connection_timeout")
    else if p.crash == Some(InSetup) then Some("exception")
    else if !p.page then Some("browser_setup_failed")
    else if !Online(mode, p.netLogin) then Some("connection_timeout_login")
    else if p.crash == Some(InLogin) then Some("exception")
    else if !login then Some("login_failed")
    else if !Online(mode, p.netData) then Some("connection_timeout_data")
    else if p.crash == Some(InStock) || p.crash == Some(InSales) then Some("exception")
    else None
  }

  /** Calls that only time operations. */
  predicate TimingOnly(es: seq<T.Event>) {
    forall i :: 0 <= i < |es| ==> es[i].BeginOp? || es[i].EndOp?
  }

  lemma {:induction false} TimingTallies(es: seq<T.Event>)
    requires TimingOnly(es)
    ensures T.Starts(es) == 0 && T.Successes(es) == 0 && T.Failures(es) == 0 && T.NoReset(es)
    decreases |es|
  {
    if es != [] {
      TimingTallies(es[1..]);
    }
  }

  /** The tallies of one account's calls are those of its opening and closing calls. */
  lemma CallTallies(e: Effect)
    requires TimingOnly(e.timing) && e.opening.AccountStart?
    requires T.NoReset(e.closing)
    ensures T.Starts(Calls(e)) == 1 + T.Starts(e.closing)
    ensures T.Successes(Calls(e)) == T.Successes(e.closing)
    ensures T.Failures(Calls(e)) == T.Failures(e.closing)
    ensures T.NoReset(Calls(e))
  {
    TimingTallies(e.timing);
    T.TalliesAppend([e.opening], e.timing);
    T.TalliesAppend([e.opening] + e.timing, e.closing);
  }

  /**
    An account that fails a check gets no result row, ends on status "error"
    at 0, and is recorded as exactly one failure under the error type of the
    first failing check, with no success.
  */
  lemma FailurePath(mode: Mode, a: Account, p: Probe)
    requires FailureKind(mode, p).Some?
    ensures var e := AccountEffect(mode, a, p);
      e.result.None? && LastUpdate(e) == UiUpdate(a.id, "error", 0)
    ensures var e := AccountEffect(mode, a, p);
      LastCall(e) == T.AccountFailure(a.username, FailureKind(mode, p).value, Shown(mode, a), p.now)
    ensures var e := AccountEffect(mode, a, p);
      T.Starts(Calls(e)) == 1 && T.Successes(Calls(e)) == 0 && T.Failures(Calls(e)) == 1 && T.NoReset(Calls(e))
  {
    var e := AccountEffect(mode, a, p);
    CallTallies(e);
  }

  /** The tallies of a success closing, with or without a trailing failure. */
  lemma SuccessClosingTallies(success: T.Event, business: T.Event, failure: T.Event)
    requires success.AccountSuccess? && business.Business? && failure.AccountFailure?
    ensures var c := [success, business];
      T.Starts(c) == 0 && T.Successes(c) == 1 && T.Failures(c) == 0 && T.NoReset(c)
    ensures var c := [success, business, failure];
      T.Starts(c) == 0 && T.Successes(c) == 1 && T.Failures(c) == 1 && T.NoReset(c)
  {
    SingleTallies(success);
    SingleTallies(business);
    SingleTallies(failure);
    T.TalliesAppend([success], [business]);
    assert [success] + [business] == [success, business];
    T.TalliesAppend([success, business], [failure]);
    assert [success, business] + [failure] == [success, business, failure];
  }

  lemma SingleTallies(e: T.Event)
    ensures T.Starts([e]) == (if e.AccountStart? then 1 else 0)
    ensures T.Successes([e]) == (if e.AccountSuccess? then 1 else 0)
    ensures T.Failures([e]) == (if e.AccountFailure? then 1 else 0)
  {
    assert [e][1..] == [];
  }

  /**
    An account that passes every check gets exactly one result row, built
    from the parsed stock and sold counts, and exactly one recorded success.
    Unless an exception follows the save, it ends on a final status at 100
    with no failure; if one does, a failure is recorded as well, so the
    account is counted twice.
  */
  lemma SuccessPath(mode: Mode, a: Account, p: Probe)
    requires FailureKind(mode, p).None?
    ensures var e := AccountEffect(mode, a, p);
      e.result == Some(RecordFor(a, p))
    ensures var e := AccountEffect(mode, a, p);
      T.Starts(Calls(e)) == 1 && T.Successes(Calls(e)) == 1 && T.NoReset(Calls(e))
    ensures var e := AccountEffect(mode, a, p);
      p.crash != Some(AfterSave) ==> T.Failures(Calls(e)) == 0 && LastUpdate(e).progress == 100
    ensures var e := AccountEffect(mode, a, p);
      p.crash == Some(AfterSave) ==> T.Failures(Calls(e)) == 1 && LastUpdate(e) == UiUpdate(a.id, "error", 0)
  {
    var e := AccountEffect(mode, a, p);
    CallTallies(e);
    SuccessClosingTallies(T.AccountSuccess(a.username, p.now), T.Business(SafeInt(p.stok), SafeInt(SoldText(p))),
                          T.AccountFailure(a.username, "exception", Shown(mode, a), p.now));
  }

  /**
    An exception after the save records a failure for an account whose
    success is already counted: the account adds one to the total but one to
    both the successes and the failures.
  */
  lemma LateExceptionCountsTwice(mode: Mode, a: Account, p: Probe, t: T.Telemetry)
    requires FailureKind(mode, p).None? && p.crash == Some(AfterSave)
    ensures var t' := T.Run(t, Calls(AccountEffect(mode, a, p)));
      t'.total == t.total + 1 && t'.successful == t.successful + 1 && t'.failed == t.failed + 1
  {
    SuccessPath(mode, a, p);
    T.RunTally(t, Calls(AccountEffect(mode, a, p)));
  }

  /** So the success and failure rates of a run can add up to more than 100: a single such account gives 100 and 100. */
  lemma LateExceptionRates(mode: Mode, a: Account, p: Probe, t: T.Telemetry)
    requires FailureKind(mode, p).None? && p.crash == Some(AfterSave)
    requires t.total == 0 && t.successful == 0 && t.failed == 0
    ensures var t' := T.Run(t, Calls(AccountEffect(mode, a, p)));
      T.SuccessRate(t') == 100.0 && T.FailureRate(t') == 100.0
  {
    LateExceptionCountsTwice(mode, a, p, t);
    OneAccountCountedTwice(T.Run(t, Calls(AccountEffect(mode, a, p))));
  }

  lemma OneAccountCountedTwice(t: T.Telemetry)
    requires t.total == 1 && t.successful == 1 && t.failed == 1
    ensures T.SuccessRate(t) == 100.0 && T.FailureRate(t) == 100.0
  {
  }

  /** The per-account telemetry: one start, and one success exactly when a result row was made. */
  lemma AccountTally(mode: Mode, a: Account, p: Probe, t: T.Telemetry)
    ensures var e := AccountEffect(mode, a, p);
      T.Run(t, Calls(e)).successful == t.successful + |Rows(e.result)|
    ensures var e := AccountEffect(mode, a, p);
      T.Run(t, Calls(e)).total == t.total + 1
    ensures T.Consistent(t) ==> T.Consistent(T.Run(t, Calls(AccountEffect(mode, a, p))))
  {
    var e := AccountEffect(mode, a, p);
    if FailureKind(mode, p).Some? {
      FailurePath(mode, a, p);
    } else {
      SuccessPath(mode, a, p);
    }
    T.RunTally(t, Calls(e));
    if T.Consistent(t) {
      T.ConsistentRun(t, Calls(e));
    }
  }

  // ---------------------------------------------------------------------------
  // The loop
  // ---------------------------------------------------------------------------

  /**
    What happens around one account: the commands that arrive before its
    stop check, those that arrive during the pause wait (one per sleep),
    those that arrive while it is processed, and the outside world's answers.
  */
  datatype Turn = Turn(before: seq<Cmd>, waiting: seq<Cmd>, during: seq<Cmd>, probe: Probe)

  /** The loop's visible steps: an account processed (with its result row, if any), a delay, a halt on stop. */
  datatype Step = Began(index: nat, result: Option<ResultRecord>) | Delayed(index: nat) | Halted(index: nat)

  /**
    The loop's state: the control flags, the telemetry calls made so far (the
    telemetry itself is these calls run from its state at the start), the
    result rows, the workbook folder, the status updates and the steps.
  */
  datatype Loop = Loop(flags: Flags, calls: seq<T.Event>, results: seq<ResultRecord>, folder: M.Folder,
                       ui: seq<UiUpdate>, log: seq<Step>)

  /**
    How the loop ended: every account done; a stop seen before account `at`;
    the commands ran out while still paused before account `at`; or an
    exception raised outside the per-account `try` at account `at`.
  */
  datatype Ending = Completed | Stopped(at: nat) | StillPaused(at: nat) | Raised(at: nat)

  /**
    The per-account body the loop runs. The loop is stated for any body; the
    two entry points pass `AccountEffect` for their mode.
  */
  type Body = (Account, Probe) -> Effect

  /** What the loop relies on from a body: one start call, no reset, and one success exactly when it yields a row. */
  ghost predicate WellBehaved(body: Body) {
    forall a, p :: T.Starts(Calls(body(a, p))) == 1 && T.NoReset(Calls(body(a, p))) &&
                   T.Successes(Calls(body(a, p))) == |Rows(body(a, p).result)|
  }

  /** The account body of a mode. */
  function BodyFor(mode: Mode): Body {
    (a, p) => AccountEffect(mode, a, p)
  }

  /** Both modes' account bodies behave. */
  lemma AccountEffectWellBehaved(mode: Mode)
    ensures WellBehaved(BodyFor(mode))
  {
    forall a, p ensures T.Starts(Calls(AccountEffect(mode, a, p))) == 1 && T.NoReset(Calls(AccountEffect(mode, a, p))) &&
                        T.Successes(Calls(AccountEffect(mode, a, p))) == |Rows(AccountEffect(mode, a, p).result)| {
      if FailureKind(mode, p).Some? {
        FailurePath(mode, a, p);
      } else {
        SuccessPath(mode, a, p);
      }
    }
  }

  predicate TurnsValid(turns: seq<Turn>) {
    forall i :: 0 <= i < |turns| ==> ProbeValid(turns[i].probe)
  }

  function Rows(result: Option<ResultRecord>): seq<ResultRecord> {
    if result.Some? then [result.value] else []
  }

  /** The telemetry calls made before an account's fields fail to read: the GUI records the start before reading `id`. */
  function RaisedCalls(mode: Mode, acc: AccountInput, p: Probe): seq<T.Event> {
    if mode == Gui && acc.FromDict? then [T.AccountStart(acc.username, p.now)] else []
  }

  /** The date a result is saved under: the selected date, else today. */
  function SaveDate(date: Option<Date>, p: Probe): Date {
    date.GetOr(p.today)
  }

  /** How the loop saves a result row to the workbook folder. */
  type Saver = (M.Folder, ResultRecord, Probe) -> M.Folder

  /**
    `save_to_excel_pivot_format` for a result row, under the selected date
    or today. The guard only makes the function total: the loop keeps the
    folder, the clock and the date valid, so it always holds there.
  */
  function SaveRow(folder: M.Folder, rec: ResultRecord, date: Option<Date>, p: Probe): (r: M.Folder)
    ensures M.FolderValid(folder) && M.ClockValid(p.clock) && ValidDate(SaveDate(date, p)) ==> M.FolderValid(r)
  {
    var d := SaveDate(date, p);
    if M.FolderValid(folder) && M.ClockValid(p.clock) && ValidDate(d) then
      M.SavePivot(folder, rec.pangkalanId, rec.nama, RStr(rec.stok), RStr(rec.terjual), rec.status, Some(d), p.clock, p.disk)
    else folder
  }

  /** A saver that keeps a valid folder valid for any valid probe. */
  ghost predicate KeepsValid(save: Saver) {
    forall f, rec, p :: M.FolderValid(f) && ProbeValid(p) ==> M.FolderValid(save(f, rec, p))
  }

  /** The saver of a run with an optional selected date. */
  function SaverFor(date: Option<Date>): Saver {
    (f, rec, p) => SaveRow(f, rec, date, p)
  }

  lemma SaveRowKeepsValid(date: Option<Date>)
    requires date.Some? ==> ValidDate(date.value)
    ensures KeepsValid(SaverFor(date))
  {
  }

  /** One account through the `try`/`finally`: its effect, the save of its row, then the delay decision. */
  function Processed(body: Body, save: Saver, s: Loop, a: Account, t: Turn, n: nat, idx: nat): (r: Loop)
  {
    var p := t.probe;
    var e := body(a, p);
    var folder := match e.result
      case None => s.folder
      case Some(rec) => save(s.folder, rec, p);
    var f := ApplyAll(s.flags, t.during);
    var delay := if idx + 1 < n && !f.stop then [Delayed(idx)] else [];
    Loop(f, s.calls + Calls(e), s.results + Rows(e.result), folder, s.ui + e.ui, s.log + [Began(idx, e.result)] + delay)
  }

  /** The state the loop moves on with after account `idx`, when it gets that far. */
  function Next(mode: Mode, body: Body, save: Saver, s: Loop, accounts: seq<AccountInput>, turns: seq<Turn>, idx: nat): (r: Option<Loop>)
    requires |turns| == |accounts| && idx < |accounts|
  {
    var t := turns[idx];
    var f1 := ApplyAll(s.flags, t.before);
    if f1.stop then None
    else match PauseWait(f1, t.waiting)
      case None => None
      case Some(f2) =>
        match Normalize(mode, accounts[idx], idx)
        case None => None
        case Some(a) => Some(Processed(body, save, s.(flags := f2), a, t, |accounts|, idx))
  }

  /** The loop from account `idx` on. */
  function Iterate(mode: Mode, body: Body, save: Saver, s: Loop, accounts: seq<AccountInput>, turns: seq<Turn>, idx: nat): (r: (Loop, Ending))
    requires |turns| == |accounts| && idx <= |accounts|
    ensures r.1.Completed? || idx <= r.1.at < |accounts|
    decreases |accounts| - idx
  {
    if idx == |accounts| then (s, Completed)
    else
      match Next(mode, body, save, s, accounts, turns, idx)
      case Some(s') => Iterate(mode, body, save, s', accounts, turns, idx + 1)
      case None =>
        var t := turns[idx];
        var f1 := ApplyAll(s.flags, t.before);
        if f1.stop then (s.(flags := f1, log := s.log + [Halted(idx)]), Stopped(idx))
        else match PauseWait(f1, t.waiting)
          case None => (s.(flags := ApplyAll(f1, t.waiting)), StillPaused(idx))
          case Some(f2) => (s.(flags := f2, calls := s.calls + RaisedCalls(mode, accounts[idx], t.probe)), Raised(idx))
  }

  // ---------------------------------------------------------------------------
  // What the loop guarantees
  // ---------------------------------------------------------------------------

  /** The result rows of a run of steps, in order. */
  function Harvest(steps: seq<Step>): seq<ResultRecord>
    decreases |steps|
  {
    if steps == [] then []
    else (if steps[0].Began? then Rows(steps[0].result) else []) + Harvest(steps[1..])
  }

  /** The indices of the accounts processed in a run of steps, in order. */
  function BegunIndices(steps: seq<Step>): seq<nat>
    decreases |steps|
  {
    if steps == [] then []
    else (if steps[0].Began? then [steps[0].index] else []) + BegunIndices(steps[1..])
  }

  /** `lo, lo + 1, ..., hi - 1`. */
  function Range(lo: nat, hi: nat): (r: seq<nat>)
    requires lo <= hi
    ensures |r| == hi - lo && forall i :: 0 <= i < |r| ==> r[i] == lo + i
    decreases hi - lo
  {
    if lo == hi then [] else [lo] + Range(lo + 1, hi)
  }

  /** The account the loop got to: all of them, or the one it ended at. */
  function Reached(end: Ending, n: nat): nat {
    if end.Completed? then n else end.at
  }

  lemma StepsAppend(a: seq<Step>, b: seq<Step>)
    ensures Harvest(a + b) == Harvest(a) + Harvest(b)
    ensures BegunIndices(a + b) == BegunIndices(a) + BegunIndices(b)
  {
    HarvestAppend(a, b);
    BegunAppend(a, b);
  }

  lemma {:induction false} HarvestAppend(a: seq<Step>, b: seq<Step>)
    ensures Harvest(a + b) == Harvest(a) + Harvest(b)
    decreases |a|
  {
    if a == [] {
      assert a + b == b;
    } else {
      assert (a + b)[0] == a[0];
      assert (a + b)[1..] == a[1..] + b;
      HarvestAppend(a[1..], b);
    }
  }

  lemma {:induction false} BegunAppend(a: seq<Step>, b: seq<Step>)
    ensures BegunIndices(a + b) == BegunIndices(a) + BegunIndices(b)
    decreases |a|
  {
    if a == [] {
      assert a + b == b;
    } else {
      assert (a + b)[0] == a[0];
      assert (a + b)[1..] == a[1..] + b;
      BegunAppend(a[1..], b);
    }
  }

  /** The steps one processed account adds. */
  lemma ProcessedSteps(idx: nat, result: Option<ResultRecord>, delay: seq<Step>)
    requires delay == [] || delay == [Delayed(idx)]
    ensures Harvest([Began(idx, result)] + delay) == Rows(result)
    ensures BegunIndices([Began(idx, result)] + delay) == [idx]
  {
    var b := [Began(idx, result)];
    StepsAppend(b, delay);
    assert b[1..] == [];
    if delay != [] {
      assert delay[1..] == [];
    }
  }

  /** One processed account followed by the rest of the loop: the steps it adds. */
  lemma StepsCompose(s: Loop, s': Loop, q: Loop, idx: nat, res: Option<ResultRecord>)
    requires s'.log == s.log + [Began(idx, res)] || s'.log == s.log + [Began(idx, res)] + [Delayed(idx)]
    requires s'.log <= q.log
    ensures Harvest(q.log[|s.log|..]) == Rows(res) + Harvest(q.log[|s'.log|..])
    ensures BegunIndices(q.log[|s.log|..]) == [idx] + BegunIndices(q.log[|s'.log|..])
  {
    var mine := s'.log[|s.log|..];
    var rest := q.log[|s'.log|..];
    assert q.log[|s.log|..] == mine + rest;
    ProcessedSteps(idx, res, mine[1..]);
    assert mine == [Began(idx, res)] + mine[1..];
    StepsAppend(mine, rest);
  }

  lemma HaltOrNothing(log: seq<Step>, log': seq<Step>, idx: nat)
    requires log' == log || log' == log + [Halted(idx)]
    ensures |log| <= |log'| && Harvest(log'[|log|..]) == [] && BegunIndices(log'[|log|..]) == []
  {
    if log' == log {
      assert log'[|log|..] == [];
    } else {
      assert log'[|log|..] == [Halted(idx)];
      assert [Halted(idx)][1..] == [];
    }
  }

  /** When the loop does not get past account `idx`, it ends there, adding at most a halt and a raised start. */
  lemma IterateStops(mode: Mode, body: Body, save: Saver, s: Loop, accounts: seq<AccountInput>, turns: seq<Turn>, idx: nat)
    requires |turns| == |accounts| && idx < |accounts|
    requires Next(mode, body, save, s, accounts, turns, idx).None?
    ensures var r := Iterate(mode, body, save, s, accounts, turns, idx);
      !r.1.Completed? && r.1.at == idx && r.0.results == s.results
    ensures var r := Iterate(mode, body, save, s, accounts, turns, idx);
      r.0.log == s.log || r.0.log == s.log + [Halted(idx)]
    ensures var r := Iterate(mode, body, save, s, accounts, turns, idx);
      r.0.calls == s.calls || (r.1.Raised? && r.0.calls == s.calls + RaisedCalls(mode, accounts[idx], turns[idx].probe))
  {
  }

  /** Processing account `idx` adds its step, its result row if any, possibly a delay, and its calls. */
  lemma NextAdds(mode: Mode, body: Body, save: Saver, s: Loop, accounts: seq<AccountInput>, turns: seq<Turn>, idx: nat)
    requires |turns| == |accounts| && idx < |accounts|
    requires Next(mode, body, save, s, accounts, turns, idx).Some?
    ensures Normalize(mode, accounts[idx], idx).Some?
    ensures var s', e := Next(mode, body, save, s, accounts, turns, idx).value,
                         body(Normalize(mode, accounts[idx], idx).value, turns[idx].probe);
      s'.log == s.log + [Began(idx, e.result)] || s'.log == s.log + [Began(idx, e.result)] + [Delayed(idx)]
    ensures var s', e := Next(mode, body, save, s, accounts, turns, idx).value,
                         body(Normalize(mode, accounts[idx], idx).value, turns[idx].probe);
      s'.results == s.results + Rows(e.result) && s'.calls == s.calls + Calls(e)
    ensures var s' := Next(mode, body, save, s, accounts, turns, idx).value;
      s.log <= s'.log && s.results <= s'.results && s.calls <= s'.calls
    ensures var s', e := Next(mode, body, save, s, accounts, turns, idx).value,
                         body(Normalize(mode, accounts[idx], idx).value, turns[idx].probe);
      s'.log == s.log + [Began(idx, e.result)] ||
      (s'.log == s.log + [Began(idx, e.result)] + [Delayed(idx)] && idx + 1 < |accounts| && !s'.flags.stop)
  {
  }

  /** Composing one processed account with the rest of the loop, for the result list. */
  lemma ResultsCompose(s: Loop, s': Loop, q: Loop, idx: nat, res: Option<ResultRecord>)
    requires s'.log == s.log + [Began(idx, res)] || s'.log == s.log + [Began(idx, res)] + [Delayed(idx)]
    requires s'.results == s.results + Rows(res)
    requires s'.log <= q.log && q.results == s'.results + Harvest(q.log[|s'.log|..])
    ensures |s.log| <= |q.log| && q.results == s.results + Harvest(q.log[|s.log|..])
  {
    StepsCompose(s, s', q, idx, res);
  }

  /** Composing one processed account with the rest of the loop, for the processed indices. */
  lemma IndicesCompose(s: Loop, s': Loop, q: Loop, idx: nat, res: Option<ResultRecord>, k: nat)
    requires idx < k
    requires s'.log == s.log + [Began(idx, res)] || s'.log == s.log + [Began(idx, res)] + [Delayed(idx)]
    requires s'.log <= q.log && BegunIndices(q.log[|s'.log|..]) == Range(idx + 1, k)
    ensures |s.log| <= |q.log| && BegunIndices(q.log[|s.log|..]) == Range(idx, k)
  {
    StepsCompose(s, s', q, idx, res);
    assert Range(idx, k) == [idx] + Range(idx + 1, k);
  }

  /** The loop keeps its log and its result list, and only adds to them. */
  lemma {:induction false} IterateExtends(mode: Mode, body: Body, save: Saver, s: Loop, accounts: seq<AccountInput>, turns: seq<Turn>,
                                          idx: nat)
    requires |turns| == |accounts| && idx <= |accounts|
    ensures var r := Iterate(mode, body, save, s, accounts, turns, idx);
      s.log <= r.0.log && s.results <= r.0.results
    decreases |accounts| - idx
  {
    if idx < |accounts| {
      if Next(mode, body, save, s, accounts, turns, idx).None? {
        IterateStops(mode, body, save, s, accounts, turns, idx);
      } else {
        var s' := Next(mode, body, save, s, accounts, turns, idx).value;
        IterateExtends(mode, body, save, s', accounts, turns, idx + 1);
        NextAdds(mode, body, save, s, accounts, turns, idx);
        var q := Iterate(mode, body, save, s', accounts, turns, idx + 1).0;
        PrefixThrough(s.log, s'.log, q.log);
        PrefixThrough(s.results, s'.results, q.results);
      }
    }
  }

  lemma PrefixThrough<X>(a: seq<X>, b: seq<X>, c: seq<X>)
    requires a <= b && b <= c
    ensures a <= c
  {
  }

  /** The loop's result list grows by exactly the result rows of the accounts it processed, in order. */
  lemma {:induction false} IterateResults(mode: Mode, body: Body, save: Saver, s: Loop, accounts: seq<AccountInput>, turns: seq<Turn>,
                                          idx: nat)
    requires |turns| == |accounts| && idx <= |accounts|
    ensures ResultsHarvested(s, Iterate(mode, body, save, s, accounts, turns, idx).0)
    decreases |accounts| - idx
  {
    var r := Iterate(mode, body, save, s, accounts, turns, idx);
    if idx == |accounts| {
      assert r.0.log[|s.log|..] == [];
    } else if Next(mode, body, save, s, accounts, turns, idx).None? {
      IterateStops(mode, body, save, s, accounts, turns, idx);
      HaltOrNothing(s.log, r.0.log, idx);
    } else {
      var s' := Next(mode, body, save, s, accounts, turns, idx).value;
      IterateResults(mode, body, save, s', accounts, turns, idx + 1);
      ResultsStep(mode, body, save, s, accounts, turns, idx);
    }
  }

  /** The results after `q` are the rows harvested from the steps `q` logged since `s`. */
  predicate ResultsHarvested(s: Loop, q: Loop) {
    |s.log| <= |q.log| && q.results == s.results + Harvest(q.log[|s.log|..])
  }

  lemma ResultsStep(mode: Mode, body: Body, save: Saver, s: Loop, accounts: seq<AccountInput>, turns: seq<Turn>, idx: nat)
    requires |turns| == |accounts| && idx < |accounts|
    requires Next(mode, body, save, s, accounts, turns, idx).Some?
    requires var s' := Next(mode, body, save, s, accounts, turns, idx).value;
      ResultsHarvested(s', Iterate(mode, body, save, s', accounts, turns, idx + 1).0)
    ensures ResultsHarvested(s, Iterate(mode, body, save, s, accounts, turns, idx).0)
  {
    var s' := Next(mode, body, save, s, accounts, turns, idx).value;
    var q := Iterate(mode, body, save, s', accounts, turns, idx + 1).0;
    assert q == Iterate(mode, body, save, s, accounts, turns, idx).0;
    IterateExtends(mode, body, save, s', accounts, turns, idx + 1);
    NextAdds(mode, body, save, s, accounts, turns, idx);
    var e := body(Normalize(mode, accounts[idx], idx).value, turns[idx].probe);
    ResultsCompose(s, s', q, idx, e.result);
  }

  /**
    The loop processes every account from `idx` up to where it ended, once
    each and in order, with none skipped or repeated.
  */
  lemma {:induction false} IterateIndices(mode: Mode, body: Body, save: Saver, s: Loop, accounts: seq<AccountInput>, turns: seq<Turn>,
                                          idx: nat)
    requires |turns| == |accounts| && idx <= |accounts|
    ensures var r := Iterate(mode, body, save, s, accounts, turns, idx);
      |s.log| <= |r.0.log| && BegunIndices(r.0.log[|s.log|..]) == Range(idx, Reached(r.1, |accounts|))
    decreases |accounts| - idx
  {
    var r := Iterate(mode, body, save, s, accounts, turns, idx);
    IterateExtends(mode, body, save, s, accounts, turns, idx);
    if idx == |accounts| {
      assert r.0.log[|s.log|..] == [];
    } else if Next(mode, body, save, s, accounts, turns, idx).None? {
      IndicesStop(mode, body, save, s, accounts, turns, idx);
    } else {
      var s' := Next(mode, body, save, s, accounts, turns, idx).value;
      IterateIndices(mode, body, save, s', accounts, turns, idx + 1);
      IndicesStep(mode, body, save, s, accounts, turns, idx);
    }
  }

  lemma IndicesStop(mode: Mode, body: Body, save: Saver, s: Loop, accounts: seq<AccountInput>, turns: seq<Turn>, idx: nat)
    requires |turns| == |accounts| && idx < |accounts|
    requires Next(mode, body, save, s, accounts, turns, idx).None?
    ensures var r := Iterate(mode, body, save, s, accounts, turns, idx);
      |s.log| <= |r.0.log| && BegunIndices(r.0.log[|s.log|..]) == Range(idx, Reached(r.1, |accounts|))
  {
    var r := Iterate(mode, body, save, s, accounts, turns, idx);
    IterateStops(mode, body, save, s, accounts, turns, idx);
    HaltOrNothing(s.log, r.0.log, idx);
  }

  lemma IndicesStep(mode: Mode, body: Body, save: Saver, s: Loop, accounts: seq<AccountInput>, turns: seq<Turn>, idx: nat)
    requires |turns| == |accounts| && idx < |accounts|
    requires Next(mode, body, save, s, accounts, turns, idx).Some?
    requires var s' := Next(mode, body, save, s, accounts, turns, idx).value;
      var r := Iterate(mode, body, save, s', accounts, turns, idx + 1);
      |s'.log| <= |r.0.log| && BegunIndices(r.0.log[|s'.log|..]) == Range(idx + 1, Reached(r.1, |accounts|))
    ensures var r := Iterate(mode, body, save, s, accounts, turns, idx);
      |s.log| <= |r.0.log| && BegunIndices(r.0.log[|s.log|..]) == Range(idx, Reached(r.1, |accounts|))
  {
    var s' := Next(mode, body, save, s, accounts, turns, idx).value;
    var r := Iterate(mode, body, save, s', accounts, turns, idx + 1);
    assert r == Iterate(mode, body, save, s, accounts, turns, idx);
    IterateExtends(mode, body, save, s', accounts, turns, idx + 1);
    NextAdds(mode, body, save, s, accounts, turns, idx);
    var e := body(Normalize(mode, accounts[idx], idx).value, turns[idx].probe);
    IndicesCompose(s, s', r.0, idx, e.result, Reached(r.1, |accounts|));
  }

  /**
    With a well-behaved body, the calls the loop adds contain no reset, one
    success for each result row it adds, and, unless it raised, one start
    for each account it processed.
  */
  lemma {:induction false} IterateCalls(mode: Mode, body: Body, save: Saver, s: Loop, accounts: seq<AccountInput>, turns: seq<Turn>,
                                        idx: nat)
    requires |turns| == |accounts| && idx <= |accounts| && WellBehaved(body)
    ensures var r := Iterate(mode, body, save, s, accounts, turns, idx);
      s.calls <= r.0.calls && |s.results| <= |r.0.results| && T.NoReset(r.0.calls[|s.calls|..])
    ensures var r := Iterate(mode, body, save, s, accounts, turns, idx);
      |s.calls| <= |r.0.calls| && |s.results| <= |r.0.results| &&
      T.Successes(r.0.calls[|s.calls|..]) == |r.0.results| - |s.results|
    ensures var r := Iterate(mode, body, save, s, accounts, turns, idx);
      |s.calls| <= |r.0.calls| && (r.1.Raised? || T.Starts(r.0.calls[|s.calls|..]) == Reached(r.1, |accounts|) - idx)
    decreases |accounts| - idx
  {
    var r := Iterate(mode, body, save, s, accounts, turns, idx);
    IterateExtends(mode, body, save, s, accounts, turns, idx);
    if idx == |accounts| {
      assert r.0.calls[|s.calls|..] == [];
    } else if Next(mode, body, save, s, accounts, turns, idx).None? {
      CallsStop(mode, body, save, s, accounts, turns, idx);
    } else {
      var s' := Next(mode, body, save, s, accounts, turns, idx).value;
      IterateCalls(mode, body, save, s', accounts, turns, idx + 1);
      CallsStep(mode, body, save, s, accounts, turns, idx);
    }
  }

  lemma CallsStop(mode: Mode, body: Body, save: Saver, s: Loop, accounts: seq<AccountInput>, turns: seq<Turn>, idx: nat)
    requires |turns| == |accounts| && idx < |accounts|
    requires Next(mode, body, save, s, accounts, turns, idx).None?
    ensures var r := Iterate(mode, body, save, s, accounts, turns, idx);
      CallsAdded(s, r.0, r.1, idx, |accounts|)
  {
    var r := Iterate(mode, body, save, s, accounts, turns, idx);
    IterateStops(mode, body, save, s, accounts, turns, idx);
    if r.0.calls == s.calls {
      assert r.0.calls[|s.calls|..] == [];
    } else {
      var extra := RaisedCalls(mode, accounts[idx], turns[idx].probe);
      assert r.0.calls[|s.calls|..] == extra;
      if extra != [] {
        assert extra[1..] == [];
      }
    }
  }

  /** The calls added from `s` to `q`, which ended with `end` after starting at `idx`, as `IterateCalls` describes them. */
  predicate CallsAdded(s: Loop, q: Loop, end: Ending, idx: nat, n: nat) {
    s.calls <= q.calls && |s.results| <= |q.results| && T.NoReset(q.calls[|s.calls|..]) &&
    T.Successes(q.calls[|s.calls|..]) == |q.results| - |s.results| &&
    (end.Raised? || T.Starts(q.calls[|s.calls|..]) == Reached(end, n) - idx)
  }

  lemma CallsStep(mode: Mode, body: Body, save: Saver, s: Loop, accounts: seq<AccountInput>, turns: seq<Turn>, idx: nat)
    requires |turns| == |accounts| && idx < |accounts| && WellBehaved(body)
    requires Next(mode, body, save, s, accounts, turns, idx).Some?
    requires var s' := Next(mode, body, save, s, accounts, turns, idx).value;
      var r := Iterate(mode, body, save, s', accounts, turns, idx + 1);
      CallsAdded(s', r.0, r.1, idx + 1, |accounts|)
    ensures var r := Iterate(mode, body, save, s, accounts, turns, idx);
      CallsAdded(s, r.0, r.1, idx, |accounts|)
  {
    var s' := Next(mode, body, save, s, accounts, turns, idx).value;
    var r := Iterate(mode, body, save, s', accounts, turns, idx + 1);
    assert r == Iterate(mode, body, save, s, accounts, turns, idx);
    NextAdds(mode, body, save, s, accounts, turns, idx);
    var e := body(Normalize(mode, accounts[idx], idx).value, turns[idx].probe);
    PrefixThrough(s.calls, s'.calls, r.0.calls);
    CallsCompose(s.calls, Calls(e), r.0.calls);
  }

  lemma CallsCompose(before: seq<T.Event>, mine: seq<T.Event>, after: seq<T.Event>)
    requires before + mine <= after
    ensures after[|before|..] == mine + after[|before + mine|..]
    ensures T.Starts(after[|before|..]) == T.Starts(mine) + T.Starts(after[|before + mine|..])
    ensures T.Successes(after[|before|..]) == T.Successes(mine) + T.Successes(after[|before + mine|..])
    ensures T.NoReset(mine) && T.NoReset(after[|before + mine|..]) ==> T.NoReset(after[|before|..])
  {
    assert after[|before|..] == mine + after[|before + mine|..];
    T.TalliesAppend(mine, after[|before + mine|..]);
  }

  /** With a saver that keeps folders valid and valid probes, the loop leaves a valid folder valid. */
  lemma {:induction false} IterateKeepsFolder(mode: Mode, body: Body, save: Saver, s: Loop, accounts: seq<AccountInput>, turns: seq<Turn>,
                                              idx: nat)
    requires |turns| == |accounts| && idx <= |accounts|
    requires KeepsValid(save) && TurnsValid(turns) && M.FolderValid(s.folder)
    ensures M.FolderValid(Iterate(mode, body, save, s, accounts, turns, idx).0.folder)
    decreases |accounts| - idx
  {
    if idx < |accounts| {
      if Next(mode, body, save, s, accounts, turns, idx).None? {
        IterateStops(mode, body, save, s, accounts, turns, idx);
      } else {
        var s' := Next(mode, body, save, s, accounts, turns, idx).value;
        assert ProbeValid(turns[idx].probe);
        assert M.FolderValid(s'.folder);
        IterateKeepsFolder(mode, body, save, s', accounts, turns, idx + 1);
      }
    }
  }

  /** A delay only ever follows an account that is not the last. */
  predicate DelaysBetween(steps: seq<Step>, n: nat) {
    forall j :: 0 <= j < |steps| && steps[j].Delayed? ==> steps[j].index + 1 < n
  }

  /** A halt, if any, is the last step. */
  predicate HaltLast(steps: seq<Step>) {
    forall j :: 0 <= j < |steps| - 1 ==> !steps[j].Halted?
  }

  lemma ShapeCompose(mine: seq<Step>, rest: seq<Step>, n: nat)
    requires DelaysBetween(mine, n) && DelaysBetween(rest, n) && HaltLast(rest)
    requires forall j :: 0 <= j < |mine| ==> !mine[j].Halted?
    ensures DelaysBetween(mine + rest, n) && HaltLast(mine + rest)
    ensures |mine + rest| > 0 && (mine + rest)[|mine + rest| - 1].Halted? <==> |rest| > 0 && rest[|rest| - 1].Halted?
  {
    var all := mine + rest;
    forall j | 0 <= j < |all| - 1 ensures !all[j].Halted? {
      if j >= |mine| {
        assert all[j] == rest[j - |mine|];
      }
    }
  }

  /** Composing one processed account with the rest of the loop, for the shape of the steps. */
  lemma ShapeStep(s: Loop, s': Loop, q: Loop, idx: nat, res: Option<ResultRecord>, n: nat)
    requires s'.log == s.log + [Began(idx, res)] || (s'.log == s.log + [Began(idx, res)] + [Delayed(idx)] && idx + 1 < n)
    requires s'.log <= q.log
    ensures |s.log| <= |q.log|
    ensures DelaysBetween(q.log[|s'.log|..], n) && HaltLast(q.log[|s'.log|..]) ==>
            DelaysBetween(q.log[|s.log|..], n) && HaltLast(q.log[|s.log|..])
    ensures (|q.log| > |s'.log| && q.log[|q.log| - 1].Halted?) <==> (|q.log| > |s.log| && q.log[|q.log| - 1].Halted?)
  {
    var mine, rest := s'.log[|s.log|..], q.log[|s'.log|..];
    assert q.log[|s.log|..] == mine + rest;
    if DelaysBetween(rest, n) && HaltLast(rest) {
      ShapeCompose(mine, rest, n);
    }
  }

  /**
    The steps the loop adds are well shaped: there is never a delay after
    the last account, and a halt can only be the final step.
  */
  lemma {:induction false} IterateShape(mode: Mode, body: Body, save: Saver, s: Loop, accounts: seq<AccountInput>, turns: seq<Turn>,
                                        idx: nat)
    requires |turns| == |accounts| && idx <= |accounts|
    ensures var r := Iterate(mode, body, save, s, accounts, turns, idx);
      |s.log| <= |r.0.log| && DelaysBetween(r.0.log[|s.log|..], |accounts|) && HaltLast(r.0.log[|s.log|..])
    decreases |accounts| - idx
  {
    var r := Iterate(mode, body, save, s, accounts, turns, idx);
    IterateExtends(mode, body, save, s, accounts, turns, idx);
    if idx == |accounts| {
      assert r.0.log[|s.log|..] == [];
    } else if Next(mode, body, save, s, accounts, turns, idx).None? {
      IterateStops(mode, body, save, s, accounts, turns, idx);
      if r.0.log == s.log {
        assert r.0.log[|s.log|..] == [];
      } else {
        assert r.0.log[|s.log|..] == [Halted(idx)];
      }
    } else {
      var s' := Next(mode, body, save, s, accounts, turns, idx).value;
      IterateShape(mode, body, save, s', accounts, turns, idx + 1);
      IterateExtends(mode, body, save, s', accounts, turns, idx + 1);
      NextAdds(mode, body, save, s, accounts, turns, idx);
      var e := body(Normalize(mode, accounts[idx], idx).value, turns[idx].probe);
      ShapeStep(s, s', r.0, idx, e.result, |accounts|);
    }
  }

  /** The last step the loop adds is a halt exactly when it ended on a stop. */
  lemma {:induction false} IterateHaltsOnStop(mode: Mode, body: Body, save: Saver, s: Loop, accounts: seq<AccountInput>, turns: seq<Turn>,
                                              idx: nat)
    requires |turns| == |accounts| && idx <= |accounts|
    ensures var r := Iterate(mode, body, save, s, accounts, turns, idx);
      |s.log| <= |r.0.log| &&
      (r.1.Stopped? <==> |r.0.log| > |s.log| && r.0.log[|r.0.log| - 1].Halted?)
    decreases |accounts| - idx
  {
    var r := Iterate(mode, body, save, s, accounts, turns, idx);
    IterateExtends(mode, body, save, s, accounts, turns, idx);
    if idx == |accounts| {
      assert r.0.log[|s.log|..] == [];
    } else if Next(mode, body, save, s, accounts, turns, idx).None? {
      IterateStops(mode, body, save, s, accounts, turns, idx);
      if r.0.log == s.log {
        assert r.0.log[|s.log|..] == [];
      } else {
        assert r.0.log[|s.log|..] == [Halted(idx)];
      }
    } else {
      var s' := Next(mode, body, save, s, accounts, turns, idx).value;
      IterateHaltsOnStop(mode, body, save, s', accounts, turns, idx + 1);
      HaltsStep(mode, body, save, s, accounts, turns, idx);
    }
  }

  lemma HaltsStep(mode: Mode, body: Body, save: Saver, s: Loop, accounts: seq<AccountInput>, turns: seq<Turn>, idx: nat)
    requires |turns| == |accounts| && idx < |accounts|
    requires Next(mode, body, save, s, accounts, turns, idx).Some?
    requires var s' := Next(mode, body, save, s, accounts, turns, idx).value;
      var r := Iterate(mode, body, save, s', accounts, turns, idx + 1);
      |s'.log| <= |r.0.log| && (r.1.Stopped? <==> |r.0.log| > |s'.log| && r.0.log[|r.0.log| - 1].Halted?)
    ensures var r := Iterate(mode, body, save, s, accounts, turns, idx);
      |s.log| <= |r.0.log| && (r.1.Stopped? <==> |r.0.log| > |s.log| && r.0.log[|r.0.log| - 1].Halted?)
  {
    var s' := Next(mode, body, save, s, accounts, turns, idx).value;
    var r := Iterate(mode, body, save, s', accounts, turns, idx + 1);
    assert r == Iterate(mode, body, save, s, accounts, turns, idx);
    IterateExtends(mode, body, save, s', accounts, turns, idx + 1);
    NextAdds(mode, body, save, s, accounts, turns, idx);
    var e := body(Normalize(mode, accounts[idx], idx).value, turns[idx].probe);
    ShapeStep(s, s', r.0, idx, e.result, |accounts|);
  }

  /** No `start` among the commands. */
  predicate NoStart(cmds: seq<Cmd>) {
    forall i :: 0 <= i < |cmds| ==> cmds[i] != GuiStart
  }

  /** Without a `start`, commands never clear a stop. */
  lemma {:induction false} StopSticks(f: Flags, cmds: seq<Cmd>)
    requires f.stop && NoStart(cmds)
    ensures ApplyAll(f, cmds).stop
    decreases |cmds|
  {
    if cmds != [] {
      StopSticks(ApplyCmd(f, cmds[0]), cmds[1..]);
    }
  }

  /**
    A stop that is still set when the next account comes up ends the loop
    there, before that account is touched: nothing is processed, saved or
    recorded, and the only new step is the halt.
  */
  lemma StopHaltsBeforeNextAccount(mode: Mode, body: Body, save: Saver, s: Loop, accounts: seq<AccountInput>, turns: seq<Turn>,
                                   idx: nat)
    requires |turns| == |accounts| && idx < |accounts|
    requires s.flags.stop && NoStart(turns[idx].before)
    ensures var r := Iterate(mode, body, save, s, accounts, turns, idx);
      r.1 == Stopped(idx) && r.0.log == s.log + [Halted(idx)]
    ensures var r := Iterate(mode, body, save, s, accounts, turns, idx);
      r.0.results == s.results && r.0.calls == s.calls && r.0.folder == s.folder && r.0.ui == s.ui
  {
    StopSticks(s.flags, turns[idx].before);
  }

  /**
    A stop that arrives during a pause only ends the wait: the account that
    was waiting is still processed in full, no delay follows it, and the
    loop halts at the next account.
  */
  lemma StopDuringPauseStillProcesses(mode: Mode, body: Body, save: Saver, s: Loop, accounts: seq<AccountInput>, turns: seq<Turn>,
                                      idx: nat)
    requires |turns| == |accounts| && idx + 1 < |accounts|
    requires !ApplyAll(s.flags, turns[idx].before).stop
    requires PauseWait(ApplyAll(s.flags, turns[idx].before), turns[idx].waiting).Some?
    requires PauseWait(ApplyAll(s.flags, turns[idx].before), turns[idx].waiting).value.stop
    requires Normalize(mode, accounts[idx], idx).Some?
    requires NoStart(turns[idx].during) && NoStart(turns[idx + 1].before)
    ensures var r := Iterate(mode, body, save, s, accounts, turns, idx);
      r.1 == Stopped(idx + 1) &&
      r.0.log == s.log + [Began(idx, body(Normalize(mode, accounts[idx], idx).value, turns[idx].probe).result), Halted(idx + 1)]
  {
    var f2 := PauseWait(ApplyAll(s.flags, turns[idx].before), turns[idx].waiting).value;
    StopSticks(f2, turns[idx].during);
    var s' := Next(mode, body, save, s, accounts, turns, idx).value;
    assert s'.flags.stop;
    StopHaltsBeforeNextAccount(mode, body, save, s', accounts, turns, idx + 1);
  }

  // ---------------------------------------------------------------------------
  // ProcessManager.run
  // ---------------------------------------------------------------------------

  /** The state of a `ProcessManager` the loop touches. */
  datatype ProcessManager = ProcessManager(stopRequested: bool, pauseRequested: bool, results: seq<ResultRecord>, tele: T.Telemetry)

  /** What a run leaves behind: the manager, the workbook folder, the status updates, the steps, and how it ended. */
  datatype RunOutput = RunOutput(pm: ProcessManager, folder: M.Folder, ui: seq<UiUpdate>, log: seq<Step>, end: Ending)

  /**
    `ProcessManager.run`: clears the stop request, the results and the
    telemetry (a pause request is kept), then runs the loop. The returned
    results are exactly the rows of the processed accounts in order, each
    account is processed once, the telemetry stays consistent, its success
    count is the number of results, and, unless the run raised, its account
    total is the number of accounts reached.
  */
  function ManagerRun(pm: ProcessManager, folder: M.Folder, accounts: seq<AccountInput>, turns: seq<Turn>, date: Option<Date>): (r: RunOutput)
    requires |turns| == |accounts| && TurnsValid(turns) && M.FolderValid(folder)
    requires date.Some? ==> ValidDate(date.value)
    ensures M.FolderValid(r.folder)
    ensures r.pm.results == Harvest(r.log)
    ensures BegunIndices(r.log) == Range(0, Reached(r.end, |accounts|))
    ensures DelaysBetween(r.log, |accounts|) && HaltLast(r.log)
    ensures r.end.Stopped? <==> r.log != [] && r.log[|r.log| - 1].Halted?
    ensures T.Consistent(r.pm.tele) && r.pm.tele.successful == |r.pm.results|
    ensures !r.end.Raised? ==> r.pm.tele.total == Reached(r.end, |accounts|)
  {
    var s0 := Loop(Flags(false, pm.pauseRequested, false), [], [], folder, [], []);
    var body, save := BodyFor(Manager), SaverFor(date);
    var q := Iterate(Manager, body, save, s0, accounts, turns, 0);
    var tele := T.Run(T.Reset(pm.tele), q.0.calls);
    RunFacts(Manager, pm.tele, save, s0, accounts, turns, date);
    RunOutput(ProcessManager(q.0.flags.stop, q.0.flags.pause, q.0.results, tele), q.0.folder, q.0.ui, q.0.log, q.1)
  }

  /** The loop's guarantees for a run that starts from a cleared state: the folder, the results and the accounts reached. */
  lemma RunFacts(mode: Mode, tele0: T.Telemetry, save: Saver, s0: Loop, accounts: seq<AccountInput>, turns: seq<Turn>,
                 date: Option<Date>)
    requires |turns| == |accounts| && TurnsValid(turns) && M.FolderValid(s0.folder)
    requires s0.calls == [] && s0.results == [] && s0.log == []
    requires save == SaverFor(date) && (date.Some? ==> ValidDate(date.value))
    ensures var q := Iterate(mode, BodyFor(mode), save, s0, accounts, turns, 0);
      M.FolderValid(q.0.folder) && q.0.results == Harvest(q.0.log) &&
      BegunIndices(q.0.log) == Range(0, Reached(q.1, |accounts|))
    ensures var q := Iterate(mode, BodyFor(mode), save, s0, accounts, turns, 0);
      DelaysBetween(q.0.log, |accounts|) && HaltLast(q.0.log) &&
      (q.1.Stopped? <==> q.0.log != [] && q.0.log[|q.0.log| - 1].Halted?)
    ensures var q := Iterate(mode, BodyFor(mode), save, s0, accounts, turns, 0);
      var tele := T.Run(T.Reset(tele0), q.0.calls);
      T.Consistent(tele) && tele.successful == |q.0.results| &&
      (!q.1.Raised? ==> tele.total == Reached(q.1, |accounts|))
  {
    RunLogFacts(mode, save, s0, accounts, turns, date);
    RunShapeFacts(mode, save, s0, accounts, turns);
    RunTallyFacts(mode, tele0, save, s0, accounts, turns);
  }

  lemma RunLogFacts(mode: Mode, save: Saver, s0: Loop, accounts: seq<AccountInput>, turns: seq<Turn>, date: Option<Date>)
    requires |turns| == |accounts| && TurnsValid(turns) && M.FolderValid(s0.folder)
    requires s0.results == [] && s0.log == []
    requires save == SaverFor(date) && (date.Some? ==> ValidDate(date.value))
    ensures var q := Iterate(mode, BodyFor(mode), save, s0, accounts, turns, 0);
      M.FolderValid(q.0.folder) && q.0.results == Harvest(q.0.log) &&
      BegunIndices(q.0.log) == Range(0, Reached(q.1, |accounts|))
  {
    var body := BodyFor(mode);
    var q := Iterate(mode, body, save, s0, accounts, turns, 0);
    SaveRowKeepsValid(date);
    IterateKeepsFolder(mode, body, save, s0, accounts, turns, 0);
    IterateResults(mode, body, save, s0, accounts, turns, 0);
    IterateIndices(mode, body, save, s0, accounts, turns, 0);
    assert q.0.log[0..] == q.0.log;
  }

  lemma RunShapeFacts(mode: Mode, save: Saver, s0: Loop, accounts: seq<AccountInput>, turns: seq<Turn>)
    requires |turns| == |accounts| && TurnsValid(turns) && s0.log == []
    ensures var q := Iterate(mode, BodyFor(mode), save, s0, accounts, turns, 0);
      DelaysBetween(q.0.log, |accounts|) && HaltLast(q.0.log) &&
      (q.1.Stopped? <==> q.0.log != [] && q.0.log[|q.0.log| - 1].Halted?)
  {
    var body := BodyFor(mode);
    var q := Iterate(mode, body, save, s0, accounts, turns, 0);
    IterateShape(mode, body, save, s0, accounts, turns, 0);
    IterateHaltsOnStop(mode, body, save, s0, accounts, turns, 0);
    WholeLog(s0.log, q.0.log, |accounts|);
  }

  /** Steps logged since an empty log are the whole log. */
  lemma WholeLog(start: seq<Step>, log: seq<Step>, n: nat)
    requires start == [] && DelaysBetween(log[|start|..], n) && HaltLast(log[|start|..])
    ensures DelaysBetween(log, n) && HaltLast(log)
  {
    assert log[|start|..] == log;
  }

  lemma RunTallyFacts(mode: Mode, tele0: T.Telemetry, save: Saver, s0: Loop, accounts: seq<AccountInput>, turns: seq<Turn>)
    requires |turns| == |accounts| && s0.calls == [] && s0.results == []
    ensures var q := Iterate(mode, BodyFor(mode), save, s0, accounts, turns, 0);
      var tele := T.Run(T.Reset(tele0), q.0.calls);
      T.Consistent(tele) && tele.successful == |q.0.results| &&
      (!q.1.Raised? ==> tele.total == Reached(q.1, |accounts|))
  {
    var body := BodyFor(mode);
    var q := Iterate(mode, body, save, s0, accounts, turns, 0);
    AccountEffectWellBehaved(mode);
    IterateCalls(mode, body, save, s0, accounts, turns, 0);
    assert q.0.calls[0..] == q.0.calls;
    var t0 := T.Reset(tele0);
    T.RunTally(t0, q.0.calls);
    T.ConsistentRun(t0, q.0.calls);
  }
}

=== FILE: sessions.dfy ===
/**
  The session store of session_manager.py: per account, a browser-state
  file and a metadata file in one directory, named after the account's
  sanitised username, and an expiry stamped into the metadata. The
  directory is a map from file name to contents, the clock readings are
  inputs, and instants are whole seconds.
*/
module Sessions {
  import opened Wrappers
  import opened Text

  const DaySeconds: int := 86400

  /** `session_validity_days` as the constructor sets it. */
  const DefaultValidityDays: int := 7

  datatype Metadata = Metadata(username: string, savedAt: int, expiresAt: int, version: string)

  /**
    A file in the sessions directory: stored browser state, metadata (`None`
    when it does not parse as JSON with ISO timestamps), or anything else.
  */
  datatype File = StateFile(data: string) | MetaFile(meta: Option<Metadata>) | Junk

  type Dir = map<string, File>

  // ---------------------------------------------------------------------------
  // File names
  // ---------------------------------------------------------------------------

  /** The characters a username keeps in a file name: ASCII letters and digits, and `._-@`. */
  predicate Kept(c: char) { IsAlnum(c) || c in "._-@" }

  /** The sanitiser of `_get_session_path`/`_get_metadata_path`. */
  function SafeName(u: string): (r: string)
    ensures |r| <= |u|
    ensures forall i :: 0 <= i < |r| ==> Kept(r[i])
    decreases |u|
  {
    if u == [] then []
    else (if Kept(u[0]) then [u[0]] else []) + SafeName(u[1..])
  }

  /** The sanitiser keeps exactly the allowed characters: a name made of them is its own safe name. */
  lemma {:induction false} SafeNameOfKept(u: string)
    requires forall i :: 0 <= i < |u| ==> Kept(u[i])
    ensures SafeName(u) == u
    decreases |u|
  {
    if u != [] {
      SafeNameOfKept(u[1..]);
      assert u == [u[0]] + u[1..];
    }
  }

  /** Sanitising twice is sanitising once. */
  lemma SafeNameIdempotent(u: string)
    ensures SafeName(SafeName(u)) == SafeName(u)
  {
    SafeNameOfKept(SafeName(u));
  }

  /** Sanitising distributes over concatenation: kept characters stay in their order. */
  lemma {:induction false} SafeNameAppend(a: string, b: string)
    ensures SafeName(a + b) == SafeName(a) + SafeName(b)
    decreases |a|
  {
    if a == [] {
      assert a + b == b;
    } else {
      assert (a + b)[1..] == a[1..] + b;
      SafeNameAppend(a[1..], b);
    }
  }

  function SessionPath(u: string): string { "session_" + SafeName(u) + ".json" }

  function MetaPath(u: string): string { "meta_" + SafeName(u) + ".json" }

  /**
    The sanitiser is not injective: two accounts that differ only in
    dropped characters share both files.
  */
  lemma DroppedCharactersCollide()
    ensures "ab" != "a b" && SessionPath("ab") == SessionPath("a b") && MetaPath("ab") == MetaPath("a b")
  {
    assert "a b"[1..] == " b" && " b"[1..] == "b" && "b"[1..] == [];
    assert "ab"[1..] == "b";
    assert SafeName("b") == "b";
    assert SafeName(" b") == "b";
  }

  /** `glob(prefix + "*.json")`: the prefix, then anything, then `.json`. */
  predicate Matches(name: string, prefix: string) {
    |name| >= |prefix| + 5 && name[..|prefix|] == prefix && name[|name| - 5..] == ".json"
  }

  /** Every account's two files match their globs, and a session file is never a metadata file. */
  lemma PathsMatchGlobs(u: string)
    ensures Matches(SessionPath(u), "session_") && !Matches(SessionPath(u), "meta_")
    ensures Matches(MetaPath(u), "meta_") && !Matches(MetaPath(u), "session_")
    ensures SessionPath(u) != MetaPath(u)
  {
    var s := SessionPath(u);
    var m := MetaPath(u);
    assert s[0] == 's' && m[0] == 'm';
    assert s[|s| - 5..] == ".json";
    assert m[|m| - 5..] == ".json";
  }

  // ---------------------------------------------------------------------------
  // Save, load, clear
  // ---------------------------------------------------------------------------

  /**
    `save_session(context, username)`: `state` is what `storage_state`
    writes, `None` when it raises (then nothing is written and the call
    answers False). `saved` and `stamped` are the two `datetime.now()`
    readings for `saved_at` and `expires_at`.
  */
  function SaveSession(d: Dir, u: string, state: Option<string>, saved: int, stamped: int, validityDays: int): (r: (Dir, bool))
    ensures state.None? ==> r == (d, false)
    ensures state.Some? ==> r.1 && r.0.Keys == d.Keys + {SessionPath(u), MetaPath(u)}
    ensures state.Some? ==> r.0[SessionPath(u)] == StateFile(state.value)
    ensures state.Some? ==> r.0[MetaPath(u)] == MetaFile(Some(Metadata(u, saved, stamped + validityDays * DaySeconds, "1.0")))
    ensures forall f :: f in d && f != SessionPath(u) && f != MetaPath(u) ==> r.0[f] == d[f]
  {
    PathsMatchGlobs(u);
    match state
    case None => (d, false)
    case Some(s) =>
      (d[SessionPath(u) := StateFile(s)][MetaPath(u) := MetaFile(Some(Metadata(u, saved, stamped + validityDays * DaySeconds, "1.0")))], true)
  }

  /** `clear_session(username)`: both files go, whichever exist; every other file stays. */
  function ClearSession(d: Dir, u: string): (r: Dir)
    ensures SessionPath(u) !in r && MetaPath(u) !in r
    ensures forall f :: f in d && f != SessionPath(u) && f != MetaPath(u) ==> f in r && r[f] == d[f]
    ensures r.Keys <= d.Keys
  {
    d - {SessionPath(u), MetaPath(u)}
  }

  /**
    `load_session(username)` at clock reading `now`: no state unless both
    files exist and the metadata parses; an expired session (now strictly
    after `expires_at`) is cleared; otherwise the stored state, when it
    parses.
  */
  function LoadSession(d: Dir, u: string, now: int): (r: (Dir, Option<string>))
    ensures SessionPath(u) !in d || MetaPath(u) !in d ==> r == (d, None)
    ensures r.1.Some? <==> (SessionPath(u) in d && MetaPath(u) in d && d[MetaPath(u)].MetaFile?
                            && d[MetaPath(u)].meta.Some? && now <= d[MetaPath(u)].meta.value.expiresAt
                            && d[SessionPath(u)].StateFile?)
    ensures r.1.Some? ==> r.0 == d && r.1.value == d[SessionPath(u)].data
    ensures r.0 == d || r.0 == ClearSession(d, u)
  {
    var sp := SessionPath(u);
    var mp := MetaPath(u);
    if sp !in d || mp !in d then (d, None)
    else match d[mp]
      case MetaFile(Some(m)) =>
        if now > m.expiresAt then (ClearSession(d, u), None)
        else (match d[sp]
          case StateFile(s) => (d, Some(s))
          case _ => (d, None))
      case _ => (d, None)
  }

  /**
    A saved session loads back as what was saved, at any time from the save
    up to and including its expiry.
  */
  lemma SaveThenLoad(d: Dir, u: string, state: string, saved: int, stamped: int, days: int, now: int)
    requires now <= stamped + days * DaySeconds
    ensures var d1 := SaveSession(d, u, Some(state), saved, stamped, days).0;
      LoadSession(d1, u, now) == (d1, Some(state))
  {
    PathsMatchGlobs(u);
  }

  /** Past its expiry, a saved session is not loaded, and loading it removes both files. */
  lemma ExpiredLoadClears(d: Dir, u: string, state: string, saved: int, stamped: int, days: int, now: int)
    requires now > stamped + days * DaySeconds
    ensures var d1 := SaveSession(d, u, Some(state), saved, stamped, days).0;
      var r := LoadSession(d1, u, now);
      r.1.None? && SessionPath(u) !in r.0 && MetaPath(u) !in r.0
  {
    PathsMatchGlobs(u);
  }

  /** Two accounts whose names sanitise alike load each other's session. */
  lemma CollidingAccountsShareSession(d: Dir, state: string, saved: int, stamped: int, now: int)
    requires now <= stamped + DefaultValidityDays * DaySeconds
    ensures var d1 := SaveSession(d, "ab", Some(state), saved, stamped, DefaultValidityDays).0;
      LoadSession(d1, "a b", now).1 == Some(state)
  {
    DroppedCharactersCollide();
    SaveThenLoad(d, "ab", state, saved, stamped, DefaultValidityDays, now);
  }

  /** With the clock moving forward, a session lasts at least the validity period. */
  lemma ExpiryAfterValidity(d: Dir, u: string, state: string, saved: int, stamped: int, days: int)
    requires saved <= stamped
    ensures var d1 := SaveSession(d, u, Some(state), saved, stamped, days).0;
      d1[MetaPath(u)].meta.value.expiresAt >= d1[MetaPath(u)].meta.value.savedAt + days * DaySeconds
  {
  }

  // ---------------------------------------------------------------------------
  // Session info and statistics
  // ---------------------------------------------------------------------------

  datatype Info = Info(username: string, savedAt: int, expiresAt: int, isValid: bool,
                       remainingDays: int, remainingHours: int)

  /**
    `get_session_info(username)` at `now`: from the metadata file alone. The
    remaining time splits as `timedelta` does: whole days rounded down, then
    the hours of the non-negative rest.
  */
  function SessionInfo(d: Dir, u: string, now: int): (r: Option<Info>)
    ensures r.Some? <==> MetaPath(u) in d && d[MetaPath(u)].MetaFile? && d[MetaPath(u)].meta.Some?
    ensures r.Some? ==> (r.value.isValid <==> now < d[MetaPath(u)].meta.value.expiresAt)
    ensures r.Some? ==> r.value.remainingDays * DaySeconds <= d[MetaPath(u)].meta.value.expiresAt - now
                                                            < (r.value.remainingDays + 1) * DaySeconds
    ensures r.Some? ==> 0 <= r.value.remainingHours < 24
  {
    var mp := MetaPath(u);
    if mp !in d then None
    else match d[mp]
      case MetaFile(Some(m)) =>
        var left := m.expiresAt - now;
        Some(Info(u, m.savedAt, m.expiresAt, now < m.expiresAt, left / DaySeconds, (left % DaySeconds) / 3600))
      case _ => None
  }

  /**
    At exactly the expiry instant the two disagree: `load_session` still
    returns the state while `get_session_info` already reports it invalid.
  */
  lemma ExpiryInstantDisagrees(d: Dir, u: string, state: string, saved: int, stamped: int, days: int)
    ensures var d1 := SaveSession(d, u, Some(state), saved, stamped, days).0;
      var at := stamped + days * DaySeconds;
      LoadSession(d1, u, at).1 == Some(state) && !SessionInfo(d1, u, at).value.isValid
  {
    SaveThenLoad(d, u, state, saved, stamped, days, stamped + days * DaySeconds);
  }

  /**
    A metadata file `list_all_sessions` reports: it parses, and the username
    recorded inside it has session information.
  */
  predicate Listed(d: Dir, f: string, now: int) {
    f in d && d[f].MetaFile? && d[f].meta.Some? && SessionInfo(d, d[f].meta.value.username, now).Some?
  }

  /** The information reported for a listed metadata file. */
  function ListedInfo(d: Dir, f: string, now: int): Info
    requires Listed(d, f, now)
  {
    SessionInfo(d, d[f].meta.value.username, now).value
  }

  /** The metadata files the directory's glob finds and `list_all_sessions` reports. */
  function ListedFiles(d: Dir, now: int): set<string> {
    set f | f in Glob(d, "meta_") && Listed(d, f, now)
  }

  /** The loop of `list_all_sessions` over the metadata files in listing order; other files are skipped. */
  function InfosOf(d: Dir, metas: seq<string>, now: int): (r: seq<Info>)
    ensures |r| <= |metas|
    decreases |metas|
  {
    if metas == [] then []
    else
      var head := if Listed(d, metas[0], now) then [ListedInfo(d, metas[0], now)] else [];
      head + InfosOf(d, metas[1..], now)
  }

  predicate NoRepeats(s: seq<string>) {
    forall i, j :: 0 <= i < j < |s| ==> s[i] != s[j]
  }

  /** `x` is the information reported for one of the listed files among `metas`. */
  predicate FromListed(d: Dir, metas: seq<string>, now: int, x: Info) {
    exists k :: 0 <= k < |metas| && Listed(d, metas[k], now) && x == ListedInfo(d, metas[k], now)
  }

  /** The loop reports each listed file's information, and nothing else. */
  lemma {:induction false} InfosOfMembers(d: Dir, metas: seq<string>, now: int)
    ensures forall i :: 0 <= i < |InfosOf(d, metas, now)| ==> FromListed(d, metas, now, InfosOf(d, metas, now)[i])
    ensures forall k :: 0 <= k < |metas| && Listed(d, metas[k], now) ==> ListedInfo(d, metas[k], now) in InfosOf(d, metas, now)
    decreases |metas|
  {
    if metas != [] {
      var m := metas[0];
      var rest := metas[1..];
      InfosOfMembers(d, rest, now);
      var t := InfosOf(d, rest, now);
      var r := InfosOf(d, metas, now);
      var head := if Listed(d, m, now) then [ListedInfo(d, m, now)] else [];
      assert r == head + t;
      forall i | 0 <= i < |r| ensures FromListed(d, metas, now, r[i]) {
        if i < |head| {
          assert Listed(d, metas[0], now) && r[i] == ListedInfo(d, metas[0], now);
        } else {
          assert r[i] == t[i - |head|];
          assert FromListed(d, rest, now, t[i - |head|]);
          var k :| 0 <= k < |rest| && Listed(d, rest[k], now) && t[i - |head|] == ListedInfo(d, rest[k], now);
          assert metas[k + 1] == rest[k];
        }
      }
      forall k | 0 <= k < |metas| && Listed(d, metas[k], now) ensures ListedInfo(d, metas[k], now) in r {
        if k == 0 {
          assert r[0] == ListedInfo(d, m, now);
        } else {
          assert metas[k] == rest[k - 1];
          assert ListedInfo(d, metas[k], now) in t;
        }
      }
    }
  }

  /** A listed file whose session is valid. */
  predicate ValidListed(d: Dir, f: string, now: int) {
    Listed(d, f, now) && ListedInfo(d, f, now).isValid
  }

  /** Dropping the first element of a list without repeats leaves one without repeats, not holding it. */
  lemma RestNoRepeats(s: seq<string>)
    requires s != [] && NoRepeats(s)
    ensures NoRepeats(s[1..]) && s[0] !in s[1..]
  {
    var rest := s[1..];
    forall i, j | 0 <= i < j < |rest| ensures rest[i] != rest[j] {
      assert rest[i] == s[i + 1] && rest[j] == s[j + 1];
    }
    forall j | 0 <= j < |rest| ensures rest[j] != s[0] {
      assert rest[j] == s[j + 1];
    }
  }

  /** Over a listing without repeats the loop reports one entry per listed file. */
  lemma {:induction false} InfosOfCount(d: Dir, metas: seq<string>, now: int)
    requires NoRepeats(metas)
    ensures |InfosOf(d, metas, now)| == |set f | f in metas && Listed(d, f, now)|
    decreases |metas|
  {
    if metas != [] {
      var rest := metas[1..];
      RestNoRepeats(metas);
      InfosOfCount(d, rest, now);
      ListedCountCons(d, metas, now);
    }
  }

  /** Over a listing without repeats the loop reports one valid entry per listed file whose session is valid. */
  lemma {:induction false} InfosOfValidCount(d: Dir, metas: seq<string>, now: int)
    requires NoRepeats(metas)
    ensures |ValidOnes(InfosOf(d, metas, now))| == |set f | f in metas && ValidListed(d, f, now)|
    decreases |metas|
  {
    if metas != [] {
      var m := metas[0];
      var rest := metas[1..];
      RestNoRepeats(metas);
      InfosOfValidCount(d, rest, now);
      var head := if Listed(d, m, now) then [ListedInfo(d, m, now)] else [];
      ValidOnesAppend(head, InfosOf(d, rest, now));
      ValidOnesHead(d, m, now);
      ValidCountCons(d, metas, now);
    }
  }

  /** A metadata file contributes one valid entry exactly when it is listed as valid. */
  lemma ValidOnesHead(d: Dir, m: string, now: int)
    ensures |ValidOnes(if Listed(d, m, now) then [ListedInfo(d, m, now)] else [])|
            == if ValidListed(d, m, now) then 1 else 0
  {
    if Listed(d, m, now) {
      assert [ListedInfo(d, m, now)][1..] == [];
    }
  }

  /** `CountCons` for the files listed as valid. */
  lemma ValidCountCons(d: Dir, s: seq<string>, now: int)
    requires s != [] && s[0] !in s[1..]
    ensures |set f | f in s && ValidListed(d, f, now)|
            == (if ValidListed(d, s[0], now) then 1 else 0) + |set f | f in s[1..] && ValidListed(d, f, now)|
  {
    var p := f => ValidListed(d, f, now);
    CountCons(s, p);
    assert (set f | f in s && ValidListed(d, f, now)) == (set f | f in s && p(f));
    assert (set f | f in s[1..] && ValidListed(d, f, now)) == (set f | f in s[1..] && p(f));
  }

  /** `CountCons` for the listed files. */
  lemma ListedCountCons(d: Dir, s: seq<string>, now: int)
    requires s != [] && s[0] !in s[1..]
    ensures |set f | f in s && Listed(d, f, now)|
            == (if Listed(d, s[0], now) then 1 else 0) + |set f | f in s[1..] && Listed(d, f, now)|
  {
    var p := f => Listed(d, f, now);
    CountCons(s, p);
    assert (set f | f in s && Listed(d, f, now)) == (set f | f in s && p(f));
    assert (set f | f in s[1..] && Listed(d, f, now)) == (set f | f in s[1..] && p(f));
  }

  /** Counting the members of a list without repeats that pass a test, one element at a time. */
  lemma CountCons(s: seq<string>, p: string -> bool)
    requires s != [] && s[0] !in s[1..]
    ensures |set f | f in s && p(f)| == (if p(s[0]) then 1 else 0) + |set f | f in s[1..] && p(f)|
  {
    var a := set f | f in s[1..] && p(f);
    var b := set f | f in s && p(f);
    assert s == [s[0]] + s[1..];
    if p(s[0]) {
      assert b == a + {s[0]};
    } else {
      assert b == a;
    }
  }

  function ValidOnes(s: seq<Info>): (r: seq<Info>)
    ensures forall i :: 0 <= i < |r| ==> r[i].isValid
    decreases |s|
  {
    if s == [] then [] else (if s[0].isValid then [s[0]] else []) + ValidOnes(s[1..])
  }

  lemma ValidOnesAppend(a: seq<Info>, b: seq<Info>)
    requires |a| <= 1
    ensures ValidOnes(a + b) == ValidOnes(a) + ValidOnes(b)
  {
    if a != [] {
      assert (a + b)[1..] == b;
      assert a[1..] == [];
    } else {
      assert a + b == b;
    }
  }

  function ExpiredOnes(s: seq<Info>): (r: seq<Info>)
    ensures forall i :: 0 <= i < |r| ==> !r[i].isValid
    decreases |s|
  {
    if s == [] then [] else (if s[0].isValid then [] else [s[0]]) + ExpiredOnes(s[1..])
  }

  /** Every session is either valid or expired, never both. */
  lemma {:induction false} SplitCounts(s: seq<Info>)
    ensures |ValidOnes(s)| + |ExpiredOnes(s)| == |s|
    decreases |s|
  {
    if s != [] {
      SplitCounts(s[1..]);
    }
  }

  /**
    `list_all_sessions`, given the directory's metadata files in listing
    order: one entry per listed file, each the information of the username
    recorded in one of them, and every listed file's information present.
  */
  function ListAllSessions(d: Dir, metas: seq<string>, now: int): (r: seq<Info>)
    requires NoRepeats(metas) && forall f :: f in metas <==> f in Glob(d, "meta_")
    ensures forall i :: 0 <= i < |r| ==> exists f :: f in ListedFiles(d, now) && r[i] == ListedInfo(d, f, now)
    ensures forall f :: f in ListedFiles(d, now) ==> ListedInfo(d, f, now) in r
    ensures |r| == |ListedFiles(d, now)|
  {
    InfosOfMembers(d, metas, now);
    InfosOfCount(d, metas, now);
    var r := InfosOf(d, metas, now);
    assert (set f | f in metas && Listed(d, f, now)) == ListedFiles(d, now);
    forall i | 0 <= i < |r| ensures exists f :: f in ListedFiles(d, now) && r[i] == ListedInfo(d, f, now) {
      assert FromListed(d, metas, now, r[i]);
      var k :| 0 <= k < |metas| && Listed(d, metas[k], now) && r[i] == ListedInfo(d, metas[k], now);
      assert metas[k] in ListedFiles(d, now);
    }
    forall f | f in ListedFiles(d, now) ensures ListedInfo(d, f, now) in r {
      var k :| 0 <= k < |metas| && metas[k] == f;
    }
    r
  }

  datatype Stats = Stats(total: nat, valid: nat, expired: nat)

  /**
    `get_stats`: one session per listed metadata file, the valid ones being
    those whose session has not expired, and every other one expired.
  */
  function GetStats(d: Dir, metas: seq<string>, now: int): (r: Stats)
    requires NoRepeats(metas) && forall f :: f in metas <==> f in Glob(d, "meta_")
    ensures r.total == |ListedFiles(d, now)|
    ensures r.valid == |set f | f in ListedFiles(d, now) && ValidListed(d, f, now)|
    ensures r.total == r.valid + r.expired
  {
    var all := ListAllSessions(d, metas, now);
    SplitCounts(all);
    InfosOfValidCount(d, metas, now);
    assert (set f | f in metas && ValidListed(d, f, now)) == (set f | f in ListedFiles(d, now) && ValidListed(d, f, now));
    Stats(|all|, |ValidOnes(all)|, |ExpiredOnes(all)|)
  }

  // ---------------------------------------------------------------------------
  // clear_all_sessions
  // ---------------------------------------------------------------------------

  /** The names a glob finds in the directory. */
  function Glob(d: Dir, prefix: string): (r: set<string>)
    ensures forall f :: f in r <==> f in d && Matches(f, prefix)
  {
    set f | f in d && Matches(f, prefix)
  }

  /**
    `clear_all_sessions`: deletes every `session_*.json` file, counting
    them, then every `meta_*.json` file, which are not counted.
  */
  function ClearAllSessions(d: Dir): (r: (Dir, nat))
    ensures r.1 == |Glob(d, "session_")|
    ensures forall f :: f in r.0 <==> f in d && !Matches(f, "session_") && !Matches(f, "meta_")
    ensures forall f :: f in r.0 ==> r.0[f] == d[f]
  {
    (d - Glob(d, "session_") - Glob(d, "meta_"), |Glob(d, "session_")|)
  }

  /** The count is the number of state files only: one saved account reports 1, though two files go. */
  lemma ClearAllCountsSessionFiles(u: string, state: string, saved: int, stamped: int, days: int)
    ensures var d1 := SaveSession(map[], u, Some(state), saved, stamped, days).0;
      |d1| == 2 && ClearAllSessions(d1) == (map[], 1)
  {
    PathsMatchGlobs(u);
    var d1 := SaveSession(map[], u, Some(state), saved, stamped, days).0;
    assert d1.Keys == {SessionPath(u), MetaPath(u)};
    assert Glob(d1, "session_") == {SessionPath(u)};
    var r := ClearAllSessions(d1);
    assert r.0.Keys == {};
  }
}

=== FILE: sorting.dfy ===
/**
  Python's `sorted(...)`: a stable sort under a total preorder `le`
  ("`a` may come before `b`"). Descending orders (`reverse=True`) are expressed
  by flipping the comparison, which keeps equal elements in their original
  order as Python does.
*/
module Sorting {

  ghost predicate TotalPreorder<T(!new)>(le: (T, T) -> bool) {
    (forall a, b :: le(a, b) || le(b, a)) &&
    (forall a, b, c :: le(a, b) && le(b, c) ==> le(a, c))
  }

  predicate Sorted<T>(le: (T, T) -> bool, s: seq<T>) {
    forall i, j :: 0 <= i < j < |s| ==> le(s[i], s[j])
  }

  /** Places `x` in front of the first element it may precede. */
  function Insert<T>(le: (T, T) -> bool, x: T, s: seq<T>): (r: seq<T>)
    ensures |r| == |s| + 1
    ensures multiset(r) == multiset(s) + multiset{x}
    decreases |s|
  {
    if s == [] then [x]
    else if le(x, s[0]) then [x] + s
    else
      assert s == [s[0]] + s[1..];
      [s[0]] + Insert(le, x, s[1..])
  }

  /** Insertion sort; the first of two equal elements stays first. */
  function Sort<T>(le: (T, T) -> bool, s: seq<T>): (r: seq<T>)
    ensures |r| == |s|
    ensures multiset(r) == multiset(s)
    decreases |s|
  {
    if s == [] then []
    else
      assert s == [s[0]] + s[1..];
      Insert(le, s[0], Sort(le, s[1..]))
  }

  lemma {:induction false} InsertSorted<T(!new)>(le: (T, T) -> bool, x: T, s: seq<T>)
    requires TotalPreorder(le) && Sorted(le, s)
    ensures Sorted(le, Insert(le, x, s))
    decreases |s|
  {
    if s == [] {
    } else if le(x, s[0]) {
      var r := [x] + s;
      forall i, j | 0 <= i < j < |r| ensures le(r[i], r[j]) {
        if i == 0 && j > 1 {
          assert le(s[0], s[j - 1]);
        }
      }
    } else {
      assert le(s[0], x);
      var t := Insert(le, x, s[1..]);
      InsertSorted(le, x, s[1..]);
      var r := [s[0]] + t;
      forall i, j | 0 <= i < j < |r| ensures le(r[i], r[j]) {
        if i == 0 {
          var y := t[j - 1];
          assert y in multiset(t);
          assert y == x || y in multiset(s[1..]);
          if y != x {
            var k :| 0 <= k < |s[1..]| && s[1..][k] == y;
            assert le(s[0], s[k + 1]);
          }
        }
      }
    }
  }

  lemma {:induction false} SortSorted<T(!new)>(le: (T, T) -> bool, s: seq<T>)
    requires TotalPreorder(le)
    ensures Sorted(le, Sort(le, s))
    decreases |s|
  {
    if s != [] {
      SortSorted(le, s[1..]);
      InsertSorted(le, s[0], Sort(le, s[1..]));
    }
  }

  /** The elements of `s` that `le` ranks together with `x`, in their order in `s`. */
  function Peers<T>(le: (T, T) -> bool, x: T, s: seq<T>): seq<T>
    decreases |s|
  {
    if s == [] then []
    else (if le(x, s[0]) && le(s[0], x) then [s[0]] else []) + Peers(le, x, s[1..])
  }

  /** Inserting `y` puts it in front of every element ranked with it, and moves no other element past one. */
  lemma {:induction false} InsertPeers<T(!new)>(le: (T, T) -> bool, x: T, y: T, t: seq<T>)
    requires TotalPreorder(le)
    ensures Peers(le, x, Insert(le, y, t)) == (if le(x, y) && le(y, x) then [y] else []) + Peers(le, x, t)
    decreases |t|
  {
    if t != [] && !le(y, t[0]) {
      InsertPeers(le, x, y, t[1..]);
      var t0 := t[0];
      assert le(y, x) && le(x, t0) ==> le(y, t0);
    }
    InsertPeersStep(le, x, y, t);
  }

  /** One step of `InsertPeers`, given the step for the tail and that `y` and the head are not both ranked with `x`. */
  lemma InsertPeersStep<T>(le: (T, T) -> bool, x: T, y: T, t: seq<T>)
    requires t != [] && !le(y, t[0]) ==>
      !(le(x, y) && le(y, x) && le(x, t[0]) && le(t[0], x)) &&
      Peers(le, x, Insert(le, y, t[1..])) == (if le(x, y) && le(y, x) then [y] else []) + Peers(le, x, t[1..])
    ensures Peers(le, x, Insert(le, y, t)) == (if le(x, y) && le(y, x) then [y] else []) + Peers(le, x, t)
  {
    var hy := if le(x, y) && le(y, x) then [y] else [];
    if t == [] {
      PeersCons(le, x, y, []);
    } else if le(y, t[0]) {
      PeersCons(le, x, y, t);
    } else {
      var t0 := t[0];
      var h0 := if le(x, t0) && le(t0, x) then [t0] else [];
      var i := Insert(le, y, t[1..]);
      assert Insert(le, y, t) == [t0] + i;
      PeersCons(le, x, t0, i);
      PeersCons(le, x, t0, t[1..]);
      ConsSplit(t);
      SwapPrefixes(h0, hy, Peers(le, x, t[1..]));
    }
  }

  lemma ConsSplit<T>(t: seq<T>)
    requires t != []
    ensures [t[0]] + t[1..] == t
  {
  }

  /** Two prefixes of which one is empty can be given in either order. */
  lemma SwapPrefixes<T>(a: seq<T>, b: seq<T>, c: seq<T>)
    requires a == [] || b == []
    ensures a + (b + c) == b + (a + c)
  {
    if a == [] {
      assert a + (b + c) == b + c == b + (a + c);
    } else {
      assert a + (b + c) == a + c == b + (a + c);
    }
  }

  lemma PeersCons<T>(le: (T, T) -> bool, x: T, a: T, s: seq<T>)
    ensures Peers(le, x, [a] + s) == (if le(x, a) && le(a, x) then [a] else []) + Peers(le, x, s)
  {
    assert ([a] + s)[1..] == s;
  }

  /** Stability: elements ranked together leave the sort in the order they came in. */
  lemma {:induction false} SortStable<T(!new)>(le: (T, T) -> bool, x: T, s: seq<T>)
    requires TotalPreorder(le)
    ensures Peers(le, x, Sort(le, s)) == Peers(le, x, s)
    decreases |s|
  {
    if s != [] {
      SortStable(le, x, s[1..]);
      InsertPeers(le, x, s[0], Sort(le, s[1..]));
    }
  }

  /** The first `n` elements, or all of them when there are fewer (`s[:n]`). */
  function Take<T>(s: seq<T>, n: nat): (r: seq<T>)
    ensures |r| == if |s| < n then |s| else n
    ensures r == s[..|r|]
  {
    if |s| <= n then s else s[..n]
  }
}

=== FILE: telemetry.dfy ===
/**
  The telemetry aggregator (`TelemetryManager` in `modules/core/telemetry.py`)
  as an immutable record: every `record_*` call is a function from the old
  record to the new one. Clock readings (`time.time()`) are passed in as
  `now`; durations are exact reals rather than floats.
*/
module Telemetry {
  import opened Sorting

  datatype Status = Success | Failed | Skipped

  /**
    One entry of `accounts_processed`. A skipped entry carries no duration or
    error in the source; here those fields are `0.0` and `""`.
  */
  datatype Entry = Entry(username: string, nama: string, status: Status, duration: real, errorType: string)

  /** One `(error_type, count)` item of the `errors` dictionary, in insertion order. */
  datatype ErrorCount = ErrorCount(kind: string, count: nat)

  datatype Telemetry = Telemetry(
    total: nat,
    successful: nat,
    failed: nat,
    skipped: nat,
    timings: seq<real>,
    errors: seq<ErrorCount>,
    trace: seq<Entry>,
    stok: nat,
    sold: nat,
    starts: map<string, real>,
    durations: map<string, seq<real>>
  )

  /** The state right after construction or `reset()`. */
  function Initial(): Telemetry {
    Telemetry(0, 0, 0, 0, [], [], [], 0, 0, map[], map[])
  }

  const AccountOp: string := "account_processing"

  // ---------------------------------------------------------------------------
  // Sums, counts and extremes over sequences
  // ---------------------------------------------------------------------------

  function Sum(s: seq<real>): real {
    if s == [] then 0.0 else Sum(s[..|s| - 1]) + s[|s| - 1]
  }

  function Min(s: seq<real>): (r: real)
    requires s != []
    ensures r in s
    ensures forall i :: 0 <= i < |s| ==> r <= s[i]
  {
    if |s| == 1 then s[0]
    else
      var m := Min(s[..|s| - 1]);
      assert forall i :: 0 <= i < |s| - 1 ==> s[..|s| - 1][i] == s[i];
      if s[|s| - 1] < m then s[|s| - 1] else m
  }

  function Max(s: seq<real>): (r: real)
    requires s != []
    ensures r in s
    ensures forall i :: 0 <= i < |s| ==> s[i] <= r
  {
    if |s| == 1 then s[0]
    else
      var m := Max(s[..|s| - 1]);
      assert forall i :: 0 <= i < |s| - 1 ==> s[..|s| - 1][i] == s[i];
      if s[|s| - 1] > m then s[|s| - 1] else m
  }

  /** `n · x` as repeated addition. */
  function Times(n: nat, x: real): real {
    if n == 0 then 0.0 else Times(n - 1, x) + x
  }

  lemma {:induction false} TimesIsProduct(n: nat, x: real)
    ensures Times(n, x) == n as real * x
  {
    if n > 0 {
      TimesIsProduct(n - 1, x);
      assert n as real * x == (n - 1) as real * x + x;
    }
  }

  /** Every sample lies between `lo` and `hi`, so the sum lies between `n·lo` and `n·hi`. */
  lemma {:induction false} SumBetween(s: seq<real>, lo: real, hi: real)
    requires forall i :: 0 <= i < |s| ==> lo <= s[i] <= hi
    ensures Times(|s|, lo) <= Sum(s) <= Times(|s|, hi)
    decreases |s|
  {
    if s != [] {
      var p := s[..|s| - 1];
      assert forall i :: 0 <= i < |p| ==> p[i] == s[i];
      SumBetween(p, lo, hi);
    }
  }

  lemma PositiveProduct(x: real, n: real)
    requires x > 0.0 && n > 0.0
    ensures x * n > 0.0
  {
  }

  /** Dividing bounds `n·lo <= a <= n·hi` by a positive `n`. */
  lemma DivBetween(a: real, n: nat, lo: real, hi: real)
    requires n > 0 && Times(n, lo) <= a <= Times(n, hi)
    ensures lo <= a / n as real <= hi
  {
    TimesIsProduct(n, lo);
    TimesIsProduct(n, hi);
    var m := a / n as real;
    assert m * n as real == a;
    if m < lo {
      PositiveProduct(lo - m, n as real);
    }
    if m > hi {
      PositiveProduct(m - hi, n as real);
    }
  }

  /** The mean of samples lies between their extremes. */
  lemma MeanBetween(s: seq<real>)
    requires s != []
    ensures Min(s) <= Sum(s) / |s| as real <= Max(s)
  {
    SumBetween(s, Min(s), Max(s));
    DivBetween(Sum(s), |s|, Min(s), Max(s));
  }

  function StatusCount(trace: seq<Entry>, st: Status): nat {
    if trace == [] then 0
    else StatusCount(trace[..|trace| - 1], st) + (if trace[|trace| - 1].status == st then 1 else 0)
  }

  function SumCounts(es: seq<ErrorCount>): nat {
    if es == [] then 0 else es[0].count + SumCounts(es[1..])
  }

  /** The error types present (`errors.keys()`). */
  function Kinds(es: seq<ErrorCount>): set<string> {
    if es == [] then {} else {es[0].kind} + Kinds(es[1..])
  }

  /** No error type occurs twice, as in a dictionary. */
  predicate DistinctKinds(es: seq<ErrorCount>) {
    es == [] || (es[0].kind !in Kinds(es[1..]) && DistinctKinds(es[1..]))
  }

  /** `errors.get(kind, 0)`. */
  function CountOf(es: seq<ErrorCount>, kind: string): nat {
    if es == [] then 0
    else if es[0].kind == kind then es[0].count
    else CountOf(es[1..], kind)
  }

  /**
    `errors[kind] += 1` on a `defaultdict(int)`: the count of `kind` goes up by
    one and every other count stays; a kind not yet present enters at the end
    with count 1, a present one keeps its place, and the keys stay distinct.
  */
  function Bump(es: seq<ErrorCount>, kind: string): (r: seq<ErrorCount>)
    ensures SumCounts(r) == SumCounts(es) + 1
    ensures CountOf(r, kind) == CountOf(es, kind) + 1
    ensures forall k :: k != kind ==> CountOf(r, k) == CountOf(es, k)
    ensures Kinds(r) == Kinds(es) + {kind}
    ensures |r| == if kind in Kinds(es) then |es| else |es| + 1
    ensures kind !in Kinds(es) ==> r == es + [ErrorCount(kind, 1)]
    ensures DistinctKinds(es) ==> DistinctKinds(r)
    decreases |es|
  {
    if es == [] then [ErrorCount(kind, 1)]
    else if es[0].kind == kind then
      var r := [ErrorCount(kind, es[0].count + 1)] + es[1..];
      assert r[1..] == es[1..];
      r
    else
      var r := [es[0]] + Bump(es[1..], kind);
      assert r[1..] == Bump(es[1..], kind);
      assert kind !in Kinds(es) ==> r == es + [ErrorCount(kind, 1)] by {
        if kind !in Kinds(es) {
          assert es == [es[0]] + es[1..];
        }
      }
      r
  }

  // ---------------------------------------------------------------------------
  // Operation timing
  // ---------------------------------------------------------------------------

  /** `f"{name}:{identifier}" if identifier else name`; a missing identifier is `""`. */
  function OperationKey(name: string, identifier: string): (k: string)
    ensures identifier == "" ==> k == name
    ensures identifier != "" ==> |k| == |name| + 1 + |identifier| && k[..|name|] == name && k[|name|] == ':'
  {
    if identifier != "" then name + ":" + identifier else name
  }

  /** The samples recorded under an operation name (`operation_durations.get(name, [])`). */
  function Samples(t: Telemetry, name: string): seq<real> {
    if name in t.durations then t.durations[name] else []
  }

  /** `start_operation`: stamps the key with `now`, replacing an earlier pending start. */
  function StartOperation(t: Telemetry, name: string, identifier: string, now: real): (r: Telemetry)
    ensures r.starts == t.starts[OperationKey(name, identifier) := now]
    ensures r.durations == t.durations
  {
    t.(starts := t.starts[OperationKey(name, identifier) := now])
  }

  /**
    `end_operation`: with a pending start, the duration since it is appended to
    the operation's samples, the key stops being pending and the duration is
    returned; without one, nothing changes and the result is `0.0`.
  */
  function EndOperation(t: Telemetry, name: string, identifier: string, now: real): (r: (Telemetry, real))
    ensures var key := OperationKey(name, identifier);
      key !in t.starts ==> r == (t, 0.0)
    ensures var key := OperationKey(name, identifier);
      key in t.starts ==> r.1 == now - t.starts[key]
    ensures var key := OperationKey(name, identifier);
      key in t.starts ==> r.0.starts == t.starts - {key}
    ensures var key := OperationKey(name, identifier);
      key in t.starts ==> Samples(r.0, name) == Samples(t, name) + [r.1]
    ensures forall op :: op != name ==> Samples(r.0, op) == Samples(t, op)
    ensures r.0 == t.(starts := r.0.starts, durations := r.0.durations)
  {
    var key := OperationKey(name, identifier);
    if key in t.starts then
      var d := now - t.starts[key];
      (t.(starts := t.starts - {key}, durations := t.durations[name := Samples(t, name) + [d]]), d)
    else
      (t, 0.0)
  }

  /** Ending an operation twice: the second end finds nothing pending and returns `0.0`. */
  lemma RepeatedEndReturnsZero(t: Telemetry, name: string, identifier: string, now1: real, now2: real)
    ensures var first := EndOperation(t, name, identifier, now1).0;
      EndOperation(first, name, identifier, now2) == (first, 0.0)
  {
  }

  /** A start followed by an end measures exactly the time between them and leaves nothing pending. */
  lemma StartThenEnd(t: Telemetry, name: string, identifier: string, t0: real, t1: real)
    ensures var r := EndOperation(StartOperation(t, name, identifier, t0), name, identifier, t1);
      r.1 == t1 - t0 && OperationKey(name, identifier) !in r.0.starts &&
      Samples(r.0, name) == Samples(t, name) + [t1 - t0]
  {
  }

  // ---------------------------------------------------------------------------
  // Account events
  // ---------------------------------------------------------------------------

  /** `record_account_start`. */
  function RecordStart(t: Telemetry, username: string, now: real): (r: Telemetry)
    ensures r.total == t.total + 1
    ensures OperationKey(AccountOp, username) in r.starts
    ensures r.trace == t.trace && r.successful == t.successful && r.failed == t.failed && r.skipped == t.skipped
  {
    StartOperation(t.(total := t.total + 1), AccountOp, username, now)
  }

  /** `record_account_success`: the duration of the account (or `0.0`) is both a timing and a trace entry. */
  function RecordSuccess(t: Telemetry, username: string, now: real): (r: Telemetry)
    ensures r.successful == t.successful + 1
    ensures r.total == t.total && r.failed == t.failed && r.skipped == t.skipped && r.errors == t.errors
    ensures |r.trace| == |t.trace| + 1 && r.trace[..|t.trace|] == t.trace
    ensures r.trace[|t.trace|].status == Success && r.trace[|t.trace|].username == username
    ensures r.timings == t.timings + [r.trace[|t.trace|].duration]
  {
    var (t1, d) := EndOperation(t, AccountOp, username, now);
    var r := t1.(successful := t.successful + 1, timings := t.timings + [d],
                 trace := t.trace + [Entry(username, username, Success, d, "")]);
    assert r.trace[..|t.trace|] == t.trace;
    r
  }

  /** `record_account_failure`: the display name is `nama or username`. */
  function RecordFailure(t: Telemetry, username: string, errorType: string, nama: string, now: real): (r: Telemetry)
    ensures r.failed == t.failed + 1
    ensures r.total == t.total && r.successful == t.successful && r.skipped == t.skipped && r.timings == t.timings
    ensures CountOf(r.errors, errorType) == CountOf(t.errors, errorType) + 1
    ensures forall k :: k != errorType ==> CountOf(r.errors, k) == CountOf(t.errors, k)
    ensures |r.trace| == |t.trace| + 1 && r.trace[..|t.trace|] == t.trace
    ensures var e := r.trace[|t.trace|];
      e.status == Failed && e.username == username && e.errorType == errorType
    ensures var e := r.trace[|t.trace|];
      e.nama == if nama != "" then nama else username
  {
    var (t1, d) := EndOperation(t, AccountOp, username, now);
    var shown := if nama != "" then nama else username;
    var r := t1.(failed := t.failed + 1, errors := Bump(t.errors, errorType),
                 trace := t.trace + [Entry(username, shown, Failed, d, errorType)]);
    assert r.trace[..|t.trace|] == t.trace;
    r
  }

  /** `record_account_skip`: no pending operation is ended. */
  function RecordSkip(t: Telemetry, username: string): (r: Telemetry)
    ensures r.skipped == t.skipped + 1
    ensures r.total == t.total && r.successful == t.successful && r.failed == t.failed
    ensures r.starts == t.starts && r.timings == t.timings && r.errors == t.errors
    ensures |r.trace| == |t.trace| + 1 && r.trace[..|t.trace|] == t.trace
    ensures r.trace[|t.trace|].status == Skipped && r.trace[|t.trace|].username == username
  {
    var r := t.(skipped := t.skipped + 1, trace := t.trace + [Entry(username, username, Skipped, 0.0, "")]);
    assert r.trace[..|t.trace|] == t.trace;
    r
  }

  /** The part of an amount that `record_business_metrics` adds: nothing unless it is positive. */
  function PositivePart(x: int): (r: nat)
    ensures r == 0 || (r > 0 && r == x)
    ensures x > 0 ==> r == x
  {
    if x > 0 then x else 0
  }

  /** `record_business_metrics`. */
  function RecordBusiness(t: Telemetry, stok: int, penjualan: int): (r: Telemetry)
    ensures r.stok >= t.stok && r.sold >= t.sold
    ensures r.stok > t.stok <==> stok > 0
    ensures r.sold > t.sold <==> penjualan > 0
    ensures r.stok > t.stok ==> r.stok - t.stok == stok
    ensures r.sold > t.sold ==> r.sold - t.sold == penjualan
    ensures r == t.(stok := r.stok, sold := r.sold)
  {
    t.(stok := t.stok + PositivePart(stok), sold := t.sold + PositivePart(penjualan))
  }

  /** `reset()`. */
  function Reset(t: Telemetry): (r: Telemetry)
    ensures r.total == 0 && r.successful == 0 && r.failed == 0 && r.skipped == 0
    ensures r.stok == 0 && r.sold == 0
    ensures r.timings == [] && r.errors == [] && r.trace == []
    ensures r.starts == map[] && r.durations == map[]
  {
    Initial()
  }

  // ---------------------------------------------------------------------------
  // The bookkeeping invariant
  // ---------------------------------------------------------------------------

  /**
    Between resets: the error counts add up to the failed counter, the trace
    holds exactly one entry per recorded success, failure and skip, and every
    success contributed exactly one timing.
  */
  predicate Consistent(t: Telemetry) {
    && SumCounts(t.errors) == t.failed
    && StatusCount(t.trace, Success) == t.successful
    && StatusCount(t.trace, Failed) == t.failed
    && StatusCount(t.trace, Skipped) == t.skipped
    && |t.timings| == t.successful
    && DistinctKinds(t.errors)
  }

  /** The calls a caller can make, with their clock readings. */
  datatype Event =
    | BeginOp(name: string, identifier: string, now: real)
    | EndOp(name: string, identifier: string, now: real)
    | AccountStart(username: string, now: real)
    | AccountSuccess(username: string, now: real)
    | AccountFailure(username: string, errorType: string, nama: string, now: real)
    | AccountSkip(username: string)
    | Business(stok: int, penjualan: int)
    | ResetAll

  function Apply(t: Telemetry, e: Event): Telemetry {
    match e
    case BeginOp(n, i, now) => StartOperation(t, n, i, now)
    case EndOp(n, i, now) => EndOperation(t, n, i, now).0
    case AccountStart(u, now) => RecordStart(t, u, now)
    case AccountSuccess(u, now) => RecordSuccess(t, u, now)
    case AccountFailure(u, k, n, now) => RecordFailure(t, u, k, n, now)
    case AccountSkip(u) => RecordSkip(t, u)
    case Business(s, p) => RecordBusiness(t, s, p)
    case ResetAll => Reset(t)
  }

  function Run(t: Telemetry, es: seq<Event>): Telemetry
    decreases |es|
  {
    if es == [] then t else Run(Apply(t, es[0]), es[1..])
  }

  lemma StatusCountAppend(trace: seq<Entry>, e: Entry, st: Status)
    ensures StatusCount(trace + [e], st) == StatusCount(trace, st) + (if e.status == st then 1 else 0)
  {
    assert (trace + [e])[..|trace|] == trace;
  }

  lemma ConsistentStep(t: Telemetry, e: Event)
    requires Consistent(t)
    ensures Consistent(Apply(t, e))
  {
    match e
    case AccountSuccess(u, now) => SuccessConsistent(t, u, now);
    case AccountFailure(u, k, n, now) => FailureConsistent(t, u, k, n, now);
    case AccountSkip(u) => SkipConsistent(t, u);
    case _ =>
  }

  /** Appending one entry to the trace bumps the count of its status only. */
  lemma TraceCounts(trace: seq<Entry>, e: Entry)
    ensures StatusCount(trace + [e], Success) == StatusCount(trace, Success) + (if e.status == Success then 1 else 0)
    ensures StatusCount(trace + [e], Failed) == StatusCount(trace, Failed) + (if e.status == Failed then 1 else 0)
    ensures StatusCount(trace + [e], Skipped) == StatusCount(trace, Skipped) + (if e.status == Skipped then 1 else 0)
  {
    StatusCountAppend(trace, e, Success);
    StatusCountAppend(trace, e, Failed);
    StatusCountAppend(trace, e, Skipped);
  }

  lemma SuccessConsistent(t: Telemetry, u: string, now: real)
    requires Consistent(t)
    ensures Consistent(RecordSuccess(t, u, now))
  {
    var r := RecordSuccess(t, u, now);
    assert r.trace == t.trace + [r.trace[|t.trace|]];
    TraceCounts(t.trace, r.trace[|t.trace|]);
  }

  lemma FailureConsistent(t: Telemetry, u: string, k: string, n: string, now: real)
    requires Consistent(t)
    ensures Consistent(RecordFailure(t, u, k, n, now))
  {
    var r := RecordFailure(t, u, k, n, now);
    assert r.trace == t.trace + [r.trace[|t.trace|]];
    TraceCounts(t.trace, r.trace[|t.trace|]);
  }

  lemma SkipConsistent(t: Telemetry, u: string)
    requires Consistent(t)
    ensures Consistent(RecordSkip(t, u))
  {
    var r := RecordSkip(t, u);
    assert r.trace == t.trace + [r.trace[|t.trace|]];
    TraceCounts(t.trace, r.trace[|t.trace|]);
  }

  /**
    The invariant holds from construction on, whatever sequence of calls is
    made: `sum(errors.values()) == failed_accounts` and the per-status trace
    counts equal the counters.
  */
  lemma {:induction false} ConsistentRun(t: Telemetry, es: seq<Event>)
    requires Consistent(t)
    ensures Consistent(Run(t, es))
    decreases |es|
  {
    if es != [] {
      ConsistentStep(t, es[0]);
      ConsistentRun(Apply(t, es[0]), es[1..]);
    }
  }

  /** The number of calls of each account kind in a call sequence. */
  function Starts(es: seq<Event>): nat {
    if es == [] then 0 else (if es[0].AccountStart? then 1 else 0) + Starts(es[1..])
  }

  function Successes(es: seq<Event>): nat {
    if es == [] then 0 else (if es[0].AccountSuccess? then 1 else 0) + Successes(es[1..])
  }

  function Failures(es: seq<Event>): nat {
    if es == [] then 0 else (if es[0].AccountFailure? then 1 else 0) + Failures(es[1..])
  }

  lemma {:induction false} TalliesAppend(a: seq<Event>, b: seq<Event>)
    ensures Starts(a + b) == Starts(a) + Starts(b)
    ensures Successes(a + b) == Successes(a) + Successes(b)
    ensures Failures(a + b) == Failures(a) + Failures(b)
    decreases |a|
  {
    if a == [] {
      assert a + b == b;
    } else {
      assert (a + b)[0] == a[0];
      assert (a + b)[1..] == a[1..] + b;
      TalliesAppend(a[1..], b);
    }
  }

  predicate NoReset(es: seq<Event>) {
    forall i :: 0 <= i < |es| ==> !es[i].ResetAll?
  }

  /**
    Without a reset, the counters grow by exactly the number of start,
    success and failure calls made.
  */
  lemma {:induction false} RunTally(t: Telemetry, es: seq<Event>)
    requires NoReset(es)
    ensures Run(t, es).total == t.total + Starts(es)
    ensures Run(t, es).successful == t.successful + Successes(es)
    ensures Run(t, es).failed == t.failed + Failures(es)
    decreases |es|
  {
    if es != [] {
      RunTally(Apply(t, es[0]), es[1..]);
    }
  }

  lemma {:induction false} RunAppend(t: Telemetry, a: seq<Event>, b: seq<Event>)
    ensures Run(t, a + b) == Run(Run(t, a), b)
    decreases |a|
  {
    if a == [] {
      assert a + b == b;
    } else {
      assert (a + b)[0] == a[0];
      assert (a + b)[1..] == a[1..] + b;
      RunAppend(Apply(t, a[0]), a[1..], b);
    }
  }

  /** Business totals never shrink, whatever calls are made, except through `reset()`. */
  lemma {:induction false} BusinessMonotone(t: Telemetry, es: seq<Event>)
    requires forall i :: 0 <= i < |es| ==> es[i] != ResetAll
    ensures Run(t, es).stok >= t.stok && Run(t, es).sold >= t.sold
    decreases |es|
  {
    if es != [] {
      BusinessMonotone(Apply(t, es[0]), es[1..]);
    }
  }

  // ---------------------------------------------------------------------------
  // Derived figures
  // ---------------------------------------------------------------------------

  /** `get_success_rate`: a percentage of `total_accounts`, `0` when there are none. */
  function SuccessRate(t: Telemetry): (r: real)
    ensures t.total == 0 ==> r == 0.0
    ensures t.total > 0 ==> r * t.total as real == t.successful as real * 100.0
  {
    if t.total == 0 then 0.0 else t.successful as real / t.total as real * 100.0
  }

  /** `get_failure_rate`. */
  function FailureRate(t: Telemetry): (r: real)
    ensures t.total == 0 ==> r == 0.0
    ensures t.total > 0 ==> r * t.total as real == t.failed as real * 100.0
  {
    if t.total == 0 then 0.0 else t.failed as real / t.total as real * 100.0
  }

  /** While no more accounts finished than started, the two rates are percentages that add up to at most 100. */
  lemma RatesArePercentages(t: Telemetry)
    requires t.successful + t.failed <= t.total
    ensures 0.0 <= SuccessRate(t) && 0.0 <= FailureRate(t)
    ensures SuccessRate(t) + FailureRate(t) <= 100.0
  {
    if t.total > 0 {
      var n := t.total as real;
      ShareBounds(SuccessRate(t), FailureRate(t), t.successful as real, t.failed as real, n);
    }
  }

  /** Two shares of `n` that together are at most `n` are percentages summing to at most 100. */
  lemma ShareBounds(s: real, f: real, a: real, b: real, n: real)
    requires n > 0.0 && 0.0 <= a && 0.0 <= b && a + b <= n
    requires s * n == a * 100.0 && f * n == b * 100.0
    ensures 0.0 <= s && 0.0 <= f && s + f <= 100.0
  {
    assert (s + f) * n == (a + b) * 100.0;
  }

  /** `get_average_processing_time`. */
  function AverageTime(t: Telemetry): (r: real)
    ensures t.timings == [] ==> r == 0.0
    ensures t.timings != [] ==> Min(t.timings) <= r <= Max(t.timings)
  {
    if t.timings == [] then 0.0
    else
      MeanBetween(t.timings);
      Sum(t.timings) / |t.timings| as real
  }

  datatype Stats = Stats(count: nat, avg: real, min: real, max: real, total: real)

  /**
    `get_operation_stats`: all zeros for an operation without samples;
    otherwise the number and sum of the samples, their extremes, and an
    average that lies between the extremes.
  */
  function OperationStats(t: Telemetry, name: string): (r: Stats)
    ensures Samples(t, name) == [] ==> r == Stats(0, 0.0, 0.0, 0.0, 0.0)
    ensures r.count == |Samples(t, name)| && r.total == Sum(Samples(t, name))
    ensures Samples(t, name) != [] ==> r.min <= r.avg <= r.max
    ensures Samples(t, name) != [] ==> r.min in Samples(t, name) && r.max in Samples(t, name)
    ensures forall i :: 0 <= i < |Samples(t, name)| ==> r.min <= Samples(t, name)[i] <= r.max
    ensures r.count > 0 ==> r.avg == r.total / r.count as real
  {
    var d := Samples(t, name);
    if d == [] then Stats(0, 0.0, 0.0, 0.0, 0.0)
    else
      MeanBetween(d);
      Stats(|d|, Sum(d) / |d| as real, Min(d), Max(d), Sum(d))
  }

  /** An entry of `failed_accounts_detail`. */
  datatype FailureDetail = FailureDetail(nama: string, username: string, errorType: string)

  /** `failed_accounts_detail` of `get_real_time_metrics`: the failed trace entries, in order. */
  function FailedDetails(trace: seq<Entry>): (r: seq<FailureDetail>)
    ensures |r| == StatusCount(trace, Failed)
  {
    if trace == [] then []
    else
      var e := trace[|trace| - 1];
      FailedDetails(trace[..|trace| - 1]) +
        (if e.status == Failed then [FailureDetail(e.nama, e.username, e.errorType)] else [])
  }

  /** The failure list shown on the dashboard has one line per failed account. */
  lemma FailedDetailsMatchCounter(t: Telemetry)
    requires Consistent(t)
    ensures |FailedDetails(t.trace)| == t.failed
  {
  }

  /** `sum(errors.values())`. */
  function TotalErrors(t: Telemetry): (r: nat)
    ensures t.errors == [] ==> r == 0
  {
    SumCounts(t.errors)
  }

  /** The dashboard's `total_errors` always equals `failed_accounts`. */
  lemma TotalErrorsIsFailed(t: Telemetry)
    requires Consistent(t)
    ensures TotalErrors(t) == t.failed
  {
  }

  lemma {:induction false} DistinctKindsCount(es: seq<ErrorCount>)
    requires DistinctKinds(es)
    ensures |Kinds(es)| == |es|
    decreases |es|
  {
    if es != [] {
      DistinctKindsCount(es[1..]);
    }
  }

  /** `len(errors)`: the number of distinct error types recorded. */
  function UniqueErrorTypes(t: Telemetry): (r: nat)
    requires DistinctKinds(t.errors)
    ensures r == |Kinds(t.errors)|
  {
    DistinctKindsCount(t.errors);
    |t.errors|
  }

  /** "`a` may come before `b`" for `sorted(..., key=count, reverse=True)`. */
  function ByCountDescending(a: ErrorCount, b: ErrorCount): bool {
    a.count >= b.count
  }

  lemma ByCountDescendingIsPreorder()
    ensures TotalPreorder(ByCountDescending)
  {
  }

  /** `sorted(errors.items(), key=lambda x: x[1], reverse=True)[:5]`. */
  function TopErrors(t: Telemetry): (r: seq<ErrorCount>)
    ensures |r| <= 5 && |r| <= |t.errors|
    ensures |r| == 5 || |r| == |t.errors|
    ensures multiset(r) <= multiset(t.errors)
  {
    var s := Sort(ByCountDescending, t.errors);
    var r := Take(s, 5);
    assert s == r + s[|r|..];
    assert multiset(s) == multiset(r) + multiset(s[|r|..]);
    r
  }

  /** The dashboard's top errors are listed in non-increasing count order. */
  lemma TopErrorsDescending(t: Telemetry)
    ensures forall i, j :: 0 <= i < j < |TopErrors(t)| ==> TopErrors(t)[i].count >= TopErrors(t)[j].count
  {
    var s := Sort(ByCountDescending, t.errors);
    ByCountDescendingIsPreorder();
    SortSorted(ByCountDescending, t.errors);
    var r := TopErrors(t);
    forall i, j | 0 <= i < j < |r| ensures r[i].count >= r[j].count {
      assert r[i] == s[i] && r[j] == s[j];
      assert ByCountDescending(s[i], s[j]);
    }
  }

  /** No error type left off the top-errors list has a higher count than one on it. */
  lemma TopErrorsAreTop(t: Telemetry, e: ErrorCount, y: ErrorCount)
    requires e in t.errors && e !in TopErrors(t) && y in TopErrors(t)
    ensures y.count >= e.count
  {
    var s := Sort(ByCountDescending, t.errors);
    ByCountDescendingIsPreorder();
    SortSorted(ByCountDescending, t.errors);
    var r := TopErrors(t);
    assert r == s[..|r|];
    assert e in multiset(s) by { assert e in multiset(t.errors); }
    var j :| 0 <= j < |s| && s[j] == e;
    var i :| 0 <= i < |r| && r[i] == y;
    assert j >= |r|;
    assert s[i] == y;
    assert ByCountDescending(s[i], s[j]);
  }
}

=== FILE: text.dfy ===
/**
  Character classes, decimal digits and the handful of Python string
  operations the repository leans on: `str.isdigit`, `str.strip`,
  `str.lower`, `str.replace(pat, "")`, `int(str)`, `re.search(r"\d+")`,
  `re.findall(r"\d+")` and string ordering. Only ASCII characters are given
  their Python classification; every other character is treated as neither a
  digit, a letter nor whitespace.
*/
module Text {
  import opened Wrappers

  // ---------------------------------------------------------------------------
  // Character classes
  // ---------------------------------------------------------------------------

  predicate IsDigit(c: char) { '0' <= c <= '9' }
  predicate IsUpper(c: char) { 'A' <= c <= 'Z' }
  predicate IsLowerCase(c: char) { 'a' <= c <= 'z' }
  predicate IsAlpha(c: char) { IsUpper(c) || IsLowerCase(c) }
  predicate IsAlnum(c: char) { IsAlpha(c) || IsDigit(c) }

  /** Python's `str.isspace` on ASCII: space, \t \n \v \f \r and the separators 0x1C-0x1F. */
  predicate IsSpace(c: char) { c == ' ' || (9 <= c as int <= 13) || (28 <= c as int <= 31) }

  predicate AllDigits(s: string) { forall i :: 0 <= i < |s| ==> IsDigit(s[i]) }

  /** Python's `str.isdigit()`: false on the empty string. */
  predicate IsDigitString(s: string) { |s| > 0 && AllDigits(s) }

  predicate HasNoSpace(s: string) { forall i :: 0 <= i < |s| ==> !IsSpace(s[i]) }

  function ToLower(c: char): char {
    if IsUpper(c) then (c as int + 32) as char else c
  }

  /** Python's `str.lower()` restricted to ASCII letters. */
  function Lower(s: string): string {
    seq(|s|, i requires 0 <= i < |s| => ToLower(s[i]))
  }

  // ---------------------------------------------------------------------------
  // Prefixes, suffixes and substrings
  // ---------------------------------------------------------------------------

  predicate StartsWith(s: string, p: string) { |p| <= |s| && s[..|p|] == p }
  predicate EndsWith(s: string, p: string) { |p| <= |s| && s[|s| - |p|..] == p }

  predicate OccursAt(s: string, sub: string, i: int) {
    0 <= i && i + |sub| <= |s| && s[i..i + |sub|] == sub
  }

  /** Python's `sub in s`. */
  predicate Contains(s: string, sub: string) {
    exists i | 0 <= i <= |s| :: OccursAt(s, sub, i)
  }

  // ---------------------------------------------------------------------------
  // Decimal digits
  // ---------------------------------------------------------------------------

  function DigitVal(c: char): nat
    requires IsDigit(c)
  {
    c as int - '0' as int
  }

  function DigitChar(d: nat): (c: char)
    requires d < 10
    ensures IsDigit(c) && DigitVal(c) == d
  {
    ('0' as int + d) as char
  }

  /** The value of a string of decimal digits (leading zeros allowed), as Python's `int` reads it. */
  function DigitsValue(s: string): nat
    requires AllDigits(s)
    decreases |s|
  {
    if s == [] then 0 else DigitsValue(s[..|s| - 1]) * 10 + DigitVal(s[|s| - 1])
  }

  /** The shortest decimal spelling of `n`, as Python's `str(n)` writes it. */
  function NatToString(n: nat): (r: string)
    ensures IsDigitString(r)
    ensures r[0] != '0' || r == "0"
    decreases n
  {
    if n < 10 then [DigitChar(n)] else NatToString(n / 10) + [DigitChar(n % 10)]
  }

  /** Python's `str(i)` for an integer. */
  function IntToString(i: int): (r: string)
    ensures |r| > 0
    ensures i >= 0 ==> r == NatToString(i)
    ensures i < 0 ==> r == "-" + NatToString(-i)
  {
    if i < 0 then "-" + NatToString(-i) else NatToString(i)
  }

  lemma {:induction false} NatToStringRoundTrip(n: nat)
    ensures DigitsValue(NatToString(n)) == n
    decreases n
  {
    var s := NatToString(n);
    if n >= 10 {
      NatToStringRoundTrip(n / 10);
      assert s[..|s| - 1] == NatToString(n / 10);
    }
  }

  lemma NatToStringInjective(m: nat, n: nat)
    requires NatToString(m) == NatToString(n)
    ensures m == n
  {
    NatToStringRoundTrip(m);
    NatToStringRoundTrip(n);
  }

  // ---------------------------------------------------------------------------
  // Whitespace stripping
  // ---------------------------------------------------------------------------

  /** Python's `str.lstrip()`. */
  function LStrip(s: string): (r: string)
    ensures |r| <= |s| && r == s[|s| - |r|..]
    ensures r == [] || !IsSpace(r[0])
    ensures forall i :: 0 <= i < |s| - |r| ==> IsSpace(s[i])
    decreases |s|
  {
    if s != [] && IsSpace(s[0]) then LStrip(s[1..]) else s
  }

  /** Python's `str.rstrip()`. */
  function RStrip(s: string): (r: string)
    ensures |r| <= |s| && r == s[..|r|]
    ensures r == [] || !IsSpace(r[|r| - 1])
    ensures forall i :: |r| <= i < |s| ==> IsSpace(s[i])
    decreases |s|
  {
    if s != [] && IsSpace(s[|s| - 1]) then RStrip(s[..|s| - 1]) else s
  }

  /** Python's `str.strip()`. */
  function Strip(s: string): (r: string)
    ensures r == [] || (!IsSpace(r[0]) && !IsSpace(r[|r| - 1]))
    ensures |r| <= |s|
  {
    RStrip(LStrip(s))
  }

  lemma StripOfUnpadded(s: string)
    requires s == [] || (!IsSpace(s[0]) && !IsSpace(s[|s| - 1]))
    ensures Strip(s) == s
  {
  }

  // ---------------------------------------------------------------------------
  // Removing characters and substrings
  // ---------------------------------------------------------------------------

  /** Python's `s.replace(c, "")` for a one-character `c`. */
  function RemoveChar(s: string, c: char): (r: string)
    ensures forall i :: 0 <= i < |r| ==> r[i] != c && r[i] in s
    ensures c !in s ==> r == s
    decreases |s|
  {
    if s == [] then []
    else if s[0] == c then RemoveChar(s[1..], c)
    else [s[0]] + RemoveChar(s[1..], c)
  }

  /** Removing a character from a concatenation removes it from each part. */
  lemma {:induction false} RemoveCharAppend(a: string, b: string, c: char)
    ensures RemoveChar(a + b, c) == RemoveChar(a, c) + RemoveChar(b, c)
    decreases |a|
  {
    if a == [] {
      assert a + b == b;
    } else {
      assert (a + b)[0] == a[0];
      assert (a + b)[1..] == a[1..] + b;
      RemoveCharAppend(a[1..], b, c);
    }
  }

  /** Python's `s.replace(pat, "")`: occurrences are removed left to right without overlap. */
  function RemoveAll(s: string, pat: string): string
    requires |pat| > 0
    decreases |s|
  {
    if |s| < |pat| then s
    else if s[..|pat|] == pat then RemoveAll(s[|pat|..], pat)
    else [s[0]] + RemoveAll(s[1..], pat)
  }

  /** A string whose characters never start `pat` loses nothing to `RemoveAll`. */
  lemma {:induction false} RemoveAllAbsent(s: string, pat: string)
    requires |pat| > 0 && pat[0] !in s
    ensures RemoveAll(s, pat) == s
    decreases |s|
  {
    if |s| >= |pat| {
      assert s[0] in s;
      assert s[..|pat|] != pat by { assert s[..|pat|][0] == s[0]; }
      RemoveAllAbsent(s[1..], pat);
      assert [s[0]] + s[1..] == s;
    }
  }

  /** Appending `pat` to a string free of its first character and removing it gives the string back. */
  lemma {:induction false} RemoveAllSuffix(d: string, pat: string)
    requires |pat| > 0 && pat[0] !in d
    ensures RemoveAll(d + pat, pat) == d
    decreases |d|
  {
    var s := d + pat;
    if d == [] {
      assert s == pat;
      assert s[|pat|..] == [];
    } else {
      assert s[0] == d[0];
      assert d[0] in d;
      assert s[..|pat|] != pat by { assert s[..|pat|][0] == s[0]; }
      assert s[1..] == d[1..] + pat;
      RemoveAllSuffix(d[1..], pat);
      assert [d[0]] + d[1..] == d;
    }
  }

  // ---------------------------------------------------------------------------
  // Python's int() on a string
  // ---------------------------------------------------------------------------

  /** Digits with single underscores allowed between two digits, as `int("1_000")` accepts. */
  predicate UnderscoredDigits(u: string) {
    |u| > 0 && forall i :: 0 <= i < |u| ==> DigitOrJoin(u, i)
  }

  predicate DigitOrJoin(u: string, i: int)
    requires 0 <= i < |u|
  {
    IsDigit(u[i]) || (u[i] == '_' && 0 < i < |u| - 1 && IsDigit(u[i - 1]) && IsDigit(u[i + 1]))
  }

  lemma UnderscoresRemoved(u: string)
    requires UnderscoredDigits(u)
    ensures AllDigits(RemoveChar(u, '_'))
  {
    var d := RemoveChar(u, '_');
    forall i | 0 <= i < |d| ensures IsDigit(d[i]) {
      assert d[i] in u;
      var k :| 0 <= k < |u| && u[k] == d[i];
      assert DigitOrJoin(u, k);
    }
  }

  function UnsignedValue(u: string): Option<nat> {
    if UnderscoredDigits(u) then
      var d := RemoveChar(u, '_');
      UnderscoresRemoved(u);
      Some(DigitsValue(d))
    else None
  }

  /**
    Python's `int(s)` for a string in base 10: surrounding whitespace is ignored,
    one optional sign may precede the digits, and `None` stands for the
    `ValueError` the call raises on anything else.
  */
  function PyInt(s: string): Option<int> {
    var t := Strip(s);
    if |t| > 0 && (t[0] == '+' || t[0] == '-') then
      match UnsignedValue(t[1..])
      case Some(v) =>
        var x: int := if t[0] == '-' then -(v as int) else v;
        Some(x)
      case None => None
    else
      match UnsignedValue(t)
      case Some(v) => Some(v)
      case None => None
  }

  lemma UnsignedValueOfDigits(s: string)
    requires IsDigitString(s)
    ensures UnsignedValue(s) == Some(DigitsValue(s))
  {
    forall i | 0 <= i < |s| ensures s[i] != '_' && DigitOrJoin(s, i) {
      assert IsDigit(s[i]);
    }
  }

  /** `int(str(i)) == i`. */
  lemma PyIntRoundTrip(i: int)
    ensures PyInt(IntToString(i)) == Some(i)
  {
    var s := IntToString(i);
    var n: nat := if i < 0 then -i else i;
    var d := NatToString(n);
    NatToStringRoundTrip(n);
    UnsignedValueOfDigits(d);
    StripOfUnpadded(s);
    if i < 0 {
      assert s[1..] == d;
    }
  }

  // ---------------------------------------------------------------------------
  // Runs of digits: re.search(r"(\d+)") and re.findall(r"\d+")
  // ---------------------------------------------------------------------------

  /** The longest prefix of `s` made of digits. */
  function LeadingDigits(s: string): (r: string)
    ensures |r| <= |s| && r == s[..|r|]
    ensures AllDigits(r)
    ensures |r| == |s| || !IsDigit(s[|r|])
    decreases |s|
  {
    if s != [] && IsDigit(s[0]) then [s[0]] + LeadingDigits(s[1..]) else []
  }

  lemma {:induction false} LeadingDigitsExact(s: string, j: int)
    requires 0 <= j <= |s|
    requires forall k :: 0 <= k < j ==> IsDigit(s[k])
    requires j == |s| || !IsDigit(s[j])
    ensures LeadingDigits(s) == s[..j]
    decreases j
  {
    if j > 0 {
      LeadingDigitsExact(s[1..], j - 1);
      assert [s[0]] + s[1..][..j - 1] == s[..j];
    }
  }

  /** The value of the first maximal run of digits, if any (`re.search(r"(\d+)", s)`). */
  function FirstDigitRun(s: string): (r: Option<nat>)
    ensures r.None? <==> forall k :: 0 <= k < |s| ==> !IsDigit(s[k])
    decreases |s|
  {
    if s == [] then None
    else if IsDigit(s[0]) then Some(DigitsValue(LeadingDigits(s)))
    else
      var rest := FirstDigitRun(s[1..]);
      assert forall k :: 1 <= k < |s| ==> s[k] == s[1..][k - 1];
      rest
  }

  /** The values of all maximal runs of digits, left to right (`re.findall(r"\d+", s)`). */
  function AllDigitRuns(s: string): seq<nat>
    decreases |s|
  {
    if s == [] then []
    else if IsDigit(s[0]) then
      var d := LeadingDigits(s);
      [DigitsValue(d)] + AllDigitRuns(s[|d|..])
    else AllDigitRuns(s[1..])
  }

  /**
    An independent description of the first run: if the digits of `s[i..j]`
    are the first digits of `s` and the run cannot be extended, the first run
    is worth `s[i..j]`.
  */
  lemma {:induction false} FirstDigitRunAt(s: string, i: int, j: int)
    requires 0 <= i < j <= |s|
    requires forall k :: 0 <= k < i ==> !IsDigit(s[k])
    requires forall k :: i <= k < j ==> IsDigit(s[k])
    requires j == |s| || !IsDigit(s[j])
    ensures FirstDigitRun(s) == Some(DigitsValue(s[i..j]))
    decreases i
  {
    if i == 0 {
      LeadingDigitsExact(s, j);
      assert s[0..j] == s[..j];
    } else {
      var t := s[1..];
      assert t[i - 1..j - 1] == s[i..j] by {
        forall k | 0 <= k < j - i ensures t[i - 1..j - 1][k] == s[i..j][k] {
          assert t[i - 1 + k] == s[i + k];
        }
      }
      FirstDigitRunAt(t, i - 1, j - 1);
    }
  }

  /**
    `re.findall` step by step: if `s[i..j]` is the first run of digits of `s`
    and cannot be extended, the values are that run's followed by those of
    the text after it.
  */
  lemma {:induction false} AllDigitRunsAt(s: string, i: int, j: int)
    requires 0 <= i < j <= |s|
    requires forall k :: 0 <= k < i ==> !IsDigit(s[k])
    requires forall k :: i <= k < j ==> IsDigit(s[k])
    requires j == |s| || !IsDigit(s[j])
    ensures AllDigitRuns(s) == [DigitsValue(s[i..j])] + AllDigitRuns(s[j..])
    decreases i
  {
    if i == 0 {
      LeadingDigitsExact(s, j);
      assert s[0..j] == s[..j];
    } else {
      var t := s[1..];
      assert t[i - 1..j - 1] == s[i..j] by {
        forall k | 0 <= k < j - i ensures t[i - 1..j - 1][k] == s[i..j][k] {
          assert t[i - 1 + k] == s[i + k];
        }
      }
      assert t[j - 1..] == s[j..];
      AllDigitRunsAt(t, i - 1, j - 1);
    }
  }

  /** A text without digits has no runs. */
  lemma {:induction false} AllDigitRunsNone(s: string)
    requires forall k :: 0 <= k < |s| ==> !IsDigit(s[k])
    ensures AllDigitRuns(s) == []
    decreases |s|
  {
    if s != [] {
      assert forall k :: 0 <= k < |s[1..]| ==> s[1..][k] == s[k + 1];
      AllDigitRunsNone(s[1..]);
    }
  }

  /** `re.findall` finds something exactly when `re.search` does, and its first value is the search's. */
  lemma {:induction false} FirstRunIsHeadOfAllRuns(s: string)
    ensures FirstDigitRun(s).None? <==> AllDigitRuns(s) == []
    ensures AllDigitRuns(s) != [] ==> FirstDigitRun(s) == Some(AllDigitRuns(s)[0])
    decreases |s|
  {
    if s != [] && !IsDigit(s[0]) {
      FirstRunIsHeadOfAllRuns(s[1..]);
    }
  }

  // ---------------------------------------------------------------------------
  // Python string ordering (code point by code point; a proper prefix is smaller)
  // ---------------------------------------------------------------------------

  predicate StrLe(a: string, b: string)
    decreases |a|
  {
    a == [] || (b != [] && (a[0] < b[0] || (a[0] == b[0] && StrLe(a[1..], b[1..]))))
  }

  lemma {:induction false} StrLeTotal(a: string, b: string)
    ensures StrLe(a, b) || StrLe(b, a)
    decreases |a|
  {
    if a != [] && b != [] && a[0] == b[0] {
      StrLeTotal(a[1..], b[1..]);
    }
  }

  lemma {:induction false} StrLeTrans(a: string, b: string, c: string)
    requires StrLe(a, b) && StrLe(b, c)
    ensures StrLe(a, c)
    decreases |a|
  {
    if a != [] && b != [] && c != [] && a[0] == b[0] && b[0] == c[0] {
      StrLeTrans(a[1..], b[1..], c[1..]);
    }
  }

  lemma {:induction false} StrLeAntisym(a: string, b: string)
    requires StrLe(a, b) && StrLe(b, a)
    ensures a == b
    decreases |a|
  {
    if a != [] {
      StrLeAntisym(a[1..], b[1..]);
      assert a == [a[0]] + a[1..] && b == [b[0]] + b[1..];
    }
  }
}

=== FILE: validators.dfy ===
/**
  Input recognisers, number parsers and string clean-up (`validators.py`).
  A Python argument of unknown type is a `Raw` value: `None`, an `int` or a
  `str`.
*/
module Validators {
  import opened Wrappers
  import opened Text
  import opened Calendar

  datatype Raw = RNone | RInt(i: int) | RStr(s: string)

  /** Python truthiness: `None`, `0` and `""` are false. */
  predicate Truthy(x: Raw) {
    match x
    case RNone => false
    case RInt(i) => i != 0
    case RStr(s) => s != ""
  }

  /** Python's `str(x)`. */
  function PyStr(x: Raw): string {
    match x
    case RNone => "None"
    case RInt(i) => IntToString(i)
    case RStr(s) => s
  }

  /**
    Python's `$` in `re.match`: the pattern must reach the end of the string
    or stop just before a final newline.
  */
  predicate MatchesToEnd(s: string, shape: string -> bool) {
    shape(s) || (|s| > 0 && s[|s| - 1] == '\n' && shape(s[..|s| - 1]))
  }

  /** `s` without its final newline, if it ends in one. */
  function Chomp(s: string): string {
    if |s| > 0 && s[|s| - 1] == '\n' then s[..|s| - 1] else s
  }

  // ---------------------------------------------------------------------------
  // is_valid_email
  // ---------------------------------------------------------------------------

  predicate LocalChar(c: char) { IsAlnum(c) || c == '.' || c == '_' || c == '%' || c == '+' || c == '-' }
  predicate DomainChar(c: char) { IsAlnum(c) || c == '.' || c == '-' }

  /**
    `s` splits as `local@domain.tld` at positions `at` and `dot` with the
    character classes of `[a-zA-Z0-9._%+-]+@[a-zA-Z0-9.-]+\.[a-zA-Z]{2,}`.
  */
  predicate EmailSplit(s: string, at: int, dot: int) {
    1 <= at && at + 1 < dot && dot + 3 <= |s| &&
    s[at] == '@' && s[dot] == '.' &&
    (forall k :: 0 <= k < at ==> LocalChar(s[k])) &&
    (forall k :: at < k < dot ==> DomainChar(s[k])) &&
    (forall k :: dot < k < |s| ==> IsAlpha(s[k]))
  }

  /** The whole of `s` matches the email pattern (the regex's backtracking is the choice of split). */
  predicate EmailShape(s: string) {
    exists at, dot | 0 <= at < |s| && 0 <= dot < |s| :: EmailSplit(s, at, dot)
  }

  /**
    `is_valid_email(x)`: decided by one left-to-right scan of `str(x)`, with
    one final newline ignored.
  */
  function IsValidEmail(x: Raw): (r: bool)
    ensures r <==> Truthy(x) && EmailScan(Chomp(PyStr(x)))
  {
    var s := PyStr(x);
    EmailShapeNoNewline(s);
    EmailScanIsEmailShape(Chomp(s));
    Truthy(x) && MatchesToEnd(s, EmailShape)
  }

  /** An email ends in a letter of its top-level domain, never in a newline. */
  lemma EmailShapeNoNewline(s: string)
    ensures |s| > 0 && s[|s| - 1] == '\n' ==> !EmailShape(s)
  {
    if EmailShape(s) {
      var at, dot :| 0 <= at < |s| && 0 <= dot < |s| && EmailSplit(s, at, dot);
      assert IsAlpha(s[|s| - 1]);
    }
  }

  /** Position of the first occurrence of `c`, or `|s|`. */
  function FirstIndex(s: string, c: char): (r: nat)
    ensures r <= |s| && (r < |s| ==> s[r] == c)
    ensures forall k :: 0 <= k < r ==> s[k] != c
    decreases |s|
  {
    if s == [] || s[0] == c then 0 else 1 + FirstIndex(s[1..], c)
  }

  /** Position of the last occurrence of `c`, or `-1`. */
  function LastIndex(s: string, c: char): (r: int)
    ensures -1 <= r < |s| && (r >= 0 ==> s[r] == c)
    ensures forall k :: r < k < |s| ==> s[k] != c
    decreases |s|
  {
    if s == [] then -1
    else if s[|s| - 1] == c then |s| - 1
    else LastIndex(s[..|s| - 1], c)
  }

  /**
    A single left-to-right reading of the email pattern: the `@` can only be
    the first one and the `.` before the top-level domain only the last one.
  */
  predicate EmailScan(s: string) {
    var at := FirstIndex(s, '@');
    var dot := LastIndex(s, '.');
    at < |s| && dot >= 0 && EmailSplit(s, at, dot)
  }

  /** The deterministic reading accepts exactly the strings the backtracking pattern accepts. */
  lemma EmailScanIsEmailShape(s: string)
    ensures EmailScan(s) <==> EmailShape(s)
  {
    if EmailShape(s) {
      var at, dot :| 0 <= at < |s| && 0 <= dot < |s| && EmailSplit(s, at, dot);
      var fa := FirstIndex(s, '@');
      var ld := LastIndex(s, '.');
      assert !LocalChar('@');
      assert fa == at;
      assert !IsAlpha('.');
      assert ld == dot;
    }
  }

  // ---------------------------------------------------------------------------
  // is_valid_phone, is_valid_pin, validate_date_format
  // ---------------------------------------------------------------------------

  /** `(08|628)\d{8,13}` over the whole string. */
  predicate PhoneShape(s: string) {
    (StartsWith(s, "08") && 10 <= |s| <= 15 && AllDigits(s[2..])) ||
    (StartsWith(s, "628") && 11 <= |s| <= 16 && AllDigits(s[3..]))
  }

  /**
    `is_valid_phone(x)`: `str(x)`, one final newline aside, has the phone
    shape, and is then 10 to 16 decimal digits.
  */
  function IsValidPhone(x: Raw): (r: bool)
    ensures r <==> Truthy(x) && PhoneShape(Chomp(PyStr(x)))
    ensures r ==> IsDigitString(Chomp(PyStr(x))) && 10 <= |Chomp(PyStr(x))| <= 16
  {
    var s := PyStr(x);
    if |s| > 0 && s[|s| - 1] == '\n' then
      NewlineEndNotPhone(s);
      PhoneShapeIsDigits(Chomp(s));
      Truthy(x) && MatchesToEnd(s, PhoneShape)
    else
      PhoneShapeIsDigits(s);
      Truthy(x) && MatchesToEnd(s, PhoneShape)
  }

  /** Every accepted phone number, newline aside, is 10 to 16 decimal digits. */
  lemma PhoneShapeIsDigits(s: string)
    ensures PhoneShape(s) ==> IsDigitString(s) && 10 <= |s| <= 16
  {
    if !PhoneShape(s) {
    } else if StartsWith(s, "08") {
      forall k | 0 <= k < |s| ensures IsDigit(s[k]) {
        if k >= 2 { assert s[k] == s[2..][k - 2]; } else { assert s[k] == "08"[k]; }
      }
    } else {
      forall k | 0 <= k < |s| ensures IsDigit(s[k]) {
        if k >= 3 { assert s[k] == s[3..][k - 3]; } else { assert s[k] == "628"[k]; }
      }
    }
  }

  /** Python's `$` lets a valid phone number through with one final newline, but not with two. */
  lemma PhoneAdmitsFinalNewline(s: string)
    requires PhoneShape(s)
    ensures IsValidPhone(RStr(s + "\n"))
    ensures !IsValidPhone(RStr(s + "\n\n"))
  {
    assert (s + "\n")[..|s|] == s;
    var t := s + "\n\n";
    assert t[..|t| - 1] == s + "\n";
    NewlineEndNotPhone(t);
    NewlineEndNotPhone(s + "\n");
  }

  lemma NewlineEndNotPhone(u: string)
    requires |u| > 0 && u[|u| - 1] == '\n'
    ensures !PhoneShape(u)
  {
    if |u| >= 3 {
      assert u[2..][|u| - 3] == '\n';
    }
    if |u| >= 4 {
      assert u[3..][|u| - 4] == '\n';
    }
  }

  /**
    `is_valid_pin(x)`: `str(x)` is 4 to 8 digits. For an integer that is the
    range 1000..99999999: zero is falsy and a negative number has a sign.
  */
  function IsValidPin(x: Raw): (r: bool)
    ensures x.RInt? ==> (r <==> 1000 <= x.i < 100000000)
    ensures x.RNone? ==> !r
    ensures x.RStr? ==> (r <==> IsDigitString(x.s) && 4 <= |x.s| <= 8)
  {
    if x.RInt? then IntPin(x.i); Truthy(x) && IsDigitString(PyStr(x)) && 4 <= |PyStr(x)| <= 8
    else Truthy(x) && IsDigitString(PyStr(x)) && 4 <= |PyStr(x)| <= 8
  }

  /** A non-zero integer's `str` is 4 to 8 digits exactly when it lies in 1000..99999999. */
  lemma IntPin(i: int)
    ensures i != 0 && IsDigitString(IntToString(i)) && 4 <= |IntToString(i)| <= 8 <==> 1000 <= i < 100000000
  {
    if i > 0 {
      NatToStringLength(i);
    } else if i < 0 {
      assert IntToString(i)[0] == '-';
    }
  }

  /** `str(n)` has `k` digits exactly when `10^(k-1) <= n < 10^k`. */
  lemma {:induction false} NatToStringLength(n: nat)
    ensures |NatToString(n)| == DecimalWidth(n)
    decreases n
  {
    if n >= 10 {
      NatToStringLength(n / 10);
    }
  }

  function DecimalWidth(n: nat): (w: nat)
    ensures w >= 1
    ensures n < 10 <==> w <= 1
    ensures n < 100 <==> w <= 2
    ensures n < 1000 <==> w <= 3
    ensures n < 10000 <==> w <= 4
    ensures n < 100000 <==> w <= 5
    ensures n < 1000000 <==> w <= 6
    ensures n < 10000000 <==> w <= 7
    ensures n < 100000000 <==> w <= 8
    decreases n
  {
    if n < 10 then 1 else 1 + DecimalWidth(n / 10)
  }

  /** `\d{2}/\d{2}/\d{4}` over the whole string. */
  predicate DmyShape(s: string) {
    |s| == 10 && s[2] == '/' && s[5] == '/' &&
    IsDigit(s[0]) && IsDigit(s[1]) && IsDigit(s[3]) && IsDigit(s[4]) &&
    IsDigit(s[6]) && IsDigit(s[7]) && IsDigit(s[8]) && IsDigit(s[9])
  }

  /** `validate_date_format(x)`: `str(x)`, one final newline aside, reads `DD/MM/YYYY` in digits. */
  function ValidateDateFormat(x: Raw): (r: bool)
    ensures r <==> Truthy(x) && DmyShape(Chomp(PyStr(x)))
  {
    var s := PyStr(x);
    assert |s| > 0 && s[|s| - 1] == '\n' ==> !DmyShape(s);
    Truthy(x) && MatchesToEnd(s, DmyShape)
  }

  /**
    `validate_date_range(day, month, year)`: integers in range. Every real
    date of 2020 to 2030 passes; the month's length is not checked.
  */
  function ValidateDateRange(day: Raw, month: Raw, year: Raw): (r: bool)
    ensures day.RInt? && month.RInt? && year.RInt? && 2020 <= year.i <= 2030 && ValidDate(Date(year.i, month.i, day.i)) ==> r
    ensures r ==> day.RInt? && month.RInt? && year.RInt? && 1 <= day.i <= 31
  {
    day.RInt? && month.RInt? && year.RInt? &&
    2020 <= year.i <= 2030 && 1 <= month.i <= 12 && 1 <= day.i <= 31
  }

  /** The 31st of February passes the range check although it is not a date. */
  lemma DateRangeAdmitsNonDate()
    ensures ValidateDateRange(RInt(31), RInt(2), RInt(2024))
    ensures !ValidDate(Date(2024, 2, 31))
  {
  }

  // ---------------------------------------------------------------------------
  // parse_stok_to_int / parse_inputan_to_int / extract_number_from_text
  // ---------------------------------------------------------------------------

  /**
    `parse_stok_to_int(x)` and `parse_inputan_to_int(x)`, which share one body:
    falsy input gives 0, an `int` is returned as it is, and otherwise the value
    of the first run of digits in `str(x)`, or 0 when there is none.
  */
  function ParseCount(x: Raw): (r: int)
    ensures !Truthy(x) ==> r == 0
    ensures Truthy(x) && x.RInt? ==> r == x.i
    ensures x.RStr? ==> r >= 0
    ensures x.RStr? && ExtractNumbers(x) == [] ==> r == 0
    ensures x.RStr? && ExtractNumbers(x) != [] ==> r == ExtractNumbers(x)[0]
  {
    FirstRunIsHeadOfAllRuns(PyStr(x));
    if !Truthy(x) then 0
    else if x.RInt? then x.i
    else FirstDigitRun(PyStr(x)).GetOr(0)
  }

  /**
    `extract_number_from_text(x)`: the values of all digit runs, in order;
    empty exactly when `x` is falsy or `str(x)` has no digit.
  */
  function ExtractNumbers(x: Raw): (r: seq<nat>)
    ensures r == [] <==> !Truthy(x) || forall k :: 0 <= k < |PyStr(x)| ==> !IsDigit(PyStr(x)[k])
  {
    FirstRunIsHeadOfAllRuns(PyStr(x));
    if !Truthy(x) then [] else AllDigitRuns(PyStr(x))
  }

  /**
    The runs one at a time: with `s[i..j]` the first run of digits of a truthy
    value's text, the values are that run's, then those of the rest.
  */
  lemma ExtractNumbersStep(x: Raw, i: int, j: int)
    requires Truthy(x) && 0 <= i < j <= |PyStr(x)|
    requires forall k :: 0 <= k < i ==> !IsDigit(PyStr(x)[k])
    requires forall k :: i <= k < j ==> IsDigit(PyStr(x)[k])
    requires j == |PyStr(x)| || !IsDigit(PyStr(x)[j])
    ensures ExtractNumbers(x) == [DigitsValue(PyStr(x)[i..j])] + AllDigitRuns(PyStr(x)[j..])
  {
    AllDigitRunsAt(PyStr(x), i, j);
  }

  /** "a1b22" holds the numbers 1 and 22, in that order. */
  lemma ExtractTwoRuns()
    ensures ExtractNumbers(RStr("a1b22")) == [1, 22]
  {
    var s := "a1b22";
    AllDigitRunsAt(s, 1, 2);
    var t := s[2..];
    assert t == "b22";
    AllDigitRunsAt(t, 1, 3);
    assert t[3..] == [];
    assert s[1..2] == "1" && t[1..3] == "22";
    assert DigitsValue("22") == 22 by {
      assert "22"[..1] == "2";
    }
  }

  // ---------------------------------------------------------------------------
  // format_tabung
  // ---------------------------------------------------------------------------

  /**
    `format_tabung(x)`: a string already mentioning "tabung" in any case is
    kept; any other string is first parsed; the value is written as "N Tabung".
  */
  function FormatTabung(x: Raw): (r: string)
    ensures Contains(Lower(r), "tabung")
    ensures x.RStr? && Contains(Lower(x.s), "tabung") ==> r == x.s
  {
    match x
    case RStr(s) =>
      if Contains(Lower(s), "tabung") then s
      else
        TabungSuffixMentionsTabung(IntToString(ParseCount(x)));
        IntToString(ParseCount(x)) + " Tabung"
    case _ =>
      TabungSuffixMentionsTabung(PyStr(x));
      PyStr(x) + " Tabung"
  }

  /** Whatever precedes it, the " Tabung" suffix mentions "tabung" once lower-cased. */
  lemma TabungSuffixMentionsTabung(p: string)
    ensures Contains(Lower(p + " Tabung"), "tabung")
  {
    var u := Lower(p + " Tabung");
    var n := |p|;
    assert u[n + 1] == 't' && u[n + 2] == 'a' && u[n + 3] == 'b';
    assert u[n + 4] == 'u' && u[n + 5] == 'n' && u[n + 6] == 'g';
    assert u[n + 1..n + 7] == "tabung";
    assert OccursAt(u, "tabung", n + 1);
  }

  lemma TabungFollowsDigits(n: nat)
    ensures FirstDigitRun(NatToString(n) + " Tabung") == Some(n)
  {
    var d := NatToString(n);
    var s := d + " Tabung";
    assert forall k :: 0 <= k < |d| ==> s[k] == d[k];
    assert s[|d|] == ' ';
    assert s[0..|d|] == d;
    FirstDigitRunAt(s, 0, |d|);
    NatToStringRoundTrip(n);
  }

  /** `parse_inputan_to_int(format_tabung(n)) == n` for every count `n >= 0`. */
  lemma ParseFormatTabung(n: int)
    requires n >= 0
    ensures ParseCount(RStr(FormatTabung(RInt(n)))) == n
  {
    TabungFollowsDigits(n);
  }

  // ---------------------------------------------------------------------------
  // sanitize_string
  // ---------------------------------------------------------------------------

  /** `re.sub(r"\s+", " ", s)`: every maximal run of whitespace becomes one space. */
  function Collapse(s: string): (r: string)
    ensures r == [] <==> s == []
    ensures s != [] && !IsSpace(s[0]) ==> r[0] == s[0]
    ensures s != [] && !IsSpace(s[|s| - 1]) ==> r[|r| - 1] == s[|s| - 1]
    ensures forall i :: 0 <= i < |r| && IsSpace(r[i]) ==> r[i] == ' '
    ensures forall i :: 0 <= i < |r| - 1 ==> !(IsSpace(r[i]) && IsSpace(r[i + 1]))
    decreases |s|
  {
    if s == [] then []
    else if IsSpace(s[0]) then
      var t := LStrip(s);
      assert |t| < |s|;
      [' '] + Collapse(t)
    else
      [s[0]] + Collapse(s[1..])
  }

  /** The non-whitespace characters of `s`, in order. */
  function Visible(s: string): string
    decreases |s|
  {
    if s == [] then [] else (if IsSpace(s[0]) then [] else [s[0]]) + Visible(s[1..])
  }

  lemma {:induction false} VisibleAppend(a: string, b: string)
    ensures Visible(a + b) == Visible(a) + Visible(b)
    decreases |a|
  {
    if a != [] {
      assert (a + b)[0] == a[0];
      assert (a + b)[1..] == a[1..] + b;
      VisibleAppend(a[1..], b);
    } else {
      assert a + b == b;
    }
  }

  lemma {:induction false} VisibleOfSpaces(s: string, n: nat)
    requires n <= |s|
    requires forall i :: 0 <= i < n ==> IsSpace(s[i])
    ensures Visible(s) == Visible(s[n..])
    decreases n
  {
    if n > 0 {
      VisibleOfSpaces(s[1..], n - 1);
      assert s[1..][n - 1..] == s[n..];
    }
  }

  /** Collapsing whitespace keeps every other character, in order. */
  lemma {:induction false} CollapseKeepsVisible(s: string)
    ensures Visible(Collapse(s)) == Visible(s)
    decreases |s|
  {
    if s != [] {
      if IsSpace(s[0]) {
        var t := LStrip(s);
        CollapseKeepsVisible(t);
        VisibleAppend([' '], Collapse(t));
        VisibleOfSpaces(s, |s| - |t|);
      } else {
        CollapseKeepsVisible(s[1..]);
        VisibleAppend([s[0]], Collapse(s[1..]));
      }
    }
  }

  /** A string with only single spaces between words is its own collapse. */
  lemma {:induction false} CollapseFixpoint(s: string)
    requires forall i :: 0 <= i < |s| && IsSpace(s[i]) ==> s[i] == ' '
    requires forall i :: 0 <= i < |s| - 1 ==> !(IsSpace(s[i]) && IsSpace(s[i + 1]))
    ensures Collapse(s) == s
    decreases |s|
  {
    if s != [] {
      if IsSpace(s[0]) {
        assert LStrip(s) == s[1..] by {
          assert |s| == 1 || !IsSpace(s[1]);
          assert LStrip(s[1..]) == s[1..];
        }
      }
      CollapseFixpoint(s[1..]);
      assert s == [s[0]] + s[1..];
    }
  }

  predicate NormalSpacing(t: string) {
    (t == [] || (!IsSpace(t[0]) && !IsSpace(t[|t| - 1]))) &&
    (forall i :: 0 <= i < |t| && IsSpace(t[i]) ==> t[i] == ' ') &&
    (forall i :: 0 <= i < |t| - 1 ==> !(IsSpace(t[i]) && IsSpace(t[i + 1])))
  }

  /** `sanitize_string(x)`: falsy input gives "", otherwise `str(x)` stripped and collapsed. */
  function Sanitize(x: Raw): (r: string)
    ensures NormalSpacing(r)
  {
    if !Truthy(x) then ""
    else
      var t := Strip(PyStr(x));
      Collapse(t)
  }

  lemma VisibleLStrip(s: string)
    ensures Visible(LStrip(s)) == Visible(s)
  {
    var l := LStrip(s);
    VisibleOfSpaces(s, |s| - |l|);
  }

  lemma VisibleRStrip(s: string)
    ensures Visible(RStrip(s)) == Visible(s)
  {
    var t := RStrip(s);
    var tail := s[|t|..];
    assert s == t + tail;
    VisibleAppend(t, tail);
    VisibleOfSpaces(tail, |tail|);
    assert tail[|tail|..] == [];
  }

  /** Sanitizing keeps every visible character of `str(x)`, in order. */
  lemma SanitizeKeepsVisible(x: Raw)
    requires Truthy(x)
    ensures Visible(Sanitize(x)) == Visible(PyStr(x))
  {
    var s := PyStr(x);
    VisibleLStrip(s);
    VisibleRStrip(LStrip(s));
    CollapseKeepsVisible(Strip(s));
  }

  /** A normally spaced string survives stripping and collapsing unchanged. */
  lemma NormalSpacingFixed(r: string)
    requires NormalSpacing(r)
    ensures Collapse(Strip(r)) == r
  {
    CollapseFixpoint(r);
    StripOfUnpadded(r);
  }

  /** `sanitize_string(sanitize_string(x)) == sanitize_string(x)`. */
  lemma SanitizeIdempotent(x: Raw)
    ensures Sanitize(RStr(Sanitize(x))) == Sanitize(x)
  {
    var r := Sanitize(x);
    if r != [] {
      NormalSpacingFixed(r);
    }
  }

  // ---------------------------------------------------------------------------
  // clean_number_string
  // ---------------------------------------------------------------------------

  /** `re.sub(r"\D", "", s)`: the digits of `s`, in order. */
  function KeepDigits(s: string): (r: string)
    ensures AllDigits(r)
    ensures r == [] <==> forall k :: 0 <= k < |s| ==> !IsDigit(s[k])
    ensures AllDigits(s) ==> r == s
    decreases |s|
  {
    if s == [] then []
    else
      var rest := KeepDigits(s[1..]);
      assert forall k :: 1 <= k < |s| ==> s[k] == s[1..][k - 1];
      if IsDigit(s[0]) then [s[0]] + rest else rest
  }

  /** Removing non-digits piece by piece: the digits of a concatenation are those of each part. */
  lemma {:induction false} KeepDigitsAppend(a: string, b: string)
    ensures KeepDigits(a + b) == KeepDigits(a) + KeepDigits(b)
    decreases |a|
  {
    if a != [] {
      assert (a + b)[0] == a[0] && (a + b)[1..] == a[1..] + b;
      KeepDigitsAppend(a[1..], b);
    } else {
      assert a + b == b;
    }
  }

  /** One character is kept exactly when it is a digit. */
  lemma KeepDigitsOne(c: char)
    ensures KeepDigits([c]) == if IsDigit(c) then [c] else []
  {
    assert [c][1..] == [];
  }

  /** `clean_number_string(x)`: the digits of `str(x)`, or "0" when there are none. */
  function CleanNumberString(x: Raw): (r: string)
    ensures IsDigitString(r)
    ensures Truthy(x) && KeepDigits(PyStr(x)) != [] ==> r == KeepDigits(PyStr(x))
    ensures (!Truthy(x) || forall k :: 0 <= k < |PyStr(x)| ==> !IsDigit(PyStr(x)[k])) ==> r == "0"
  {
    if !Truthy(x) then "0"
    else
      var d := KeepDigits(PyStr(x));
      if d == [] then "0" else d
  }

  /** Cleaning a string of digits returns it as it is. */
  lemma CleanDigitString(s: string)
    requires IsDigitString(s)
    ensures CleanNumberString(RStr(s)) == s
  {
  }

  // ---------------------------------------------------------------------------
  // validate_username / validate_account_data
  // ---------------------------------------------------------------------------

  /** `validate_username(x)`: an email or a phone number, by the scans above. */
  function ValidateUsername(x: Raw): (r: bool)
    ensures r <==> Truthy(x) && (EmailScan(Chomp(PyStr(x))) || PhoneShape(Chomp(PyStr(x))))
  {
    Truthy(x) && (IsValidEmail(x) || IsValidPhone(x))
  }

  const NameMissing := "Nama tidak boleh kosong"
  const UsernameInvalid := "Username harus berupa email atau nomor HP yang valid"
  const PinInvalid := "PIN harus berupa angka 4-8 digit"

  predicate NameGiven(nama: Raw) { Truthy(nama) && Strip(PyStr(nama)) != "" }

  /**
    `validate_account_data(nama, username, pin)`: `None` when all three are
    acceptable, otherwise the message of the first check that fails.
  */
  function ValidateAccountData(nama: Raw, username: Raw, pin: Raw): (r: Option<string>)
    ensures r.None? <==> NameGiven(nama) && ValidateUsername(username) && IsValidPin(pin)
    ensures r == Some(NameMissing) <==> !NameGiven(nama)
    ensures r == Some(UsernameInvalid) <==> NameGiven(nama) && !ValidateUsername(username)
    ensures r == Some(PinInvalid) <==> NameGiven(nama) && ValidateUsername(username) && !IsValidPin(pin)
  {
    if !NameGiven(nama) then Some(NameMissing)
    else if !ValidateUsername(username) then Some(UsernameInvalid)
    else if !IsValidPin(pin) then Some(PinInvalid)
    else None
  }
}

=== FILE: wrappers.dfy ===
/** Failure-compatible helper datatypes shared by every module of the model. */
module Wrappers {

  /** A value that may be absent (Python's `None`). */
  datatype Option<+T> = None | Some(value: T) {

    /** The value, or `default` when absent (Python's `x if x is not None else default`). */
    function GetOr(default: T): T {
      match this
      case Some(v) => v
      case None => default
    }
  }

  /** The outcome of an operation that either produces a value or reports an error message. */
  datatype Result<+R, +E> = Ok(value: R) | Err(error: E)
}
